=== FILE: README.md ===
# AI Log Analyzer backend — a Dafny model

This project models the backend of the AI Log Analyzer, a service that does five things:

- ingests industrial equipment logs (CSV or free-form text);
- stores them as log entries with sequential public ids (`log_000123`);
- indexes their embeddings in an inner-product vector index;
- answers natural-language questions over them;
- serves a dashboard and an incident summary over the last days of activity.

The model covers:

- **Upload parser** (`utils/parsers.py`). Severity, source and message normalisation; header detection; delimiter detection; CSV and TXT parsing.
- **Upload route** (`api/routes/ingest.py`) and the **indexing job** (`services/ingest_service.py`).
- **Vector-index service** (`services/faiss_service.py`). Start-up load, add, search, persist.
- **Query endpoint** (`api/routes/query.py`). Keyword fallback retrieval, the heuristic answer, reading the language model's reply, and the whole endpoint with every error and fallback path.
- **Dashboard endpoint** (`api/routes/dashboard.py`). Severity breakdown, top sources, bucketed time series, incident cards.
- **Summary endpoint** (`api/routes/ai_summary.py`). Incident clusters, patterns, actions, and the optional refinement by a language model.
- **Settings normalisation** (`core/config.py`) and the database URL rewrite (`db/session.py`).

Everything the backend takes from outside is a parameter of the model:

- the database, as a table `seq<LogRecord>`;
- the current time, as integer seconds since 1970-01-01 (naive UTC);
- the timestamp parser, as `string -> Option<int>`;
- the CSV reader, as `seq<string> -> seq<seq<string>>`;
- the embedder;
- what the language model returned or raised;
- how a timed-out call ended.

How the files divide the work:

- `outcomes.dfy`, `text.dfy`, `numerals.dfy`, `sorting.dfy`, `tally.dfy` and `dicts.dfy` give the Python library behaviour the code relies on. That covers:
  - `str.strip`, `split` and `splitlines`;
  - `int(str(k))` and `:06d`;
  - the stable `sorted(..., reverse=True)`;
  - `Counter.most_common`, `dict.fromkeys`, and insertion-ordered dicts.
- `clock.dfy` gives the calendar and `isoformat() + "Z"`.
- `records.dfy` gives the stored log entry, the capped newest-first fetch and the "last N days" window.

Where the code behaves differently from what its documentation and comments describe, the model follows the code:

- `_sync_database_url` shortens the URL by ten characters, not nine. It is not idempotent: `sqlite+aiosqlite+aiosqlite:...` is rewritten twice (`DbUrl.SyncUrlNotIdempotent`).
- The secondary substring search of the query endpoint passes the question to `ILIKE` without escaping. `%` and `_` in a question therefore act as wildcards (`Text.Like`).
- `search` drops hits whose log id is the empty string as well as unmapped ids.
- The loop that reads the model's reply on `query.py` lines 265-270 only binds `s`. The marker checks after it are dedented, so only the reply's LAST line is examined (`Query.LlmAnswerIgnoresEarlierLines`). An empty reply leaves `s` unbound, and the resulting exception takes the heuristic path.

## Model

| member | source | states |
|---|---|---|
| Parsers.NormalizeSeverity | backend/app/utils/parsers.py:71-73 | the result is always one of the seven allowed severities; it is the stripped, upper-cased input when that is allowed and INFO otherwise |
| Parsers.NormalizeSeverityIdempotent | backend/app/utils/parsers.py:71-73 | normalising a normalised severity changes nothing |
| Parsers.NormalizeSource | backend/app/utils/parsers.py:76-78 | the result is never empty and is stripped; it is the stripped input, or UNKNOWN exactly when the input is blank |
| Parsers.NormalizeSourceIdempotent | backend/app/utils/parsers.py:76-78 | normalising a normalised source changes nothing |
| Parsers.NormalizeMessage | backend/app/utils/parsers.py:81-82 | the message is stripped, and empty exactly when the raw text is all whitespace |
| Parsers.LooksLikeHeaderIff | backend/app/utils/parsers.py:95-100 | a row looks like a header exactly when each of the four required names appears among its stripped, lower-cased non-empty fields |
| Parsers.LooksLikeHeaderReordered | backend/app/utils/parsers.py:95-100 | header recognition does not depend on column order |
| Parsers.LooksLikeHeaderExtraColumns | backend/app/utils/parsers.py:95-100 | extra columns before or after a header keep it a header |
| Parsers.ValidateHeader | backend/app/utils/parsers.py:103-113 | validation succeeds exactly when every required field is named, and fails with the invalid-header error otherwise |
| Parsers.Score | backend/app/utils/parsers.py:136-163 | a delimiter scores 3 with at least three occurrences, 1 with one or two, 0 with none |
| Parsers.DetectDelimiter | backend/app/utils/parsers.py:136-163 | a detected delimiter is one of the four common ones and occurs in the line |
| Parsers.DetectDelimiterChoice | backend/app/utils/parsers.py:136-163 | the chosen delimiter is the first, in the order comma, tab, pipe, semicolon, with three occurrences; failing that, the first with one; none when no delimiter occurs |
| Parsers.NonBlankLinesEmpty | backend/app/utils/parsers.py:180-183 | the non-blank lines of a text are empty exactly when the whole text is whitespace |
| Parsers.ColumnsOf | backend/app/utils/parsers.py:200 | each required column index points at the FIRST header field with that name |
| Parsers.CsvRowKept | backend/app/utils/parsers.py:202-232 | a CSV row yields an entry exactly when it reaches every required column, its stripped timestamp is non-empty and parses, and its message is not blank; the entry carries the parsed time and the normalised fields |
| Parsers.CsvRows | backend/app/utils/parsers.py:202-232 | the kept entries are well formed, and none are kept exactly when every row is dropped |
| Parsers.HeaderColumns | backend/app/utils/parsers.py:196-200 | columns are found exactly when the normalised header row looks like a header, and every index is inside the row |
| Parsers.ParseCsv | backend/app/utils/parsers.py:169-240 | the empty-file error comes exactly for a blank upload or one the reader turns into no rows; the invalid-header error exactly when the first row, read as field names, lacks a required field; a successful parse yields at least one well-formed entry |
| Parsers.ParseCsvRows | backend/app/utils/parsers.py:196-238 | after a valid header the parse fails exactly when no data row is kept, and otherwise yields exactly the kept data rows in file order |
| Parsers.StrippedLines | backend/app/utils/parsers.py:257-260 | one stripped, non-empty line per non-blank line of the text, and none exactly when the text is blank |
| Parsers.TxtLine | backend/app/utils/parsers.py:283-318 | a line becomes either the raw fallback entry or an entry with an allowed severity, a source and a message, and is well formed whenever the line is |
| Parsers.FromParts | backend/app/utils/parsers.py:291-318 | split fields become either the raw fallback entry or a well-formed entry with an allowed severity and a non-empty source and message |
| Parsers.ParseTxt | backend/app/utils/parsers.py:243-322 | the parse fails, with the empty-file error, exactly when the text is blank; otherwise it yields one well-formed entry per non-blank line, less a skipped header line |
| Parsers.TxtBody | backend/app/utils/parsers.py:262-318 | one well-formed entry per line after the optional header |
| Parsers.ParseTxtLines | backend/app/utils/parsers.py:262-318 | entry i is the reading of line i after the header, with the delimiter detected on the first line as fallback |
| Parsers.TxtLineTooFewFields | backend/app/utils/parsers.py:285-290 | a line in which no delimiter occurs three times is kept whole as a raw entry |
| Parsers.TxtLineFields | backend/app/utils/parsers.py:289-318 | a line `ts,src,sev,msg` with a parseable timestamp reads back as those four normalised fields; an unparseable timestamp gives the raw entry |
| Clock.ParseFormatIsoZ | backend/app/utils/parsers.py:85-89 | the ISO text with trailing Z of a date-time parses back to the same date-time |
| Clock.IsoZInjective | backend/app/utils/parsers.py:85-89 | distinct instants never share an ISO text |
| Ingest.EmbeddingText | backend/app/services/ingest_service.py:24-32 | the canonical text is the three fields plus five characters of punctuation |
| Ingest.ReadEmbeddingTextRoundTrip | backend/app/services/ingest_service.py:24-32 | the canonical text reads back to its source, severity and message when the severity has no `]` and the source no `:` |
| Ingest.EmbeddingTexts | backend/app/services/ingest_service.py:52-55 | the texts pair the three lists position by position and stop at the shortest, as `zip` does |
| Ingest.IndexEntries | backend/app/services/ingest_service.py:35-59 | no log ids is a no-op; an embedder that raises stops the job with that error; any failing step, the embedding or the add, leaves the index and the disk snapshot unchanged |
| Ingest.IndexEntriesSpec | backend/app/services/ingest_service.py:49-59 | once the batch is embedded, it is added to the index and persisted, in that order: the add's error is passed on with index and disk unchanged, and a success appends the new ids paired in order with the log ids and writes what reloads as the new state |
| Ingest.ParseUpload | backend/app/api/routes/ingest.py:70-77 | a `.csv` name goes to the CSV parser and any other accepted name to the TXT parser; parsed entries are well formed |
| Ingest.LogIdRoundTrip | backend/app/api/routes/ingest.py:107 | a minted id is `log_` and at least six digits whose value is the sequence number |
| Ingest.LogIdInjective | backend/app/api/routes/ingest.py:107 | distinct sequence numbers give distinct log ids |
| Ingest.MintRows | backend/app/api/routes/ingest.py:103-114 | one row per parsed entry, in order, carrying the file id and that entry's timestamp, source, severity and message |
| Ingest.MintedIds | backend/app/api/routes/ingest.py:99-114 | the minted ids count up from offset + 1 and never repeat an id at or below the offset |
| Ingest.Stats | backend/app/api/routes/ingest.py:139-155 | the response is a success for the file id and counts every row; the severity breakdown has one entry per severity occurring among the rows, no key twice, each with the number of rows carrying it, and the counts sum to the number of rows |
| Ingest.JobOf | backend/app/api/routes/ingest.py:124-130 | the indexing job lists ids, sources, severities and messages aligned with the rows |
| Ingest.UploadLogs | backend/app/api/routes/ingest.py:53-155 | each error case gives its 400 response: missing filename, unsupported extension, empty content, parser error, nothing parsed; success holds exactly when none applies, with one row per parsed entry |
| Ingest.UploadDateRange | backend/app/api/routes/ingest.py:139-145 | the date range is the ISO text of the earliest and the latest stored timestamps, and both are timestamps of minted rows |
| Ingest.UploadJob | backend/app/api/routes/ingest.py:122-130 | the scheduled job carries exactly the ids and fields of the stored rows, in order |
| Ingest.UploadRows | backend/app/api/routes/ingest.py:99-114 | a successful upload stores exactly the minted rows of the parsed entries, and every parsed entry is well formed |
| Numerals.Format06Spec | backend/app/api/routes/ingest.py:107 | `:06d` gives at least six digits whose value is the number |
| Numerals.IntRoundTrip | backend/app/services/faiss_service.py:60 | `int(str(k))` returns k for every integer |
| VectorIndex.Fresh | backend/app/services/faiss_service.py:64-67 | the start-up state without files satisfies the index invariant |
| VectorIndex.NextId | backend/app/services/faiss_service.py:61 | the next id exceeds every stored id; it is 0 for an empty map and otherwise one past an existing id |
| VectorIndex.EnsureIndexIdempotent | backend/app/services/faiss_service.py:70-83 | an existing index is kept whatever dimension is asked for, so ensuring twice equals ensuring once |
| VectorIndex.Add | backend/app/services/faiss_service.py:86-128 | empty embeddings are a no-op; non-2-D input, a length mismatch or a dimension mismatch against an existing index is exactly the error case, with the matching error; a success keeps an existing index's dimension, appends the rows under consecutive ids from the next id and advances it |
| VectorIndex.AddSpec | backend/app/services/faiss_service.py:115-128 | adding keeps the invariant, appends the vectors under consecutive fresh ids and maps each new id to its log id |
| VectorIndex.AssignSpec | backend/app/services/faiss_service.py:122-128 | the id map gains the pairs (start + i, log id i) after its old items, in order |
| VectorIndex.AddConsistent | backend/app/services/faiss_service.py:86-128 | adding a rectangular batch keeps the index and the id map in agreement: the index's row ids are the map's keys in order, and every stored vector has the index's dimension |
| VectorIndex.Search | backend/app/services/faiss_service.py:132-172 | a query that is not a single row, or a dimension mismatch, is exactly the error case: the first gives the shape error, the second the error naming the index's and the query's dimension; an empty index gives no hits; a success is the collected pairs of the top-k list, at most k of them, naming only non-empty mapped log ids |
| VectorIndex.TopKBest | backend/app/services/faiss_service.py:163 | the top-k list is the best min(k, n) rows of the index, each a stored row with its inner product, no row left out scoring above a kept one, followed by id -1 padding up to k |
| VectorIndex.SearchDescending | backend/app/services/faiss_service.py:161-172 | hits come best score first |
| VectorIndex.Collect | backend/app/services/faiss_service.py:161-172 | padding, unmapped and empty log ids are skipped |
| VectorIndex.CollectOne | backend/app/services/faiss_service.py:166-171 | one hit yields its (log id, score) pair exactly when its id is not -1 and maps to a non-empty log id, and nothing otherwise |
| VectorIndex.CollectAppend | backend/app/services/faiss_service.py:166-171 | the pairs of two runs of hits are those of each run in turn, so hit order is kept |
| VectorIndex.Persist | backend/app/services/faiss_service.py:175-191 | with no index the snapshot on disk is left as it was; otherwise the snapshot holds the index and one JSON member per mapped id |
| VectorIndex.ParseKeys | backend/app/services/faiss_service.py:60 | reading the JSON keys fails exactly when some key is not a decimal integer, and otherwise keeps every pair, in order |
| VectorIndex.Load | backend/app/services/faiss_service.py:42-67 | no snapshot gives the fresh state; a loaded state satisfies the invariant and holds the snapshot's index |
| VectorIndex.Restored | backend/app/services/faiss_service.py:54-62 | a restored state has the loaded index and id map and satisfies the invariant |
| VectorIndex.PersistLoad | backend/app/services/faiss_service.py:42-191 | loading what was persisted gives back the same state: index, id map in insertion order, and next id |
| Query.Tokens | backend/app/api/routes/query.py:59-62 | the tokens are the words of three or more characters of the question with `?` and `,` blanked, each as often as it occurs and in question order (the subsequence of the words picking exactly the long ones); the whole question exactly when no word is that long |
| Tally.FilterSubsequence | backend/app/api/routes/query.py:60 | a list comprehension with a condition keeps, in order, exactly the elements that satisfy it |
| Query.Score | backend/app/api/routes/query.py:81-87 | a keyword score lies between 0 and 1, and times the number of tokens it is the number of tokens found in the lower-cased source, severity and message |
| Query.CountMatchesFound | backend/app/api/routes/query.py:84-85 | the match count is the number of tokens, with repetitions, that occur in the text |
| Query.CandidatesSpec | backend/app/api/routes/query.py:64-79 | candidates are table rows matching one of the first eight tokens; any matching row left out is no newer than every candidate; all matches are kept when there are at most k |
| Query.CandidatesNewestFirst | backend/app/api/routes/query.py:72-77 | candidates come newest first |
| Query.RankedPermutesCandidates | backend/app/api/routes/query.py:81-90 | ranking reorders the scored candidates without adding or losing any |
| Query.RankedOrder | backend/app/api/routes/query.py:89-90 | ranked hits have descending scores, and equal scores keep the newest-first order |
| Query.RankedScores | backend/app/api/routes/query.py:81-87 | each ranked hit carries its own row's keyword score |
| Query.KeywordFallback | backend/app/api/routes/query.py:44-91 | a blank question gives no hits, and never more than k |
| Query.HeuristicAnswer | backend/app/api/routes/query.py:99-126 | no evidence gives the fixed no-evidence answer; answer and follow-up are never empty |
| Query.HeuristicAnswerQuotesTop | backend/app/api/routes/query.py:114-126 | the answer opens with the count of relevant logs and the top log's severity, then reads " on " timestamp " from " source ": " message; the follow-up names the top log's source and timestamp and ends with the fixed advice |
| Query.HeuristicAnswerDependsOnTop | backend/app/api/routes/query.py:114-126 | the heuristic answer depends only on the count and the top log |
| Query.MarkerColon | backend/app/api/routes/query.py:267-270 | a line that starts with a marker word and colon, in any case, yields the stripped text after the marker |
| Query.LastLine | backend/app/api/routes/query.py:265-266 | a stripped reply has a last line exactly when it is not empty |
| Query.LlmAnswer | backend/app/api/routes/query.py:259-281 | a reply is read exactly when it is not blank; a read answer and follow-up are never empty |
| Query.ReadLastLine | backend/app/api/routes/query.py:267-277 | reading the last line always succeeds, and the answer and follow-up read are never empty |
| Query.MarkedLineHasColon | backend/app/api/routes/query.py:267-270 | a line starting with either marker has a colon to split on |
| Query.LlmAnswerLine | backend/app/api/routes/query.py:267-277 | a last line `Answer: a` gives answer a and the generic follow-up |
| Query.LlmFollowupLine | backend/app/api/routes/query.py:269-274 | a last line `Followup: f` gives follow-up f and the whole reply as the answer |
| Query.LlmUnmarkedLine | backend/app/api/routes/query.py:272-277 | an unmarked last line gives the whole reply as the answer and the generic follow-up |
| Query.LlmAnswerIgnoresEarlierLines | backend/app/api/routes/query.py:265-274 | an `Answer:` line that is not the last line is never read |
| Query.AsWrittenLosesAnswerLine | backend/app/api/routes/query.py:265-274 | the two-line reply `Answer: a` / `Followup: f` gives the whole reply, not a, as the answer, and f as the follow-up |
| Query.LlmAnswerEveryLine | backend/app/api/routes/query.py:259-281 | corrected reading with every line examined: nothing is read exactly when the reply is blank, and a read answer and follow-up are never empty |
| Query.EveryLineReadsBoth | backend/app/api/routes/query.py:259-281 | corrected reading: the two-line reply `Answer: a` / `Followup: f` gives exactly a and f |
| Query.EveryLineAgreesOnOneLine | backend/app/api/routes/query.py:259-281 | on a reply of one line the corrected reading and the code's reading agree |
| Query.Lookup | backend/app/api/routes/query.py:219-226 | a found row is in the table under that id; not found means no row has that id |
| Query.Hydrate | backend/app/api/routes/query.py:221-236 | hydrating gives at most one relevant log per hit |
| Query.HydrateAppend | backend/app/api/routes/query.py:223-236 | hydration distributes over concatenated hit lists, so hit order is kept |
| Query.HydrateOne | backend/app/api/routes/query.py:223-236 | an unknown id is skipped; a known one gives its row with the hit's score |
| Query.HydrateGrounded | backend/app/api/routes/query.py:223-236 | every relevant log is a stored row, under its own id and with its own fields |
| Query.HydrateFromHits | backend/app/api/routes/query.py:221-236 | every hydrated entry carries the log id and score of one of the hits |
| Query.HydrateAllFound | backend/app/api/routes/query.py:221-236 | when the table has a row for every hit, hydration gives one entry per hit, in hit order, built from that hit's row and score |
| Query.SubstringRows | backend/app/api/routes/query.py:189-192 | the substring search returns at most ten rows |
| Query.MessageMatches | backend/app/api/routes/query.py:189-192 | the matches are exactly the table rows whose message contains the needle under ILIKE |
| Query.Answer | backend/app/api/routes/query.py:241-295 | the answer is never empty; with no model, no evidence, a raising model or a blank reply it is the heuristic answer on the top three; otherwise it is what the last-line reading of the reply gives |
| Query.QueryLogs | backend/app/api/routes/query.py:129-295 | an empty question is refused with 422 by request validation (backend/app/schemas/query.py line 17), and that is the only 422; a non-empty blank question is the 400 error; an embedding timeout is 504 and another embedding failure propagates; success holds exactly otherwise, with at most three relevant logs and a non-empty answer and follow-up |
| Query.KeywordFallbackScores | backend/app/api/routes/query.py:81-91 | every fallback hit scores between 0 and 1 |
| Query.HitsResponseInSchema | backend/app/schemas/query.py:27 | from hits scored in [-1, 1], every returned entry's relevance score lies in the schema's range |
| Query.NoHitsResponseInSchema | backend/app/api/routes/query.py:196-204 | every entry of the no-hit response has score 0, inside the schema's range |
| Query.QueryLogsInSchema | backend/app/schemas/query.py:27 | every returned entry's relevance score lies in [-1, 1] whenever the vector search, if it answered, scored its hits in that range |
| Query.QueryLogsVectorHits | backend/app/api/routes/query.py:209-239 | with vector hits, every returned log is a stored row carrying the id and score of one of the first ten hits; when the first three hits are stored, they are returned in hit order; without a model, or when it raises, the answer is the heuristic one |
| Query.TopThreeFound | backend/app/api/routes/query.py:219-239 | when the first three hits are stored, the first three hydrated entries are theirs, as many as there are hits up to three |
| Query.QueryLogsFallsBack | backend/app/api/routes/query.py:163-178 | a search timeout or error behaves as keyword fallback retrieval of up to 20 hits |
| Query.QueryLogsNoHits | backend/app/api/routes/query.py:187-207 | with no hits the response holds min(3, matches) logs, each a table row whose message contains the lower-cased question under ILIKE, with score 0, and the heuristic answer over them |
| Summary.MatchBucket | backend/app/api/routes/ai_summary.py:60-66 | a matched bucket is one of the four keyword buckets |
| Summary.MatchBucketFirst | backend/app/api/routes/ai_summary.py:60-66 | the first bucket, in table order, with a keyword in the lower-cased message is returned |
| Summary.MatchBucketNone | backend/app/api/routes/ai_summary.py:60-66 | no bucket is returned exactly when no keyword of any bucket occurs |
| Summary.MatchBucketIgnoresCase | backend/app/api/routes/ai_summary.py:60-66 | upper- or lower-casing the message does not change its bucket |
| Summary.RootCauseHint | backend/app/api/routes/ai_summary.py:69-79 | the generic hint is returned exactly when there is no known bucket |
| Summary.RootCauseHintInjective | backend/app/api/routes/ai_summary.py:69-79 | different buckets get different hints |
| Summary.SeverityRank | backend/app/api/routes/ai_summary.py:82-85 | ranks lie in 0..4, with 0 exactly for unknown severities, 3 or more exactly for CRITICAL/ERROR/HIGH, and 4 exactly for CRITICAL |
| Summary.SeverityRankIgnoresCase | backend/app/api/routes/ai_summary.py:82-85 | the rank ignores case |
| Summary.LastBucket | backend/app/api/routes/ai_summary.py:112-114 | the hint bucket is that of the last row whose message matches a bucket, and none when no message matches (the caller passes the first ten items) |
| Summary.SourceSevCluster | backend/app/api/routes/ai_summary.py:108-124 | a (source, severity) group becomes a cluster exactly when it has two rows or a severity ranked 3 or more; the cluster carries its title, size and oldest time, and the hint of the last bucket matched among the group's first ten rows |
| Summary.MostSevere | backend/app/api/routes/ai_summary.py:129 | the chosen severity has the highest rank and is the first one with that rank, as `max` picks |
| Summary.BucketCluster | backend/app/api/routes/ai_summary.py:126-139 | a (bucket, source) group becomes a cluster exactly when it has two rows |
| Summary.BucketClusterRows | backend/app/api/routes/ai_summary.py:126-139 | a bucket cluster's severity and time are those of its most severe and oldest rows |
| Summary.SevereRowsClustered | backend/app/api/routes/ai_summary.py:108-110 | every row ranked 3 or more (CRITICAL, ERROR, HIGH) lands in the cluster of its source and severity, titled for them and sized by the group |
| Summary.SourceSevClustersKept | backend/app/api/routes/ai_summary.py:108-124 | every source-severity cluster comes from a key present in the window |
| Summary.TopSpec | backend/app/api/routes/ai_summary.py:141-145 | the top clusters are sorted by (rank, size, time) descending, number min(3, n), come from the clusters, and none left out ranks above a kept one |
| Summary.TopIncidents | backend/app/api/routes/ai_summary.py:141-156 | at most three incidents, each with at least one related entry |
| Summary.ActivityPattern | backend/app/api/routes/ai_summary.py:160-162 | the activity line is present exactly when the window is not empty |
| Summary.NightPatternIff | backend/app/api/routes/ai_summary.py:164-166 | the night-shift pattern is reported exactly when at least 35% of entries fall between 22:00 and 06:00 |
| Summary.BucketNamesSpec | backend/app/api/routes/ai_summary.py:168-169 | the counted buckets are exactly those some message matches |
| Summary.NoisyPatternSpec | backend/app/api/routes/ai_summary.py:174-186 | the noisy-source line is present exactly when some source has three WARNING+ entries, and it names such a source |
| Summary.NoisyFirstIsMax | backend/app/api/routes/ai_summary.py:183-186 | the source named has the highest WARNING+ count |
| Summary.Patterns | backend/app/api/routes/ai_summary.py:158-186 | at most four patterns, in the order activity, night, dominant, noisy |
| Summary.PatternsEmptyIff | backend/app/api/routes/ai_summary.py:158-186 | there are no patterns exactly when the window is empty |
| Summary.ActionCandidatesSpec | backend/app/api/routes/ai_summary.py:189-200 | each action is proposed exactly when its severity or bucket occurs; there are no duplicates |
| Summary.Actions | backend/app/api/routes/ai_summary.py:189-203 | at most five actions, without duplicates |
| Summary.ActionsIff | backend/app/api/routes/ai_summary.py:189-203 | each of the five actions appears exactly when some row in the window has its severity or bucket |
| Summary.BuildDraft | backend/app/api/routes/ai_summary.py:88-205 | the draft has at most 3 incidents, 4 patterns and 5 actions, and no patterns exactly when the window is empty |
| Summary.Usable | backend/app/api/routes/ai_summary.py:278-279 | the usable strings are the non-blank ones among the first five, and all of those |
| Summary.Refine | backend/app/api/routes/ai_summary.py:208-292 | refinement off, or an unparsable or raising reply, keeps the draft; each refined part either keeps the draft's or comes from the reply, within its size bound |
| Summary.RefineFallback | backend/app/api/routes/ai_summary.py:265-289 | a malformed incident among the first three raises, so the whole draft is kept; otherwise the top incidents are the cards of the first three entries holding all five keys, in order (the draft's when there are none), and patterns and actions are the usable ones of the reply or the draft's |
| Summary.RefineTopInOrder | backend/app/api/routes/ai_summary.py:269-282 | three well-typed cards at the head of the reply become the top incidents in the reply's order |
| Summary.RefineEmptyReply | backend/app/api/routes/ai_summary.py:281-289 | a reply with nothing usable keeps the draft |
| Summary.GetSummary | backend/app/api/routes/ai_summary.py:295-342 | the response is stamped with now and the seven-day period; it counts at most the fetch cap and nothing exactly when the table is empty; otherwise it is the summary of the seven-day window of the fetched rows |
| Summary.WindowSummary | backend/app/api/routes/ai_summary.py:320-342 | the response over a window counts the window's rows, and its incidents, patterns and actions are the deterministic draft of the window as the model's reply refines it, the draft itself without a model |
| Summary.SummaryWindow | backend/app/api/routes/ai_summary.py:300-321 | the window holds table rows within seven days of the newest; when the table fits the cap it is exactly those rows |
| Records.FetchNewestFirst | backend/app/api/routes/dashboard.py:68-72 | the first fetched row carries the newest timestamp in the table |
| Records.WindowIsRecent | backend/app/api/routes/dashboard.py:87-89 | the window holds exactly the rows no older than the newest minus the span, when the table fits the cap |
| Dashboard.FloorToBucket | backend/app/api/routes/dashboard.py:48-51 | the floored time stays in the same hour, at a minute that is a multiple of the bucket size, within one bucket below the original minute |
| Dashboard.FloorToBucketTopOfHour | backend/app/api/routes/dashboard.py:48-51 | buckets larger than 59 minutes floor to the top of the hour |
| Dashboard.FloorToBucketIdempotent | backend/app/api/routes/dashboard.py:48-51 | flooring a floored time changes nothing |
| Dashboard.AlignedBucket | backend/app/api/routes/dashboard.py:48-51 | the corrected floor is a multiple of the bucket length, at or below t and less than one bucket below it |
| Dashboard.AlignedBucketAgrees | backend/app/api/routes/dashboard.py:48-51 | when the bucket size divides 60, the corrected floor equals the code's floor |
| Dashboard.AxisEnds | backend/app/api/routes/dashboard.py:126-136 | the axis starts at the least bucket and stops within one step past the greatest |
| Dashboard.AxisSteps | backend/app/api/routes/dashboard.py:126-136 | consecutive axis points are one step apart |
| Dashboard.AxisWithin | backend/app/api/routes/dashboard.py:126-136 | every axis point lies between the least and greatest bucket |
| Dashboard.TimeAxis | backend/app/api/routes/dashboard.py:116-136 | the axis is empty exactly when the window is; it starts at the least bucket start and steps by the bucket length |
| Dashboard.AlignedBucketsOnAxis | backend/app/api/routes/dashboard.py:119-136 | with the corrected floor, every row's bucket start lies on the axis |
| Dashboard.AsWrittenBucketOffAxis | backend/app/api/routes/dashboard.py:48-51 | with 45-minute buckets, rows at 10:00 and 11:50 floor to 10:00 and 11:45, and 11:45 is not on the axis 10:00, 10:45, 11:30 |
| Dashboard.AsWrittenRowUncounted | backend/app/api/routes/dashboard.py:138-147 | no series of that window has a bucket for 11:45, so the 11:50 row is counted nowhere |
| Dashboard.BreakdownCounts | backend/app/api/routes/dashboard.py:95-101 | each breakdown entry counts the window rows with that upper-cased severity |
| Dashboard.BreakdownKeysSpec | backend/app/api/routes/dashboard.py:95-101 | the breakdown starts with the four canonical severities, has no duplicates, covers every row's severity, and lists the other severities after |
| Dashboard.BreakdownSum | backend/app/api/routes/dashboard.py:95-101 | the breakdown counts sum to the window size |
| Dashboard.TopSourcesSpec | backend/app/api/routes/dashboard.py:106-110 | min(limit, distinct sources) top sources, with descending counts, each its true count, equal counts in first-occurrence order, and any source left out has no more rows than any kept one |
| Dashboard.AllSeveritiesSpec | backend/app/api/routes/dashboard.py:139 | the series order is the canonical severities, then the others sorted, each once, and only severities seen in the window |
| Dashboard.SeriesOf | backend/app/api/routes/dashboard.py:140-147 | a series exists exactly when some bucket on the axis has a row of that severity; it has one count per axis point |
| Dashboard.TimeseriesShape | backend/app/api/routes/dashboard.py:138-147 | every series has one bucket per axis point, labelled with its ISO start, and at least one non-zero count |
| Dashboard.TimeseriesCountsEveryRow | backend/app/api/routes/dashboard.py:119-147 | with the corrected floor, every row is counted in its severity's series at its bucket start |
| Dashboard.DashRank | backend/app/api/routes/dashboard.py:161-162 | canonical severities rank 4 down to 1 in order, and anything else ranks 0 |
| Dashboard.CardOf | backend/app/api/routes/dashboard.py:155-177 | a card exists exactly for a (source, severity) key of the window; it carries the key, the group size, and the first and last times |
| Dashboard.CardTimes | backend/app/api/routes/dashboard.py:166-167 | first seen and last seen are the least and greatest timestamps of the group |
| Dashboard.CardsPerKey | backend/app/api/routes/dashboard.py:155-177 | there is one card per distinct key, in first-occurrence order |
| Dashboard.CardsSum | backend/app/api/routes/dashboard.py:155-177 | the related counts of all cards sum to the window size |
| Dashboard.RecentSpec | backend/app/api/routes/dashboard.py:179-183 | the recent incidents are sorted by (rank, size, last seen) descending, number min(8, n), and none left out ranks above a kept one |
| Dashboard.GetDashboard | backend/app/api/routes/dashboard.py:61-193 | invalid query parameters are exactly the 422 error; the response is stamped with now and the period label, counts nothing exactly when the table is empty (and then every section is empty), and otherwise has a breakdown of at least four severities summing to the count, at most the requested number of sources and at most eight cards; its time series is built with the code's minute-of-the-hour floor; for a non-empty table it is the response over the window of the fetched rows |
| Dashboard.WindowResponse | backend/app/api/routes/dashboard.py:89-193 | the response over a window counts the window's rows; its breakdown is the severity breakdown of the window, its top sources the window's most common sources up to the limit, its cards the recent incident cards of the window, and its time series is built with the code's floor |
| Dashboard.DashboardWindow | backend/app/api/routes/dashboard.py:68-90 | the window holds table rows within `days` of the newest; when the table fits the cap it is exactly those rows |
| Tally.MostCommonSpec | backend/app/api/routes/dashboard.py:106-110 | `most_common(n)` gives min(n, distinct elements) pairs, in descending count order, each an element of the input with its true count |
| Tally.MostCommonTies | backend/app/api/routes/dashboard.py:106-110 | pairs with equal counts keep the first-occurrence order of their elements, as `Counter.most_common` does |
| Tally.MostCommonIsTop | backend/app/api/routes/dashboard.py:106-110 | an element left out of `most_common(n)` occurs no more often than any element listed |
| Tally.DistinctOrder | backend/app/api/routes/dashboard.py:139 | `dict.fromkeys` keeps the first occurrence of each element, in order |
| Sorting.SortStableSorted | backend/app/api/routes/dashboard.py:179-182 | the stable sort's result is sorted by the ordering |
| Sorting.SortStableTieOrdered | backend/app/api/routes/dashboard.py:179-182 | elements the ordering ties keep their input order |
| Config.MaxUploadBytes | backend/app/core/config.py:56-70 | an upload limit is accepted exactly between 1 and 500 MB, and the byte limit is that many mebibytes |
| Config.NormalizeEnv | backend/app/core/config.py:116-119 | an empty value gives dev; any other value gives its lower-cased strip; the result is stripped and lower-case, and empty exactly for a non-empty blank value |
| Config.NormalizeEnvIdempotent | backend/app/core/config.py:116-119 | a non-empty normalised ENV normalises to itself |
| Config.NormalizeEnvBlank | backend/app/core/config.py:116-119 | a blank ENV normalises to the empty string, which normalises again to dev |
| Config.NormalizeLogLevel | backend/app/core/config.py:121-124 | an empty value gives INFO; any other value gives its upper-cased strip; the result is stripped and upper-case, and empty exactly for a non-empty blank value |
| Config.NormalizeLogLevelIdempotent | backend/app/core/config.py:121-124 | a non-empty normalised level normalises to itself |
| Config.CleanOrigins | backend/app/core/config.py:126-135 | the cleaned origins are stripped and non-empty, and no more than were given |
| Config.CleanOriginsKeeps | backend/app/core/config.py:126-135 | every non-blank origin is kept, stripped |
| Config.CleanOriginsFrom | backend/app/core/config.py:126-135 | every kept origin is a stripped given origin |
| Config.CleanOriginsAppend | backend/app/core/config.py:126-135 | cleaning distributes over concatenation, so order is kept |
| Config.CleanOriginsIdempotent | backend/app/core/config.py:126-135 | cleaning cleaned origins changes nothing |
| Config.CleanCors | backend/app/core/config.py:126-135 | the loop computes the cleaned origins |
| Config.StripField | backend/app/core/config.py:137-141 | a missing value gives the empty string; otherwise the result is the value stripped, sitting in it with only whitespace around |
| Config.StripFieldIdempotent | backend/app/core/config.py:137-141 | stripping a stripped field changes nothing |
| Config.Validate | backend/app/core/config.py:56-141 | settings validate exactly when the upload limit is in range; then each field is its validator applied to the raw value (ENV, LOG_LEVEL, the CORS origins, the six stripped strings), the key and megabytes are unchanged, and the byte limit is derived |
| Config.ValidateIdempotent | backend/app/core/config.py:116-141 | validating validated settings gives them back unchanged, when ENV and LOG_LEVEL are not blank |
| DbUrl.SyncDatabaseUrl | backend/app/db/session.py:42-48 | an async SQLite URL becomes `sqlite` followed by what came after `sqlite+aiosqlite`; any other URL is unchanged |
| DbUrl.SyncUrlLength | backend/app/db/session.py:46-47 | a URL is rewritten exactly when the result is ten characters shorter |
| DbUrl.SyncUrlIdempotentIff | backend/app/db/session.py:42-48 | rewriting twice equals rewriting once exactly when the first result no longer starts with the async prefix |
| DbUrl.SyncUrlReprefixed | backend/app/db/session.py:46-47 | the rewritten URL still starts with the async prefix exactly when the driver suffix was doubled |
| DbUrl.SyncUrlNotIdempotent | backend/app/db/session.py:46-47 | a doubled driver suffix is removed by the first rewrite and rewritten again by the second |

## Left out

- The vector index works over unbounded reals. The model leaves out:
  - FAISS's float32 arithmetic and rounding, and its memory layout;
  - the `threading.RLock`;
  - the thread-pool executor.
  Results with equal scores come back in insertion order, a choice the model makes because FAISS leaves it open.
- VectorIndex.SearchDescending: requires every stored vector to score at least the padding score FAISS uses for missing results, because that float32 limit is not a bound on real dot products.
- The embedder (`embed_service.py`) and the model client (`gemini_service.py`) are foreign calls. Their results, their timeouts and any exception they raise are parameters of the endpoints.
- The prompt text sent to the model is not built. The model's reply enters as a parameter.
- SQL and the ORM are replaced by a table ordered as stored:
  - `ORDER BY timestamp DESC` ties keep table order, which SQL leaves open;
  - `ILIKE` is a case-insensitive LIKE over ASCII;
  - the record count used for the id offset is the length of the table.
- Unicode case mapping is ASCII-only. `str.lower`, `str.upper` and `str.title` on other letters are not modelled.
- These are parameters:
  - `dateutil` timestamp parsing;
  - the `csv.Sniffer`/`csv.reader` dialect logic. The reader is a total function, so a `csv.Error` raised while reading (on a NUL byte, say) is not modelled;
  - `json.loads` of a model's reply, entering already parsed or as an error;
  - `datetime.utcnow`;
  - `uuid4` file ids.
- Floating-point formatting is not modelled: `:.3f` in the prompt, `round(score, 4)`, and relevance scores as Python floats (they are reals). The night-shift ratio test `n / total >= 0.35` is modelled exactly as `20 * n >= 7 * total`; no window under the 10000-row cap makes the double comparison differ.
- Byte decoding of uploads (UTF-8 with BOM) is not modelled. Upload content is a string, and its emptiness stands for zero bytes.
- Python's `x or default` on `None` fields is not modelled. Stored strings are never `None` in the model, so only the empty-string half applies.
- These are infrastructure, not logic: the `logs.py` listing route, the unreachable `summary.py` route (shadowed by `ai_summary.py`), `main.py`, `core/logging.py`, schemas, engines and sessions in `session.py`, and the background-task scheduler (the job is returned, not run).
- Pydantic's reading of environment variables and `.env` files is not modelled. `Config.Validate` starts from the raw values.
- Query.KeywordFallback: states only the bound and the blank-question case. The ranking, scores and candidate set are stated by `Query.RankedOrder`, `Query.RankedScores`, `Query.CandidatesSpec` and `Query.RankedPermutesCandidates`.
- Query.Hydrate: a vector hit's score is an inner product, which lies in [-1, 1] only for unit-length embeddings; nothing in the model normalises vectors, so `Query.QueryLogsInSchema` takes that range of the search scores as a requirement, and the keyword and substring paths are proved without it.
- Query.SubstringRows: states only the limit of ten rows. Which rows match is stated by `Query.MessageMatches`.
- Summary.TopIncidents: states only the count bound and the non-zero sizes. The ordering is stated on clusters by `Summary.TopSpec`.
- VectorIndex.ParseKeys: reads a key with an optional sign and ASCII digits only; Python's `int` also accepts `_` between digits (as in `1_000`) and non-ASCII decimal digits, which the model rejects.
- VectorIndex.Load: a snapshot read from disk is not checked against the index, so `VectorIndex.Consistent` is stated only for the fresh state, after `VectorIndex.AddConsistent`, and for what `VectorIndex.PersistLoad` reads back.
- Dashboard.AxisEnds: the axis being finite and stepping past the greatest bucket relies on a positive step. Validated query parameters guarantee one (15 to 1440 minutes).

## Findings

| source | as written | input that shows it | evidently intended | confidence | as-written member | corrected member |
|---|---|---|---|---|---|---|
| backend/app/api/routes/dashboard.py:48-51 | `_floor_to_bucket` floors the minute of the hour, but the axis steps by the bucket length from the least bucket start (lines 126-136) | 45-minute buckets with rows at 10:00 and 11:50: the buckets are 10:00 and 11:45, the axis is 10:00, 10:45, 11:30, so the 11:50 row appears in no series | every row counted in the bucket on the axis that contains it | not executed | Dashboard.AsWrittenBucketOffAxis, Dashboard.AsWrittenRowUncounted | Dashboard.AlignedBucket, Dashboard.AlignedBucketsOnAxis, Dashboard.TimeseriesCountsEveryRow |
| backend/app/api/routes/query.py:265-270 | the marker checks sit after the `for` loop over the reply's lines instead of inside it, so only the last line is examined | the reply `Answer: a` followed by the line `Followup: f` | answer a and follow-up f | not executed | Query.LlmAnswerIgnoresEarlierLines, Query.AsWrittenLosesAnswerLine | Query.LlmAnswerEveryLine, Query.EveryLineReadsBoth |

=== FILE: clock.dfy ===
/**
 * Naive UTC datetimes as whole seconds since 1970-01-01T00:00:00, the
 * proleptic Gregorian calendar behind Python's `datetime`, and the
 * `dt.isoformat() + "Z"` rendering used by every endpoint. Every datetime
 * the system stores has its microseconds zeroed, so whole seconds lose
 * nothing.
 */
module Clock {
  import opened Outcomes
  import Numerals

  const SecondsPerMinute := 60
  const SecondsPerHour := 3600
  const SecondsPerDay := 86400

  predicate IsLeap(y: int) {
    y % 4 == 0 && (y % 100 != 0 || y % 400 == 0)
  }

  function YearDays(y: int): nat {
    if IsLeap(y) then 366 else 365
  }

  /** Days from 1970-01-01 to January 1 of year `y` (negative before 1970). */
  function DaysBeforeYear(y: int): int
    decreases if y < 1970 then 1970 - y else y - 1970
  {
    if y == 1970 then 0
    else if y > 1970 then DaysBeforeYear(y - 1) + YearDays(y - 1)
    else DaysBeforeYear(y + 1) - YearDays(y)
  }

  lemma DaysBeforeNextYear(y: int)
    ensures DaysBeforeYear(y + 1) == DaysBeforeYear(y) + YearDays(y)
  {
  }

  /**
   * The year, and the zero-based day within it, of the day lying `d` days
   * after January 1 of year `y`.
   */
  function YearAndDay(y: int, d: int): (r: (int, nat))
    ensures r.1 < YearDays(r.0)
    ensures DaysBeforeYear(r.0) + r.1 == DaysBeforeYear(y) + d
    decreases if d < 0 then 400 - d else d
  {
    if d < 0 then
      DaysBeforeNextYear(y - 1);
      YearAndDay(y - 1, d + YearDays(y - 1))
    else if d < YearDays(y) then (y, d)
    else
      DaysBeforeNextYear(y);
      YearAndDay(y + 1, d - YearDays(y))
  }

  function MonthDays(y: int, m: int): nat
    requires 1 <= m <= 12
  {
    if m == 2 then (if IsLeap(y) then 29 else 28)
    else if m == 4 || m == 6 || m == 9 || m == 11 then 30
    else 31
  }

  /** Days of year `y` before the first of month `m`. */
  function DaysBeforeMonth(y: int, m: int): nat
    requires 1 <= m <= 12
  {
    if m == 1 then 0 else DaysBeforeMonth(y, m - 1) + MonthDays(y, m - 1)
  }

  lemma MonthsFillYear(y: int)
    ensures DaysBeforeMonth(y, 12) + MonthDays(y, 12) == YearDays(y)
  {
    var feb := MonthDays(y, 2);
    assert DaysBeforeMonth(y, 2) == 31;
    assert DaysBeforeMonth(y, 3) == 31 + feb;
    assert DaysBeforeMonth(y, 4) == 62 + feb;
    assert DaysBeforeMonth(y, 5) == 92 + feb;
    assert DaysBeforeMonth(y, 6) == 123 + feb;
    assert DaysBeforeMonth(y, 7) == 153 + feb;
    assert DaysBeforeMonth(y, 8) == 184 + feb;
    assert DaysBeforeMonth(y, 9) == 215 + feb;
    assert DaysBeforeMonth(y, 10) == 245 + feb;
    assert DaysBeforeMonth(y, 11) == 276 + feb;
    assert DaysBeforeMonth(y, 12) == 306 + feb;
  }

  /** The month, counting down from `m`, in which day `doy` of year `y` falls. */
  function MonthOf(y: int, doy: nat, m: int): (r: int)
    requires 1 <= m <= 12
    requires doy < DaysBeforeMonth(y, m) + MonthDays(y, m)
    ensures 1 <= r <= m
    ensures DaysBeforeMonth(y, r) <= doy < DaysBeforeMonth(y, r) + MonthDays(y, r)
    decreases m
  {
    if m == 1 || DaysBeforeMonth(y, m) <= doy then m else MonthOf(y, doy, m - 1)
  }

  /** The fields of a naive `datetime` with zero microseconds. */
  datatype DateTime = DateTime(year: int, month: int, day: int, hour: int, minute: int, second: int)
  {
    ghost predicate Valid() {
      && 1 <= month <= 12
      && 1 <= day <= MonthDays(year, month)
      && 0 <= hour < 24 && 0 <= minute < 60 && 0 <= second < 60
    }
  }

  /** Seconds since the epoch of a calendar date and time of day. */
  function ToSeconds(dt: DateTime): int
    requires 1 <= dt.month <= 12
  {
    (DaysBeforeYear(dt.year) + DaysBeforeMonth(dt.year, dt.month) + dt.day - 1) * SecondsPerDay
      + dt.hour * SecondsPerHour + dt.minute * SecondsPerMinute + dt.second
  }

  /** The calendar fields of an instant. */
  function ToDateTime(t: int): (r: DateTime)
    ensures r.Valid()
  {
    var days := t / SecondsPerDay;
    var secs := t % SecondsPerDay;
    var yd := YearAndDay(1970, days);
    MonthsFillYear(yd.0);
    var m := MonthOf(yd.0, yd.1, 12);
    DateTime(yd.0, m, yd.1 - DaysBeforeMonth(yd.0, m) + 1,
             secs / SecondsPerHour, secs % SecondsPerHour / SecondsPerMinute, secs % SecondsPerMinute)
  }

  /** `dt.hour`. */
  function HourOf(t: int): (h: int)
    ensures 0 <= h < 24
    ensures h == ToDateTime(t).hour
  {
    t % SecondsPerDay / SecondsPerHour
  }

  /** `dt.minute`. */
  function MinuteOf(t: int): (m: int)
    ensures 0 <= m < 60
    ensures m == ToDateTime(t).minute
  {
    t % SecondsPerDay % SecondsPerHour / SecondsPerMinute
  }

  /** Calendar fields and instants correspond one to one: the fields give back the instant. */
  lemma ToSecondsOfToDateTime(t: int)
    ensures ToSeconds(ToDateTime(t)) == t
  {
    var days := t / SecondsPerDay;
    var secs := t % SecondsPerDay;
    assert t == days * SecondsPerDay + secs;
    assert secs == secs / SecondsPerHour * SecondsPerHour
      + secs % SecondsPerHour / SecondsPerMinute * SecondsPerMinute + secs % SecondsPerMinute;
  }

  /** Distinct instants have distinct calendar fields. */
  lemma ToDateTimeInjective(t: int, u: int)
    requires ToDateTime(t) == ToDateTime(u)
    ensures t == u
  {
    ToSecondsOfToDateTime(t);
    ToSecondsOfToDateTime(u);
  }

  /** `"%02d" % n` for `0 <= n < 100`. */
  function Pad2(n: nat): (r: string)
    requires n < 100
    ensures |r| == 2
  {
    Numerals.NatToDecShort(n);
    Numerals.PadZeros(Numerals.NatToDec(n), 2)
  }

  /** The year as `isoformat` writes it: `"%04d" % year`. */
  function Year4(y: int): (r: string)
    ensures r != []
  {
    if y < 0 then "-" + Numerals.PadZeros(Numerals.NatToDec(-y), 3)
    else Numerals.PadZeros(Numerals.NatToDec(y), 4)
  }

  /** `"YYYY-MM-DDTHH:MM:SS"` of the fields, then the `"Z"` the endpoints append. */
  function FormatIsoZ(dt: DateTime): (r: string)
    requires dt.Valid()
  {
    Year4(dt.year) + IsoTail(Pad2(dt.month), Pad2(dt.day), Pad2(dt.hour), Pad2(dt.minute), Pad2(dt.second))
  }

  /** `"-MM-DDTHH:MM:SSZ"`: the fixed-width part after the year. */
  function IsoTail(mo: string, d: string, h: string, mi: string, se: string): string
  {
    "-" + (mo + ("-" + (d + ("T" + (h + (":" + (mi + (":" + (se + "Z")))))))))
  }

  lemma IsoTailFields(mo: string, d: string, h: string, mi: string, se: string)
    requires |mo| == 2 && |d| == 2 && |h| == 2 && |mi| == 2 && |se| == 2
    ensures |IsoTail(mo, d, h, mi, se)| == 16
    ensures IsoTail(mo, d, h, mi, se)[1..3] == mo
    ensures IsoTail(mo, d, h, mi, se)[4..6] == d
    ensures IsoTail(mo, d, h, mi, se)[7..9] == h
    ensures IsoTail(mo, d, h, mi, se)[10..12] == mi
    ensures IsoTail(mo, d, h, mi, se)[13..15] == se
  {
  }

  lemma SliceAfterPrefix<T>(y: seq<T>, t: seq<T>, i: nat, j: nat)
    requires i <= j <= |t|
    ensures (y + t)[..|y|] == y
    ensures (y + t)[|y| + i..|y| + j] == t[i..j]
  {
  }

  /** `dt.isoformat() + "Z"` for an instant. */
  function IsoZ(t: int): (r: string)
  {
    FormatIsoZ(ToDateTime(t))
  }

  /** Reads back a two-digit field. */
  function Field2(s: string): (r: Option<nat>)
  {
    if |s| == 2 && Numerals.AllDigits(s) then Some(Numerals.DigitsValue(s)) else None
  }

  /** Reads back a `Year4` rendering. */
  function ParseYear(s: string): (r: Option<int>)
  {
    if s != [] && s[0] == '-' then
      if Numerals.AllDigits(s[1..]) then Some(-(Numerals.DigitsValue(s[1..]) as int)) else None
    else if Numerals.AllDigits(s) then Some(Numerals.DigitsValue(s) as int)
    else None
  }

  /**
   * Reads the fields back out of a `FormatIsoZ` rendering: everything before
   * the last sixteen characters is the year, and the rest has fixed places.
   */
  function ParseIsoZ(s: string): (r: Option<DateTime>)
  {
    if |s| < 17 then None
    else
      var n := |s| - 16;
      var y := ParseYear(s[..n]);
      var mo := Field2(s[n + 1..n + 3]);
      var d := Field2(s[n + 4..n + 6]);
      var h := Field2(s[n + 7..n + 9]);
      var mi := Field2(s[n + 10..n + 12]);
      var se := Field2(s[n + 13..n + 15]);
      if y.Some? && mo.Some? && d.Some? && h.Some? && mi.Some? && se.Some? then
        Some(DateTime(y.value, mo.value, d.value, h.value, mi.value, se.value))
      else None
  }

  lemma Field2OfPad2(n: nat)
    requires n < 100
    ensures Field2(Pad2(n)) == Some(n)
  {
    Numerals.PadZerosSpec(n, 2);
  }

  lemma ParseYearOfYear4(y: int)
    ensures ParseYear(Year4(y)) == Some(y)
  {
    if y < 0 {
      Numerals.PadZerosSpec(-y, 3);
      assert Year4(y)[1..] == Numerals.PadZeros(Numerals.NatToDec(-y), 3);
    } else {
      Numerals.PadZerosSpec(y, 4);
    }
  }

  /** `ParseIsoZ` of a year followed by a sixteen-character tail reads the fields from the tail's fixed places. */
  lemma ParseIsoZParts(y: string, t: string)
    requires |t| == 16 && y != []
    ensures ParseIsoZ(y + t) == (
      var yr := ParseYear(y);
      var mo := Field2(t[1..3]);
      var d := Field2(t[4..6]);
      var h := Field2(t[7..9]);
      var mi := Field2(t[10..12]);
      var se := Field2(t[13..15]);
      if yr.Some? && mo.Some? && d.Some? && h.Some? && mi.Some? && se.Some? then
        Some(DateTime(yr.value, mo.value, d.value, h.value, mi.value, se.value))
      else None)
  {
    SliceAfterPrefix(y, t, 1, 3);
    SliceAfterPrefix(y, t, 4, 6);
    SliceAfterPrefix(y, t, 7, 9);
    SliceAfterPrefix(y, t, 10, 12);
    SliceAfterPrefix(y, t, 13, 15);
  }

  /** Parsing a rendering gives back the fields it was rendered from. */
  lemma ParseFormatIsoZ(dt: DateTime)
    requires dt.Valid()
    ensures ParseIsoZ(FormatIsoZ(dt)) == Some(dt)
  {
    var y := Year4(dt.year);
    var t := IsoTail(Pad2(dt.month), Pad2(dt.day), Pad2(dt.hour), Pad2(dt.minute), Pad2(dt.second));
    IsoTailFields(Pad2(dt.month), Pad2(dt.day), Pad2(dt.hour), Pad2(dt.minute), Pad2(dt.second));
    ParseYearOfYear4(dt.year);
    ParseIsoZParts(y, t);
    Field2OfPad2(dt.month);
    Field2OfPad2(dt.day);
    Field2OfPad2(dt.hour);
    Field2OfPad2(dt.minute);
    Field2OfPad2(dt.second);
  }

  /** Distinct instants render to distinct strings. */
  lemma IsoZInjective(t: int, u: int)
    requires IsoZ(t) == IsoZ(u)
    ensures t == u
  {
    ParseFormatIsoZ(ToDateTime(t));
    ParseFormatIsoZ(ToDateTime(u));
    ToDateTimeInjective(t, u);
  }
}

=== FILE: config.dfy ===
/**
 * The settings object: the upload size limit derived from megabytes, and
 * the field validators that normalise environment values (trimming, case
 * folding, defaults for empty values, cleaning the CORS origin list).
 */
module Config {
  import opened Outcomes
  import Text

  const Mebibyte: nat := 1024 * 1024
  const MinUploadMb: int := 1
  const MaxUploadMb: int := 500

  /** Which case folding a validator applies after trimming. */
  datatype Case = ToLower | ToUpper

  function Fold(c: Case, s: string): (r: string)
    ensures |r| == |s|
  {
    match c
    case ToLower => Text.Lower(s)
    case ToUpper => Text.Upper(s)
  }

  /** Case folding keeps whitespace at both ends exactly where it was. */
  lemma FoldKeepsStripped(c: Case, s: string)
    requires Text.IsStripped(s)
    ensures Text.IsStripped(Fold(c, s))
  {
    if s != [] {
      Text.CaseKeepsSpace(s[0]);
      Text.CaseKeepsSpace(s[|s| - 1]);
    }
  }

  lemma FoldIdempotent(c: Case, s: string)
    ensures Fold(c, Fold(c, s)) == Fold(c, s)
  {
    match c
    case ToLower => Text.LowerIdempotent(s);
    case ToUpper => Text.UpperIdempotent(s);
  }

  /**
   * `(v or default).strip()` followed by the folding: an empty value takes
   * the default, anything else is trimmed and folded. A blank but non-empty
   * value is not replaced by the default, so it normalises to "".
   */
  function Normalize(v: string, default: string, c: Case): (r: string)
    ensures Text.IsStripped(r)
    ensures Fold(c, r) == r
    ensures r == [] <==> Text.AllSpace(if v == [] then default else v)
  {
    var s := Text.Strip(if v == [] then default else v);
    Text.StripSpec(if v == [] then default else v);
    Text.StripEmptyIffBlank(if v == [] then default else v);
    FoldKeepsStripped(c, s);
    FoldIdempotent(c, s);
    Fold(c, s)
  }

  /** A normalised value that is not empty is left alone by a second pass. */
  lemma NormalizeIdempotent(v: string, default: string, c: Case)
    requires Normalize(v, default, c) != []
    ensures Normalize(Normalize(v, default, c), default, c) == Normalize(v, default, c)
  {
    var r := Normalize(v, default, c);
    Text.StripOfStripped(r);
  }

  /** A default that is already trimmed, folded and not blank is what an empty value becomes. */
  lemma NormalizeEmpty(d: string, c: Case)
    requires d != [] && Text.IsStripped(d) && Fold(c, d) == d
    ensures Normalize([], d, c) == d
    ensures !Text.AllSpace(d)
  {
    Text.StripOfStripped(d);
  }

  /** The `ENV` validator: "dev" when empty, otherwise trimmed and lower-cased. */
  function NormalizeEnv(v: string): (r: string)
    ensures v == [] ==> r == "dev"
    ensures Text.IsStripped(r) && Text.Lower(r) == r
    ensures r == [] <==> v != [] && Text.AllSpace(v)
    ensures v != [] ==> r == Text.Lower(Text.Strip(v))
  {
    var r := Normalize(v, "dev", ToLower);
    assert Fold(ToLower, "dev") == "dev";
    NormalizeEmpty("dev", ToLower);
    r
  }

  lemma InfoIsUpper()
    ensures Text.IsStripped("INFO") && Fold(ToUpper, "INFO") == "INFO"
  {
    assert !Text.IsSpace('I') && !Text.IsSpace('O');
    assert Text.Upper("INFO") == "INFO";
  }

  /** The `LOG_LEVEL` validator: "INFO" when empty, otherwise trimmed and upper-cased. */
  function NormalizeLogLevel(v: string): (r: string)
    ensures v == [] ==> r == "INFO"
    ensures Text.IsStripped(r) && Text.Upper(r) == r
    ensures r == [] <==> v != [] && Text.AllSpace(v)
    ensures v != [] ==> r == Text.Upper(Text.Strip(v))
  {
    var r := Normalize(v, "INFO", ToUpper);
    InfoIsUpper();
    NormalizeEmpty("INFO", ToUpper);
    r
  }

  lemma NormalizeEnvIdempotent(v: string)
    requires NormalizeEnv(v) != []
    ensures NormalizeEnv(NormalizeEnv(v)) == NormalizeEnv(v)
  {
    NormalizeIdempotent(v, "dev", ToLower);
  }

  lemma NormalizeLogLevelIdempotent(v: string)
    requires NormalizeLogLevel(v) != []
    ensures NormalizeLogLevel(NormalizeLogLevel(v)) == NormalizeLogLevel(v)
  {
    NormalizeIdempotent(v, "INFO", ToUpper);
  }

  /** A blank value normalises to "", and only a second pass restores the default. */
  lemma NormalizeEnvBlank()
    ensures NormalizeEnv(" ") == []
    ensures NormalizeEnv(NormalizeEnv(" ")) == "dev"
  {
    assert Text.AllSpace(" ");
  }

  /** `r` sits at offset `i` of `s` with only whitespace around it. */
  predicate Trims(s: string, i: int, r: string) {
    0 <= i <= |s| - |r| && s[i..i + |r|] == r && Text.AllSpace(s[..i]) && Text.AllSpace(s[i + |r|..])
  }

  lemma StripTrims(s: string)
    ensures Text.IsStripped(Text.Strip(s))
    ensures exists i :: Trims(s, i, Text.Strip(s))
  {
    Text.StripSpec(s);
    var r := Text.Strip(s);
    var i :| 0 <= i <= |s| - |r| && s[i..i + |r|] == r && Text.AllSpace(s[..i]) && Text.AllSpace(s[i + |r|..]);
    assert Trims(s, i, r);
  }

  /** The string-field validator: `(v or "").strip()`. */
  function StripField(v: Option<string>): (r: string)
    ensures Text.IsStripped(r)
    ensures v.None? ==> r == []
    ensures v.Some? ==> exists i :: Trims(v.value, i, r)
    ensures v.Some? ==> r == Text.Strip(v.value)
  {
    match v
    case None => []
    case Some(s) =>
      StripTrims(s);
      Text.Strip(s)
  }

  lemma StripFieldIdempotent(v: Option<string>)
    ensures StripField(Some(StripField(v))) == StripField(v)
  {
    Text.StripOfStripped(StripField(v));
  }

  /** The CORS validator's result: each origin trimmed, the empty ones dropped, order kept. */
  function CleanOrigins(v: seq<string>): (r: seq<string>)
    ensures |r| <= |v|
    ensures forall i :: 0 <= i < |r| ==> r[i] != [] && Text.IsStripped(r[i])
  {
    if v == [] then []
    else
      var o := Text.Strip(v[|v| - 1]);
      Text.StripSpec(v[|v| - 1]);
      CleanOrigins(v[..|v| - 1]) + (if o != [] then [o] else [])
  }

  /** Cleaning works entry by entry, so it keeps the relative order of the origins. */
  lemma {:induction false} CleanOriginsAppend(a: seq<string>, b: seq<string>)
    ensures CleanOrigins(a + b) == CleanOrigins(a) + CleanOrigins(b)
    decreases |b|
  {
    if b == [] {
      assert a + b == a;
    } else {
      var front := b[..|b| - 1];
      assert (a + b)[..|a + b| - 1] == a + front;
      CleanOriginsAppend(a, front);
    }
  }

  /** Every entry that does not trim to "" is kept, trimmed. */
  lemma {:induction false} CleanOriginsKeeps(v: seq<string>, i: nat)
    requires i < |v| && Text.Strip(v[i]) != []
    ensures Text.Strip(v[i]) in CleanOrigins(v)
  {
    var front := v[..|v| - 1];
    if i < |front| {
      assert front[i] == v[i];
      CleanOriginsKeeps(front, i);
    }
  }

  /** Every kept origin is the trimmed form of some entry. */
  lemma {:induction false} CleanOriginsFrom(v: seq<string>, x: string)
    requires x in CleanOrigins(v)
    ensures exists i :: 0 <= i < |v| && Text.Strip(v[i]) == x
  {
    var front := v[..|v| - 1];
    if x in CleanOrigins(front) {
      CleanOriginsFrom(front, x);
      var i :| 0 <= i < |front| && Text.Strip(front[i]) == x;
      assert v[i] == front[i];
    } else {
      assert Text.Strip(v[|v| - 1]) == x;
    }
  }

  /** Cleaning a cleaned list changes nothing. */
  lemma {:induction false} CleanOriginsIdempotent(v: seq<string>)
    ensures CleanOrigins(CleanOrigins(v)) == CleanOrigins(v)
  {
    if v != [] {
      var front := v[..|v| - 1];
      var o := Text.Strip(v[|v| - 1]);
      var tail := if o != [] then [o] else [];
      CleanOriginsIdempotent(front);
      CleanOriginsAppend(CleanOrigins(front), tail);
      if o != [] {
        Text.StripSpec(v[|v| - 1]);
        Text.StripOfStripped(o);
        assert [o][..0] == [];
      }
    }
  }

  /** The validator's loop: append each trimmed origin that is not empty. */
  method CleanCors(v: seq<string>) returns (cleaned: seq<string>)
    ensures cleaned == CleanOrigins(v)
  {
    cleaned := [];
    var i := 0;
    while i < |v|
      invariant 0 <= i <= |v|
      invariant cleaned == CleanOrigins(v[..i])
    {
      var o := Text.Strip(v[i]);
      assert v[..i + 1][..i] == v[..i];
      if o != [] {
        cleaned := cleaned + [o];
      }
      i := i + 1;
    }
    assert v[..i] == v;
  }

  /** `MAX_UPLOAD_MB` outside 1..500 fails validation; inside, the byte limit. */
  datatype SettingsError = OutOfRange(field: string)

  function MaxUploadBytes(mb: int): (r: Result<nat, SettingsError>)
    ensures r.Ok? <==> MinUploadMb <= mb <= MaxUploadMb
    ensures r.Err? ==> r.error == OutOfRange("MAX_UPLOAD_MB")
    ensures r.Ok? ==> r.value % Mebibyte == 0 && r.value / Mebibyte == mb
    ensures r.Ok? ==> Mebibyte <= r.value <= 500 * Mebibyte
  {
    if MinUploadMb <= mb <= MaxUploadMb then Ok(mb * 1024 * 1024) else Err(OutOfRange("MAX_UPLOAD_MB"))
  }

  /** The fields as they arrive from the environment, before the validators run. */
  datatype RawSettings = RawSettings(
    env: string, logLevel: string, corsAllowOrigins: seq<string>, maxUploadMb: int,
    databaseUrl: string, embedModel: string, faissIndexPath: string, faissIdmapPath: string,
    geminiApiKey: Option<string>, geminiModel: string, geminiEmbedModel: string)

  datatype Settings = Settings(
    env: string, logLevel: string, corsAllowOrigins: seq<string>, maxUploadMb: int, maxUploadBytes: nat,
    databaseUrl: string, embedModel: string, faissIndexPath: string, faissIdmapPath: string,
    geminiApiKey: Option<string>, geminiModel: string, geminiEmbedModel: string)

  /** Every string field that has a validator is free of surrounding whitespace. */
  predicate Trimmed(s: Settings) {
    && Text.IsStripped(s.env) && Text.IsStripped(s.logLevel) && Text.IsStripped(s.databaseUrl)
    && Text.IsStripped(s.embedModel) && Text.IsStripped(s.faissIndexPath) && Text.IsStripped(s.faissIdmapPath)
    && Text.IsStripped(s.geminiModel) && Text.IsStripped(s.geminiEmbedModel)
    && forall i :: 0 <= i < |s.corsAllowOrigins| ==> s.corsAllowOrigins[i] != [] && Text.IsStripped(s.corsAllowOrigins[i])
  }

  /** Runs every validator; the API key has none and passes through. */
  function Validate(raw: RawSettings): (r: Result<Settings, SettingsError>)
    ensures r.Ok? <==> MinUploadMb <= raw.maxUploadMb <= MaxUploadMb
    ensures r.Ok? ==> r.value.maxUploadBytes == MaxUploadBytes(raw.maxUploadMb).value
    ensures r.Ok? ==> r.value.geminiApiKey == raw.geminiApiKey
    ensures r.Ok? ==> Trimmed(r.value)
    ensures r.Ok? ==> r.value.env == NormalizeEnv(raw.env) && r.value.logLevel == NormalizeLogLevel(raw.logLevel)
    ensures r.Ok? ==> r.value.corsAllowOrigins == CleanOrigins(raw.corsAllowOrigins)
    ensures r.Ok? ==> r.value.maxUploadMb == raw.maxUploadMb
    ensures r.Ok? ==> r.value.databaseUrl == Text.Strip(raw.databaseUrl) && r.value.embedModel == Text.Strip(raw.embedModel)
    ensures r.Ok? ==> r.value.faissIndexPath == Text.Strip(raw.faissIndexPath) && r.value.faissIdmapPath == Text.Strip(raw.faissIdmapPath)
    ensures r.Ok? ==> r.value.geminiModel == Text.Strip(raw.geminiModel) && r.value.geminiEmbedModel == Text.Strip(raw.geminiEmbedModel)
  {
    match MaxUploadBytes(raw.maxUploadMb)
    case Err(e) => Err(e)
    case Ok(bytes) =>
      Ok(Settings(NormalizeEnv(raw.env), NormalizeLogLevel(raw.logLevel), CleanOrigins(raw.corsAllowOrigins),
        raw.maxUploadMb, bytes, StripField(Some(raw.databaseUrl)), StripField(Some(raw.embedModel)),
        StripField(Some(raw.faissIndexPath)), StripField(Some(raw.faissIdmapPath)), raw.geminiApiKey,
        StripField(Some(raw.geminiModel)), StripField(Some(raw.geminiEmbedModel))))
  }

  function Unvalidated(s: Settings): RawSettings {
    RawSettings(s.env, s.logLevel, s.corsAllowOrigins, s.maxUploadMb, s.databaseUrl, s.embedModel,
      s.faissIndexPath, s.faissIdmapPath, s.geminiApiKey, s.geminiModel, s.geminiEmbedModel)
  }

  /**
   * Validating settings that already passed validation gives them back,
   * unless `ENV` or `LOG_LEVEL` was blank (then the second pass substitutes
   * the default).
   */
  lemma ValidateIdempotent(raw: RawSettings)
    requires Validate(raw).Ok?
    requires Validate(raw).value.env != [] && Validate(raw).value.logLevel != []
    ensures Validate(Unvalidated(Validate(raw).value)) == Validate(raw)
  {
    var s := Validate(raw).value;
    NormalizeEnvIdempotent(raw.env);
    NormalizeLogLevelIdempotent(raw.logLevel);
    CleanOriginsIdempotent(raw.corsAllowOrigins);
    StripFieldIdempotent(Some(raw.databaseUrl));
    StripFieldIdempotent(Some(raw.embedModel));
    StripFieldIdempotent(Some(raw.faissIndexPath));
    StripFieldIdempotent(Some(raw.faissIdmapPath));
    StripFieldIdempotent(Some(raw.geminiModel));
    StripFieldIdempotent(Some(raw.geminiEmbedModel));
  }
}

=== FILE: dashboard.dfy ===
/**
 * `GET /dashboard`: chart data over the last `days` days of logs, counted
 * back from the newest row. The severity breakdown, the busiest sources,
 * one time series per severity over a contiguous axis of buckets, and
 * incident cards grouped by `(source, severity)`.
 */
module Dashboard {
  import opened Outcomes
  import opened Records
  import Text
  import Tally
  import Sorting
  import Clock
  import Numerals

  const CanonicalSeverities: seq<string> := ["CRITICAL", "ERROR", "WARNING", "INFO"]
  const RowLimit := 20000
  const CardLimit := 8

  // ---------------------------------------------------------------------
  // Time buckets
  // ---------------------------------------------------------------------

  /** A nonzero multiple of `d` is at least `d` away from zero. */
  lemma MulSign(a: int, d: int)
    requires d > 0
    ensures a >= 1 ==> a * d >= d
    ensures a <= -1 ==> a * d <= -d
  {
  }

  lemma MulAssoc(a: int, b: int, c: int)
    ensures a * (b * c) == (a * b) * c
  {
  }

  /** Euclidean division is determined by a quotient and a remainder in range. */
  lemma DivMod(x: int, d: int, q: int, r: int)
    requires d > 0 && x == q * d + r && 0 <= r < d
    ensures x / d == q && x % d == r
  {
    var q0 := x / d;
    assert (q0 - q) * d == r - x % d;
    MulSign(q0 - q, d);
  }

  /** The minute within the hour of an instant. */
  function MinuteOfHour(t: int): (m: int)
    ensures 0 <= m < 60
  {
    t % Clock.SecondsPerHour / Clock.SecondsPerMinute
  }

  /** It is the calendar minute, `dt.minute`. */
  lemma MinuteOfHourIsMinute(t: int)
    ensures MinuteOfHour(t) == Clock.MinuteOf(t)
  {
    var x := t % 86400;
    DivMod(t, 3600, 24 * (t / 86400) + x / 3600, x % 3600);
  }

  /**
   * `_floor_to_bucket`: the minute of the hour floored to a multiple of
   * `bucketMinutes`, seconds zeroed, the hour and the date kept.
   */
  function FloorToBucket(t: int, bucketMinutes: int): (r: int)
    requires bucketMinutes > 0
    ensures r / Clock.SecondsPerHour == t / Clock.SecondsPerHour
    ensures r % Clock.SecondsPerHour == MinuteOfHour(r) * Clock.SecondsPerMinute
    ensures MinuteOfHour(r) % bucketMinutes == 0
    ensures MinuteOfHour(t) - bucketMinutes < MinuteOfHour(r) <= MinuteOfHour(t)
    ensures r <= t
  {
    var m := MinuteOfHour(t);
    var q := m / bucketMinutes;
    var mm := q * bucketMinutes;
    var r := t - t % Clock.SecondsPerHour + mm * Clock.SecondsPerMinute;
    FloorParts(t, bucketMinutes, m, q, mm, r);
    r
  }

  lemma FloorParts(t: int, bucketMinutes: int, m: int, q: int, mm: int, r: int)
    requires bucketMinutes > 0
    requires m == MinuteOfHour(t) && q == m / bucketMinutes && mm == q * bucketMinutes
    requires r == t - t % 3600 + mm * 60
    ensures r / 3600 == t / 3600 && r % 3600 == mm * 60
    ensures MinuteOfHour(r) == mm && mm % bucketMinutes == 0
    ensures m - bucketMinutes < mm <= m && r <= t
  {
    var h := t / 3600;
    assert m == q * bucketMinutes + m % bucketMinutes;
    assert 0 <= mm;
    DivMod(r, 3600, h, mm * 60);
    DivMod(mm * 60, 60, mm, 0);
    DivMod(mm, bucketMinutes, q, 0);
  }

  /** From an hour's length of buckets on, every row floors to the top of its hour. */
  lemma FloorToBucketTopOfHour(t: int, bucketMinutes: int)
    requires bucketMinutes >= 60
    ensures FloorToBucket(t, bucketMinutes) == t - t % Clock.SecondsPerHour
  {
    DivMod(MinuteOfHour(t), bucketMinutes, 0, MinuteOfHour(t));
  }

  /** Flooring a bucket start gives it back. */
  lemma FloorToBucketIdempotent(t: int, bucketMinutes: int)
    requires bucketMinutes > 0
    ensures FloorToBucket(FloorToBucket(t, bucketMinutes), bucketMinutes) == FloorToBucket(t, bucketMinutes)
  {
    var r := FloorToBucket(t, bucketMinutes);
    var m := MinuteOfHour(r);
    assert m == m / bucketMinutes * bucketMinutes + m % bucketMinutes;
  }

  /** A multiple of `step` at most one step below `t` is `t`'s floor on the grid of `step`. */
  lemma GridFloor(t: int, a: int, step: int)
    requires step > 0 && a % step == 0 && a <= t < a + step
    ensures a == t - t % step
  {
    assert a == a / step * step + a % step;
    DivMod(t, step, a / step, t - a);
  }

  /**
   * The bucket start on a grid of `bucketMinutes` counted from the epoch:
   * the flooring under which every bucket start lies on the time axis.
   */
  function AlignedBucket(t: int, bucketMinutes: int): (r: int)
    requires bucketMinutes > 0
    ensures r % (bucketMinutes * Clock.SecondsPerMinute) == 0
    ensures r <= t < r + bucketMinutes * Clock.SecondsPerMinute
  {
    var step := bucketMinutes * Clock.SecondsPerMinute;
    assert t == t / step * step + t % step;
    DivMod(t - t % step, step, t / step, 0);
    t - t % step
  }

  /** When the bucket size divides the hour, the aligned grid and the code's flooring agree. */
  lemma AlignedBucketAgrees(t: int, bucketMinutes: int)
    requires bucketMinutes > 0 && 60 % bucketMinutes == 0
    ensures AlignedBucket(t, bucketMinutes) == FloorToBucket(t, bucketMinutes)
  {
    var step := bucketMinutes * 60;
    var m := MinuteOfHour(t);
    var q := m / bucketMinutes;
    var mm := q * bucketMinutes;
    var f := FloorToBucket(t, bucketMinutes);
    var k := 60 / bucketMinutes;
    var h := t / 3600;
    FloorParts(t, bucketMinutes, m, q, mm, f);
    assert 60 == k * bucketMinutes;
    assert 3600 == k * step;
    assert h * 3600 == (h * k) * step by {
      MulAssoc(h, k, step);
    }
    assert mm * 60 == q * step by {
      MulAssoc(q, bucketMinutes, 60);
    }
    assert f == (h * k + q) * step;
    DivMod(f, step, h * k + q, 0);
    assert t % 3600 == m * 60 + t % 60 by {
      DivMod(t % 3600, 60, m, t % 3600 % 60);
      DivMod(t, 60, h * 60 + m, t % 3600 % 60);
    }
    GridFloor(t, f, step);
  }

  /** The choice of flooring the time series uses. */
  datatype Flooring = AsWritten | Aligned

  function Floor(f: Flooring, t: int, bucketMinutes: int): int
    requires bucketMinutes > 0
  {
    match f
    case AsWritten => FloorToBucket(t, bucketMinutes)
    case Aligned => AlignedBucket(t, bucketMinutes)
  }

  /** `while cur <= end: axis.append(cur); cur += step`. */
  function Axis(cur: int, end: int, step: int): (r: seq<int>)
    requires step > 0
    ensures r == [] <==> cur > end
    decreases end - cur + step
  {
    if cur > end then [] else [cur] + Axis(cur + step, end, step)
  }

  /** One step of the loop: the axis is `cur` followed by the axis from `cur + step`. */
  lemma AxisStep(cur: int, end: int, step: int)
    requires step > 0 && cur <= end
    ensures Axis(cur, end, step) == [cur] + Axis(cur + step, end, step)
  {
  }

  /** The axis starts at `cur` and stops only once one more step would pass `end`. */
  lemma {:induction false} AxisEnds(cur: int, end: int, step: int)
    requires step > 0
    ensures Axis(cur, end, step) != [] ==> Axis(cur, end, step)[0] == cur
    ensures Axis(cur, end, step) != [] ==> end < Axis(cur, end, step)[|Axis(cur, end, step)| - 1] + step
    decreases end - cur + step
  {
    if cur <= end {
      AxisStep(cur, end, step);
      AxisEnds(cur + step, end, step);
    }
  }

  /** Consecutive points of the axis are one `step` apart. */
  lemma {:induction false} AxisSteps(cur: int, end: int, step: int)
    requires step > 0
    ensures forall i :: 0 < i < |Axis(cur, end, step)| ==> Axis(cur, end, step)[i] == Axis(cur, end, step)[i - 1] + step
    decreases end - cur + step
  {
    if cur <= end {
      var rest := Axis(cur + step, end, step);
      var r := Axis(cur, end, step);
      AxisStep(cur, end, step);
      AxisSteps(cur + step, end, step);
      AxisEnds(cur + step, end, step);
      forall i | 0 < i < |r|
        ensures r[i] == r[i - 1] + step
      {
        assert r[i] == rest[i - 1];
        if i > 1 {
          assert r[i - 1] == rest[i - 2];
        }
      }
    }
  }

  /** Every point of the axis lies within `cur..end`. */
  lemma {:induction false} AxisWithin(cur: int, end: int, step: int)
    requires step > 0
    ensures forall i :: 0 <= i < |Axis(cur, end, step)| ==> cur <= Axis(cur, end, step)[i] <= end
    decreases end - cur + step
  {
    if cur <= end {
      var rest := Axis(cur + step, end, step);
      var r := Axis(cur, end, step);
      AxisStep(cur, end, step);
      AxisWithin(cur + step, end, step);
      forall i | 0 < i < |r|
        ensures cur <= r[i] <= end
      {
        assert r[i] == rest[i - 1];
      }
    }
  }

  /** Every point of the grid of `step` from `cur` up to `end` lies on the axis. */
  lemma {:induction false} AxisHas(cur: int, end: int, step: int, k: nat)
    requires step > 0 && cur + k * step <= end
    ensures cur + k * step in Axis(cur, end, step)
    decreases k
  {
    if k > 0 {
      assert cur + step + (k - 1) * step == cur + k * step;
      AxisHas(cur + step, end, step, k - 1);
      assert Axis(cur, end, step) == [cur] + Axis(cur + step, end, step);
    }
  }

  /** The least of some integers: `min(bucket_starts)`. */
  function Least(s: seq<int>): (m: int)
    requires s != []
    ensures m in s && forall i :: 0 <= i < |s| ==> m <= s[i]
  {
    if |s| == 1 then s[0]
    else
      var rest := Least(s[1..]);
      assert forall i :: 1 <= i < |s| ==> s[i] == s[1..][i - 1];
      if s[0] <= rest then s[0] else rest
  }

  /** The greatest of some integers: `max(bucket_starts)`. */
  function Greatest(s: seq<int>): (m: int)
    requires s != []
    ensures m in s && forall i :: 0 <= i < |s| ==> s[i] <= m
  {
    if |s| == 1 then s[0]
    else
      var rest := Greatest(s[1..]);
      assert forall i :: 1 <= i < |s| ==> s[i] == s[1..][i - 1];
      if s[0] >= rest then s[0] else rest
  }

  /** The bucket start of every row of the window, in order. */
  function BucketStarts(window: seq<LogRecord>, f: Flooring, bucketMinutes: int): (r: seq<int>)
    requires bucketMinutes > 0
    ensures |r| == |window|
    ensures forall i :: 0 <= i < |window| ==> r[i] == Floor(f, window[i].timestamp, bucketMinutes)
  {
    Tally.Map(window, (x: LogRecord) => Floor(f, x.timestamp, bucketMinutes))
  }

  /**
   * The continuous time axis: from the least bucket start, in steps of
   * `bucketMinutes`, up to the greatest; empty for an empty window.
   */
  function TimeAxis(window: seq<LogRecord>, f: Flooring, bucketMinutes: int): (r: seq<int>)
    requires bucketMinutes > 0
    ensures r == [] <==> window == []
    ensures r != [] ==> (r[0] == Least(BucketStarts(window, f, bucketMinutes))
      && r[|r| - 1] <= Greatest(BucketStarts(window, f, bucketMinutes)))
    ensures forall i :: 0 < i < |r| ==> r[i] == r[i - 1] + bucketMinutes * Clock.SecondsPerMinute
  {
    if window == [] then []
    else
      var starts := BucketStarts(window, f, bucketMinutes);
      AxisEnds(Least(starts), Greatest(starts), bucketMinutes * Clock.SecondsPerMinute);
      AxisSteps(Least(starts), Greatest(starts), bucketMinutes * Clock.SecondsPerMinute);
      AxisWithin(Least(starts), Greatest(starts), bucketMinutes * Clock.SecondsPerMinute);
      Axis(Least(starts), Greatest(starts), bucketMinutes * Clock.SecondsPerMinute)
  }

  /** Two points of the grid of `step` are a whole number of steps apart. */
  lemma GridOffset(lo: int, b: int, step: int)
    requires step > 0 && lo % step == 0 && b % step == 0 && lo <= b
    ensures (b - lo) / step >= 0 && lo + (b - lo) / step * step == b
  {
    var k := b / step - lo / step;
    assert b - lo == b / step * step - lo / step * step;
    assert b - lo == k * step;
    DivMod(b - lo, step, k, 0);
  }

  /**
   * With the aligned grid, the bucket of every row of the window is a point
   * of the axis, so every row is counted in some series.
   */
  lemma AlignedBucketsOnAxis(window: seq<LogRecord>, bucketMinutes: int, i: nat)
    requires bucketMinutes > 0 && i < |window|
    ensures Floor(Aligned, window[i].timestamp, bucketMinutes) in TimeAxis(window, Aligned, bucketMinutes)
  {
    var starts := BucketStarts(window, Aligned, bucketMinutes);
    var step := bucketMinutes * Clock.SecondsPerMinute;
    var lo := Least(starts);
    GridOffset(lo, starts[i], step);
    var k := (starts[i] - lo) / step;
    AxisHas(lo, Greatest(starts), step, k);
  }

  /**
   * With the code's flooring and 45-minute buckets, a row at 10:00 and a
   * row at 11:50 on the first day of the epoch give buckets 10:00 and 11:45,
   * but the axis runs 10:00, 10:45, 11:30: the second row's bucket is not
   * on it, and that row is missing from every series.
   */
  lemma AsWrittenBucketOffAxis()
    ensures var w := [LogRecord("log_000001", "f", 36000, "UNIT-1", "INFO", "a"),
                      LogRecord("log_000002", "f", 42600, "UNIT-1", "INFO", "b")];
      && Floor(AsWritten, 42600, 45) == 42300
      && TimeAxis(w, AsWritten, 45) == [36000, 38700, 41400]
      && Floor(AsWritten, 42600, 45) !in TimeAxis(w, AsWritten, 45)
  {
    var w := [LogRecord("log_000001", "f", 36000, "UNIT-1", "INFO", "a"),
              LogRecord("log_000002", "f", 42600, "UNIT-1", "INFO", "b")];
    assert Clock.MinuteOf(36000) == 0;
    assert Clock.MinuteOf(42600) == 50;
    assert FloorToBucket(36000, 45) == 36000;
    assert FloorToBucket(42600, 45) == 42300;
    var starts := BucketStarts(w, AsWritten, 45);
    assert starts == [36000, 42300];
    assert Least(starts) == 36000;
    assert Greatest(starts) == 42300;
    assert Axis(44100, 42300, 2700) == [];
    assert Axis(41400, 42300, 2700) == [41400];
    assert Axis(38700, 42300, 2700) == [38700, 41400];
  }

  // ---------------------------------------------------------------------
  // Severity breakdown
  // ---------------------------------------------------------------------

  /** The severity every row of the window is counted under, in order. */
  function Severities(window: seq<LogRecord>): (r: seq<string>)
    ensures |r| == |window|
  {
    Tally.Map(window, SevKey)
  }

  /**
   * The keys of `severity_breakdown`, in dictionary order: the four
   * canonical severities, then the other severities of the window in the
   * order the `Counter` first met them.
   */
  function BreakdownKeys(window: seq<LogRecord>): seq<string> {
    CanonicalSeverities + Tally.Filter(Tally.Distinct(Severities(window)), (s: string) => s !in CanonicalSeverities)
  }

  /** `severity_breakdown`: each key with its count in the window, zero for an absent canonical one. */
  function Breakdown(window: seq<LogRecord>): (r: seq<(string, nat)>)
    ensures |r| == |BreakdownKeys(window)|
    ensures forall i :: 0 <= i < |r| ==> r[i].0 == BreakdownKeys(window)[i]
  {
    Tally.Map(BreakdownKeys(window), (s: string) => (s, Tally.Count(Severities(window), s)))
  }

  /** Each count of the breakdown is the number of rows of the window with that severity. */
  lemma BreakdownCounts(window: seq<LogRecord>, i: nat)
    requires i < |Breakdown(window)|
    ensures Breakdown(window)[i].1 == |Tally.Group(window, SevKey, Breakdown(window)[i].0)|
  {
    var s := Breakdown(window)[i].0;
    assert Breakdown(window)[i].1 == Tally.Count(Severities(window), s);
    Tally.GroupSize(window, SevKey, s);
  }

  lemma CanonicalNoDups()
    ensures Tally.NoDups(CanonicalSeverities)
  {
    assert CanonicalSeverities[0][0] == 'C' && CanonicalSeverities[1][0] == 'E';
    assert CanonicalSeverities[2][0] == 'W' && CanonicalSeverities[3][0] == 'I';
  }

  /**
   * The breakdown lists the canonical severities first, names every
   * severity at most once, and names every severity of the window; past
   * the canonical four, only severities the window holds appear.
   */
  lemma BreakdownKeysSpec(window: seq<LogRecord>)
    ensures |BreakdownKeys(window)| >= 4 && BreakdownKeys(window)[..4] == CanonicalSeverities
    ensures Tally.NoDups(BreakdownKeys(window))
    ensures BreakdownKeys(window) == Tally.Distinct(CanonicalSeverities + Tally.Distinct(Severities(window)))
    ensures forall x :: x in window ==> SevKey(x) in BreakdownKeys(window)
    ensures forall s :: s in Severities(window) ==> s in BreakdownKeys(window)
    ensures forall i :: 4 <= i < |BreakdownKeys(window)| ==>
      BreakdownKeys(window)[i] in Severities(window) && BreakdownKeys(window)[i] !in CanonicalSeverities
  {
    BreakdownKeysDistinct(window);
    BreakdownKeysCover(window);
    BreakdownKeysTail(window);
  }

  lemma BreakdownKeysDistinct(window: seq<LogRecord>)
    ensures |BreakdownKeys(window)| >= 4 && BreakdownKeys(window)[..4] == CanonicalSeverities
    ensures BreakdownKeys(window) == Tally.Distinct(CanonicalSeverities + Tally.Distinct(Severities(window)))
    ensures Tally.NoDups(BreakdownKeys(window))
  {
    CanonicalNoDups();
    Tally.DistinctAppend(CanonicalSeverities, Tally.Distinct(Severities(window)));
  }

  lemma BreakdownKeysCover(window: seq<LogRecord>)
    ensures forall x :: x in window ==> SevKey(x) in BreakdownKeys(window)
    ensures forall s :: s in Severities(window) ==> s in BreakdownKeys(window)
  {
    var sevs := Severities(window);
    var d := Tally.Distinct(sevs);
    var keys := BreakdownKeys(window);
    forall s | s in sevs
      ensures s in keys
    {
      var i :| 0 <= i < |sevs| && sevs[i] == s;
      assert s in d;
      if s !in CanonicalSeverities {
        var j :| 0 <= j < |d| && d[j] == s;
        assert s in Tally.Filter(d, (s: string) => s !in CanonicalSeverities);
      }
    }
    forall x | x in window
      ensures SevKey(x) in keys
    {
      var i :| 0 <= i < |window| && window[i] == x;
      assert sevs[i] == SevKey(x);
    }
  }

  lemma BreakdownKeysTail(window: seq<LogRecord>)
    ensures forall i :: 4 <= i < |BreakdownKeys(window)| ==>
      BreakdownKeys(window)[i] in Severities(window) && BreakdownKeys(window)[i] !in CanonicalSeverities
  {
    var sevs := Severities(window);
    var d := Tally.Distinct(sevs);
    var rest := Tally.Filter(d, (s: string) => s !in CanonicalSeverities);
    var keys := BreakdownKeys(window);
    forall i | 4 <= i < |keys|
      ensures keys[i] in sevs && keys[i] !in CanonicalSeverities
    {
      assert keys[i] == rest[i - 4];
      assert keys[i] in d;
      var j :| 0 <= j < |d| && d[j] == keys[i];
    }
  }

  /** The breakdown accounts for every row of the window exactly once. */
  lemma BreakdownSum(window: seq<LogRecord>)
    ensures Tally.SumValues(Breakdown(window)) == |window|
  {
    var sevs := Severities(window);
    var keys := BreakdownKeys(window);
    BreakdownKeysSpec(window);
    Tally.SumValuesOfCounts(keys, sevs);
    Tally.SumCountsIsCountIn(keys, sevs);
    Tally.CountInAll(sevs, keys);
  }

  // ---------------------------------------------------------------------
  // Top sources
  // ---------------------------------------------------------------------

  /** `SourceCount`: one bar of the top-sources chart. */
  datatype SourceCount = SourceCount(source: string, count: nat)

  /** `Counter(r.source or "UNKNOWN").most_common(limit)`. */
  function TopSources(window: seq<LogRecord>, limit: nat): (r: seq<SourceCount>)
    ensures |r| <= limit
  {
    var top := Tally.MostCommon(Tally.Map(window, SourceKey), limit);
    Tally.MostCommonSpec(Tally.Map(window, SourceKey), limit);
    Tally.Map(top, (p: (string, nat)) => SourceCount(p.0, p.1))
  }

  /**
   * The top sources are sources of the window with their true counts, in
   * non-increasing order of count, and a source left out is no busier than
   * any source listed.
   */
  lemma TopSourcesSpec(window: seq<LogRecord>, limit: nat)
    ensures |TopSources(window, limit)| ==
      if limit < |Tally.Distinct(Tally.Map(window, SourceKey))| then limit else |Tally.Distinct(Tally.Map(window, SourceKey))|
    ensures forall i, j :: 0 <= i < j < |TopSources(window, limit)| && TopSources(window, limit)[i].count == TopSources(window, limit)[j].count ==>
      && TopSources(window, limit)[i].source in Tally.Map(window, SourceKey)
      && TopSources(window, limit)[j].source in Tally.Map(window, SourceKey)
      && Tally.FirstIndex(Tally.Map(window, SourceKey), TopSources(window, limit)[i].source)
         < Tally.FirstIndex(Tally.Map(window, SourceKey), TopSources(window, limit)[j].source)
    ensures forall i, j :: 0 <= i < j < |TopSources(window, limit)| ==>
      TopSources(window, limit)[i].count >= TopSources(window, limit)[j].count
    ensures forall i :: 0 <= i < |TopSources(window, limit)| ==>
      && TopSources(window, limit)[i].source in Tally.Map(window, SourceKey)
      && TopSources(window, limit)[i].count == |Tally.Group(window, SourceKey, TopSources(window, limit)[i].source)|
    ensures forall x :: x in window && (forall i :: 0 <= i < |TopSources(window, limit)| ==> TopSources(window, limit)[i].source != SourceKey(x)) ==>
      forall i :: 0 <= i < |TopSources(window, limit)| ==> |Tally.Group(window, SourceKey, SourceKey(x))| <= TopSources(window, limit)[i].count
  {
    TopSourcesCounts(window, limit);
    TopSourcesLeftOut(window, limit);
    TopSourcesTies(window, limit);
  }

  /** As many top sources as asked for or as there are, with tied counts in first-occurrence order. */
  lemma TopSourcesTies(window: seq<LogRecord>, limit: nat)
    ensures |TopSources(window, limit)| ==
      if limit < |Tally.Distinct(Tally.Map(window, SourceKey))| then limit else |Tally.Distinct(Tally.Map(window, SourceKey))|
    ensures forall i, j :: 0 <= i < j < |TopSources(window, limit)| && TopSources(window, limit)[i].count == TopSources(window, limit)[j].count ==>
      && TopSources(window, limit)[i].source in Tally.Map(window, SourceKey)
      && TopSources(window, limit)[j].source in Tally.Map(window, SourceKey)
      && Tally.FirstIndex(Tally.Map(window, SourceKey), TopSources(window, limit)[i].source)
         < Tally.FirstIndex(Tally.Map(window, SourceKey), TopSources(window, limit)[j].source)
  {
    var srcs := Tally.Map(window, SourceKey);
    var top := Tally.MostCommon(srcs, limit);
    var r := TopSources(window, limit);
    Tally.MostCommonSpec(srcs, limit);
    Tally.MostCommonTies(srcs, limit);
    assert forall i :: 0 <= i < |r| ==> r[i].source == top[i].0 && r[i].count == top[i].1;
  }

  lemma TopSourcesCounts(window: seq<LogRecord>, limit: nat)
    ensures forall i, j :: 0 <= i < j < |TopSources(window, limit)| ==>
      TopSources(window, limit)[i].count >= TopSources(window, limit)[j].count
    ensures forall i :: 0 <= i < |TopSources(window, limit)| ==>
      && TopSources(window, limit)[i].source in Tally.Map(window, SourceKey)
      && TopSources(window, limit)[i].count == |Tally.Group(window, SourceKey, TopSources(window, limit)[i].source)|
  {
    var srcs := Tally.Map(window, SourceKey);
    var r := TopSources(window, limit);
    var top := Tally.MostCommon(srcs, limit);
    Tally.MostCommonSpec(srcs, limit);
    forall i | 0 <= i < |r|
      ensures r[i].source in srcs && r[i].count == |Tally.Group(window, SourceKey, r[i].source)|
    {
      assert r[i] == SourceCount(top[i].0, top[i].1);
      Tally.GroupSize(window, SourceKey, r[i].source);
    }
    forall i, j | 0 <= i < j < |r|
      ensures r[i].count >= r[j].count
    {
      assert r[i].count == top[i].1 && r[j].count == top[j].1;
    }
  }

  lemma TopSourcesLeftOut(window: seq<LogRecord>, limit: nat)
    ensures forall x :: x in window && (forall i :: 0 <= i < |TopSources(window, limit)| ==> TopSources(window, limit)[i].source != SourceKey(x)) ==>
      forall i :: 0 <= i < |TopSources(window, limit)| ==> |Tally.Group(window, SourceKey, SourceKey(x))| <= TopSources(window, limit)[i].count
  {
    var srcs := Tally.Map(window, SourceKey);
    var r := TopSources(window, limit);
    var top := Tally.MostCommon(srcs, limit);
    forall x | x in window && (forall i :: 0 <= i < |r| ==> r[i].source != SourceKey(x))
      ensures forall i :: 0 <= i < |r| ==> |Tally.Group(window, SourceKey, SourceKey(x))| <= r[i].count
    {
      var k :| 0 <= k < |window| && window[k] == x;
      assert srcs[k] == SourceKey(x);
      forall i | 0 <= i < |top|
        ensures top[i].0 != SourceKey(x)
      {
        assert r[i].source == top[i].0;
      }
      Tally.MostCommonIsTop(srcs, limit, SourceKey(x));
      Tally.GroupSize(window, SourceKey, SourceKey(x));
      forall i | 0 <= i < |r|
        ensures |Tally.Group(window, SourceKey, SourceKey(x))| <= r[i].count
      {
        assert r[i].count == top[i].1;
      }
    }
  }

  // ---------------------------------------------------------------------
  // Severity time series
  // ---------------------------------------------------------------------

  /** `TimeBucket`: one point of a series. */
  datatype TimeBucket = TimeBucket(bucketStart: string, count: nat)

  /** `SeveritySeries`: the counts of one severity along the time axis. */
  datatype SeveritySeries = SeveritySeries(severity: string, buckets: seq<TimeBucket>)

  /** The `(severity, bucket start)` cell of every row of the window, in order. */
  function Cells(window: seq<LogRecord>, f: Flooring, bucketMinutes: int): (r: seq<(string, int)>)
    requires bucketMinutes > 0
    ensures |r| == |window|
    ensures forall i :: 0 <= i < |window| ==> r[i] == (SevKey(window[i]), Floor(f, window[i].timestamp, bucketMinutes))
  {
    Tally.Map(window, (x: LogRecord) => (SevKey(x), Floor(f, x.timestamp, bucketMinutes)))
  }

  /** Ascending string order, as `sorted` uses. */
  function ByText(): (string, string) -> bool {
    (a: string, b: string) => Text.Less(a, b)
  }

  lemma ByTextIsStrictWeakOrder()
    ensures Sorting.StrictWeakOrder(ByText())
  {
    Text.LessIsStrictTotalOrder();
  }

  /** `dict.fromkeys(CANONICAL_SEVERITIES + sorted(buckets.keys()))`. */
  function AllSeverities(window: seq<LogRecord>): seq<string> {
    Tally.Distinct(CanonicalSeverities + Sorting.SortStable(Tally.Distinct(Severities(window)), ByText()))
  }

  /** The severities past the canonical four, in ascending order. */
  function OtherSeverities(window: seq<LogRecord>): seq<string> {
    Tally.Filter(Sorting.SortStable(Tally.Distinct(Severities(window)), ByText()), (s: string) => s !in CanonicalSeverities)
  }

  lemma AllSeveritiesSplit(window: seq<LogRecord>)
    ensures AllSeverities(window) == CanonicalSeverities + OtherSeverities(window)
    ensures Tally.NoDups(AllSeverities(window))
  {
    var d := Tally.Distinct(Severities(window));
    var sorted := Sorting.SortStable(d, ByText());
    CanonicalNoDups();
    Tally.PermNoDups(d, sorted);
    Tally.DistinctAppend(CanonicalSeverities, sorted);
  }

  /** The other severities are those of the window outside the canonical four, in strictly ascending order. */
  lemma OtherSeveritiesSpec(window: seq<LogRecord>)
    ensures var o := OtherSeverities(window);
      && (forall i, j :: 0 <= i < j < |o| ==> Text.Less(o[i], o[j]))
      && (forall s :: s in o <==> s in Severities(window) && s !in CanonicalSeverities)
  {
    var d := Tally.Distinct(Severities(window));
    var sorted := Sorting.SortStable(d, ByText());
    var notCanon := (s: string) => s !in CanonicalSeverities;
    var o := OtherSeverities(window);
    Tally.PermNoDups(d, sorted);
    ByTextIsStrictWeakOrder();
    Sorting.SortStableSorted(d, ByText());
    Tally.FilterSorted(sorted, notCanon, ByText());
    Tally.FilterNoDups(sorted, notCanon);
    Text.LessIsStrictTotalOrder();
    forall s | s in o
      ensures s in Severities(window)
    {
      assert s in multiset(sorted);
    }
    forall s | s in Severities(window) && s !in CanonicalSeverities
      ensures s in o
    {
      assert s in multiset(d);
      var k :| 0 <= k < |sorted| && sorted[k] == s;
    }
  }

  /**
   * The severities a series may be drawn for: the canonical four first,
   * then the other severities of the window in ascending order, each once,
   * and every severity of the window among them.
   */
  lemma AllSeveritiesSpec(window: seq<LogRecord>)
    ensures var r := AllSeverities(window);
      && |r| >= 4 && r[..4] == CanonicalSeverities
      && Tally.NoDups(r)
      && (forall i, j :: 4 <= i < j < |r| ==> Text.Less(r[i], r[j]))
      && (forall i :: 4 <= i < |r| ==> r[i] in Severities(window))
      && (forall s :: s in Severities(window) ==> s in r)
  {
    AllSeveritiesSplit(window);
    OtherSeveritiesSpec(window);
    var r := AllSeverities(window);
    var o := OtherSeverities(window);
    assert r[..4] == CanonicalSeverities;
    forall i, j | 4 <= i < j < |r|
      ensures Text.Less(r[i], r[j])
    {
      assert r[i] == o[i - 4] && r[j] == o[j - 4];
    }
    forall i | 4 <= i < |r|
      ensures r[i] in Severities(window)
    {
      assert r[i] == o[i - 4];
      assert o[i - 4] in o;
    }
    forall s | s in Severities(window)
      ensures s in r
    {
      if s !in CanonicalSeverities {
        assert s in o;
      }
    }
  }

  /**
   * The series of one severity: its count in every bucket of the axis,
   * kept only when some bucket counts a row.
   */
  function SeriesOf(cells: seq<(string, int)>, axis: seq<int>, sev: string): (r: Option<SeveritySeries>)
    ensures r.Some? <==> exists j :: 0 <= j < |axis| && (sev, axis[j]) in cells
    ensures r.Some? ==> (r.value.severity == sev && |r.value.buckets| == |axis|
      && forall j :: 0 <= j < |axis| ==> r.value.buckets[j] == TimeBucket(Clock.IsoZ(axis[j]), Tally.Count(cells, (sev, axis[j]))))
  {
    var buckets := Tally.Map(axis, (b: int) => TimeBucket(Clock.IsoZ(b), Tally.Count(cells, (sev, b))));
    if exists j :: 0 <= j < |buckets| && buckets[j].count > 0 then Some(SeveritySeries(sev, buckets)) else None
  }

  /** `severity_timeseries`: one series per severity that has a row on the axis. */
  function Timeseries(window: seq<LogRecord>, f: Flooring, bucketMinutes: int): seq<SeveritySeries>
    requires bucketMinutes > 0
  {
    var cells := Cells(window, f, bucketMinutes);
    var axis := TimeAxis(window, f, bucketMinutes);
    Somes(Tally.Map(AllSeverities(window), (sev: string) => SeriesOf(cells, axis, sev)))
  }

  /**
   * Every series is drawn over the whole axis, counts the rows of its
   * severity in each bucket, holds a row somewhere, and is for one of the
   * severities of the chart.
   */
  lemma TimeseriesShape(window: seq<LogRecord>, f: Flooring, bucketMinutes: int, s: SeveritySeries)
    requires bucketMinutes > 0 && s in Timeseries(window, f, bucketMinutes)
    ensures s.severity in AllSeverities(window)
    ensures |s.buckets| == |TimeAxis(window, f, bucketMinutes)|
    ensures forall j :: 0 <= j < |TimeAxis(window, f, bucketMinutes)| ==>
      && s.buckets[j].bucketStart == Clock.IsoZ(TimeAxis(window, f, bucketMinutes)[j])
      && s.buckets[j].count == Tally.Count(Cells(window, f, bucketMinutes), (s.severity, TimeAxis(window, f, bucketMinutes)[j]))
    ensures exists j :: 0 <= j < |TimeAxis(window, f, bucketMinutes)| && s.buckets[j].count > 0
  {
    var cells := Cells(window, f, bucketMinutes);
    var axis := TimeAxis(window, f, bucketMinutes);
    var keys := AllSeverities(window);
    var opts := Tally.Map(keys, (sev: string) => SeriesOf(cells, axis, sev));
    var k :| 0 <= k < |opts| && opts[k] == Some(s);
    assert SeriesOf(cells, axis, keys[k]) == Some(s);
    assert s.severity == keys[k];
    var j :| 0 <= j < |axis| && (keys[k], axis[j]) in cells;
    assert s.buckets[j].count == Tally.Count(cells, (keys[k], axis[j]));
  }

  /**
   * On the aligned grid every row of the window is counted: the series of
   * its severity exists and has a positive count in the bucket of its time.
   */
  lemma TimeseriesCountsEveryRow(window: seq<LogRecord>, bucketMinutes: int, i: nat)
    requires bucketMinutes > 0 && i < |window|
    ensures exists s :: (s in Timeseries(window, Aligned, bucketMinutes) && s.severity == SevKey(window[i])
      && exists j :: (0 <= j < |s.buckets| && s.buckets[j].bucketStart == Clock.IsoZ(AlignedBucket(window[i].timestamp, bucketMinutes))
        && s.buckets[j].count >= 1))
  {
    var cells := Cells(window, Aligned, bucketMinutes);
    var axis := TimeAxis(window, Aligned, bucketMinutes);
    var keys := AllSeverities(window);
    var sev := SevKey(window[i]);
    var b := AlignedBucket(window[i].timestamp, bucketMinutes);
    AlignedBucketsOnAxis(window, bucketMinutes, i);
    var j :| 0 <= j < |axis| && axis[j] == b;
    assert cells[i] == (sev, b);
    assert Severities(window)[i] == sev;
    AllSeveritiesSpec(window);
    var k :| 0 <= k < |keys| && keys[k] == sev;
    var opts := Tally.Map(keys, (sev: string) => SeriesOf(cells, axis, sev));
    assert opts[k] == SeriesOf(cells, axis, sev);
    var s := SeriesOf(cells, axis, sev).value;
    assert s in Timeseries(window, Aligned, bucketMinutes);
    assert s.buckets[j].count >= 1;
  }

  /**
   * With the code's flooring, the row of the earlier example at 11:50 is in
   * no bucket of any series: no bucket of the chart starts at 11:45.
   */
  lemma AsWrittenRowUncounted(s: SeveritySeries)
    requires s in Timeseries([LogRecord("log_000001", "f", 36000, "UNIT-1", "INFO", "a"),
                              LogRecord("log_000002", "f", 42600, "UNIT-1", "INFO", "b")], AsWritten, 45)
    ensures forall j :: 0 <= j < |s.buckets| ==> s.buckets[j].bucketStart != Clock.IsoZ(Floor(AsWritten, 42600, 45))
  {
    var w := [LogRecord("log_000001", "f", 36000, "UNIT-1", "INFO", "a"),
              LogRecord("log_000002", "f", 42600, "UNIT-1", "INFO", "b")];
    AsWrittenBucketOffAxis();
    TimeseriesShape(w, AsWritten, 45, s);
    var axis := TimeAxis(w, AsWritten, 45);
    forall j | 0 <= j < |s.buckets|
      ensures s.buckets[j].bucketStart != Clock.IsoZ(Floor(AsWritten, 42600, 45))
    {
      if s.buckets[j].bucketStart == Clock.IsoZ(Floor(AsWritten, 42600, 45)) {
        Clock.IsoZInjective(axis[j], Floor(AsWritten, 42600, 45));
      }
    }
  }

  // ---------------------------------------------------------------------
  // Recent incidents
  // ---------------------------------------------------------------------

  /** `sev_rank`: only the four canonical labels rank, CRITICAL highest. */
  function DashRank(sev: string): (r: nat)
    ensures r <= 4
    ensures r == 0 <==> sev !in CanonicalSeverities
    ensures forall i :: 0 <= i < |CanonicalSeverities| ==> (sev == CanonicalSeverities[i] <==> r == 4 - i)
  {
    if sev == "CRITICAL" then 4
    else if sev == "ERROR" then 3
    else if sev == "WARNING" then 2
    else if sev == "INFO" then 1
    else 0
  }

  /** One `(source, severity)` cluster, with its first and last time still as instants. */
  datatype Card = Card(source: string, severity: string, firstSeen: int, lastSeen: int, related: nat)

  /** The card of one `(source, severity)` key; `None` when no row has the key. */
  function CardOf(window: seq<LogRecord>, k: (string, string)): (r: Option<Card>)
    ensures r.Some? <==> k in Tally.Map(window, SourceSevKey)
    ensures r.Some? ==> (r.value.source == k.0 && r.value.severity == k.1
      && r.value.related == Tally.Count(Tally.Map(window, SourceSevKey), k)
      && r.value.firstSeen <= r.value.lastSeen
      && (forall x :: x in window && SourceSevKey(x) == k ==> r.value.firstSeen <= x.timestamp <= r.value.lastSeen)
      && (exists x :: x in window && SourceSevKey(x) == k && x.timestamp == r.value.firstSeen)
      && (exists x :: x in window && SourceSevKey(x) == k && x.timestamp == r.value.lastSeen))
  {
    var items := Tally.Group(window, SourceSevKey, k);
    Tally.GroupSize(window, SourceSevKey, k);
    Tally.GroupMembers(window, SourceSevKey, k);
    if items == [] then None
    else
      CardTimes(items);
      Some(Card(k.0, k.1, Oldest(items), Newest(items), |items|))
  }

  /** The oldest and newest rows of a group bound every row of it and belong to it. */
  lemma CardTimes(items: seq<LogRecord>)
    requires items != []
    ensures Oldest(items) <= Newest(items)
    ensures forall x :: x in items ==> Oldest(items) <= x.timestamp <= Newest(items)
    ensures exists x :: x in items && x.timestamp == Oldest(items)
    ensures exists x :: x in items && x.timestamp == Newest(items)
  {
    var i :| 0 <= i < |items| && items[i].timestamp == Oldest(items);
    var j :| 0 <= j < |items| && items[j].timestamp == Newest(items);
    assert items[i] in items && items[j] in items;
  }

  /** The cards of every `(source, severity)` key, in the order the keys first occur. */
  function Cards(window: seq<LogRecord>): seq<Card> {
    Somes(Tally.Map(Tally.GroupKeys(window, SourceSevKey), (k: (string, string)) => CardOf(window, k)))
  }

  /** There is exactly one card per key of the window. */
  lemma CardsPerKey(window: seq<LogRecord>)
    ensures var keys := Tally.GroupKeys(window, SourceSevKey);
      && |Cards(window)| == |keys|
      && forall i :: 0 <= i < |keys| ==> Some(Cards(window)[i]) == CardOf(window, keys[i])
  {
    var keys := Tally.GroupKeys(window, SourceSevKey);
    var opts := Tally.Map(keys, (k: (string, string)) => CardOf(window, k));
    Outcomes.SomesAll(opts);
  }

  /** The sum of the related entries of the cards. */
  function SumRelated(cards: seq<Card>): nat {
    if cards == [] then 0 else SumRelated(cards[..|cards| - 1]) + cards[|cards| - 1].related
  }

  lemma {:induction false} SumRelatedIsSumCounts<K>(cards: seq<Card>, d: seq<K>, s: seq<K>)
    requires |cards| == |d|
    requires forall i :: 0 <= i < |d| ==> cards[i].related == Tally.Count(s, d[i])
    ensures SumRelated(cards) == Tally.SumCounts(d, s)
  {
    if d != [] {
      var n := |d| - 1;
      SumRelatedIsSumCounts(cards[..n], d[..n], s);
    }
  }

  /** The cards split the window: their related entries add up to its size. */
  lemma CardsSum(window: seq<LogRecord>)
    ensures SumRelated(Cards(window)) == |window|
  {
    var keys := Tally.GroupKeys(window, SourceSevKey);
    var cards := Cards(window);
    CardsPerKey(window);
    forall i | 0 <= i < |keys|
      ensures cards[i].related == Tally.Count(Tally.Map(window, SourceSevKey), keys[i])
    {
      assert Some(cards[i]) == CardOf(window, keys[i]);
    }
    SumRelatedIsSumCounts(cards, keys, Tally.Map(window, SourceSevKey));
    Tally.CountsSum(Tally.Map(window, SourceSevKey));
  }

  /** `_iso_z(last_seen)`: the card's sort key compares the rendered text. */
  function CardKey(c: Card): (nat, nat, string) {
    (DashRank(c.severity), c.related, Clock.IsoZ(c.lastSeen))
  }

  /** Python's tuple comparison `a > b` on `(rank, related entries, last seen)`. */
  predicate CardKeyAbove(a: (nat, nat, string), b: (nat, nat, string)) {
    a.0 > b.0 || (a.0 == b.0 && (a.1 > b.1 || (a.1 == b.1 && Text.Less(b.2, a.2))))
  }

  /** `sort(key=..., reverse=True)`: a greater key first. */
  function ByCard(): (Card, Card) -> bool {
    (a: Card, b: Card) => CardKeyAbove(CardKey(a), CardKey(b))
  }

  lemma ByCardIsStrictWeakOrder()
    ensures Sorting.StrictWeakOrder(ByCard())
  {
    Text.LessIsStrictTotalOrder();
    forall a: Card, b: Card, c: Card | ByCard()(a, c)
      ensures ByCard()(a, b) || ByCard()(b, c)
    {
      var ka, kb, kc := CardKey(a), CardKey(b), CardKey(c);
      if ka.0 == kb.0 == kc.0 && ka.1 == kb.1 == kc.1 && kb.2 != ka.2 && kb.2 != kc.2 {
        assert Text.Less(kc.2, ka.2);
      }
    }
  }

  /** `incident_cards[:8]` after the sort. */
  function Recent(window: seq<LogRecord>): (r: seq<Card>)
    ensures |r| <= CardLimit
  {
    Sorting.Take(Sorting.SortStable(Cards(window), ByCard()), CardLimit)
  }

  /** Sorting the cards and keeping the first ones gives sorted cards of the window. */
  lemma SortedPrefix(cards: seq<Card>, n: nat)
    ensures var r := Sorting.Take(Sorting.SortStable(cards, ByCard()), n);
      && Sorting.Sorted(r, ByCard())
      && |r| == (if |cards| < n then |cards| else n)
      && (forall i :: 0 <= i < |r| ==> r[i] in cards)
      && (forall c :: c in cards && c !in r ==>
            forall i :: 0 <= i < |r| ==> !CardKeyAbove(CardKey(c), CardKey(r[i])))
  {
    ByCardIsStrictWeakOrder();
    Sorting.SortTake(cards, n, ByCard());
  }

  /**
   * The recent incidents are cards of the window in descending key order,
   * as many as there are up to eight, and no card left out has a greater
   * key than one shown.
   */
  lemma RecentSpec(window: seq<LogRecord>)
    ensures var r := Recent(window);
      && Sorting.Sorted(r, ByCard())
      && |r| == (if |Cards(window)| < CardLimit then |Cards(window)| else CardLimit)
      && (forall i :: 0 <= i < |r| ==> r[i] in Cards(window))
      && (forall c :: c in Cards(window) && c !in r ==>
            forall i :: 0 <= i < |r| ==> !CardKeyAbove(CardKey(c), CardKey(r[i])))
  {
    SortedPrefix(Cards(window), CardLimit);
  }

  /** `RecentIncident`: one card of the response. */
  datatype RecentIncident = RecentIncident(title: string, severity: string, firstSeen: string, lastSeen: string, relatedEntries: nat, sources: seq<string>)

  function IncidentOf(c: Card): RecentIncident {
    RecentIncident(Text.Title(c.severity) + " events on " + c.source, c.severity,
      Clock.IsoZ(c.firstSeen), Clock.IsoZ(c.lastSeen), c.related, [c.source])
  }

  // ---------------------------------------------------------------------
  // The endpoint
  // ---------------------------------------------------------------------

  /** The query parameters and their defaults: 7 days, 60-minute buckets, 10 sources. */
  datatype DashboardQuery = DashboardQuery(days: int, bucketMinutes: int, topSourcesLimit: int)

  /** The ranges FastAPI enforces before the handler runs. */
  predicate ValidQuery(q: DashboardQuery) {
    && 1 <= q.days <= 30
    && 15 <= q.bucketMinutes <= 1440
    && 3 <= q.topSourcesLimit <= 50
  }

  const UnprocessableEntity := 422

  datatype DashboardResponse = DashboardResponse(
    generatedAt: string,
    period: string,
    totalEntries: nat,
    severityBreakdown: seq<(string, nat)>,
    topSources: seq<SourceCount>,
    severityTimeseries: seq<SeveritySeries>,
    recentIncidents: seq<RecentIncident>)

  function PeriodLabel(days: nat): string {
    "Last " + Numerals.NatToDec(days) + " days"
  }

  /**
   * `GET /dashboard` on a table of rows at the instant `now`; a query out
   * of range is refused with status 422.
   */
  function GetDashboard(table: seq<LogRecord>, now: int, q: DashboardQuery): (r: Result<DashboardResponse, nat>)
    ensures r.Err? <==> !ValidQuery(q)
    ensures r.Err? ==> r.error == UnprocessableEntity
    ensures r.Ok? ==> (r.value.generatedAt == Clock.IsoZ(now) && r.value.period == PeriodLabel(q.days)
      && r.value.totalEntries <= |table| && r.value.totalEntries <= RowLimit
      && (r.value.totalEntries == 0 <==> table == [])
      && |r.value.topSources| <= q.topSourcesLimit
      && |r.value.recentIncidents| <= CardLimit)
    ensures r.Ok? && table == [] ==> (r.value.severityBreakdown == [] && r.value.topSources == []
      && r.value.severityTimeseries == [] && r.value.recentIncidents == [])
    ensures r.Ok? && table != [] ==> (|r.value.severityBreakdown| >= 4
      && Tally.SumValues(r.value.severityBreakdown) == r.value.totalEntries)
    ensures r.Ok? && table != [] ==>
      r.value.severityTimeseries == Timeseries(Window(Fetch(table, RowLimit), q.days * Clock.SecondsPerDay), AsWritten, q.bucketMinutes)
    ensures r.Ok? && table != [] ==>
      r.value == WindowResponse(now, q, Window(Fetch(table, RowLimit), q.days * Clock.SecondsPerDay))
  {
    if !ValidQuery(q) then Err(UnprocessableEntity)
    else
      var rows := Fetch(table, RowLimit);
      if rows == [] then Ok(DashboardResponse(Clock.IsoZ(now), PeriodLabel(q.days), 0, [], [], [], []))
      else
        Ok(WindowResponse(now, q, Window(rows, q.days * Clock.SecondsPerDay)))
  }

  /** The sections of the response over a window of rows. */
  function WindowResponse(now: int, q: DashboardQuery, window: seq<LogRecord>): (r: DashboardResponse)
    requires ValidQuery(q)
    ensures r.generatedAt == Clock.IsoZ(now) && r.period == PeriodLabel(q.days) && r.totalEntries == |window|
    ensures |r.topSources| <= q.topSourcesLimit && |r.recentIncidents| <= CardLimit
    ensures |r.severityBreakdown| >= 4 && Tally.SumValues(r.severityBreakdown) == |window|
    ensures r.severityTimeseries == Timeseries(window, AsWritten, q.bucketMinutes)
    ensures r.severityBreakdown == Breakdown(window)
    ensures r.topSources == TopSources(window, q.topSourcesLimit)
    ensures r.recentIncidents == Tally.Map(Recent(window), IncidentOf)
  {
    BreakdownSum(window);
    assert |Breakdown(window)| >= 4 by {
      assert |BreakdownKeys(window)| >= |CanonicalSeverities|;
    }
    DashboardResponse(Clock.IsoZ(now), PeriodLabel(q.days), |window|,
      Breakdown(window),
      TopSources(window, q.topSourcesLimit),
      Timeseries(window, AsWritten, q.bucketMinutes),
      Tally.Map(Recent(window), IncidentOf))
  }

  /**
   * Below the row limit, the dashboard counts exactly the rows of the table
   * from the `days` days up to its newest row; above it, rows of the table
   * from those days.
   */
  lemma DashboardWindow(table: seq<LogRecord>, days: nat)
    requires table != []
    ensures forall x :: x in Window(Fetch(table, RowLimit), days * Clock.SecondsPerDay) ==>
      x in table && Newest(table) - days * Clock.SecondsPerDay <= x.timestamp <= Newest(table)
    ensures |table| <= RowLimit ==> forall x :: x in Window(Fetch(table, RowLimit), days * Clock.SecondsPerDay) <==>
      x in table && x.timestamp >= Newest(table) - days * Clock.SecondsPerDay
  {
    WindowBounds(table, RowLimit, days * Clock.SecondsPerDay);
    if |table| <= RowLimit {
      WindowIsRecent(table, RowLimit, days * Clock.SecondsPerDay);
    }
  }
}

=== FILE: db_url.dfy ===
/**
 * The rewrite that turns the async SQLite URL of the settings into one the
 * synchronous engine accepts, by dropping the driver suffix of the scheme.
 */
module DbUrl {
  import Text

  const AsyncPrefix := "sqlite+aiosqlite"
  const SyncPrefix := "sqlite"

  /** `_sync_database_url`. */
  function SyncDatabaseUrl(url: string): (r: string)
    ensures Text.StartsWith(url, AsyncPrefix) ==> Text.StartsWith(r, SyncPrefix) && r[|SyncPrefix|..] == url[|AsyncPrefix|..]
    ensures !Text.StartsWith(url, AsyncPrefix) ==> r == url
  {
    if Text.StartsWith(url, AsyncPrefix) then SyncPrefix + url[|AsyncPrefix|..] else url
  }

  /** The rewrite removes "+aiosqlite", which is ten characters long. */
  lemma SyncUrlLength(url: string)
    ensures Text.StartsWith(url, AsyncPrefix) <==> |SyncDatabaseUrl(url)| == |url| - 10
  {
  }

  /** A second rewrite changes nothing exactly when the first result no longer carries the async prefix. */
  lemma SyncUrlIdempotentIff(url: string)
    ensures SyncDatabaseUrl(SyncDatabaseUrl(url)) == SyncDatabaseUrl(url)
      <==> !Text.StartsWith(SyncDatabaseUrl(url), AsyncPrefix)
  {
    SyncUrlLength(SyncDatabaseUrl(url));
  }

  /** The rewritten URL carries the async prefix again only when "+aiosqlite" was repeated. */
  lemma SyncUrlReprefixed(url: string)
    requires Text.StartsWith(url, AsyncPrefix)
    ensures Text.StartsWith(SyncDatabaseUrl(url), AsyncPrefix) <==> Text.StartsWith(url[|SyncPrefix|..], "+aiosqlite+aiosqlite")
  {
    var r := SyncDatabaseUrl(url);
    if Text.StartsWith(r, AsyncPrefix) {
      assert url[..|AsyncPrefix|] == AsyncPrefix;
      assert r[|SyncPrefix|..|AsyncPrefix|] == url[|AsyncPrefix|..|AsyncPrefix| + 10];
      assert url[|SyncPrefix|..][..20] == url[|SyncPrefix|..|SyncPrefix| + 10] + url[|AsyncPrefix|..|AsyncPrefix| + 10];
    }
    if Text.StartsWith(url[|SyncPrefix|..], "+aiosqlite+aiosqlite") {
      assert url[|AsyncPrefix|..|AsyncPrefix| + 10] == url[|SyncPrefix|..][10..20];
      assert r[..|AsyncPrefix|] == SyncPrefix + url[|AsyncPrefix|..|AsyncPrefix| + 10];
    }
  }

  /** The rewrite of any URL under the async scheme keeps everything after the scheme. */
  lemma SyncUrlOfAsync(rest: string)
    ensures SyncDatabaseUrl(AsyncPrefix + rest) == SyncPrefix + rest
  {
    var url := AsyncPrefix + rest;
    assert url[..|AsyncPrefix|] == AsyncPrefix;
    assert url[|AsyncPrefix|..] == rest;
  }

  /** A URL that repeats the driver suffix is rewritten differently the second time. */
  lemma SyncUrlNotIdempotent(rest: string)
    ensures SyncDatabaseUrl(AsyncPrefix + "+aiosqlite" + rest) == AsyncPrefix + rest
    ensures SyncDatabaseUrl(SyncDatabaseUrl(AsyncPrefix + "+aiosqlite" + rest)) == SyncPrefix + rest
  {
    assert SyncPrefix + "+aiosqlite" == AsyncPrefix;
    SyncUrlOfAsync("+aiosqlite" + rest);
    assert AsyncPrefix + "+aiosqlite" + rest == AsyncPrefix + ("+aiosqlite" + rest);
    assert SyncPrefix + ("+aiosqlite" + rest) == AsyncPrefix + rest;
    SyncUrlOfAsync(rest);
  }
}

=== FILE: dicts.dfy ===
/**
 * Python's `dict`: a finite map that remembers the order in which keys were
 * first inserted. Storing to a key that is already present replaces its
 * value and keeps its position.
 */
module Dicts {

  datatype Dict<K, V> = Dict(keys: seq<K>, values: map<K, V>)
  {
    /** The order lists every key of the map exactly once. */
    ghost predicate Valid() {
      && (forall i, j :: 0 <= i < j < |keys| ==> keys[i] != keys[j])
      && values.Keys == Elems(keys)
    }
  }

  /** The elements of a sequence, as a set. */
  ghost function Elems<K>(s: seq<K>): set<K> {
    set i | 0 <= i < |s| :: s[i]
  }

  lemma ElemsAppend<K>(s: seq<K>, k: K)
    ensures Elems(s + [k]) == Elems(s) + {k}
  {
    var t := s + [k];
    forall x | x in Elems(t)
      ensures x in Elems(s) + {k}
    {
      var i :| 0 <= i < |t| && t[i] == x;
      if i < |s| {
        assert s[i] == x;
      }
    }
    assert t[|s|] == k;
    forall x | x in Elems(s)
      ensures x in Elems(t)
    {
      var i :| 0 <= i < |s| && s[i] == x;
      assert t[i] == x;
    }
  }

  function Empty<K, V>(): (d: Dict<K, V>)
    ensures d.Valid() && d.keys == [] && d.values == map[]
  {
    Dict([], map[])
  }

  /** `d[k] = v`. */
  function Put<K, V>(d: Dict<K, V>, k: K, v: V): (r: Dict<K, V>)
    requires d.Valid()
    ensures r.Valid()
    ensures r.values == d.values[k := v]
    ensures k in d.values ==> r.keys == d.keys
    ensures k !in d.values ==> r.keys == d.keys + [k]
  {
    if k in d.values then Dict(d.keys, d.values[k := v])
    else
      ElemsAppend(d.keys, k);
      Dict(d.keys + [k], d.values[k := v])
  }

  /** `for k, v in pairs: d[k] = v`: the pairs stored one after another. */
  function PutAll<K, V>(d: Dict<K, V>, pairs: seq<(K, V)>): (r: Dict<K, V>)
    requires d.Valid()
    ensures r.Valid()
  {
    if pairs == [] then d
    else
      var last := pairs[|pairs| - 1];
      Put(PutAll(d, pairs[..|pairs| - 1]), last.0, last.1)
  }

  /** `dict(pairs)`. */
  function FromPairs<K, V>(pairs: seq<(K, V)>): (r: Dict<K, V>)
    ensures r.Valid()
  {
    PutAll(Empty(), pairs)
  }

  /** `list(d.items())`. */
  function Items<K, V>(d: Dict<K, V>): (r: seq<(K, V)>)
    requires d.Valid()
    ensures |r| == |d.keys|
    ensures forall i :: 0 <= i < |r| ==> r[i] == (d.keys[i], d.values[d.keys[i]])
  {
    seq(|d.keys|, i requires 0 <= i < |d.keys| => (d.keys[i], d.values[d.keys[i]]))
  }

  /** The pairs with each key passed through `f`. */
  function ReKey<K, L, V>(pairs: seq<(K, V)>, f: K -> L): (r: seq<(L, V)>)
    ensures |r| == |pairs|
    ensures forall i :: 0 <= i < |r| ==> r[i] == (f(pairs[i].0), pairs[i].1)
  {
    seq(|pairs|, i requires 0 <= i < |pairs| => (f(pairs[i].0), pairs[i].1))
  }

  /** `{f(k): v for k, v in pairs}`. */
  function MapKeys<K, L, V>(pairs: seq<(K, V)>, f: K -> L): (r: Dict<L, V>)
  {
    FromPairs(ReKey(pairs, f))
  }

  /** The keys of a list of pairs, in order. */
  function KeysOf<K, V>(pairs: seq<(K, V)>): (r: seq<K>)
    ensures |r| == |pairs|
    ensures forall i :: 0 <= i < |r| ==> r[i] == pairs[i].0
  {
    seq(|pairs|, i requires 0 <= i < |pairs| => pairs[i].0)
  }

  lemma KeysOfAppend<K, V>(pairs: seq<(K, V)>)
    requires pairs != []
    ensures KeysOf(pairs) == KeysOf(pairs[..|pairs| - 1]) + [pairs[|pairs| - 1].0]
  {
  }

  ghost predicate DistinctKeys<K, V>(pairs: seq<(K, V)>) {
    forall i, j :: 0 <= i < j < |pairs| ==> pairs[i].0 != pairs[j].0
  }

  /** Storing distinct new keys appends them, in order, after the keys already there. */
  lemma {:induction false} PutAllFreshKeys<K, V>(d: Dict<K, V>, pairs: seq<(K, V)>)
    requires d.Valid()
    requires DistinctKeys(pairs)
    requires forall i :: 0 <= i < |pairs| ==> pairs[i].0 !in d.values
    ensures PutAll(d, pairs).keys == d.keys + KeysOf(pairs)
  {
    if pairs != [] {
      var n := |pairs| - 1;
      var init := pairs[..n];
      var last := pairs[n];
      assert DistinctKeys(init);
      PutAllFreshKeys(d, init);
      var p := PutAll(d, init);
      LastIsFresh(d, pairs, p);
      KeysOfAppend(pairs);
    }
  }

  /** The last of distinct new keys is not yet stored once the others are. */
  lemma LastIsFresh<K, V>(d: Dict<K, V>, pairs: seq<(K, V)>, p: Dict<K, V>)
    requires d.Valid() && p.Valid() && pairs != []
    requires DistinctKeys(pairs)
    requires pairs[|pairs| - 1].0 !in d.values
    requires p.keys == d.keys + KeysOf(pairs[..|pairs| - 1])
    ensures pairs[|pairs| - 1].0 !in p.values
  {
    var n := |pairs| - 1;
    var last := pairs[n];
    forall i | 0 <= i < |p.keys|
      ensures p.keys[i] != last.0
    {
      if i < |d.keys| {
        assert d.keys[i] in Elems(d.keys);
      } else {
        assert p.keys[i] == pairs[i - |d.keys|].0;
      }
    }
    assert last.0 !in Elems(p.keys);
  }

  /** Storing one more key keeps entries of other keys it does not touch. */
  lemma PutAfterStored<K, V>(p: Dict<K, V>, init: seq<(K, V)>, k: K, v: V)
    requires p.Valid()
    requires forall i :: 0 <= i < |init| ==> init[i].0 != k
    requires forall i :: 0 <= i < |init| ==> init[i].0 in p.values && p.values[init[i].0] == init[i].1
    ensures forall i :: 0 <= i < |init + [(k, v)]| ==>
      (init + [(k, v)])[i].0 in Put(p, k, v).values && Put(p, k, v).values[(init + [(k, v)])[i].0] == (init + [(k, v)])[i].1
  {
    var q := init + [(k, v)];
    forall i | 0 <= i < |q|
      ensures q[i].0 in Put(p, k, v).values && Put(p, k, v).values[q[i].0] == q[i].1
    {
      if i < |init| {
        assert q[i] == init[i];
      }
    }
  }

  /** Storing pairs whose keys are distinct and new maps each of those keys to its value. */
  lemma {:induction false} PutAllFreshValues<K, V>(d: Dict<K, V>, pairs: seq<(K, V)>)
    requires d.Valid()
    requires DistinctKeys(pairs)
    requires forall i :: 0 <= i < |pairs| ==> pairs[i].0 !in d.values
    ensures forall i :: 0 <= i < |pairs| ==>
      pairs[i].0 in PutAll(d, pairs).values && PutAll(d, pairs).values[pairs[i].0] == pairs[i].1
  {
    if pairs != [] {
      var n := |pairs| - 1;
      var init := pairs[..n];
      var last := pairs[n];
      assert DistinctKeys(init);
      assert forall i :: 0 <= i < |init| ==> init[i].0 !in d.values;
      PutAllFreshValues(d, init);
      assert forall i :: 0 <= i < |init| ==> init[i].0 != last.0 by {
        forall i | 0 <= i < |init|
          ensures init[i].0 != last.0
        {
          assert init[i] == pairs[i];
        }
      }
      PutAfterStored(PutAll(d, init), init, last.0, last.1);
      assert init + [(last.0, last.1)] == pairs;
    }
  }

  /**
   * Storing pairs whose keys are distinct and new appends those keys in
   * order and maps each to its value.
   */
  lemma PutAllFresh<K, V>(d: Dict<K, V>, pairs: seq<(K, V)>)
    requires d.Valid()
    requires DistinctKeys(pairs)
    requires forall i :: 0 <= i < |pairs| ==> pairs[i].0 !in d.values
    ensures PutAll(d, pairs).keys == d.keys + KeysOf(pairs)
    ensures forall i :: 0 <= i < |pairs| ==>
      pairs[i].0 in PutAll(d, pairs).values && PutAll(d, pairs).values[pairs[i].0] == pairs[i].1
  {
    PutAllFreshKeys(d, pairs);
    PutAllFreshValues(d, pairs);
  }

  /** Storing pairs none of whose keys is `k` leaves the entry of `k` alone. */
  lemma {:induction false} PutAllKeeps<K, V>(d: Dict<K, V>, pairs: seq<(K, V)>, k: K)
    requires d.Valid() && k in d.values
    requires forall i :: 0 <= i < |pairs| ==> pairs[i].0 != k
    ensures k in PutAll(d, pairs).values && PutAll(d, pairs).values[k] == d.values[k]
  {
    if pairs != [] {
      PutAllKeeps(d, pairs[..|pairs| - 1], k);
    }
  }

  /** Storing distinct new keys appends exactly those pairs to the items. */
  lemma PutAllItems<K, V>(d: Dict<K, V>, pairs: seq<(K, V)>)
    requires d.Valid()
    requires DistinctKeys(pairs)
    requires forall i :: 0 <= i < |pairs| ==> pairs[i].0 !in d.values
    ensures Items(PutAll(d, pairs)) == Items(d) + pairs
  {
    var r := PutAll(d, pairs);
    PutAllFresh(d, pairs);
    var n := |d.keys|;
    var lhs := Items(r);
    var rhs := Items(d) + pairs;
    assert |lhs| == |rhs|;
    forall i | 0 <= i < |lhs|
      ensures lhs[i] == rhs[i]
    {
      if i < n {
        var k := d.keys[i];
        assert k in d.values by { assert k in Elems(d.keys); }
        assert r.keys[i] == k;
        assert forall j :: 0 <= j < |pairs| ==> pairs[j].0 != k;
        PutAllKeeps(d, pairs, k);
        assert rhs[i] == Items(d)[i];
      } else {
        assert r.keys[i] == pairs[i - n].0;
        assert rhs[i] == pairs[i - n];
      }
    }
  }

  /** Pairs with distinct keys make a dict holding exactly them, in their order. */
  lemma FromPairsDistinct<K, V>(pairs: seq<(K, V)>)
    requires DistinctKeys(pairs)
    ensures FromPairs(pairs).keys == KeysOf(pairs)
    ensures forall i :: 0 <= i < |pairs| ==> FromPairs(pairs).values[pairs[i].0] == pairs[i].1
  {
    PutAllFresh(Empty(), pairs);
  }

  /** Rebuilding a dict from its items gives back the same dict. */
  lemma FromItems<K, V>(d: Dict<K, V>)
    requires d.Valid()
    ensures FromPairs(Items(d)) == d
  {
    var items := Items(d);
    FromPairsDistinct(items);
    var r := FromPairs(items);
    assert r.keys == d.keys;
    forall k | k in r.values
      ensures k in d.values && r.values[k] == d.values[k]
    {
      var i :| 0 <= i < |r.keys| && r.keys[i] == k;
    }
    forall k | k in d.values
      ensures k in r.values
    {
      var i :| 0 <= i < |d.keys| && d.keys[i] == k;
    }
    assert r.values == d.values;
  }
}

=== FILE: ingest.dfy ===
/**
 * `POST /upload` and the indexing it schedules: the file is checked,
 * parsed by extension, stored as rows with sequential ids, and its rows are
 * embedded as `"[severity] source: message"` texts and added to the vector
 * index, which is then written to disk.
 */
module Ingest {
  import opened Outcomes
  import opened Records
  import Text
  import Tally
  import Numerals
  import Clock
  import Parsers
  import VectorIndex
  import Dicts

  // ---------------------------------------------------------------------
  // Embedding texts and the indexing job
  // ---------------------------------------------------------------------

  /** `_to_embedding_text`: the canonical text one log entry is embedded as. */
  function EmbeddingText(source: string, severity: string, message: string): (r: string)
    ensures |r| == |severity| + |source| + |message| + 5
  {
    "[" + severity + "] " + source + ": " + message
  }

  /**
   * Reads an embedding text back: the severity up to the first `]`, the
   * source up to the first `:` after it, and the rest as the message.
   */
  function ReadEmbeddingText(t: string): (r: Option<(string, string, string)>)
    ensures r.Some? ==> |t| == |r.value.0| + |r.value.1| + |r.value.2| + 5
  {
    if t == [] || t[0] != '[' then None
    else
      var close := Text.IndexOf(t, ']');
      if close + 1 >= |t| || t[close + 1] != ' ' then None
      else
        var rest := t[close + 2..];
        var colon := Text.IndexOf(rest, ':');
        if colon + 1 >= |rest| || rest[colon + 1] != ' ' then None
        else Some((rest[..colon], t[1..close], rest[colon + 2..]))
  }

  /**
   * The embedding text loses nothing: when the severity holds no `]` and the
   * source no `:`, source, severity and message are read back from it.
   */
  lemma ReadEmbeddingTextRoundTrip(source: string, severity: string, message: string)
    requires forall k :: 0 <= k < |severity| ==> severity[k] != ']'
    requires forall k :: 0 <= k < |source| ==> source[k] != ':'
    ensures ReadEmbeddingText(EmbeddingText(source, severity, message)) == Some((source, severity, message))
  {
    var rest := source + ": " + message;
    var t := EmbeddingText(source, severity, message);
    assert t == "[" + severity + "] " + rest;
    ReadBracket(severity, rest);
    ReadColon(source, message);
  }

  /** The bracketed severity ends at the first `]`, and a space separates it from the rest. */
  lemma ReadBracket(severity: string, rest: string)
    requires forall k :: 0 <= k < |severity| ==> severity[k] != ']'
    ensures var t := "[" + severity + "] " + rest;
      && Text.IndexOf(t, ']') == |severity| + 1 && t[|severity| + 2] == ' '
      && t[1..|severity| + 1] == severity && t[|severity| + 3..] == rest
  {
    var t := "[" + severity + "] " + rest;
    assert t == "[" + severity + [']'] + (" " + rest);
    assert forall k :: 0 <= k < |"[" + severity| ==> ("[" + severity)[k] != ']';
    Text.IndexOfAfter("[" + severity, ']', " " + rest);
  }

  /** The source ends at the first `:`, and a space separates it from the message. */
  lemma ReadColon(source: string, message: string)
    requires forall k :: 0 <= k < |source| ==> source[k] != ':'
    ensures var rest := source + ": " + message;
      && Text.IndexOf(rest, ':') == |source| && rest[|source| + 1] == ' '
      && rest[..|source|] == source && rest[|source| + 2..] == message
  {
    var rest := source + ": " + message;
    assert rest == source + [':'] + (" " + message);
    Text.IndexOfAfter(source, ':', " " + message);
  }

  /** One embedding text per aligned `(source, severity, message)`, as `zip` pairs them up. */
  function EmbeddingTexts(sources: seq<string>, severities: seq<string>, messages: seq<string>): (r: seq<string>)
    ensures |r| <= |sources| && |r| <= |severities| && |r| <= |messages|
    ensures |r| == |sources| || |r| == |severities| || |r| == |messages|
    ensures forall i :: 0 <= i < |r| ==> r[i] == EmbeddingText(sources[i], severities[i], messages[i])
  {
    var n := if |sources| < |severities| then |sources| else |severities|;
    var n := if n < |messages| then n else |messages|;
    seq(n, i requires 0 <= i < n => EmbeddingText(sources[i], severities[i], messages[i]))
  }

  /** The aligned lists the upload hands to the indexer, one item per stored row. */
  datatype IndexJob = IndexJob(logIds: seq<string>, sources: seq<string>, severities: seq<string>, messages: seq<string>)

  /** What stops an indexing job: the embedder raised, or adding the vectors did. */
  datatype JobError = EmbedderRaised | AddRaised(cause: VectorIndex.IndexError)

  /**
   * The vector index and what is on disk after an indexing job, and the
   * error that stopped it, if any.
   */
  datatype Indexed = Indexed(state: VectorIndex.State, disk: Option<VectorIndex.Snapshot>, error: Option<JobError>)

  /**
   * `index_log_entries_for_search`: embed the texts with `embed` (`None`
   * when `embed_texts` raises), add the vectors under the log ids, then
   * persist. An empty job does nothing; an error from the embedder or the
   * add stops the job before anything is written.
   */
  function IndexEntries(s: VectorIndex.State, disk: Option<VectorIndex.Snapshot>, job: IndexJob,
                        embed: seq<string> -> Option<VectorIndex.Array>): (r: Indexed)
    requires s.idmap.Valid()
    ensures job.logIds == [] ==> r == Indexed(s, disk, None)
    ensures job.logIds != [] && embed(EmbeddingTexts(job.sources, job.severities, job.messages)).None? ==>
      r == Indexed(s, disk, Some(EmbedderRaised))
    ensures r.error.Some? ==> r.state == s && r.disk == disk
  {
    if job.logIds == [] then Indexed(s, disk, None)
    else
      match embed(EmbeddingTexts(job.sources, job.severities, job.messages))
      case None => Indexed(s, disk, Some(EmbedderRaised))
      case Some(vectors) =>
        match VectorIndex.Add(s, job.logIds, vectors)
        case Err(e) => Indexed(s, disk, Some(AddRaised(e)))
        case Ok(next) => Indexed(next, VectorIndex.Persist(next, disk), None)
  }

  /**
   * Once the texts are embedded, an indexing job either fails with the
   * add's error, leaving index and disk alone, or appends the fresh row ids
   * paired in order with the job's log ids, and what it writes to disk
   * reloads as the new state.
   */
  lemma IndexEntriesSpec(s: VectorIndex.State, disk: Option<VectorIndex.Snapshot>, job: IndexJob,
                         embed: seq<string> -> Option<VectorIndex.Array>)
    requires VectorIndex.Valid(s) && job.logIds != []
    requires embed(EmbeddingTexts(job.sources, job.severities, job.messages)).Some?
    ensures var vectors := embed(EmbeddingTexts(job.sources, job.severities, job.messages)).value;
      var r := IndexEntries(s, disk, job, embed);
      && (r.error.Some? <==> VectorIndex.Add(s, job.logIds, vectors).Err?)
      && (r.error.Some? ==> r.error.value == AddRaised(VectorIndex.Add(s, job.logIds, vectors).error))
      && (r.error.None? ==> VectorIndex.Valid(r.state))
      && (r.error.None? && vectors.Size() > 0 ==>
            (Dicts.Items(r.state.idmap) == Dicts.Items(s.idmap) + VectorIndex.Numbered(s.next, job.logIds)
             && VectorIndex.Load(r.disk) == Ok(r.state)))
  {
    var vectors := embed(EmbeddingTexts(job.sources, job.severities, job.messages)).value;
    if VectorIndex.Add(s, job.logIds, vectors).Ok? {
      VectorIndex.AddSpec(s, job.logIds, vectors);
      var next := VectorIndex.Add(s, job.logIds, vectors).value;
      if vectors.Size() > 0 {
        VectorIndex.PersistLoad(next, disk);
      }
    }
  }

  // ---------------------------------------------------------------------
  // The upload endpoint
  // ---------------------------------------------------------------------

  /** An `HTTPException`: status code and detail text. */
  datatype HttpError = HttpError(status: nat, detail: string)

  const BadRequest := 400
  const MissingFilename := "Missing filename."
  const UnsupportedType := "Unsupported file type." + " Only .csv and .txt are supported."
  const EmptyUpload := "Uploaded file is empty."
  const NothingParsed := "No valid log entries were found" + " after parsing."

  /** The uploaded file: its name (empty when none was sent) and its decoded content. */
  datatype Upload = Upload(filename: string, content: string)

  predicate IsCsv(filename: string) {
    Text.EndsWith(Text.Lower(filename), ".csv")
  }

  /** The extension check, on the lower-cased name. */
  predicate Accepted(filename: string) {
    IsCsv(filename) || Text.EndsWith(Text.Lower(filename), ".txt")
  }

  /** A `.csv` name goes to the CSV parser, every other accepted name to the TXT parser. */
  function ParseUpload(u: Upload, read: seq<string> -> seq<seq<string>>, parseTs: string -> Option<int>, now: int)
    : (r: Result<seq<Entry>, Parsers.ParseError>)
    ensures IsCsv(u.filename) ==> r == Parsers.ParseCsv(u.content, read, parseTs)
    ensures !IsCsv(u.filename) ==> r == Parsers.ParseTxt(u.content, parseTs, now)
    ensures r.Ok? ==> forall i :: 0 <= i < |r.value| ==> Parsers.WellFormed(r.value[i])
  {
    if IsCsv(u.filename) then Parsers.ParseCsv(u.content, read, parseTs)
    else Parsers.ParseTxt(u.content, parseTs, now)
  }

  /** `f"log_{n:06d}"`. */
  function LogId(n: nat): string {
    "log_" + Numerals.Format06(n)
  }

  /** A log id gives back its number: the ids are read as decimal after the prefix. */
  lemma LogIdRoundTrip(n: nat)
    ensures |LogId(n)| >= 10 && LogId(n)[..4] == "log_"
    ensures Numerals.AllDigits(LogId(n)[4..]) && Numerals.DigitsValue(LogId(n)[4..]) == n
  {
    Numerals.Format06Spec(n);
    assert LogId(n)[4..] == Numerals.Format06(n);
  }

  lemma LogIdInjective(m: nat, n: nat)
    requires LogId(m) == LogId(n)
    ensures m == n
  {
    LogIdRoundTrip(m);
    LogIdRoundTrip(n);
  }

  /** The rows stored for the parsed entries, numbered on from the `offset` rows already stored. */
  function MintRows(entries: seq<Entry>, fileId: string, offset: nat): (r: seq<LogRecord>)
    ensures |r| == |entries|
    ensures forall i :: 0 <= i < |r| ==> (r[i].fileId == fileId
      && r[i].timestamp == entries[i].timestamp && r[i].source == entries[i].source
      && r[i].severity == entries[i].severity && r[i].message == entries[i].message)
  {
    seq(|entries|, i requires 0 <= i < |entries| =>
      var e := entries[i];
      LogRecord(LogId(offset + i + 1), fileId, e.timestamp, e.source, e.severity, e.message))
  }

  /**
   * The minted ids are consecutive after the existing rows: row `i` reads
   * back as number `offset + i + 1`, so no two new rows share an id and no
   * new row takes the id of one minted before with a number up to `offset`.
   */
  lemma MintedIds(entries: seq<Entry>, fileId: string, offset: nat)
    ensures var r := MintRows(entries, fileId, offset);
      && (forall i :: 0 <= i < |r| ==> r[i].logId == LogId(offset + i + 1))
      && (forall i :: 0 <= i < |r| ==> Numerals.DigitsValue(r[i].logId[4..]) == offset + i + 1)
      && (forall i, j :: 0 <= i < j < |r| ==> r[i].logId != r[j].logId)
      && (forall i, k: nat :: 0 <= i < |r| && k <= offset ==> r[i].logId != LogId(k))
  {
    var r := MintRows(entries, fileId, offset);
    forall i | 0 <= i < |r|
      ensures Numerals.DigitsValue(r[i].logId[4..]) == offset + i + 1
    {
      LogIdRoundTrip(offset + i + 1);
    }
    forall i, k: nat | 0 <= i < |r| && k <= offset
      ensures r[i].logId != LogId(k)
    {
      LogIdRoundTrip(k);
    }
  }

  /** `DateRange`: the first and last timestamps of the upload. */
  datatype DateRange = DateRange(earliest: string, latest: string)

  datatype UploadResponse = UploadResponse(status: string, fileId: string, entriesParsed: nat,
                                           dateRange: DateRange, severityBreakdown: seq<(string, nat)>)

  /** The `ingested_files` row. */
  datatype IngestedFile = IngestedFile(fileId: string, filename: string, createdAt: int, entriesParsed: nat)

  /** What a successful upload stores, schedules and answers. */
  datatype Ingested = Ingested(file: IngestedFile, rows: seq<LogRecord>, job: IndexJob, response: UploadResponse)

  /** The severities of the rows, in order. */
  function SeveritiesOf(rows: seq<LogRecord>): (r: seq<string>)
    ensures |r| == |rows|
    ensures forall i :: 0 <= i < |rows| ==> r[i] == rows[i].severity
  {
    Tally.Map(rows, (x: LogRecord) => x.severity)
  }

  /**
   * The statistics of the response for the stored rows: the breakdown is
   * `dict(Counter(severities))`, one entry per severity that occurs, each
   * with the number of rows carrying it.
   */
  function Stats(fileId: string, rows: seq<LogRecord>): (r: UploadResponse)
    requires rows != []
    ensures r.status == "success" && r.fileId == fileId
    ensures r.entriesParsed == |rows|
    ensures Tally.SumValues(r.severityBreakdown) == |rows|
    ensures forall i :: 0 <= i < |r.severityBreakdown| ==>
      r.severityBreakdown[i].1 == Tally.Count(SeveritiesOf(rows), r.severityBreakdown[i].0) && r.severityBreakdown[i].1 > 0
    ensures forall i, j :: 0 <= i < j < |r.severityBreakdown| ==> r.severityBreakdown[i].0 != r.severityBreakdown[j].0
    ensures forall k :: 0 <= k < |rows| ==> rows[k].severity in Tally.Map(r.severityBreakdown, (p: (string, nat)) => p.0)
  {
    var severities := SeveritiesOf(rows);
    Tally.CountsSumValues(severities);
    BreakdownKeysCover(severities);
    UploadResponse("success", fileId, |rows|,
      DateRange(Clock.IsoZ(Oldest(rows)), Clock.IsoZ(Newest(rows))),
      Tally.Counts(severities))
  }

  /** Every key of the severity counts is distinct, and every severity is one of the keys. */
  lemma BreakdownKeysCover(severities: seq<string>)
    ensures forall i, j :: 0 <= i < j < |Tally.Counts(severities)| ==> Tally.Counts(severities)[i].0 != Tally.Counts(severities)[j].0
    ensures forall k :: 0 <= k < |severities| ==> severities[k] in Tally.Map(Tally.Counts(severities), (p: (string, nat)) => p.0)
  {
    var c := Tally.Counts(severities);
    var d := Tally.Distinct(severities);
    var keys := Tally.Map(c, (p: (string, nat)) => p.0);
    forall k | 0 <= k < |severities|
      ensures severities[k] in keys
    {
      var i :| 0 <= i < |d| && d[i] == severities[k];
      assert keys[i] == d[i];
    }
  }

  /** The job scheduled for the stored rows: their ids, sources, severities and messages in order. */
  function JobOf(rows: seq<LogRecord>): (r: IndexJob)
    ensures |r.logIds| == |r.sources| == |r.severities| == |r.messages| == |rows|
  {
    IndexJob(Tally.Map(rows, (x: LogRecord) => x.logId), Tally.Map(rows, (x: LogRecord) => x.source),
             Tally.Map(rows, (x: LogRecord) => x.severity), Tally.Map(rows, (x: LogRecord) => x.message))
  }

  /**
   * `upload_logs` against a table of `table` existing rows: `fileId` stands
   * for the random file id, `now` for the clock, `read` for the CSV reader
   * and `parseTs` for the timestamp parser.
   */
  function UploadLogs(u: Upload, table: seq<LogRecord>, fileId: string, now: int,
                      read: seq<string> -> seq<seq<string>>, parseTs: string -> Option<int>): (r: Result<Ingested, HttpError>)
    ensures r.Err? ==> r.error.status == BadRequest
    ensures u.filename == [] ==> r == Err(HttpError(BadRequest, MissingFilename))
    ensures u.filename != [] && !Accepted(u.filename) ==> r == Err(HttpError(BadRequest, UnsupportedType))
    ensures u.filename != [] && Accepted(u.filename) && u.content == [] ==> r == Err(HttpError(BadRequest, EmptyUpload))
    ensures u.filename != [] && Accepted(u.filename) && u.content != [] && ParseUpload(u, read, parseTs, now).Err? ==>
      r == Err(HttpError(BadRequest, ParseUpload(u, read, parseTs, now).error.Message()))
    ensures u.filename != [] && Accepted(u.filename) && u.content != [] && ParseUpload(u, read, parseTs, now) == Ok([]) ==>
      r == Err(HttpError(BadRequest, NothingParsed))
    ensures r.Ok? <==> (u.filename != [] && Accepted(u.filename) && u.content != []
      && ParseUpload(u, read, parseTs, now).Ok? && ParseUpload(u, read, parseTs, now).value != [])
    ensures r.Ok? ==> (|r.value.rows| == |ParseUpload(u, read, parseTs, now).value|
      && r.value.file == IngestedFile(fileId, u.filename, now, |r.value.rows|)
      && r.value.response.entriesParsed == |r.value.rows|
      && Tally.SumValues(r.value.response.severityBreakdown) == |r.value.rows|)
  {
    if u.filename == [] then Err(HttpError(BadRequest, MissingFilename))
    else if !Accepted(u.filename) then Err(HttpError(BadRequest, UnsupportedType))
    else if u.content == [] then Err(HttpError(BadRequest, EmptyUpload))
    else
      match ParseUpload(u, read, parseTs, now)
      case Err(e) => Err(HttpError(BadRequest, e.Message()))
      case Ok(entries) =>
        if entries == [] then Err(HttpError(BadRequest, NothingParsed))
        else
          var rows := MintRows(entries, fileId, |table|);
          Ok(Ingested(IngestedFile(fileId, u.filename, now, |rows|), rows, JobOf(rows), Stats(fileId, rows)))
  }

  /**
   * A successful upload stores the minted rows of the parsed entries, each
   * entry well-formed; with `MintedIds`, their ids are fresh and consecutive.
   */
  lemma UploadRows(u: Upload, table: seq<LogRecord>, fileId: string, now: int,
                   read: seq<string> -> seq<seq<string>>, parseTs: string -> Option<int>)
    requires UploadLogs(u, table, fileId, now, read, parseTs).Ok?
    ensures var entries := ParseUpload(u, read, parseTs, now).value;
      && UploadLogs(u, table, fileId, now, read, parseTs).value.rows == MintRows(entries, fileId, |table|)
      && forall i :: 0 <= i < |entries| ==> Parsers.WellFormed(entries[i])
  {
  }

  /** The date range of the response runs from the oldest stored timestamp to the newest. */
  lemma UploadDateRange(u: Upload, table: seq<LogRecord>, fileId: string, now: int,
                        read: seq<string> -> seq<seq<string>>, parseTs: string -> Option<int>)
    requires UploadLogs(u, table, fileId, now, read, parseTs).Ok?
    ensures var ing := UploadLogs(u, table, fileId, now, read, parseTs).value;
      var rows := ing.rows;
      && (exists i :: 0 <= i < |rows| && ing.response.dateRange.earliest == Clock.IsoZ(rows[i].timestamp)
            && forall j :: 0 <= j < |rows| ==> rows[i].timestamp <= rows[j].timestamp)
      && (exists i :: 0 <= i < |rows| && ing.response.dateRange.latest == Clock.IsoZ(rows[i].timestamp)
            && forall j :: 0 <= j < |rows| ==> rows[j].timestamp <= rows[i].timestamp)
  {
    var ing := UploadLogs(u, table, fileId, now, read, parseTs).value;
    var rows := ing.rows;
    assert ing.response == Stats(fileId, rows);
    var i :| 0 <= i < |rows| && rows[i].timestamp == Oldest(rows);
    var j :| 0 <= j < |rows| && rows[j].timestamp == Newest(rows);
  }

  /** The scheduled indexing job embeds each stored row, in order, under its id. */
  lemma UploadJob(u: Upload, table: seq<LogRecord>, fileId: string, now: int,
                  read: seq<string> -> seq<seq<string>>, parseTs: string -> Option<int>)
    requires UploadLogs(u, table, fileId, now, read, parseTs).Ok?
    ensures var ing := UploadLogs(u, table, fileId, now, read, parseTs).value;
      && EmbeddingTexts(ing.job.sources, ing.job.severities, ing.job.messages)
         == Tally.Map(ing.rows, (x: LogRecord) => EmbeddingText(x.source, x.severity, x.message))
      && ing.job.logIds == Tally.Map(ing.rows, (x: LogRecord) => x.logId)
  {
    var ing := UploadLogs(u, table, fileId, now, read, parseTs).value;
    assert ing.job == JobOf(ing.rows);
  }
}

=== FILE: numerals.dfy ===
/**
 * Decimal rendering and parsing of integers: Python's `str(n)`, `int(s)`
 * and the `{n:06d}` format specification.
 */
module Numerals {
  import opened Outcomes
  import Text

  predicate IsDigit(c: char) {
    '0' <= c <= '9'
  }

  predicate AllDigits(s: string) {
    forall i :: 0 <= i < |s| ==> IsDigit(s[i])
  }

  function DigitChar(d: nat): char
    requires d < 10
  {
    ('0' as int + d) as char
  }

  /** Python's `str(n)` for a natural number. */
  function NatToDec(n: nat): (r: string)
    ensures r != [] && AllDigits(r)
    ensures |r| > 1 ==> r[0] != '0'
  {
    if n < 10 then [DigitChar(n)] else NatToDec(n / 10) + [DigitChar(n % 10)]
  }

  /** Python's `str(i)` for any integer. */
  function IntToDec(i: int): string
  {
    if i < 0 then "-" + NatToDec(-i) else NatToDec(i)
  }

  /** The value of a string of decimal digits. */
  function DigitsValue(s: string): nat
    requires AllDigits(s)
  {
    if s == [] then 0 else 10 * DigitsValue(s[..|s| - 1]) + (s[|s| - 1] as int - '0' as int)
  }

  /** Reading back the decimal rendering of `n` gives `n`. */
  lemma {:induction false} DigitsOfNatToDec(n: nat)
    ensures DigitsValue(NatToDec(n)) == n
  {
    if n >= 10 {
      DigitsOfNatToDec(n / 10);
      var s := NatToDec(n);
      assert s[..|s| - 1] == NatToDec(n / 10);
    }
  }

  /**
   * The subset of Python's `int(s)` this model accepts: optional surrounding
   * whitespace, an optional sign and at least one ASCII digit. Anything else
   * is `None`; `int` itself also accepts `_` between digits and non-ASCII
   * decimal digits, which this model rejects.
   */
  function ParseInt(s: string): Option<int>
  {
    var t := Text.Strip(s);
    if t == [] then None
    else if t[0] == '-' || t[0] == '+' then
      var body := t[1..];
      if body != [] && AllDigits(body) then
        var v: int := DigitsValue(body);
        Some(if t[0] == '-' then -v else v)
      else None
    else if AllDigits(t) then Some(DigitsValue(t))
    else None
  }

  lemma DigitsNotSpace(s: string)
    requires AllDigits(s)
    ensures forall k :: 0 <= k < |s| ==> !Text.IsSpace(s[k])
  {
  }

  lemma ParseUnsigned(d: string)
    requires d != [] && AllDigits(d)
    ensures ParseInt(d) == Some(DigitsValue(d) as int)
  {
    DigitsNotSpace(d);
    Text.StripOfStripped(d);
  }

  lemma ParseNegative(d: string)
    requires d != [] && AllDigits(d)
    ensures ParseInt("-" + d) == Some(-(DigitsValue(d) as int))
  {
    var s := "-" + d;
    DigitsNotSpace(d);
    assert s[|s| - 1] == d[|d| - 1];
    assert !Text.IsSpace(s[0]);
    Text.StripOfStripped(s);
    assert s[1..] == d;
  }

  /** `int(str(i)) == i`: the decimal rendering of an integer reads back as itself. */
  lemma IntRoundTrip(i: int)
    ensures ParseInt(IntToDec(i)) == Some(i)
  {
    if i < 0 {
      var d := NatToDec(-i);
      assert IntToDec(i) == "-" + d;
      DigitsOfNatToDec(-i);
      ParseNegative(d);
      assert ParseInt("-" + d) == Some(-(-i));
    } else {
      var d := NatToDec(i);
      assert IntToDec(i) == d;
      DigitsOfNatToDec(i);
      ParseUnsigned(d);
    }
  }

  /** Distinct integers render to distinct decimal strings. */
  lemma IntToDecInjective(i: int, j: int)
    requires IntToDec(i) == IntToDec(j)
    ensures i == j
  {
    IntRoundTrip(i);
    IntRoundTrip(j);
  }

  function Zeros(n: nat): (r: string)
    ensures |r| == n && forall k :: 0 <= k < n ==> r[k] == '0'
  {
    if n == 0 then [] else Zeros(n - 1) + "0"
  }

  /** Left-pads `s` with zeros to at least `width` characters. */
  function PadZeros(s: string, width: nat): (r: string)
  {
    if |s| >= width then s else Zeros(width - |s|) + s
  }

  /** Python's `f"{n:06d}"` for a natural number. */
  function Format06(n: nat): (r: string)
  {
    PadZeros(NatToDec(n), 6)
  }

  lemma {:induction false} DigitsValueZeros(z: nat, s: string)
    requires AllDigits(s)
    ensures AllDigits(Zeros(z) + s)
    ensures DigitsValue(Zeros(z) + s) == DigitsValue(s)
    decreases |s|, z
  {
    var w := Zeros(z) + s;
    if s == [] {
      assert w == Zeros(z);
      if z > 0 {
        assert w[..|w| - 1] == Zeros(z - 1) + [];
        DigitsValueZeros(z - 1, []);
      }
    } else {
      assert w[..|w| - 1] == Zeros(z) + s[..|s| - 1];
      DigitsValueZeros(z, s[..|s| - 1]);
    }
  }

  /** Zero-padding a decimal rendering keeps it a rendering of the same number. */
  lemma PadZerosSpec(n: nat, width: nat)
    ensures |PadZeros(NatToDec(n), width)| >= width
    ensures |NatToDec(n)| <= width ==> |PadZeros(NatToDec(n), width)| == width
    ensures AllDigits(PadZeros(NatToDec(n), width))
    ensures DigitsValue(PadZeros(NatToDec(n), width)) == n
  {
    var s := NatToDec(n);
    DigitsOfNatToDec(n);
    if |s| < width {
      DigitsValueZeros(width - |s|, s);
    }
  }

  /** Numbers below 100 have at most two digits. */
  lemma NatToDecShort(n: nat)
    requires n < 100
    ensures |NatToDec(n)| <= 2
  {
    if n >= 10 {
      assert NatToDec(n) == NatToDec(n / 10) + [DigitChar(n % 10)];
    }
  }

  /** `{n:06d}` is all digits, at least six of them, and reads back as `n`. */
  lemma Format06Spec(n: nat)
    ensures |Format06(n)| >= 6
    ensures AllDigits(Format06(n))
    ensures DigitsValue(Format06(n)) == n
  {
    PadZerosSpec(n, 6);
  }

  /** Distinct numbers get distinct zero-padded renderings. */
  lemma Format06Injective(m: nat, n: nat)
    requires Format06(m) == Format06(n)
    ensures m == n
  {
    Format06Spec(m);
    Format06Spec(n);
  }
}

=== FILE: outcomes.dfy ===
/** Failure-carrying datatypes shared by every module of the model. */
module Outcomes {

  /** An optional value: `None` stands for Python's `None` or a missing key. */
  datatype Option<+T> = None | Some(value: T) {
    function GetOr(default: T): T {
      match this
      case Some(v) => v
      case None => default
    }
  }

  /** The value of an operation that may raise instead of returning. */
  datatype Result<+T, +E> = Ok(value: T) | Err(error: E)

  /** The values present in `s`, in order. */
  function Somes<T>(s: seq<Option<T>>): (r: seq<T>)
    ensures |r| <= |s|
    ensures forall i :: 0 <= i < |r| ==> Some(r[i]) in s
    ensures forall j :: 0 <= j < |s| && s[j].Some? ==> s[j].value in r
    ensures r == [] <==> forall j :: 0 <= j < |s| ==> s[j].None?
  {
    if s == [] then []
    else
      var front := s[..|s| - 1];
      var r := Somes(front) + (if s[|s| - 1].Some? then [s[|s| - 1].value] else []);
      assert forall j :: 0 <= j < |front| ==> front[j] == s[j];
      r
  }

  /** When every entry is present, nothing is dropped and the order is kept. */
  lemma {:induction false} SomesAll<T>(s: seq<Option<T>>)
    requires forall j :: 0 <= j < |s| ==> s[j].Some?
    ensures |Somes(s)| == |s|
    ensures forall j :: 0 <= j < |s| ==> Somes(s)[j] == s[j].value
  {
    if s != [] {
      var front := s[..|s| - 1];
      SomesAll(front);
    }
  }
}

=== FILE: parsers.dfy ===
/**
 * Reading uploaded log files into entries: normalising severities, sources
 * and messages, recognising the `timestamp,source,severity,message` header,
 * choosing a delimiter for free-form text lines, and the two file parsers.
 *
 * Two foreign pieces are parameters: `parseTs` stands for the ISO-8601
 * timestamp parser followed by conversion to naive UTC seconds (`None` when
 * it raises), and `read` stands for the CSV dialect sniffer plus CSV reader
 * applied to the non-blank lines.
 */
module Parsers {
  import opened Outcomes
  import opened Records
  import Text
  import Tally

  const Canonical: seq<string> := ["INFO", "WARNING", "ERROR", "CRITICAL"]
  const Allowed: set<string> := {"INFO", "WARNING", "ERROR", "CRITICAL", "LOW", "MEDIUM", "HIGH"}
  const RequiredFields: seq<string> := ["timestamp", "source", "severity", "message"]
  const Delimiters: seq<char> := [',', '\t', '|', ';']
  const ExpectedHeader: string := "timestamp,source,severity,message"

  /** Why a file was rejected, with the message the upload endpoint passes on. */
  datatype ParseError = EmptyFile | InvalidHeader | NoValidRows
  {
    function Message(): string {
      match this
      case EmptyFile => "Empty file."
      case InvalidHeader =>
        "Missing or invalid header. Expected header format:\n  " + ExpectedHeader
        + "\nRequired columns: timestamp, source, severity, message"
      case NoValidRows =>
        "No valid log rows found after parsing. Ensure your file matches:\n  " + ExpectedHeader
    }
  }

  /** What every emitted entry satisfies. */
  predicate WellFormed(e: Entry) {
    && e.message != [] && Text.IsStripped(e.message)
    && e.source != []
    && e.severity in Allowed
  }

  // ---------------------------------------------------------------------
  // Normalisation
  // ---------------------------------------------------------------------

  /** Upper-case ASCII letters only. */
  predicate CapitalsOnly(s: string) {
    forall i :: 0 <= i < |s| ==> 'A' <= s[i] <= 'Z'
  }

  lemma CapitalsAreNormal(s: string)
    requires CapitalsOnly(s)
    ensures Text.Upper(Text.Strip(s)) == s
  {
    assert Text.IsStripped(s) by {
      if s != [] {
        assert 'A' <= s[0] <= 'Z' && 'A' <= s[|s| - 1] <= 'Z';
      }
    }
    Text.StripOfStripped(s);
    var u := Text.Upper(s);
    assert |u| == |s|;
    forall i | 0 <= i < |s|
      ensures u[i] == s[i]
    {
      assert 'A' <= s[i] <= 'Z';
    }
    assert u == s;
  }

  /** The allowed severities are already stripped and upper-case. */
  lemma AllowedIsNormal(s: string)
    requires s in Allowed
    ensures Text.Upper(Text.Strip(s)) == s
  {
    assert CapitalsOnly(s) by {
      if s == "INFO" {
      } else if s == "WARNING" {
      } else if s == "ERROR" {
      } else if s == "CRITICAL" {
      } else if s == "LOW" {
      } else if s == "MEDIUM" {
      } else {
        assert s == "HIGH";
      }
    }
    CapitalsAreNormal(s);
  }

  /** `(raw or "INFO").strip().upper()` when that is allowed, else `"INFO"`. */
  function NormalizeSeverity(raw: string): (r: string)
    ensures r in Allowed
    ensures Text.Upper(Text.Strip(raw)) in Allowed ==> r == Text.Upper(Text.Strip(raw))
    ensures Text.Upper(Text.Strip(raw)) !in Allowed ==> r == "INFO"
  {
    AllowedIsNormal("INFO");
    var sev := Text.Upper(Text.Strip(if raw == [] then "INFO" else raw));
    if sev in Allowed then sev else "INFO"
  }

  /** Normalising a severity twice changes nothing. */
  lemma NormalizeSeverityIdempotent(raw: string)
    ensures NormalizeSeverity(NormalizeSeverity(raw)) == NormalizeSeverity(raw)
  {
    AllowedIsNormal(NormalizeSeverity(raw));
  }

  /** `(raw or "").strip()`, or `"UNKNOWN"` when that is empty. */
  function NormalizeSource(raw: string): (r: string)
    ensures r != [] && Text.IsStripped(r)
    ensures Text.Strip(raw) != [] ==> r == Text.Strip(raw)
    ensures Text.Strip(raw) == [] ==> r == "UNKNOWN"
  {
    Text.StripSpec(raw);
    var src := Text.Strip(raw);
    if src != [] then src else "UNKNOWN"
  }

  /** Normalising a source twice changes nothing. */
  lemma NormalizeSourceIdempotent(raw: string)
    ensures NormalizeSource(NormalizeSource(raw)) == NormalizeSource(raw)
  {
    Text.StripOfStripped(NormalizeSource(raw));
  }

  /** `(raw or "").strip()`. */
  function NormalizeMessage(raw: string): (r: string)
    ensures Text.IsStripped(r)
    ensures r == [] <==> Text.AllSpace(raw)
  {
    Text.StripSpec(raw);
    Text.StripEmptyIffBlank(raw);
    Text.Strip(raw)
  }

  // ---------------------------------------------------------------------
  // Header recognition
  // ---------------------------------------------------------------------

  /** `f.strip().lower()`. */
  function FieldName(f: string): string {
    Text.Lower(Text.Strip(f))
  }

  lemma FieldNameIdempotent(f: string)
    ensures FieldName(FieldName(f)) == FieldName(f)
  {
    var x := Text.Strip(f);
    Text.StripSpec(f);
    var y := Text.Lower(x);
    if y != [] {
      Text.CaseKeepsSpace(x[0]);
      Text.CaseKeepsSpace(x[|x| - 1]);
    }
    Text.StripOfStripped(y);
    Text.LowerIdempotent(x);
  }

  /** The set of normalised names among the non-blank fields. */
  function Names(fields: seq<string>): set<string> {
    set i | 0 <= i < |fields| && Text.Strip(fields[i]) != [] :: FieldName(fields[i])
  }

  /** All four required names occur among the fields. */
  predicate LooksLikeHeader(fields: seq<string>) {
    forall k :: k in RequiredFields ==> k in Names(fields)
  }

  /** A field names `k` when it normalises to `k`. */
  predicate Named(fields: seq<string>, k: string) {
    exists i :: 0 <= i < |fields| && FieldName(fields[i]) == k
  }

  /** A non-empty name is among the names exactly when some field normalises to it. */
  lemma NamesMember(fields: seq<string>, k: string)
    requires k != []
    ensures k in Names(fields) <==> Named(fields, k)
  {
    if Named(fields, k) {
      var i :| 0 <= i < |fields| && FieldName(fields[i]) == k;
      assert |FieldName(fields[i])| == |Text.Strip(fields[i])|;
      assert Text.Strip(fields[i]) != [];
    }
  }

  /**
   * A header is recognised exactly when each required name is some field
   * once stripped and lower-cased.
   */
  lemma LooksLikeHeaderIff(fields: seq<string>)
    ensures LooksLikeHeader(fields) <==> forall k :: k in RequiredFields ==> Named(fields, k)
  {
    NamesMember(fields, "timestamp");
    NamesMember(fields, "source");
    NamesMember(fields, "severity");
    NamesMember(fields, "message");
  }

  /** Reordering the columns does not change whether a header is recognised. */
  lemma LooksLikeHeaderReordered(a: seq<string>, b: seq<string>)
    requires multiset(a) == multiset(b)
    ensures LooksLikeHeader(a) <==> LooksLikeHeader(b)
  {
    forall x | x in Names(a)
      ensures x in Names(b)
    {
      var i :| 0 <= i < |a| && Text.Strip(a[i]) != [] && FieldName(a[i]) == x;
      assert a[i] in multiset(b);
      var j :| 0 <= j < |b| && b[j] == a[i];
    }
    forall x | x in Names(b)
      ensures x in Names(a)
    {
      var j :| 0 <= j < |b| && Text.Strip(b[j]) != [] && FieldName(b[j]) == x;
      assert b[j] in multiset(a);
      var i :| 0 <= i < |a| && a[i] == b[j];
    }
    assert Names(a) == Names(b);
  }

  /** Extra columns on either side do not stop a header from being recognised. */
  lemma LooksLikeHeaderExtraColumns(a: seq<string>, pre: seq<string>, post: seq<string>)
    requires LooksLikeHeader(a)
    ensures LooksLikeHeader(pre + a + post)
  {
    var h := pre + a + post;
    forall x | x in Names(a)
      ensures x in Names(h)
    {
      var i :| 0 <= i < |a| && Text.Strip(a[i]) != [] && FieldName(a[i]) == x;
      assert h[|pre| + i] == a[i];
    }
  }

  /** `_validate_header`: raises exactly when the header is not recognised. */
  function ValidateHeader(fields: seq<string>): (r: Result<(), ParseError>)
    ensures r.Ok? <==> forall k :: k in RequiredFields ==> Named(fields, k)
    ensures r.Err? ==> r.error == InvalidHeader
  {
    LooksLikeHeaderIff(fields);
    if LooksLikeHeader(fields) then Ok(()) else Err(InvalidHeader)
  }

  // ---------------------------------------------------------------------
  // Delimiter choice for text lines
  // ---------------------------------------------------------------------

  /** The score of splitting on `d`: 2 for four or more parts, plus 1 for two or more. */
  function Score(line: string, d: char): (s: int)
    ensures s == if Text.CountChar(line, d) >= 3 then 3 else if Text.CountChar(line, d) >= 1 then 1 else 0
  {
    Text.SplitLength(line, d);
    var parts := |Text.Split(line, d)|;
    (if parts >= 4 then 2 else 0) + (if parts >= 2 then 1 else 0)
  }

  /** The loop over the delimiters: the first strictly better score wins. */
  function ScanDelimiters(line: string, ds: seq<char>, best: Option<char>, bestScore: int): (r: (Option<char>, int))
    decreases |ds|
  {
    if ds == [] then (best, bestScore)
    else
      var s := Score(line, ds[0]);
      if s > bestScore then ScanDelimiters(line, ds[1..], Some(ds[0]), s)
      else ScanDelimiters(line, ds[1..], best, bestScore)
  }

  /** `_detect_txt_delimiter`. */
  function DetectDelimiter(line: string): (r: Option<char>)
    ensures r.Some? ==> r.value in Delimiters && Text.CountChar(line, r.value) >= 1
  {
    var (best, bestScore) := ScanDelimiters(line, Delimiters, None, -1);
    if bestScore <= 0 then None else best
  }

  /** The first of `ds` occurring at least `n` times in `line`. */
  function FirstOccurring(line: string, ds: seq<char>, n: nat): (r: Option<char>)
    ensures r.Some? ==> r.value in ds && Text.CountChar(line, r.value) >= n
    ensures r.None? ==> forall i :: 0 <= i < |ds| ==> Text.CountChar(line, ds[i]) < n
  {
    if ds == [] then None
    else if Text.CountChar(line, ds[0]) >= n then Some(ds[0])
    else FirstOccurring(line, ds[1..], n)
  }

  /** The best score among `ds`, or -1 when there is none. */
  function MaxScore(line: string, ds: seq<char>): (m: int)
    ensures m >= -1
    ensures forall i :: 0 <= i < |ds| ==> Score(line, ds[i]) <= m
    ensures ds != [] ==> exists i :: 0 <= i < |ds| && Score(line, ds[i]) == m
  {
    if ds == [] then -1
    else
      var rest := MaxScore(line, ds[1..]);
      assert forall i :: 1 <= i < |ds| ==> ds[i] == ds[1..][i - 1];
      if Score(line, ds[0]) >= rest then Score(line, ds[0]) else rest
  }

  /** The first of `ds` scoring exactly `s`. */
  function FirstScoring(line: string, ds: seq<char>, s: int): Option<char> {
    if ds == [] then None
    else if Score(line, ds[0]) == s then Some(ds[0])
    else FirstScoring(line, ds[1..], s)
  }

  /** The loop keeps the first delimiter reaching the best score, if that beats the start. */
  lemma {:induction false} ScanDelimitersSpec(line: string, ds: seq<char>, best: Option<char>, bestScore: int)
    requires bestScore >= -1
    ensures ScanDelimiters(line, ds, best, bestScore) ==
      if MaxScore(line, ds) > bestScore then (FirstScoring(line, ds, MaxScore(line, ds)), MaxScore(line, ds))
      else (best, bestScore)
    decreases |ds|
  {
    if ds != [] {
      var s := Score(line, ds[0]);
      var m' := MaxScore(line, ds[1..]);
      assert MaxScore(line, ds) == if s >= m' then s else m';
      assert FirstScoring(line, ds, s) == Some(ds[0]);
      assert m' != s ==> FirstScoring(line, ds, m') == FirstScoring(line, ds[1..], m');
      if s > bestScore {
        assert ScanDelimiters(line, ds, best, bestScore) == ScanDelimiters(line, ds[1..], Some(ds[0]), s);
        ScanDelimitersSpec(line, ds[1..], Some(ds[0]), s);
      } else {
        assert ScanDelimiters(line, ds, best, bestScore) == ScanDelimiters(line, ds[1..], best, bestScore);
        ScanDelimitersSpec(line, ds[1..], best, bestScore);
      }
    }
  }

  /** Scoring 3 means occurring at least three times. */
  lemma {:induction false} FirstScoringThree(line: string, ds: seq<char>)
    ensures FirstScoring(line, ds, 3) == FirstOccurring(line, ds, 3)
    decreases |ds|
  {
    if ds != [] {
      FirstScoringThree(line, ds[1..]);
    }
  }

  /** Among delimiters none of which occurs three times, scoring 1 means occurring at all. */
  lemma {:induction false} FirstScoringOne(line: string, ds: seq<char>)
    requires FirstOccurring(line, ds, 3).None?
    ensures FirstScoring(line, ds, 1) == FirstOccurring(line, ds, 1)
    decreases |ds|
  {
    if ds != [] {
      FirstScoringOne(line, ds[1..]);
    }
  }

  /**
   * The delimiter chosen is the first (in the order `, TAB | ;`) occurring
   * at least three times; failing that the first occurring at all; failing
   * that none.
   */
  lemma DetectDelimiterChoice(line: string)
    ensures DetectDelimiter(line) ==
      if FirstOccurring(line, Delimiters, 3).Some? then FirstOccurring(line, Delimiters, 3)
      else FirstOccurring(line, Delimiters, 1)
  {
    ScanDelimitersSpec(line, Delimiters, None, -1);
    FirstScoringThree(line, Delimiters);
    var m := MaxScore(line, Delimiters);
    var three := FirstOccurring(line, Delimiters, 3);
    if three.None? {
      FirstScoringOne(line, Delimiters);
      var one := FirstOccurring(line, Delimiters, 1);
      if one.Some? {
        var i :| 0 <= i < |Delimiters| && Delimiters[i] == one.value;
        assert Score(line, Delimiters[i]) == 1;
      }
    } else {
      var i :| 0 <= i < |Delimiters| && Delimiters[i] == three.value;
      assert Score(line, Delimiters[i]) == 3;
    }
  }

  // ---------------------------------------------------------------------
  // CSV files
  // ---------------------------------------------------------------------

  /** `[ln for ln in text.splitlines() if ln.strip()]`. */
  function NonBlankLines(text: string): (r: seq<string>)
    ensures forall i :: 0 <= i < |r| ==> !Text.AllSpace(r[i])
  {
    Tally.Filter(Text.SplitLines(text), (l: string) => !Text.AllSpace(l))
  }

  lemma AllSpaceSplit(a: string, b: string, c: string)
    ensures Text.AllSpace(a + b + c) <==> Text.AllSpace(a) && Text.AllSpace(b) && Text.AllSpace(c)
  {
    var s := a + b + c;
    if Text.AllSpace(s) {
      assert forall k :: 0 <= k < |a| ==> a[k] == s[k];
      assert forall k :: 0 <= k < |b| ==> b[k] == s[|a| + k];
      assert forall k :: 0 <= k < |c| ==> c[k] == s[|a| + |b| + k];
    }
  }

  /** The blank-line filter over `[x] + rest`. */
  lemma NonBlankCons(x: string, rest: seq<string>)
    ensures Tally.Filter([x] + rest, (l: string) => !Text.AllSpace(l)) == []
      <==> Text.AllSpace(x) && Tally.Filter(rest, (l: string) => !Text.AllSpace(l)) == []
  {
    Tally.FilterCons(x, rest, (l: string) => !Text.AllSpace(l));
  }

  /** The line break found by `splitlines`, one or two characters wide, is whitespace. */
  lemma BreakIsBlank(text: string, i: nat, width: nat)
    requires i < |text| && Text.IsLineBreak(text[i])
    requires width == if text[i] == '\r' && i + 1 < |text| && text[i + 1] == '\n' then 2 else 1
    ensures i + width <= |text|
    ensures text == text[..i] + text[i..i + width] + text[i + width..]
    ensures Text.AllSpace(text[i..i + width])
  {
    Text.LineBreakIsSpace(text[i]);
    if width == 2 {
      assert text[i..i + width] == [text[i], text[i + 1]];
    } else {
      assert text[i..i + width] == [text[i]];
    }
  }

  /** A file has no non-blank line exactly when it is all whitespace. */
  lemma {:induction false} NonBlankLinesEmpty(text: string)
    ensures NonBlankLines(text) == [] <==> Text.AllSpace(text)
    decreases |text|
  {
    if text != [] {
      var i := Text.IndexOfLineBreak(text);
      if i < |text| {
        var width := if text[i] == '\r' && i + 1 < |text| && text[i + 1] == '\n' then 2 else 1;
        var rest := text[i + width..];
        assert Text.SplitLines(text) == [text[..i]] + Text.SplitLines(rest);
        NonBlankLinesEmpty(rest);
        NonBlankCons(text[..i], Text.SplitLines(rest));
        BreakIsBlank(text, i, width);
        AllSpaceSplit(text[..i], text[i..i + width], rest);
      }
    }
  }

  /** Where the four required columns sit in the header. */
  datatype Columns = Columns(ts: nat, src: nat, sev: nat, msg: nat)
  {
    function Max(): nat {
      var a := if ts > src then ts else src;
      var b := if sev > msg then sev else msg;
      if a > b then a else b
    }
  }

  /** Normalised header names already name themselves. */
  lemma HeaderHasRequired(header: seq<string>, fields: seq<string>)
    requires fields == Tally.Map(header, FieldName)
    requires LooksLikeHeader(fields)
    ensures forall k :: k in RequiredFields ==> k in fields
  {
    forall k | k in RequiredFields
      ensures k in fields
    {
      var i :| 0 <= i < |fields| && Text.Strip(fields[i]) != [] && FieldName(fields[i]) == k;
      FieldNameIdempotent(header[i]);
    }
  }

  /** `{name: header_fields.index(name) for name in REQUIRED_FIELDS}`. */
  function ColumnsOf(fields: seq<string>): (c: Columns)
    requires forall k :: k in RequiredFields ==> k in fields
    ensures c.Max() < |fields|
    ensures fields[c.ts] == "timestamp" && "timestamp" !in fields[..c.ts]
    ensures fields[c.src] == "source" && "source" !in fields[..c.src]
    ensures fields[c.sev] == "severity" && "severity" !in fields[..c.sev]
    ensures fields[c.msg] == "message" && "message" !in fields[..c.msg]
  {
    Columns(Tally.FirstIndex(fields, "timestamp"), Tally.FirstIndex(fields, "source"),
            Tally.FirstIndex(fields, "severity"), Tally.FirstIndex(fields, "message"))
  }

  /** The entry one data row yields, or `None` when the row is skipped. */
  function CsvRow(row: seq<string>, c: Columns, parseTs: string -> Option<int>): (r: Option<Entry>)
    ensures r.Some? ==> WellFormed(r.value)
  {
    if row == [] || |row| <= c.Max() then None
    else
      var tsRaw := Text.Strip(row[c.ts]);
      var msg := NormalizeMessage(row[c.msg]);
      if tsRaw == [] then None
      else if msg == [] then None
      else match parseTs(tsRaw)
        case None => None
        case Some(t) => Some(Entry(t, NormalizeSource(row[c.src]), NormalizeSeverity(row[c.sev]), msg))
  }

  /**
   * A row is kept exactly when it reaches every named column, has a
   * timestamp and a message, and its timestamp parses; the entry then holds
   * the row's fields, normalised.
   */
  lemma CsvRowKept(row: seq<string>, c: Columns, parseTs: string -> Option<int>)
    ensures CsvRow(row, c, parseTs).Some? <==>
      && |row| > c.Max()
      && Text.Strip(row[c.ts]) != []
      && !Text.AllSpace(row[c.msg])
      && parseTs(Text.Strip(row[c.ts])).Some?
    ensures CsvRow(row, c, parseTs).Some? ==>
      CsvRow(row, c, parseTs).value == Entry(parseTs(Text.Strip(row[c.ts])).value, NormalizeSource(row[c.src]),
                                             NormalizeSeverity(row[c.sev]), Text.Strip(row[c.msg]))
  {
  }

  /** The entries of the data rows that are not skipped, in order. */
  function CsvRows(rows: seq<seq<string>>, c: Columns, parseTs: string -> Option<int>): (r: seq<Entry>)
    ensures |r| <= |rows|
    ensures forall i :: 0 <= i < |r| ==> WellFormed(r[i])
    ensures r == [] <==> forall j :: 0 <= j < |rows| ==> CsvRow(rows[j], c, parseTs).None?
  {
    var kept := Tally.Map(rows, (row: seq<string>) => CsvRow(row, c, parseTs));
    Somes(kept)
  }

  /**
   * The header row, lower-cased and stripped, validated and turned into
   * column positions; `None` when it is not a valid header.
   */
  function HeaderColumns(header: seq<string>): (r: Option<Columns>)
    ensures r.Some? <==> LooksLikeHeader(Tally.Map(header, FieldName))
    ensures r.Some? ==> r.value.Max() < |header|
  {
    var fields := Tally.Map(header, FieldName);
    if !LooksLikeHeader(fields) then None
    else
      HeaderHasRequired(header, fields);
      Some(ColumnsOf(fields))
  }

  /** `parse_csv_bytes` on the decoded text. */
  function ParseCsv(text: string, read: seq<string> -> seq<seq<string>>, parseTs: string -> Option<int>)
    : (r: Result<seq<Entry>, ParseError>)
    ensures r == Err(EmptyFile) <==> Text.AllSpace(text) || read(NonBlankLines(text)) == []
    ensures r == Err(InvalidHeader) <==>
      (!Text.AllSpace(text) && read(NonBlankLines(text)) != []
       && ValidateHeader(Tally.Map(read(NonBlankLines(text))[0], FieldName)).Err?)
    ensures r.Ok? ==> r.value != [] && forall i :: 0 <= i < |r.value| ==> WellFormed(r.value[i])
  {
    var lines := NonBlankLines(text);
    NonBlankLinesEmpty(text);
    if lines == [] then Err(EmptyFile)
    else
      var rows := read(lines);
      if rows == [] then Err(EmptyFile)
      else match HeaderColumns(rows[0])
        case None => Err(InvalidHeader)
        case Some(c) =>
          var logs := CsvRows(rows[1..], c, parseTs);
          if logs == [] then Err(NoValidRows) else Ok(logs)
  }

  /**
   * A file with a valid header is rejected for want of rows exactly when
   * every data row is skipped, and otherwise yields its rows' entries in
   * order.
   */
  lemma ParseCsvRows(text: string, read: seq<string> -> seq<seq<string>>, parseTs: string -> Option<int>,
                     rows: seq<seq<string>>, c: Columns)
    requires !Text.AllSpace(text)
    requires rows == read(NonBlankLines(text)) && rows != [] && HeaderColumns(rows[0]) == Some(c)
    ensures ParseCsv(text, read, parseTs).Err? <==> forall j :: 1 <= j < |rows| ==> CsvRow(rows[j], c, parseTs).None?
    ensures ParseCsv(text, read, parseTs).Ok? ==> ParseCsv(text, read, parseTs).value == CsvRows(rows[1..], c, parseTs)
  {
    NonBlankLinesEmpty(text);
    assert forall j :: 1 <= j < |rows| ==> rows[1..][j - 1] == rows[j];
  }

  // ---------------------------------------------------------------------
  // Text files
  // ---------------------------------------------------------------------

  /** `[ln.strip() for ln in text.splitlines() if ln.strip()]`. */
  function StrippedLines(text: string): (r: seq<string>)
    ensures |r| == |NonBlankLines(text)|
    ensures r == [] <==> Text.AllSpace(text)
    ensures forall i :: 0 <= i < |r| ==> r[i] != [] && Text.IsStripped(r[i])
  {
    NonBlankLinesEmpty(text);
    var lines := NonBlankLines(text);
    forall i | 0 <= i < |lines|
      ensures Text.Strip(lines[i]) != [] && Text.IsStripped(Text.Strip(lines[i]))
    {
      Text.StripSpec(lines[i]);
      Text.StripEmptyIffBlank(lines[i]);
    }
    Tally.Map(lines, Text.Strip)
  }

  /** The first line is a header: it has a delimiter and splitting on it names all four fields. */
  predicate IsHeaderLine(line: string) {
    var d := DetectDelimiter(line);
    d.Some? && LooksLikeHeader(Tally.Map(Text.Split(line, d.value), FieldName))
  }

  /** The fallback entry: the whole line, stamped with the current time. */
  function RawEntry(line: string, now: int): Entry {
    Entry(now, "UNKNOWN", "INFO", line)
  }

  /**
   * One text line: split on its own delimiter, or the first line's, into at
   * most four stripped parts; anything short of four parts with a timestamp
   * that parses and a message becomes the raw fallback.
   */
  function TxtLine(line: string, first: Option<char>, parseTs: string -> Option<int>, now: int): (r: Entry)
    ensures r == RawEntry(line, now) || (r.severity in Allowed && r.source != [] && r.message != [])
    ensures line != [] && Text.IsStripped(line) ==> WellFormed(r)
  {
    match LineDelimiter(line, first)
    case None => RawEntry(line, now)
    case Some(d) => FromParts(line, Tally.Map(Text.SplitMax(line, d, 3), Text.Strip), parseTs, now)
  }

  /** `_detect_txt_delimiter(line) or delim`. */
  function LineDelimiter(line: string, first: Option<char>): (r: Option<char>)
  {
    match DetectDelimiter(line)
    case Some(x) => Some(x)
    case None => first
  }

  /** The entry read from a line's stripped parts, or the raw fallback. */
  function FromParts(line: string, parts: seq<string>, parseTs: string -> Option<int>, now: int): (r: Entry)
    ensures r == RawEntry(line, now) || (r.severity in Allowed && r.source != [] && r.message != [])
    ensures r != RawEntry(line, now) ==> WellFormed(r)
  {
    if |parts| != 4 then RawEntry(line, now)
    else
      var msg := NormalizeMessage(parts[3]);
      if parts[0] == [] || msg == [] then RawEntry(line, now)
      else match parseTs(parts[0])
        case None => RawEntry(line, now)
        case Some(t) => Entry(t, NormalizeSource(parts[1]), NormalizeSeverity(parts[2]), msg)
  }

  /** `parse_txt_bytes` on the decoded text, with `now` standing for `datetime.utcnow()`. */
  function ParseTxt(text: string, parseTs: string -> Option<int>, now: int): (r: Result<seq<Entry>, ParseError>)
    ensures r.Err? <==> Text.AllSpace(text)
    ensures r.Err? ==> r.error == EmptyFile
    ensures r.Ok? ==> |r.value| == |NonBlankLines(text)| - HeaderSkip(StrippedLines(text))
    ensures r.Ok? ==> forall i :: 0 <= i < |r.value| ==> WellFormed(r.value[i])
  {
    var lines := StrippedLines(text);
    if lines == [] then Err(EmptyFile) else Ok(TxtBody(lines, parseTs, now))
  }

  /** How many lines the header takes: one when the first line is a header. */
  function HeaderSkip(lines: seq<string>): nat
    requires lines != []
  {
    if IsHeaderLine(lines[0]) then 1 else 0
  }

  /** The entries of the lines after the header, each split on its own or the first line's delimiter. */
  function TxtBody(lines: seq<string>, parseTs: string -> Option<int>, now: int): (r: seq<Entry>)
    requires lines != []
    requires forall i :: 0 <= i < |lines| ==> lines[i] != [] && Text.IsStripped(lines[i])
    ensures |r| == |lines| - HeaderSkip(lines)
    ensures forall i :: 0 <= i < |r| ==> WellFormed(r[i])
  {
    var delim := DetectDelimiter(lines[0]);
    var body := lines[HeaderSkip(lines)..];
    assert forall i :: 0 <= i < |body| ==> body[i] != [] && Text.IsStripped(body[i]);
    Tally.Map(body, (line: string) => TxtLine(line, delim, parseTs, now))
  }

  /** Each line after the header becomes exactly one entry, in order. */
  lemma ParseTxtLines(text: string, parseTs: string -> Option<int>, now: int)
    requires !Text.AllSpace(text)
    ensures ParseTxt(text, parseTs, now).Ok?
    ensures forall i :: 0 <= i < |ParseTxt(text, parseTs, now).value| ==>
      ParseTxt(text, parseTs, now).value[i]
        == TxtLine(StrippedLines(text)[HeaderSkip(StrippedLines(text)) + i], DetectDelimiter(StrippedLines(text)[0]), parseTs, now)
  {
    var lines := StrippedLines(text);
    var body := TxtBody(lines, parseTs, now);
    var r := ParseTxt(text, parseTs, now);
    assert r == Ok(body);
    TxtBodyLines(lines, parseTs, now);
    forall i | 0 <= i < |r.value|
      ensures r.value[i] == TxtLine(lines[HeaderSkip(lines) + i], DetectDelimiter(lines[0]), parseTs, now)
    {
      assert r.value[i] == body[i];
    }
  }

  lemma TxtBodyLines(lines: seq<string>, parseTs: string -> Option<int>, now: int)
    requires lines != []
    requires forall i :: 0 <= i < |lines| ==> lines[i] != [] && Text.IsStripped(lines[i])
    ensures forall i :: 0 <= i < |TxtBody(lines, parseTs, now)| ==>
      TxtBody(lines, parseTs, now)[i] == TxtLine(lines[HeaderSkip(lines) + i], DetectDelimiter(lines[0]), parseTs, now)
  {
    var start := HeaderSkip(lines);
    var delim := DetectDelimiter(lines[0]);
    var body := lines[start..];
    var r := TxtBody(lines, parseTs, now);
    assert r == Tally.Map(body, (line: string) => TxtLine(line, delim, parseTs, now));
    forall i | 0 <= i < |r|
      ensures r[i] == TxtLine(lines[start + i], delim, parseTs, now)
    {
      assert body[i] == lines[start + i];
    }
  }

  /**
   * A line with fewer than three of every delimiter cannot be split into
   * four parts, so it is kept whole as the raw fallback.
   */
  lemma TxtLineTooFewFields(line: string, first: Option<char>, parseTs: string -> Option<int>, now: int)
    requires forall i :: 0 <= i < |Delimiters| ==> Text.CountChar(line, Delimiters[i]) < 3
    requires first.Some? ==> first.value in Delimiters
    ensures TxtLine(line, first, parseTs, now) == RawEntry(line, now)
  {
    var d := LineDelimiter(line, first);
    if d.Some? {
      Text.SplitMaxLength(line, d.value, 3);
    }
  }

  /** A line with three commas is split on commas. */
  lemma CommaChosen(line: string, first: Option<char>)
    requires Text.CountChar(line, ',') >= 3
    ensures LineDelimiter(line, first) == Some(',')
  {
    DetectDelimiterChoice(line);
    assert FirstOccurring(line, Delimiters, 3) == Some(',');
  }

  /** A line that `split(",", 3)` cuts into four stripped parts reads as those parts. */
  lemma CommaLineParts(line: string, parts: seq<string>, first: Option<char>)
    requires Text.SplitMax(line, ',', 3) == parts && |parts| == 4
    requires forall i :: 0 <= i < 4 ==> Text.IsStripped(parts[i])
    ensures LineDelimiter(line, first) == Some(',')
    ensures Tally.Map(Text.SplitMax(line, ',', 3), Text.Strip) == parts
  {
    Text.SplitMaxLength(line, ',', 3);
    CommaChosen(line, first);
    var m := Tally.Map(parts, Text.Strip);
    forall i | 0 <= i < 4
      ensures m[i] == parts[i]
    {
      Text.StripOfStripped(parts[i]);
    }
  }

  /** `TxtLineFields` once the line is known to split into the four fields. */
  lemma CommaLineRead(line: string, ts: string, src: string, sev: string, msg: string, first: Option<char>,
                      parseTs: string -> Option<int>, now: int)
    requires Text.SplitMax(line, ',', 3) == [ts, src, sev, msg]
    requires ts != [] && msg != []
    requires Text.IsStripped(ts) && Text.IsStripped(src) && Text.IsStripped(sev) && Text.IsStripped(msg)
    ensures parseTs(ts).Some? ==>
      TxtLine(line, first, parseTs, now) == Entry(parseTs(ts).value, NormalizeSource(src), NormalizeSeverity(sev), msg)
    ensures parseTs(ts).None? ==> TxtLine(line, first, parseTs, now) == RawEntry(line, now)
  {
    CommaLineParts(line, [ts, src, sev, msg], first);
    Text.StripOfStripped(msg);
    assert TxtLine(line, first, parseTs, now) == FromParts(line, [ts, src, sev, msg], parseTs, now);
  }

  /**
   * A comma-separated line `ts,src,sev,msg` reads back as its four fields,
   * even when the message itself contains commas; when the timestamp does
   * not parse the line is kept whole.
   */
  lemma TxtLineFields(line: string, ts: string, src: string, sev: string, msg: string, first: Option<char>,
                      parseTs: string -> Option<int>, now: int)
    requires line == ts + "," + src + "," + sev + "," + msg
    requires ts != [] && msg != []
    requires Text.IsStripped(ts) && Text.IsStripped(src) && Text.IsStripped(sev) && Text.IsStripped(msg)
    requires forall k :: 0 <= k < |ts| ==> ts[k] != ','
    requires forall k :: 0 <= k < |src| ==> src[k] != ','
    requires forall k :: 0 <= k < |sev| ==> sev[k] != ','
    ensures parseTs(ts).Some? ==>
      TxtLine(line, first, parseTs, now) == Entry(parseTs(ts).value, NormalizeSource(src), NormalizeSeverity(sev), msg)
    ensures parseTs(ts).None? ==> TxtLine(line, first, parseTs, now) == RawEntry(line, now)
  {
    Text.SplitMaxFour(line, ts, src, sev, msg, ',');
    CommaLineRead(line, ts, src, sev, msg, first, parseTs, now);
  }
}

=== FILE: query.dfy ===
/**
 * `POST /query`: the lexical fallback retrieval, the canned heuristic
 * answer, the tolerant reading of a language-model reply, and the decision
 * tree that picks between vector hits, the lexical fallback and the
 * substring search, hydrates the hits from the table and trims them to the
 * response. The embedding call, the vector search and the model call come
 * in as already-decided outcomes.
 */
module Query {
  import opened Outcomes
  import opened Records
  import Text
  import Numerals
  import Sorting
  import Tally
  import Clock

  // ---------------------------------------------------------------------
  // Lexical fallback
  // ---------------------------------------------------------------------

  /** The question's words once `?` and `,` are blanked. */
  function Words(q: string): seq<string> {
    Text.SplitWhitespace(Text.ReplaceChar(Text.ReplaceChar(q, '?', ' '), ',', ' '))
  }

  /** Whether a word is long enough to search for: three characters or more. */
  predicate LongWord(w: string) {
    |w| >= 3
  }

  /**
   * The words of the lower-cased question of three or more characters, each
   * as often as it occurs; the whole question when no word is that long.
   */
  function Tokens(q: string): (r: seq<string>)
    requires q != []
    ensures r != []
    ensures r == [q] || forall i :: 0 <= i < |r| ==> |r[i]| >= 3 && Text.HasNoSpace(r[i])
    ensures (forall w :: w in Words(q) ==> |w| < 3) ==> r == [q]
    ensures (exists w :: w in Words(q) && |w| >= 3) ==>
      forall w :: Tally.Count(r, w) == if |w| >= 3 then Tally.Count(Words(q), w) else 0
    ensures r == [q] || Tally.SubsequenceOf(r, Words(q), LongWord)
  {
    Text.SplitWhitespaceMembers(Text.ReplaceChar(Text.ReplaceChar(q, '?', ' '), ',', ' '));
    var long := Tally.Filter(Words(q), LongWord);
    Tally.FilterSubsequence(Words(q), LongWord);
    if long == [] then [q]
    else
      assert forall w :: Tally.Count(long, w) == if |w| >= 3 then Tally.Count(Words(q), w) else 0 by {
        forall w
          ensures Tally.Count(long, w) == if |w| >= 3 then Tally.Count(Words(q), w) else 0
        {
          Tally.FilterCount(Words(q), LongWord, w);
        }
      }
      long
  }

  /** SQL `lower(field) LIKE lower('%t%')`: SQLAlchemy's `ilike` as SQLite runs it. */
  predicate ILikeContains(field: string, t: string) {
    Text.Like(Text.Lower(field), Text.Lower("%" + t + "%"))
  }

  /** The OR of the three `ilike` conditions per token. */
  predicate MatchesAny(r: LogRecord, tokens: seq<string>) {
    exists i :: 0 <= i < |tokens| &&
      (ILikeContains(r.message, tokens[i]) || ILikeContains(r.source, tokens[i]) || ILikeContains(r.severity, tokens[i]))
  }

  /** The text a token is looked for in when scoring. */
  function Haystack(r: LogRecord): string {
    Text.Lower(r.source + " " + r.severity + " " + r.message)
  }

  /** How many of the tokens occur in `text`, counted one token at a time. */
  function CountMatches(tokens: seq<string>, text: string): (c: nat)
    ensures c <= |tokens|
  {
    if tokens == [] then 0
    else CountMatches(tokens[..|tokens| - 1], text) + (if Text.Contains(text, tokens[|tokens| - 1]) then 1 else 0)
  }

  /** The tokens that occur in `text`, with their repetitions. */
  function Found(tokens: seq<string>, text: string): seq<string> {
    Tally.Filter(tokens, (t: string) => Text.Contains(text, t))
  }

  /** The count is the number of tokens found in the text. */
  lemma {:induction false} CountMatchesFound(tokens: seq<string>, text: string)
    ensures CountMatches(tokens, text) == |Found(tokens, text)|
  {
    if tokens != [] {
      CountMatchesFound(tokens[..|tokens| - 1], text);
      Tally.FilterStep(tokens, (t: string) => Text.Contains(text, t));
    }
  }

  /** A count out of a positive total, as a share, lies in [0, 1]. */
  lemma RatioInUnit(c: nat, n: nat)
    requires 0 < n && c <= n
    ensures 0.0 <= c as real / n as real <= 1.0
  {
    assert (c as real / n as real) * n as real == c as real;
  }

  /** The share of all tokens found in the row. */
  function Score(r: LogRecord, tokens: seq<string>): (s: real)
    requires tokens != []
    ensures 0.0 <= s <= 1.0
    ensures s * |tokens| as real == |Found(tokens, Haystack(r))| as real
  {
    var c := CountMatches(tokens, Haystack(r));
    CountMatchesFound(tokens, Haystack(r));
    RatioInUnit(c, |tokens|);
    c as real / |tokens| as real
  }

  /** Orders scored rows by descending score. */
  function ByScore(): ((LogRecord, real), (LogRecord, real)) -> bool {
    (a: (LogRecord, real), b: (LogRecord, real)) => a.1 > b.1
  }

  /** Orders scored rows newest first. */
  function ByNewestScored(): ((LogRecord, real), (LogRecord, real)) -> bool {
    (a: (LogRecord, real), b: (LogRecord, real)) => a.0.timestamp > b.0.timestamp
  }

  /** The rows the SQL statement returns: any of the first eight tokens matches, newest first, at most `k`. */
  function Candidates(table: seq<LogRecord>, tokens: seq<string>, k: nat): (r: seq<LogRecord>)
    ensures |r| <= k
  {
    Sorting.Take(Sorting.SortStable(Matching(table, tokens), ByNewest()), k)
  }

  /** Each candidate paired with its score, then stably sorted by descending score. */
  function Ranked(table: seq<LogRecord>, q: string, k: nat): (r: seq<(LogRecord, real)>)
    requires q != []
    ensures |r| <= k
  {
    var tokens := Tokens(q);
    Sorting.SortStable(Scored(Candidates(table, tokens, k), tokens), ByScore())
  }

  /** Each row paired with its score. */
  function Scored(rows: seq<LogRecord>, tokens: seq<string>): (r: seq<(LogRecord, real)>)
    requires tokens != []
    ensures |r| == |rows|
    ensures forall i :: 0 <= i < |rows| ==> r[i] == (rows[i], Score(rows[i], tokens))
  {
    Tally.Map(rows, (x: LogRecord) => (x, Score(x, tokens)))
  }

  /** `_keyword_fallback_hits(question, k)`: (log id, score) pairs. */
  function KeywordFallback(table: seq<LogRecord>, question: string, k: nat): (r: seq<(string, real)>)
    ensures Text.Strip(question) == [] ==> r == []
    ensures |r| <= k
  {
    var q := Text.Lower(Text.Strip(question));
    if q == [] then []
    else Tally.Map(Ranked(table, q, k), (p: (LogRecord, real)) => (p.0.logId, p.1))
  }

  lemma ByScoreIsStrictWeakOrder()
    ensures Sorting.StrictWeakOrder(ByScore())
  {
  }

  /** The candidates come newest first. */
  lemma CandidatesNewestFirst(table: seq<LogRecord>, tokens: seq<string>, k: nat)
    ensures Sorting.Sorted(Candidates(table, tokens, k), ByNewest())
  {
    var matching := Matching(table, tokens);
    ByNewestIsStrictWeakOrder();
    Sorting.SortStableSorted(matching, ByNewest());
    Sorting.TakeSorted(Sorting.SortStable(matching, ByNewest()), k, ByNewest());
  }

  /** Scoring keeps the candidates newest first. */
  lemma ScoredNewestFirst(table: seq<LogRecord>, tokens: seq<string>, k: nat)
    requires tokens != []
    ensures Sorting.Sorted(Scored(Candidates(table, tokens, k), tokens), ByNewestScored())
  {
    CandidatesNewestFirst(table, tokens, k);
  }

  /**
   * The fallback ranking: scores never increase along it, and rows of equal
   * score stay newest first.
   */
  lemma RankedOrder(table: seq<LogRecord>, q: string, k: nat)
    requires q != []
    ensures forall i, j :: 0 <= i < j < |Ranked(table, q, k)| ==> Ranked(table, q, k)[i].1 >= Ranked(table, q, k)[j].1
    ensures forall i, j :: 0 <= i < j < |Ranked(table, q, k)| && Ranked(table, q, k)[i].1 == Ranked(table, q, k)[j].1 ==>
      Ranked(table, q, k)[i].0.timestamp >= Ranked(table, q, k)[j].0.timestamp
  {
    var tokens := Tokens(q);
    var scored := Scored(Candidates(table, tokens, k), tokens);
    ScoredNewestFirst(table, tokens, k);
    ByScoreIsStrictWeakOrder();
    Sorting.SortStableSorted(scored, ByScore());
    Sorting.SortStableTieOrdered(scored, ByScore(), ByNewestScored());
  }

  /** Every ranked score is the row's share of matched tokens, so it lies in [0, 1]. */
  lemma RankedScores(table: seq<LogRecord>, q: string, k: nat)
    requires q != []
    ensures forall i :: 0 <= i < |Ranked(table, q, k)| ==>
      0.0 <= Ranked(table, q, k)[i].1 <= 1.0 && Ranked(table, q, k)[i].1 == Score(Ranked(table, q, k)[i].0, Tokens(q))
  {
    var tokens := Tokens(q);
    var scored := Scored(Candidates(table, tokens, k), tokens);
    var r := Ranked(table, q, k);
    forall i | 0 <= i < |r|
      ensures 0.0 <= r[i].1 <= 1.0 && r[i].1 == Score(r[i].0, tokens)
    {
      assert r[i] in multiset(scored);
      var j :| 0 <= j < |scored| && scored[j] == r[i];
    }
  }

  /** The rows the filter keeps: those matching one of the first eight tokens. */
  function Matching(table: seq<LogRecord>, tokens: seq<string>): (r: seq<LogRecord>)
  {
    var first8 := Sorting.Take(tokens, 8);
    Tally.Filter(table, (x: LogRecord) => MatchesAny(x, first8))
  }

  /**
   * The statement keeps only rows of the table that match one of the first
   * eight tokens; a matching row left out by the limit is no newer than any
   * row kept; and when at most `k` rows match, all of them are kept.
   */
  lemma CandidatesSpec(table: seq<LogRecord>, tokens: seq<string>, k: nat)
    ensures forall j :: 0 <= j < |Candidates(table, tokens, k)| ==>
      Candidates(table, tokens, k)[j] in table && MatchesAny(Candidates(table, tokens, k)[j], Sorting.Take(tokens, 8))
    ensures forall x :: x in Matching(table, tokens) && x !in Candidates(table, tokens, k) ==>
      forall j :: 0 <= j < |Candidates(table, tokens, k)| ==> x.timestamp <= Candidates(table, tokens, k)[j].timestamp
    ensures |Matching(table, tokens)| <= k ==> forall x :: x in Matching(table, tokens) ==> x in Candidates(table, tokens, k)
  {
    CandidatesMatch(table, tokens, k);
    CandidatesNewest(table, tokens, k);
    CandidatesAllWhenFew(table, tokens, k);
  }

  lemma CandidatesMatch(table: seq<LogRecord>, tokens: seq<string>, k: nat)
    ensures forall j :: 0 <= j < |Candidates(table, tokens, k)| ==>
      Candidates(table, tokens, k)[j] in table && MatchesAny(Candidates(table, tokens, k)[j], Sorting.Take(tokens, 8))
  {
    var first8 := Sorting.Take(tokens, 8);
    var matching := Matching(table, tokens);
    var sorted := Sorting.SortStable(matching, ByNewest());
    var rows := Candidates(table, tokens, k);
    assert rows == sorted[..|rows|];
    forall j | 0 <= j < |rows|
      ensures rows[j] in table && MatchesAny(rows[j], first8)
    {
      assert rows[j] == sorted[j];
      assert sorted[j] in multiset(matching);
    }
  }

  lemma CandidatesNewest(table: seq<LogRecord>, tokens: seq<string>, k: nat)
    ensures forall x :: x in Matching(table, tokens) && x !in Candidates(table, tokens, k) ==>
      forall j :: 0 <= j < |Candidates(table, tokens, k)| ==> x.timestamp <= Candidates(table, tokens, k)[j].timestamp
  {
    var rows := Candidates(table, tokens, k);
    ByNewestIsStrictWeakOrder();
    Sorting.SortTake(Matching(table, tokens), k, ByNewest());
    forall x, j | x in Matching(table, tokens) && x !in rows && 0 <= j < |rows|
      ensures x.timestamp <= rows[j].timestamp
    {
      assert !ByNewest()(x, rows[j]);
    }
  }

  lemma CandidatesAllWhenFew(table: seq<LogRecord>, tokens: seq<string>, k: nat)
    ensures |Matching(table, tokens)| <= k ==> forall x :: x in Matching(table, tokens) ==> x in Candidates(table, tokens, k)
  {
    var matching := Matching(table, tokens);
    var sorted := Sorting.SortStable(matching, ByNewest());
    var rows := Candidates(table, tokens, k);
    if |matching| <= k {
      assert rows == sorted;
      forall x | x in matching
        ensures x in rows
      {
        assert x in multiset(sorted);
      }
    }
  }

  /** Ranking only reorders the candidates: each is ranked exactly once, with its score. */
  lemma RankedPermutesCandidates(table: seq<LogRecord>, q: string, k: nat)
    requires q != []
    ensures |Ranked(table, q, k)| == |Candidates(table, Tokens(q), k)|
    ensures multiset(Ranked(table, q, k)) == multiset(Scored(Candidates(table, Tokens(q), k), Tokens(q)))
    ensures forall i :: 0 <= i < |Ranked(table, q, k)| ==> Ranked(table, q, k)[i].0 in Candidates(table, Tokens(q), k)
    ensures forall j :: 0 <= j < |Candidates(table, Tokens(q), k)| ==>
      exists i :: 0 <= i < |Ranked(table, q, k)| && Ranked(table, q, k)[i].0 == Candidates(table, Tokens(q), k)[j]
  {
    var tokens := Tokens(q);
    assert Ranked(table, q, k) == Sorting.SortStable(Scored(Candidates(table, tokens, k), tokens), ByScore());
    SortByScorePermutes(Candidates(table, tokens, k), tokens);
  }

  /** Sorting scored rows by score keeps each row exactly once. */
  lemma SortByScorePermutes(rows: seq<LogRecord>, tokens: seq<string>)
    requires tokens != []
    ensures var r := Sorting.SortStable(Scored(rows, tokens), ByScore());
      && |r| == |rows|
      && multiset(r) == multiset(Scored(rows, tokens))
      && (forall i :: 0 <= i < |r| ==> r[i].0 in rows)
      && (forall j :: 0 <= j < |rows| ==> exists i :: 0 <= i < |r| && r[i].0 == rows[j])
  {
    var scored := Scored(rows, tokens);
    var r := Sorting.SortStable(scored, ByScore());
    assert multiset(r) == multiset(scored);
    assert |r| == |scored| by {
      assert |multiset(r)| == |multiset(scored)|;
    }
    forall i | 0 <= i < |r|
      ensures r[i].0 in rows
    {
      assert r[i] in multiset(scored);
      var j :| 0 <= j < |scored| && scored[j] == r[i];
    }
    forall j | 0 <= j < |rows|
      ensures exists i :: 0 <= i < |r| && r[i].0 == rows[j]
    {
      assert scored[j] in multiset(r);
      var i :| 0 <= i < |r| && r[i] == scored[j];
    }
  }

  // ---------------------------------------------------------------------
  // Heuristic answer
  // ---------------------------------------------------------------------

  /** One entry of the response's `relevant_logs`. */
  datatype RelevantLog = RelevantLog(logId: string, timestamp: string, source: string, severity: string, message: string, score: real)

  /** The response entry for a table row. */
  function Relevant(row: LogRecord, score: real): (r: RelevantLog)
  {
    RelevantLog(row.logId, Clock.IsoZ(row.timestamp), row.source, row.severity, row.message, score)
  }

  const NoEvidenceAnswer: string :=
    "I couldn\U{2019}t find relevant log entries yet. Upload logs first or broaden your question."
  const NoEvidenceFollowup: string :=
    "Upload a recent log file and try again. If logs exist, try using different keywords."
  const FoundPrefix: string := "Yes \U{2014} I found "
  const FoundMiddle: string := " highly relevant log entries related to your question. The most significant match is "
  const FollowupPrefix: string := "Review the related entries for "
  const FollowupSuffix: string :=
    "Check maintenance notes and correlate with any sensor calibration or upstream conditions."

  /** `_heuristic_answer(question, relevant)`: the (answer, follow-up) pair; the question itself is not consulted. */
  function HeuristicAnswer(relevant: seq<RelevantLog>): (r: (string, string))
    ensures relevant == [] ==> r == (NoEvidenceAnswer, NoEvidenceFollowup)
    ensures r.0 != [] && r.1 != []
  {
    if relevant == [] then (NoEvidenceAnswer, NoEvidenceFollowup)
    else
      var top := relevant[0];
      (FoundPrefix + Numerals.IntToDec(|relevant|) + FoundMiddle + top.severity + " on " + top.timestamp
         + " from " + top.source + ": " + top.message,
       FollowupPrefix + top.source + " around " + top.timestamp + ". " + FollowupSuffix)
  }

  /**
   * With evidence, the answer states how many entries were found, then the
   * top entry's severity, timestamp, source and message in that order, and
   * the follow-up names the top entry's source and time.
   */
  lemma HeuristicAnswerQuotesTop(relevant: seq<RelevantLog>)
    requires relevant != []
    ensures var r := HeuristicAnswer(relevant);
      var head := FoundPrefix + Numerals.IntToDec(|relevant|) + FoundMiddle + relevant[0].severity;
      && Text.StartsWith(r.0, head)
      && r.0[|head|..] == (" on " + relevant[0].timestamp + " from " + relevant[0].source) + (": " + relevant[0].message)
      && Text.EndsWith(r.0, ": " + relevant[0].message)
      && Text.StartsWith(r.1, FollowupPrefix + relevant[0].source + " around " + relevant[0].timestamp + ". ")
      && Text.EndsWith(r.1, FollowupSuffix)
  {
    var top := relevant[0];
    var head := FoundPrefix + Numerals.IntToDec(|relevant|) + FoundMiddle + top.severity;
    var a := head + " on " + top.timestamp + " from " + top.source + ": " + top.message;
    assert a == head + (" on " + top.timestamp + " from " + top.source) + (": " + top.message);
    var fhead := FollowupPrefix + top.source + " around " + top.timestamp + ". ";
    assert fhead + FollowupSuffix == HeuristicAnswer(relevant).1;
  }

  /** The answer depends only on how many entries there are and on the first one. */
  lemma HeuristicAnswerDependsOnTop(a: seq<RelevantLog>, b: seq<RelevantLog>)
    requires |a| == |b| && (a != [] ==> a[0] == b[0])
    ensures HeuristicAnswer(a) == HeuristicAnswer(b)
  {
  }

  // ---------------------------------------------------------------------
  // Reading the language model's reply
  // ---------------------------------------------------------------------

  const GenericFollowup: string :=
    "Review the matching incidents and correlate with maintenance and sensor data."

  /**
   * `s.split(":", 1)[1].strip()`: what follows the first colon, stripped;
   * `None` when there is no colon and the indexing raises.
   */
  function AfterColon(s: string): (r: Option<string>)
  {
    var parts := Text.SplitMax(s, ':', 1);
    if |parts| < 2 then None else Some(Text.Strip(parts[1]))
  }

  /** `s.lower().startswith(marker)`. */
  predicate HasMarker(s: string, marker: string) {
    Text.StartsWith(Text.Lower(s), marker)
  }

  /** With its first colon at `n`, the text after the colon is `s[n + 1..]`. */
  lemma ColonAt(s: string, n: nat)
    requires n < |s| && s[n] == ':' && forall j :: 0 <= j < n ==> s[j] != ':'
    ensures AfterColon(s) == Some(Text.Strip(s[n + 1..]))
  {
    Text.IndexOfIs(s, ':', n);
    assert Text.SplitMax(s, ':', 1) == [s[..n]] + Text.SplitMax(s[n + 1..], ':', 0);
  }

  /** A line that starts with a marker word and colon, in any case, has its first colon right after the word. */
  lemma MarkerColon(s: string, marker: string)
    requires marker != [] && marker[|marker| - 1] == ':' && ':' !in marker[..|marker| - 1]
    requires HasMarker(s, marker)
    ensures AfterColon(s) == Some(Text.Strip(s[|marker|..]))
  {
    var n := |marker| - 1;
    assert Text.Lower(s)[n] == marker[n];
    forall j | 0 <= j < n
      ensures s[j] != ':'
    {
      assert Text.Lower(s)[j] == marker[..n][j];
    }
    ColonAt(s, n);
  }

  /** The last line of the stripped reply, itself stripped: the `s` left over after the loop. */
  function LastLine(t: string): (r: Option<string>)
    ensures r.None? <==> t == []
  {
    var lines := Text.SplitLines(t);
    if lines == [] then None else Some(Text.Strip(lines[|lines| - 1]))
  }

  /**
   * The (answer, follow-up) read from the model's text, or `None` when the
   * reading raises: with an empty reply the loop never binds `s`. Only the
   * last line is checked for a marker.
   */
  function LlmAnswer(text: string): (r: Option<(string, string)>)
    ensures r.Some? <==> !Text.AllSpace(text)
    ensures r.Some? ==> r.value.0 != [] && r.value.1 != []
  {
    Text.StripEmptyIffBlank(text);
    var t := Text.Strip(text);
    match LastLine(t)
    case None => None
    case Some(s) => ReadLastLine(s, t)
  }

  /**
   * The (answer, follow-up) read from last line `s` of the stripped reply
   * `t`: an empty answer falls back to the whole reply, an empty follow-up
   * to the generic one. The `None` branch mirrors the code's split on the
   * first colon, which cannot fail because both markers end in one.
   */
  function ReadLastLine(s: string, t: string): (r: Option<(string, string)>)
    requires t != []
    ensures r.Some? && r.value.0 != [] && r.value.1 != []
  {
    MarkedLineHasColon(s);
    var answer := if HasMarker(s, AnswerMarker) then AfterColon(s) else Some("");
    var follow := if !HasMarker(s, AnswerMarker) && HasMarker(s, FollowupMarker) then AfterColon(s) else Some("");
    if answer.None? || follow.None? then None
    else
      Some((if answer.value == [] then t else answer.value,
            if follow.value == [] then GenericFollowup else follow.value))
  }

  const AnswerMarker: string := "answer:"
  const FollowupMarker: string := "followup:"

  lemma MarkersWellFormed()
    ensures AnswerMarker != [] && AnswerMarker[|AnswerMarker| - 1] == ':' && ':' !in AnswerMarker[..|AnswerMarker| - 1]
    ensures FollowupMarker != [] && FollowupMarker[|FollowupMarker| - 1] == ':' && ':' !in FollowupMarker[..|FollowupMarker| - 1]
    ensures |AnswerMarker| == 7 && |FollowupMarker| == 9
    ensures AnswerMarker[0] != FollowupMarker[0]
  {
  }

  /** A line marked `answer:` carries its answer after the seventh character. */
  lemma AnswerColon(s: string)
    requires HasMarker(s, AnswerMarker)
    ensures |s| >= 7 && AfterColon(s) == Some(Text.Strip(s[7..]))
  {
    MarkersWellFormed();
    MarkerColon(s, AnswerMarker);
  }

  /** A line marked `followup:` carries its follow-up after the ninth character, and no answer marker. */
  lemma FollowupColon(s: string)
    requires HasMarker(s, FollowupMarker)
    ensures |s| >= 9 && AfterColon(s) == Some(Text.Strip(s[9..]))
    ensures !HasMarker(s, AnswerMarker)
  {
    MarkersWellFormed();
    MarkerColon(s, FollowupMarker);
    assert Text.Lower(s)[0] == FollowupMarker[0];
  }

  /** Both markers end in a colon, so a marked line always splits. */
  lemma MarkedLineHasColon(s: string)
    ensures HasMarker(s, AnswerMarker) ==> AfterColon(s).Some?
    ensures HasMarker(s, FollowupMarker) ==> AfterColon(s).Some?
  {
    if HasMarker(s, AnswerMarker) {
      AnswerColon(s);
    }
    if HasMarker(s, FollowupMarker) {
      FollowupColon(s);
    }
  }

  lemma ReadAnswerLine(s: string, t: string)
    requires t != [] && HasMarker(s, AnswerMarker)
    ensures |s| >= 7
    ensures Text.Strip(s[7..]) != [] ==> ReadLastLine(s, t) == Some((Text.Strip(s[7..]), GenericFollowup))
  {
    AnswerColon(s);
  }

  lemma ReadFollowupLine(s: string, t: string)
    requires t != [] && HasMarker(s, FollowupMarker)
    ensures |s| >= 9
    ensures Text.Strip(s[9..]) != [] ==> ReadLastLine(s, t) == Some((t, Text.Strip(s[9..])))
  {
    FollowupColon(s);
  }

  /** The last line of the stripped reply, for a reply that is not blank. */
  function ReplyLastLine(text: string): (s: string)
    requires !Text.AllSpace(text)
  {
    Text.StripEmptyIffBlank(text);
    LastLine(Text.Strip(text)).value
  }

  /** A last line marked `answer:` gives the answer after the marker and the generic follow-up. */
  lemma LlmAnswerLine(text: string)
    requires !Text.AllSpace(text)
    requires HasMarker(ReplyLastLine(text), AnswerMarker)
    requires Text.Strip(ReplyLastLine(text)[7..]) != []
    ensures LlmAnswer(text) == Some((Text.Strip(ReplyLastLine(text)[7..]), GenericFollowup))
  {
    var s := ReplyLastLine(text);
    Text.StripEmptyIffBlank(text);
    assert LastLine(Text.Strip(text)) == Some(s);
    ReadAnswerLine(s, Text.Strip(text));
  }

  /** A last line marked `followup:` gives that follow-up and leaves the whole reply as the answer. */
  lemma LlmFollowupLine(text: string)
    requires !Text.AllSpace(text)
    requires HasMarker(ReplyLastLine(text), FollowupMarker)
    requires Text.Strip(ReplyLastLine(text)[9..]) != []
    ensures LlmAnswer(text) == Some((Text.Strip(text), Text.Strip(ReplyLastLine(text)[9..])))
  {
    var s := ReplyLastLine(text);
    Text.StripEmptyIffBlank(text);
    assert LastLine(Text.Strip(text)) == Some(s);
    ReadFollowupLine(s, Text.Strip(text));
  }

  /** A last line with neither marker leaves the whole reply as the answer, with the generic follow-up. */
  lemma LlmUnmarkedLine(text: string)
    requires !Text.AllSpace(text)
    requires !HasMarker(ReplyLastLine(text), AnswerMarker) && !HasMarker(ReplyLastLine(text), FollowupMarker)
    ensures LlmAnswer(text) == Some((Text.Strip(text), GenericFollowup))
  {
    Text.StripEmptyIffBlank(text);
  }

  /**
   * Lines before the last are never looked at: a reply whose last line
   * carries no marker is taken whole as the answer, even when an earlier
   * line starts with `Answer:`.
   */
  lemma LlmAnswerIgnoresEarlierLines(x: string, y: string)
    requires y != [] && Text.IsStripped(y) && forall j :: 0 <= j < |y| ==> !Text.IsLineBreak(y[j])
    requires x != [] && !Text.IsSpace(x[0])
    requires !HasMarker(y, AnswerMarker) && !HasMarker(y, FollowupMarker)
    ensures LlmAnswer(x + "\n" + y) == Some((x + "\n" + y, GenericFollowup))
  {
    var t := x + "\n" + y;
    assert Text.IsStripped(t);
    Text.StripOfStripped(t);
    Text.StripOfStripped(y);
    Text.SplitLinesLast(x, y);
    assert !Text.AllSpace(t) by {
      assert !Text.IsSpace(t[0]);
    }
    assert ReplyLastLine(t) == y;
    LlmUnmarkedLine(t);
  }

  /**
   * The reading the loop evidently intends: every line of the reply is
   * checked for a marker, and a later marked line overrides an earlier one.
   */
  function ReadMarkedLines(lines: seq<string>, answer: string, follow: string): (string, string)
  {
    if lines == [] then (answer, follow)
    else
      var s := Text.Strip(lines[0]);
      if HasMarker(s, AnswerMarker) then ReadMarkedLines(lines[1..], AfterColon(s).GetOr(answer), follow)
      else if HasMarker(s, FollowupMarker) then ReadMarkedLines(lines[1..], answer, AfterColon(s).GetOr(follow))
      else ReadMarkedLines(lines[1..], answer, follow)
  }

  /**
   * The (answer, follow-up) read from the model's text with every line
   * examined; `None` when the reply is blank and the endpoint falls back to
   * the heuristic answer.
   */
  function LlmAnswerEveryLine(text: string): (r: Option<(string, string)>)
    ensures r.None? <==> Text.AllSpace(text)
    ensures r.Some? ==> r.value.0 != [] && r.value.1 != []
  {
    Text.StripEmptyIffBlank(text);
    var t := Text.Strip(text);
    var read := ReadMarkedLines(Text.SplitLines(t), "", "");
    var answer := if read.0 == [] then t else read.0;
    if answer == [] then None
    else Some((answer, if read.1 == [] then GenericFollowup else read.1))
  }

  /** On a one-line reply the two readings agree: the misplaced loop only matters for several lines. */
  lemma EveryLineAgreesOnOneLine(text: string)
    requires !Text.AllSpace(text)
    requires forall j :: 0 <= j < |Text.Strip(text)| ==> !Text.IsLineBreak(Text.Strip(text)[j])
    ensures LlmAnswerEveryLine(text) == LlmAnswer(text)
  {
    Text.StripEmptyIffBlank(text);
    var t := Text.Strip(text);
    Text.SplitLinesNoBreak(t);
    Text.StripIdempotent(text);
    assert LastLine(t) == Some(t);
    var one: seq<string> := [t];
    assert one[1..] == [];
    if HasMarker(t, AnswerMarker) {
      AnswerColon(t);
      assert ReadMarkedLines(one, "", "") == (Text.Strip(t[7..]), "");
    } else if HasMarker(t, FollowupMarker) {
      FollowupColon(t);
      assert ReadMarkedLines(one, "", "") == ("", Text.Strip(t[9..]));
    } else {
      assert ReadMarkedLines(one, "", "") == ("", "");
    }
  }

  /** The two-line reply the prompt asks the model for. */
  function TwoLineReply(a: string, f: string): string {
    ("Answer: " + a) + "\n" + ("Followup: " + f)
  }

  /** A marker word, a space and a stripped text: the line carries the marker and the text. */
  lemma MarkedLine(word: string, marker: string, a: string)
    requires |word| == |marker| && Text.Lower(word) == marker
    requires marker != [] && marker[|marker| - 1] == ':' && ':' !in marker[..|marker| - 1]
    requires a != [] && Text.IsStripped(a)
    ensures HasMarker(word + " " + a, marker)
    ensures AfterColon(word + " " + a) == Some(a)
    ensures Text.IsStripped(word + " " + a) ==> Text.Strip(word + " " + a) == word + " " + a
  {
    var s := word + " " + a;
    assert Text.Lower(s)[..|marker|] == marker by {
      forall k | 0 <= k < |marker|
        ensures Text.Lower(s)[k] == marker[k]
      {
        assert s[k] == word[k];
        assert Text.Lower(word)[k] == Text.LowerChar(word[k]);
      }
    }
    MarkerColon(s, marker);
    assert s[|marker|..] == " " + a;
    Text.StripLeadingSpace(a);
    if Text.IsStripped(s) {
      Text.StripOfStripped(s);
    }
  }

  /** A marker word, a space and a stripped one-line text make a stripped line. */
  lemma MarkedLineShape(word: string, a: string)
    requires word != [] && !Text.IsSpace(word[0]) && forall j :: 0 <= j < |word| ==> !Text.IsLineBreak(word[j])
    requires a != [] && Text.IsStripped(a) && forall j :: 0 <= j < |a| ==> !Text.IsLineBreak(a[j])
    ensures Text.IsStripped(word + " " + a)
    ensures forall j :: 0 <= j < |word + " " + a| ==> !Text.IsLineBreak((word + " " + a)[j])
  {
    var s := word + " " + a;
    assert s[0] == word[0] && s[|s| - 1] == a[|a| - 1];
    forall j | 0 <= j < |s|
      ensures !Text.IsLineBreak(s[j])
    {
      if j < |word| {
        assert s[j] == word[j];
      } else if j > |word| {
        assert s[j] == a[j - |word| - 1];
      }
    }
  }

  /** `Answer: a` is a stripped one-line text marked `answer:` that carries `a`. */
  lemma AnswerLine(a: string)
    requires a != [] && Text.IsStripped(a) && forall j :: 0 <= j < |a| ==> !Text.IsLineBreak(a[j])
    ensures Text.IsStripped("Answer: " + a)
    ensures forall j :: 0 <= j < |"Answer: " + a| ==> !Text.IsLineBreak(("Answer: " + a)[j])
    ensures HasMarker("Answer: " + a, AnswerMarker) && AfterColon("Answer: " + a) == Some(a)
  {
    assert "Answer: " + a == "Answer:" + " " + a;
    MarkersWellFormed();
    assert Text.Lower("Answer:") == AnswerMarker;
    MarkedLineShape("Answer:", a);
    MarkedLine("Answer:", AnswerMarker, a);
  }

  /** `Followup: f` is a stripped one-line text marked `followup:` that carries `f`. */
  lemma FollowupLine(f: string)
    requires f != [] && Text.IsStripped(f) && forall j :: 0 <= j < |f| ==> !Text.IsLineBreak(f[j])
    ensures Text.IsStripped("Followup: " + f)
    ensures forall j :: 0 <= j < |"Followup: " + f| ==> !Text.IsLineBreak(("Followup: " + f)[j])
    ensures HasMarker("Followup: " + f, FollowupMarker) && AfterColon("Followup: " + f) == Some(f)
  {
    assert "Followup: " + f == "Followup:" + " " + f;
    MarkersWellFormed();
    assert Text.Lower("Followup:") == FollowupMarker;
    MarkedLineShape("Followup:", f);
    MarkedLine("Followup:", FollowupMarker, f);
  }

  /** The two lines of `TwoLineReply` and their markers. */
  lemma TwoLineReplyParts(a: string, f: string)
    requires a != [] && Text.IsStripped(a) && forall j :: 0 <= j < |a| ==> !Text.IsLineBreak(a[j])
    requires f != [] && Text.IsStripped(f) && forall j :: 0 <= j < |f| ==> !Text.IsLineBreak(f[j])
    ensures Text.Strip(TwoLineReply(a, f)) == TwoLineReply(a, f)
    ensures Text.SplitLines(TwoLineReply(a, f)) == ["Answer: " + a, "Followup: " + f]
    ensures Text.Strip("Answer: " + a) == "Answer: " + a && Text.Strip("Followup: " + f) == "Followup: " + f
    ensures HasMarker("Answer: " + a, AnswerMarker) && AfterColon("Answer: " + a) == Some(a)
    ensures HasMarker("Followup: " + f, FollowupMarker) && AfterColon("Followup: " + f) == Some(f)
  {
    var x := "Answer: " + a;
    var y := "Followup: " + f;
    AnswerLine(a);
    FollowupLine(f);
    Text.StripOfStripped(x);
    Text.StripOfStripped(y);
    Text.SplitLinesTwo(x, y);
    var t := x + "\n" + y;
    assert t[0] == x[0] && t[|t| - 1] == y[|y| - 1];
    Text.StripOfStripped(t);
  }

  /** As written: the answer line of the two-line reply is lost and the whole reply becomes the answer. */
  lemma AsWrittenLosesAnswerLine(a: string, f: string)
    requires a != [] && Text.IsStripped(a) && forall j :: 0 <= j < |a| ==> !Text.IsLineBreak(a[j])
    requires f != [] && Text.IsStripped(f) && forall j :: 0 <= j < |f| ==> !Text.IsLineBreak(f[j])
    ensures LlmAnswer(TwoLineReply(a, f)) == Some((TwoLineReply(a, f), f))
    ensures TwoLineReply(a, f) != a
  {
    TwoLineReplyParts(a, f);
    var t := TwoLineReply(a, f);
    assert LastLine(t) == Some("Followup: " + f);
    FollowupColon("Followup: " + f);
    assert |t| > |a|;
  }

  /** Corrected: the two-line reply gives exactly its answer and its follow-up. */
  lemma EveryLineReadsBoth(a: string, f: string)
    requires a != [] && Text.IsStripped(a) && forall j :: 0 <= j < |a| ==> !Text.IsLineBreak(a[j])
    requires f != [] && Text.IsStripped(f) && forall j :: 0 <= j < |f| ==> !Text.IsLineBreak(f[j])
    ensures LlmAnswerEveryLine(TwoLineReply(a, f)) == Some((a, f))
  {
    TwoLineReplyParts(a, f);
    var x, y := "Answer: " + a, "Followup: " + f;
    FollowupColon(y);
    var last: seq<string> := [y];
    assert last[1..] == [];
    assert ReadMarkedLines(last, a, "") == (a, f);
    var lines := [x, y];
    assert lines[1..] == last;
    assert ReadMarkedLines(lines, "", "") == ReadMarkedLines(last, a, "");
  }

  // ---------------------------------------------------------------------
  // The endpoint
  // ---------------------------------------------------------------------

  /** How the bounded-time embedding of the question ended. */
  datatype EmbedOutcome = Embedded | EmbedTimedOut | EmbedFailed

  /** How the bounded-time vector search ended: hits, a timeout, or any other exception. */
  datatype SearchOutcome = SearchHits(hits: seq<(string, real)>) | SearchTimedOut | SearchFailed

  /** What the model call did: raised, or returned text (empty when the model is not configured). */
  datatype LlmOutcome = LlmRaised | LlmText(text: string)

  /**
   * Why a query was refused: the request body failed validation (an empty
   * `question` is shorter than the schema's minimum length of one), the
   * question is blank once stripped, or the embedding step timed out or raised.
   */
  datatype QueryError = QuestionTooShort | EmptyQuestion | EmbeddingTimedOut | EmbeddingFailed
  {
    /**
     * The HTTP status the client sees: 422 from request validation, before
     * the route runs; an embedding failure other than a timeout is not caught.
     */
    function Status(): int {
      match this
      case QuestionTooShort => 422
      case EmptyQuestion => 400
      case EmbeddingTimedOut => 504
      case EmbeddingFailed => 500
    }
  }

  datatype QueryResponse = QueryResponse(answer: string, relevantLogs: seq<RelevantLog>, followup: string)

  /** `by_id.get(log_id)`: the table row with that primary key. */
  function Lookup(table: seq<LogRecord>, id: string): (r: Option<LogRecord>)
    ensures r.Some? ==> r.value in table && r.value.logId == id
    ensures r.None? ==> forall i :: 0 <= i < |table| ==> table[i].logId != id
  {
    if table == [] then None
    else if table[0].logId == id then Some(table[0])
    else Lookup(table[1..], id)
  }

  /** The hits turned into response entries in hit order, skipping ids the table lacks. */
  function Hydrate(table: seq<LogRecord>, hits: seq<(string, real)>): (r: seq<RelevantLog>)
    ensures |r| <= |hits|
  {
    if hits == [] then []
    else
      var rest := Hydrate(table, hits[..|hits| - 1]);
      var h := hits[|hits| - 1];
      match Lookup(table, h.0)
      case None => rest
      case Some(row) => rest + [Relevant(row, h.1)]
  }

  /** The entry shows a row of the table. */
  ghost predicate Grounded(table: seq<LogRecord>, x: RelevantLog) {
    exists j :: 0 <= j < |table| && x == Relevant(table[j], x.score)
  }

  /**
   * Hydration works hit by hit: the entries for two runs of hits are those
   * of each run, one after the other, so hit order is kept and a repeated
   * hit appears repeatedly.
   */
  lemma {:induction false} HydrateAppend(table: seq<LogRecord>, a: seq<(string, real)>, b: seq<(string, real)>)
    ensures Hydrate(table, a + b) == Hydrate(table, a) + Hydrate(table, b)
  {
    if b != [] {
      var n := |b| - 1;
      assert (a + b)[..|a + b| - 1] == a + b[..n];
      HydrateAppend(table, a, b[..n]);
    } else {
      assert a + b == a;
    }
  }

  /** One hit yields its row's entry with the hit's score, or nothing when the table lacks the id. */
  lemma HydrateOne(table: seq<LogRecord>, h: (string, real))
    ensures Lookup(table, h.0).None? ==> Hydrate(table, [h]) == []
    ensures Lookup(table, h.0).Some? ==> Hydrate(table, [h]) == [Relevant(Lookup(table, h.0).value, h.1)]
  {
    assert [h][..0] == [];
  }

  /** Every hydrated entry shows a row of the table. */
  lemma {:induction false} HydrateGrounded(table: seq<LogRecord>, hits: seq<(string, real)>)
    ensures forall i :: 0 <= i < |Hydrate(table, hits)| ==> Grounded(table, Hydrate(table, hits)[i])
  {
    if hits != [] {
      HydrateGrounded(table, hits[..|hits| - 1]);
      var h := hits[|hits| - 1];
      var r := Hydrate(table, hits);
      if Lookup(table, h.0).Some? {
        var row := Lookup(table, h.0).value;
        var j :| 0 <= j < |table| && table[j] == row;
        assert r[|r| - 1] == Relevant(table[j], h.1);
      }
    }
  }

  /** The entry carries the id and score of one of the hits. */
  predicate FromHit(x: RelevantLog, hits: seq<(string, real)>) {
    exists j :: 0 <= j < |hits| && hits[j] == (x.logId, x.score)
  }

  /** One step of hydration: the entries of all but the last hit, then the last hit's. */
  lemma HydrateStep(table: seq<LogRecord>, hits: seq<(string, real)>)
    requires hits != []
    ensures var h := hits[|hits| - 1];
      Hydrate(table, hits) == Hydrate(table, hits[..|hits| - 1])
        + (if Lookup(table, h.0).Some? then [Relevant(Lookup(table, h.0).value, h.1)] else [])
  {
  }

  /** Every hydrated entry carries the id and score of one of the hits. */
  lemma {:induction false} HydrateFromHits(table: seq<LogRecord>, hits: seq<(string, real)>)
    ensures forall i :: 0 <= i < |Hydrate(table, hits)| ==> FromHit(Hydrate(table, hits)[i], hits)
  {
    if hits != [] {
      var n := |hits| - 1;
      var h := hits[n];
      HydrateFromHits(table, hits[..n]);
      HydrateStep(table, hits);
      var r := Hydrate(table, hits);
      var rest := Hydrate(table, hits[..n]);
      forall i | 0 <= i < |r|
        ensures FromHit(r[i], hits)
      {
        if i < |rest| {
          assert r[i] == rest[i];
          var j :| 0 <= j < n && hits[..n][j] == (rest[i].logId, rest[i].score);
          assert hits[j] == hits[..n][j];
        } else {
          assert hits[n] == (r[i].logId, r[i].score);
        }
      }
    }
  }

  /** When the table has a row for every hit, each hit gives its row's entry, in hit order. */
  lemma {:induction false} HydrateAllFound(table: seq<LogRecord>, hits: seq<(string, real)>)
    requires forall j :: 0 <= j < |hits| ==> Lookup(table, hits[j].0).Some?
    ensures |Hydrate(table, hits)| == |hits|
    ensures forall j :: 0 <= j < |hits| ==> Hydrate(table, hits)[j] == Relevant(Lookup(table, hits[j].0).value, hits[j].1)
  {
    if hits != [] {
      var n := |hits| - 1;
      var init := hits[..n];
      assert forall j :: 0 <= j < |init| ==> init[j] == hits[j];
      HydrateAllFound(table, init);
      HydrateStep(table, hits);
      var rest := Hydrate(table, init);
      var r := Hydrate(table, hits);
      assert r == rest + [Relevant(Lookup(table, hits[n].0).value, hits[n].1)];
      forall j | 0 <= j < |hits|
        ensures r[j] == Relevant(Lookup(table, hits[j].0).value, hits[j].1)
      {
        if j < n {
          assert r[j] == rest[j] && init[j] == hits[j];
        } else {
          assert j == |rest|;
        }
      }
    }
  }

  /** The rows whose message contains `needle` under ILIKE, in table order. */
  function MessageMatches(table: seq<LogRecord>, needle: string): (r: seq<LogRecord>)
    ensures forall i :: 0 <= i < |r| ==> r[i] in table && ILikeContains(r[i].message, needle)
    ensures forall x :: x in table && ILikeContains(x.message, needle) ==> x in r
  {
    Tally.Filter(table, (x: LogRecord) => ILikeContains(x.message, needle))
  }

  /** The rows of the substring search: message contains the lower-cased question under ILIKE, at most 10. */
  function SubstringRows(table: seq<LogRecord>, question: string): (r: seq<LogRecord>)
    ensures |r| <= 10
  {
    Sorting.Take(MessageMatches(table, Text.Lower(question)), 10)
  }

  /** The (answer, follow-up) pair once the evidence is known. */
  function Answer(relevant: seq<RelevantLog>, top3: seq<RelevantLog>, llmEnabled: bool, llm: LlmOutcome): (r: (string, string))
    ensures r.0 != [] && r.1 != []
    ensures !llmEnabled || relevant == [] || llm.LlmRaised? ==> r == HeuristicAnswer(top3)
    ensures llm.LlmText? && Text.AllSpace(llm.text) ==> r == HeuristicAnswer(top3)
    ensures llmEnabled && relevant != [] && llm.LlmText? && !Text.AllSpace(llm.text) ==>
              Some(r) == LlmAnswer(llm.text)
  {
    if llmEnabled && relevant != [] then
      match llm
      case LlmRaised => HeuristicAnswer(top3)
      case LlmText(t) => LlmAnswer(t).GetOr(HeuristicAnswer(top3))
    else HeuristicAnswer(top3)
  }

  /** `query_logs(question)` once embedding, search and model outcomes are known. */
  function QueryLogs(table: seq<LogRecord>, question: string, embed: EmbedOutcome, search: SearchOutcome,
                     llmEnabled: bool, llm: LlmOutcome): (r: Result<QueryResponse, QueryError>)
    ensures question == [] ==> r == Err(QuestionTooShort)
    ensures question != [] && Text.Strip(question) == [] ==> r == Err(EmptyQuestion)
    ensures r.Err? ==> (r.error.Status() == 422 <==> question == [])
    ensures Text.Strip(question) != [] && embed.EmbedTimedOut? ==> r == Err(EmbeddingTimedOut)
    ensures Text.Strip(question) != [] && embed.EmbedFailed? ==> r == Err(EmbeddingFailed)
    ensures r.Ok? <==> Text.Strip(question) != [] && embed.Embedded?
    ensures r.Ok? ==> |r.value.relevantLogs| <= 3 && r.value.answer != [] && r.value.followup != []
  {
    var q := Text.Strip(question);
    if question == [] then Err(QuestionTooShort)
    else if q == [] then Err(EmptyQuestion)
    else if embed.EmbedTimedOut? then Err(EmbeddingTimedOut)
    else if embed.EmbedFailed? then Err(EmbeddingFailed)
    else
      var hits := if search.SearchHits? then search.hits else KeywordFallback(table, q, 20);
      if hits == [] then Ok(NoHitsResponse(table, q))
      else Ok(HitsResponse(table, hits, llmEnabled, llm))
  }

  /** The response built from the hits: the first ten hydrated, the first three returned. */
  function HitsResponse(table: seq<LogRecord>, hits: seq<(string, real)>, llmEnabled: bool, llm: LlmOutcome): (r: QueryResponse)
    ensures |r.relevantLogs| <= 3 && r.answer != [] && r.followup != []
  {
    var relevant := Hydrate(table, Sorting.Take(hits, 10));
    var top3 := Sorting.Take(relevant, 3);
    var p := Answer(relevant, top3, llmEnabled, llm);
    QueryResponse(p.0, top3, p.1)
  }

  /** The response when no hit was found: the first three substring matches, with the heuristic answer. */
  function NoHitsResponse(table: seq<LogRecord>, q: string): (r: QueryResponse)
    ensures |r.relevantLogs| <= 3 && r.answer != [] && r.followup != []
  {
    var top3 := Tally.Map(Sorting.Take(SubstringRows(table, q), 3), (x: LogRecord) => Relevant(x, 0.0));
    var p := HeuristicAnswer(top3);
    QueryResponse(p.0, top3, p.1)
  }

  /**
   * With vector hits, every returned entry shows a table row and carries the
   * id and score of one of the first ten hits; when the table has the first
   * three hits' rows, those are returned in hit order. Without a model the
   * answer is the heuristic one over the returned entries.
   */
  lemma QueryLogsVectorHits(table: seq<LogRecord>, question: string, hits: seq<(string, real)>,
                            llmEnabled: bool, llm: LlmOutcome)
    requires Text.Strip(question) != [] && hits != []
    ensures QueryLogs(table, question, Embedded, SearchHits(hits), llmEnabled, llm) == Ok(HitsResponse(table, hits, llmEnabled, llm))
    ensures var r := HitsResponse(table, hits, llmEnabled, llm);
      && (forall i :: 0 <= i < |r.relevantLogs| ==> Grounded(table, r.relevantLogs[i]))
      && (forall i :: 0 <= i < |r.relevantLogs| ==> FromHit(r.relevantLogs[i], Sorting.Take(hits, 10)))
      && ((forall j :: 0 <= j < |hits| && j < 3 ==> Lookup(table, hits[j].0).Some?) ==>
            && |r.relevantLogs| == (if |hits| < 3 then |hits| else 3)
            && forall j :: 0 <= j < |r.relevantLogs| ==>
                 r.relevantLogs[j] == Relevant(Lookup(table, hits[j].0).value, hits[j].1))
      && (!llmEnabled || llm.LlmRaised? ==> (r.answer, r.followup) == HeuristicAnswer(r.relevantLogs))
  {
    HitsFromTable(table, hits, llmEnabled, llm);
    if forall j :: 0 <= j < |hits| && j < 3 ==> Lookup(table, hits[j].0).Some? {
      TopThreeFound(table, hits);
    }
  }

  /** Every entry of the response from hits is a stored row carrying one of the first ten hits. */
  lemma HitsFromTable(table: seq<LogRecord>, hits: seq<(string, real)>, llmEnabled: bool, llm: LlmOutcome)
    ensures var r := HitsResponse(table, hits, llmEnabled, llm);
      && (forall i :: 0 <= i < |r.relevantLogs| ==> Grounded(table, r.relevantLogs[i]))
      && (forall i :: 0 <= i < |r.relevantLogs| ==> FromHit(r.relevantLogs[i], Sorting.Take(hits, 10)))
  {
    var h10 := Sorting.Take(hits, 10);
    var relevant := Hydrate(table, h10);
    var top3 := Sorting.Take(relevant, 3);
    assert HitsResponse(table, hits, llmEnabled, llm).relevantLogs == top3;
    HydrateGrounded(table, h10);
    HydrateFromHits(table, h10);
    assert forall i :: 0 <= i < |top3| ==> top3[i] == relevant[i];
  }

  /** When the table has the first three hits' rows, the first three entries are theirs. */
  lemma TopThreeFound(table: seq<LogRecord>, hits: seq<(string, real)>)
    requires forall j :: 0 <= j < |hits| && j < 3 ==> Lookup(table, hits[j].0).Some?
    ensures var top3 := Sorting.Take(Hydrate(table, Sorting.Take(hits, 10)), 3);
      && |top3| == (if |hits| < 3 then |hits| else 3)
      && forall j :: 0 <= j < |top3| ==> top3[j] == Relevant(Lookup(table, hits[j].0).value, hits[j].1)
  {
    var h10 := Sorting.Take(hits, 10);
    var n := if |hits| < 3 then |hits| else 3;
    var front := h10[..n];
    assert forall j :: 0 <= j < n ==> front[j] == hits[j];
    assert h10 == front + h10[n..];
    HydrateAppend(table, front, h10[n..]);
    HydrateAllFound(table, front);
    if |hits| < 3 {
      assert h10[n..] == [];
      assert Hydrate(table, h10) == Hydrate(table, front);
    }
  }

  /** A vector search that timed out or raised is replaced by the lexical fallback with `k = 20`. */
  lemma QueryLogsFallsBack(table: seq<LogRecord>, question: string, search: SearchOutcome,
                           llmEnabled: bool, llm: LlmOutcome)
    requires Text.Strip(question) != [] && !search.SearchHits?
    ensures QueryLogs(table, question, Embedded, search, llmEnabled, llm)
      == QueryLogs(table, question, Embedded, SearchHits(KeywordFallback(table, Text.Strip(question), 20)), llmEnabled, llm)
  {
  }

  /** The entry shows a table row whose message contains `needle` under ILIKE, with score 0. */
  ghost predicate SubstringEvidence(table: seq<LogRecord>, needle: string, x: RelevantLog) {
    exists j :: 0 <= j < |table| && ILikeContains(table[j].message, needle) && x == Relevant(table[j], 0.0)
  }

  /**
   * With no hits at all, the response holds as many rows as match the
   * question under ILIKE, up to three, each a matching table row with score
   * 0, and the heuristic answer over them; the model is never consulted.
   */
  lemma QueryLogsNoHits(table: seq<LogRecord>, question: string, llmEnabled: bool, llm: LlmOutcome)
    requires Text.Strip(question) != []
    ensures QueryLogs(table, question, Embedded, SearchHits([]), llmEnabled, llm) == Ok(NoHitsResponse(table, Text.Strip(question)))
    ensures var r := NoHitsResponse(table, Text.Strip(question));
      var m := MessageMatches(table, Text.Lower(Text.Strip(question)));
      && |r.relevantLogs| == (if |m| < 3 then |m| else 3)
      && (forall i :: 0 <= i < |r.relevantLogs| ==> SubstringEvidence(table, Text.Lower(Text.Strip(question)), r.relevantLogs[i]))
      && (r.answer, r.followup) == HeuristicAnswer(r.relevantLogs)
  {
    NoHitsEvidence(table, Text.Strip(question));
  }

  /** The response without hits shows the first matches, up to three, each with its evidence. */
  lemma NoHitsEvidence(table: seq<LogRecord>, q: string)
    ensures var r := NoHitsResponse(table, q);
      var m := MessageMatches(table, Text.Lower(q));
      && |r.relevantLogs| == (if |m| < 3 then |m| else 3)
      && (forall i :: 0 <= i < |r.relevantLogs| ==> SubstringEvidence(table, Text.Lower(q), r.relevantLogs[i]))
  {
    var needle := Text.Lower(q);
    var rows := Sorting.Take(SubstringRows(table, q), 3);
    var m := MessageMatches(table, needle);
    assert |rows| == (if |m| < 3 then |m| else 3);
    forall i | 0 <= i < |rows|
      ensures SubstringEvidence(table, needle, Relevant(rows[i], 0.0))
    {
      assert rows[i] == m[i];
      assert m[i] in table;
      var j :| 0 <= j < |table| && table[j] == m[i];
    }
  }

  /** The response schema bounds a relevance score to [-1, 1]. */
  predicate InSchema(x: RelevantLog) {
    -1.0 <= x.score <= 1.0
  }

  /** Hits whose scores all lie in [-1, 1]. */
  predicate ScoresInUnitRange(hits: seq<(string, real)>) {
    forall j :: 0 <= j < |hits| ==> -1.0 <= hits[j].1 <= 1.0
  }

  /** The lexical fallback scores every hit in [0, 1]. */
  lemma KeywordFallbackScores(table: seq<LogRecord>, question: string, k: nat)
    ensures forall j :: 0 <= j < |KeywordFallback(table, question, k)| ==>
      0.0 <= KeywordFallback(table, question, k)[j].1 <= 1.0
  {
    var q := Text.Lower(Text.Strip(question));
    if q != [] {
      RankedScores(table, q, k);
    }
  }

  /** Entries hydrated from hits scored in [-1, 1] fit the response schema. */
  lemma HitsResponseInSchema(table: seq<LogRecord>, hits: seq<(string, real)>, llmEnabled: bool, llm: LlmOutcome)
    requires ScoresInUnitRange(hits)
    ensures var r := HitsResponse(table, hits, llmEnabled, llm);
      forall i :: 0 <= i < |r.relevantLogs| ==> InSchema(r.relevantLogs[i])
  {
    HitsFromTable(table, hits, llmEnabled, llm);
    var h10 := Sorting.Take(hits, 10);
    assert forall j :: 0 <= j < |h10| ==> h10[j] == hits[j];
  }

  /** Every entry of the response without hits has score 0. */
  lemma NoHitsResponseInSchema(table: seq<LogRecord>, q: string)
    ensures var r := NoHitsResponse(table, q);
      forall i :: 0 <= i < |r.relevantLogs| ==> r.relevantLogs[i].score == 0.0 && InSchema(r.relevantLogs[i])
  {
    NoHitsEvidence(table, q);
  }

  /**
   * Every returned entry fits the response schema, provided the vector
   * search (when it answered) scored its hits in [-1, 1]: the lexical
   * fallback scores in [0, 1] and the substring path scores 0.
   */
  lemma QueryLogsInSchema(table: seq<LogRecord>, question: string, search: SearchOutcome,
                          llmEnabled: bool, llm: LlmOutcome)
    requires search.SearchHits? ==> ScoresInUnitRange(search.hits)
    requires QueryLogs(table, question, Embedded, search, llmEnabled, llm).Ok?
    ensures var r := QueryLogs(table, question, Embedded, search, llmEnabled, llm).value;
      forall i :: 0 <= i < |r.relevantLogs| ==> InSchema(r.relevantLogs[i])
  {
    var q := Text.Strip(question);
    var hits := if search.SearchHits? then search.hits else KeywordFallback(table, q, 20);
    if !search.SearchHits? {
      KeywordFallbackScores(table, q, 20);
    }
    if hits == [] {
      NoHitsResponseInSchema(table, q);
    } else {
      HitsResponseInSchema(table, hits, llmEnabled, llm);
    }
  }
}

=== FILE: records.dfy ===
/**
 * The rows every endpoint reads: one parsed log entry, and one row of the
 * `log_entries` table. Timestamps are whole seconds since the epoch (see
 * `Clock`).
 */
module Records {
  import Sorting
  import Tally
  import Text

  /** What a parser emits for one log line. */
  datatype Entry = Entry(timestamp: int, source: string, severity: string, message: string)

  /** One row of the `log_entries` table; `logId` is its primary key. */
  datatype LogRecord = LogRecord(logId: string, fileId: string, timestamp: int, source: string, severity: string, message: string)

  /** Orders rows newest first, as `ORDER BY timestamp DESC` does. */
  function ByNewest(): (LogRecord, LogRecord) -> bool {
    (a: LogRecord, b: LogRecord) => a.timestamp > b.timestamp
  }

  lemma ByNewestIsStrictWeakOrder()
    ensures Sorting.StrictWeakOrder(ByNewest())
  {
  }

  /** The newest timestamp among the rows. */
  function Newest(rows: seq<LogRecord>): (t: int)
    requires rows != []
    ensures forall i :: 0 <= i < |rows| ==> rows[i].timestamp <= t
    ensures exists i :: 0 <= i < |rows| && rows[i].timestamp == t
  {
    if |rows| == 1 then rows[0].timestamp
    else
      var rest := Newest(rows[1..]);
      assert forall i :: 1 <= i < |rows| ==> rows[i] == rows[1..][i - 1];
      if rows[0].timestamp >= rest then rows[0].timestamp else rest
  }

  /** The oldest timestamp among the rows: Python's `min(r.timestamp for r in rows)`. */
  function Oldest(rows: seq<LogRecord>): (t: int)
    requires rows != []
    ensures forall i :: 0 <= i < |rows| ==> t <= rows[i].timestamp
    ensures exists i :: 0 <= i < |rows| && rows[i].timestamp == t
  {
    if |rows| == 1 then rows[0].timestamp
    else
      var rest := Oldest(rows[1..]);
      assert forall i :: 1 <= i < |rows| ==> rows[i] == rows[1..][i - 1];
      if rows[0].timestamp <= rest then rows[0].timestamp else rest
  }

  /** `(r.severity or "INFO").upper()`: the severity rows are counted and grouped by. */
  function SevKey(r: LogRecord): string {
    Text.Upper(if r.severity == [] then "INFO" else r.severity)
  }

  /** `r.source or "UNKNOWN"`. */
  function SourceKey(r: LogRecord): string {
    if r.source == [] then "UNKNOWN" else r.source
  }

  function SourceSevKey(r: LogRecord): (string, string) {
    (SourceKey(r), SevKey(r))
  }

  /** `ORDER BY timestamp DESC LIMIT limit`, ties in table order. */
  function Fetch(table: seq<LogRecord>, limit: nat): (r: seq<LogRecord>)
    ensures |r| == if |table| < limit then |table| else limit
  {
    Sorting.Take(Sorting.SortStable(table, ByNewest()), limit)
  }

  /** The fetched rows no older than `span` seconds before the first (newest) one. */
  function Window(rows: seq<LogRecord>, span: int): (r: seq<LogRecord>)
    requires rows != []
    ensures |r| <= |rows|
    ensures span >= 0 ==> rows[0] in r
  {
    Tally.Filter(rows, (x: LogRecord) => x.timestamp >= rows[0].timestamp - span)
  }

  /** The fetched rows are rows of the table, newest first. */
  lemma FetchFromTable(table: seq<LogRecord>, limit: nat)
    ensures Sorting.Sorted(Fetch(table, limit), ByNewest())
    ensures forall x :: x in Fetch(table, limit) ==> x in table
  {
    var sorted := Sorting.SortStable(table, ByNewest());
    ByNewestIsStrictWeakOrder();
    Sorting.SortStableSorted(table, ByNewest());
    Sorting.TakeSorted(sorted, limit, ByNewest());
    forall x | x in Fetch(table, limit)
      ensures x in table
    {
      assert x in multiset(sorted);
    }
  }

  /** The first fetched row is the newest row of the table. */
  lemma FetchNewestFirst(table: seq<LogRecord>, limit: nat)
    requires table != [] && limit > 0
    ensures Fetch(table, limit)[0].timestamp == Newest(table)
  {
    var sorted := Sorting.SortStable(table, ByNewest());
    ByNewestIsStrictWeakOrder();
    Sorting.SortStableSorted(table, ByNewest());
    assert Fetch(table, limit)[0] == sorted[0];
    var k :| 0 <= k < |table| && table[k].timestamp == Newest(table);
    assert table[k] in multiset(sorted);
    var m :| 0 <= m < |sorted| && sorted[m] == table[k];
    assert !ByNewest()(sorted[m], sorted[0]);
    assert sorted[0] in multiset(table);
  }

  /** Every row of the window lies in the `span` seconds up to the table's newest row. */
  lemma WindowBounds(table: seq<LogRecord>, limit: nat, span: int)
    requires table != [] && limit > 0
    ensures forall x :: x in Window(Fetch(table, limit), span) ==>
      x in table && Newest(table) - span <= x.timestamp <= Newest(table)
  {
    FetchFromTable(table, limit);
    FetchNewestFirst(table, limit);
    forall x | x in Window(Fetch(table, limit), span)
      ensures x in table && x.timestamp <= Newest(table)
    {
      var k :| 0 <= k < |table| && table[k] == x;
    }
  }

  /**
   * Below the row limit, the window holds exactly the rows of the table
   * from the `span` seconds up to its newest row.
   */
  lemma WindowIsRecent(table: seq<LogRecord>, limit: nat, span: int)
    requires 0 < |table| <= limit
    ensures forall x :: x in Window(Fetch(table, limit), span) <==> x in table && x.timestamp >= Newest(table) - span
  {
    FetchFromTable(table, limit);
    FetchNewestFirst(table, limit);
    var sorted := Sorting.SortStable(table, ByNewest());
    assert Fetch(table, limit) == sorted;
    forall x | x in table && x.timestamp >= Newest(table) - span
      ensures x in Window(Fetch(table, limit), span)
    {
      assert x in multiset(sorted);
    }
  }
}

=== FILE: sorting.dfy ===
/**
 * Python's `sorted(xs, key=k, reverse=True)` and `list.sort`: a stable sort.
 * The order is given as a "strictly before" relation `prec`; for a
 * descending sort on key `k`, `prec(a, b)` is `k(a) > k(b)`. Elements that
 * neither strictly precede the other keep their input order.
 */
module Sorting {

  /** The relation is a strict weak order: what a sort key comparison always is. */
  ghost predicate StrictWeakOrder<T(!new)>(prec: (T, T) -> bool) {
    && (forall a :: !prec(a, a))
    && (forall a, b, c :: prec(a, b) && prec(b, c) ==> prec(a, c))
    && (forall a, b, c :: prec(a, c) ==> prec(a, b) || prec(b, c))
  }

  /** No element is strictly before an element that comes earlier. */
  ghost predicate Sorted<T>(s: seq<T>, prec: (T, T) -> bool) {
    forall i, j :: 0 <= i < j < |s| ==> !prec(s[j], s[i])
  }

  /**
   * Among neighbours that `prec` does not separate, the earlier one is not
   * strictly after the later one under the secondary order `tie`.
   */
  ghost predicate TieOrdered<T>(s: seq<T>, prec: (T, T) -> bool, tie: (T, T) -> bool) {
    forall i, j :: 0 <= i < j < |s| ==> prec(s[i], s[j]) || !tie(s[j], s[i])
  }

  /** Inserts `x` in front of the first element that does not strictly precede it. */
  function Insert<T>(x: T, s: seq<T>, prec: (T, T) -> bool): (r: seq<T>)
    ensures |r| == |s| + 1
    ensures multiset(r) == multiset(s) + multiset{x}
  {
    if s == [] || !prec(s[0], x) then [x] + s
    else
      assert s == [s[0]] + s[1..];
      [s[0]] + Insert(x, s[1..], prec)
  }

  /** Stable insertion sort. */
  function SortStable<T>(s: seq<T>, prec: (T, T) -> bool): (r: seq<T>)
    ensures |r| == |s|
    ensures multiset(r) == multiset(s)
  {
    if s == [] then []
    else
      assert s == [s[0]] + s[1..];
      Insert(s[0], SortStable(s[1..], prec), prec)
  }

  lemma {:induction false} InsertSorted<T(!new)>(x: T, s: seq<T>, prec: (T, T) -> bool)
    requires StrictWeakOrder(prec)
    requires Sorted(s, prec)
    ensures Sorted(Insert(x, s, prec), prec)
  {
    if s == [] || !prec(s[0], x) {
      var r := [x] + s;
      forall i, j | 0 <= i < j < |r|
        ensures !prec(r[j], r[i])
      {
        if i == 0 {
          assert r[j] == s[j - 1];
          assert !prec(s[j - 1], s[0]) || j - 1 == 0;
        }
      }
    } else {
      InsertSorted(x, s[1..], prec);
      var t := Insert(x, s[1..], prec);
      var r := [s[0]] + t;
      forall i, j | 0 <= i < j < |r|
        ensures !prec(r[j], r[i])
      {
        if i == 0 {
          assert r[j] in multiset(t);
          assert r[j] == x || r[j] in multiset(s[1..]);
          if r[j] != x {
            var k :| 1 <= k < |s| && s[k] == r[j];
          }
        }
      }
    }
  }

  /** The output of the stable sort is sorted. */
  lemma {:induction false} SortStableSorted<T(!new)>(s: seq<T>, prec: (T, T) -> bool)
    requires StrictWeakOrder(prec)
    ensures Sorted(SortStable(s, prec), prec)
  {
    if s != [] {
      SortStableSorted(s[1..], prec);
      InsertSorted(s[0], SortStable(s[1..], prec), prec);
    }
  }

  lemma {:induction false} InsertTieOrdered<T>(x: T, s: seq<T>, prec: (T, T) -> bool, tie: (T, T) -> bool)
    requires TieOrdered(s, prec, tie)
    requires forall k :: 0 <= k < |s| ==> !tie(s[k], x)
    ensures TieOrdered(Insert(x, s, prec), prec, tie)
  {
    if s == [] || !prec(s[0], x) {
      var r := [x] + s;
      forall i, j | 0 <= i < j < |r|
        ensures prec(r[i], r[j]) || !tie(r[j], r[i])
      {
        if i > 0 {
          assert r[i] == s[i - 1] && r[j] == s[j - 1];
        }
      }
    } else {
      InsertTieOrdered(x, s[1..], prec, tie);
      var t := Insert(x, s[1..], prec);
      var r := [s[0]] + t;
      forall i, j | 0 <= i < j < |r|
        ensures prec(r[i], r[j]) || !tie(r[j], r[i])
      {
        if i == 0 && r[j] != x {
          assert r[j] in multiset(t);
          assert r[j] in multiset(s[1..]);
          var k :| 1 <= k < |s| && s[k] == r[j];
        }
      }
    }
  }

  /**
   * Stability: sorting a list already ordered by `tie` leaves the ties of
   * `prec` in `tie` order.
   */
  lemma {:induction false} SortStableTieOrdered<T>(s: seq<T>, prec: (T, T) -> bool, tie: (T, T) -> bool)
    requires Sorted(s, tie)
    ensures TieOrdered(SortStable(s, prec), prec, tie)
  {
    if s != [] {
      var rest := SortStable(s[1..], prec);
      SortStableTieOrdered(s[1..], prec, tie);
      forall k | 0 <= k < |rest|
        ensures !tie(rest[k], s[0])
      {
        assert rest[k] in multiset(s[1..]);
        var m :| 1 <= m < |s| && s[m] == rest[k];
      }
      InsertTieOrdered(s[0], rest, prec, tie);
    }
  }

  /** Python's `xs[:n]`. */
  function Take<T>(s: seq<T>, n: nat): (r: seq<T>)
    ensures |r| == if n < |s| then n else |s|
    ensures r == s[..|r|]
  {
    if n < |s| then s[..n] else s
  }

  lemma TakeSorted<T>(s: seq<T>, n: nat, prec: (T, T) -> bool)
    requires Sorted(s, prec)
    ensures Sorted(Take(s, n), prec)
  {
  }

  lemma TakeTieOrdered<T>(s: seq<T>, n: nat, prec: (T, T) -> bool, tie: (T, T) -> bool)
    requires TieOrdered(s, prec, tie)
    ensures TieOrdered(Take(s, n), prec, tie)
  {
  }

  /**
   * The first `n` of a stable sort are sorted, are taken from the input, and
   * no element left out is strictly before one kept.
   */
  lemma SortTake<T(!new)>(s: seq<T>, n: nat, prec: (T, T) -> bool)
    requires StrictWeakOrder(prec)
    ensures Sorted(Take(SortStable(s, prec), n), prec)
    ensures forall i :: 0 <= i < |Take(SortStable(s, prec), n)| ==> Take(SortStable(s, prec), n)[i] in s
    ensures forall c :: c in s && c !in Take(SortStable(s, prec), n) ==>
      forall i :: 0 <= i < |Take(SortStable(s, prec), n)| ==> !prec(c, Take(SortStable(s, prec), n)[i])
  {
    var sorted := SortStable(s, prec);
    var r := Take(sorted, n);
    SortStableSorted(s, prec);
    TakeSorted(sorted, n, prec);
    forall i | 0 <= i < |r|
      ensures r[i] in s
    {
      assert r[i] == sorted[i];
      assert sorted[i] in multiset(s);
    }
    forall c | c in s && c !in r
      ensures forall i :: 0 <= i < |r| ==> !prec(c, r[i])
    {
      assert c in multiset(sorted);
      var m :| 0 <= m < |sorted| && sorted[m] == c;
      TakeLeftOut(sorted, n, prec, m);
    }
  }

  /** In a sorted sequence, an element past the first `n` is not strictly before any of them. */
  lemma TakeLeftOut<T>(s: seq<T>, n: nat, prec: (T, T) -> bool, m: nat)
    requires Sorted(s, prec) && m < |s| && s[m] !in Take(s, n)
    ensures forall i :: 0 <= i < |Take(s, n)| ==> !prec(s[m], Take(s, n)[i])
  {
    var r := Take(s, n);
    assert forall i :: 0 <= i < |r| ==> r[i] == s[i];
    assert m >= |r|;
  }
}

=== FILE: summary.dfy ===
/**
 * `GET /summary`: the deterministic dashboard summary of the last seven days
 * of logs (incident clusters, patterns and recommended actions), and the
 * optional refinement of that draft by a language model, which falls back
 * to the draft whenever its reply is unusable.
 */
module Summary {
  import opened Outcomes
  import opened Records
  import Text
  import Tally
  import Sorting
  import Clock
  import Numerals

  // ---------------------------------------------------------------------
  // Keyword buckets, root-cause hints and severity ranks
  // ---------------------------------------------------------------------

  /** The keyword buckets with their tokens, in the order they are tried. */
  const KeywordTable: seq<(string, seq<string>)> := [
    ("pressure", ["pressure", "psi", "valve", "drop", "fluctuat"]),
    ("temperature", ["temp", "temperature", "\U{00B0}c", "celsius", "overheat", "cool"]),
    ("sensor", ["sensor", "calibration", "calibrate", "reading"]),
    ("power", ["power", "voltage", "current", "amp", "outage"])
  ]

  const Buckets: seq<string> := ["pressure", "temperature", "sensor", "power"]

  /** Some token of the list occurs in `m` as a substring. */
  predicate Mentions(m: string, tokens: seq<string>) {
    exists t :: t in tokens && Text.Contains(m, t)
  }

  /** The name of the first bucket of `table` one of whose tokens occurs in `m`. */
  function FirstBucket(m: string, table: seq<(string, seq<string>)>): (r: Option<string>)
    ensures r.None? <==> forall i :: 0 <= i < |table| ==> !Mentions(m, table[i].1)
    ensures r.Some? ==> exists i :: 0 <= i < |table| && table[i].0 == r.value && Mentions(m, table[i].1)
                                   && forall j :: 0 <= j < i ==> !Mentions(m, table[j].1)
  {
    if table == [] then None
    else if Mentions(m, table[0].1) then Some(table[0].0)
    else
      var r := FirstBucket(m, table[1..]);
      assert forall i :: 1 <= i < |table| ==> table[i] == table[1..][i - 1];
      if r.Some? then
        var i :| 0 <= i < |table[1..]| && table[1..][i].0 == r.value && Mentions(m, table[1..][i].1)
          && forall j :: 0 <= j < i ==> !Mentions(m, table[1..][j].1);
        assert table[i + 1].0 == r.value && Mentions(m, table[i + 1].1);
        assert forall j :: 0 <= j < i + 1 ==> !Mentions(m, table[j].1);
        r
      else r
  }

  /** `_match_keyword_bucket`: the first bucket whose token occurs in the lower-cased message. */
  function MatchBucket(message: string): (r: Option<string>)
    ensures r.Some? ==> r.value in Buckets
  {
    FirstBucket(Text.Lower(message), KeywordTable)
  }

  /**
   * The bucket a message falls in is the first one, in table order, that
   * one of its tokens names; earlier buckets are passed over only when none
   * of their tokens occurs.
   */
  lemma MatchBucketFirst(message: string, i: nat)
    requires i < |KeywordTable|
    requires Mentions(Text.Lower(message), KeywordTable[i].1)
    requires forall j :: 0 <= j < i ==> !Mentions(Text.Lower(message), KeywordTable[j].1)
    ensures MatchBucket(message) == Some(Buckets[i])
  {
    var m := Text.Lower(message);
    var r := FirstBucket(m, KeywordTable);
    var k :| 0 <= k < |KeywordTable| && KeywordTable[k].0 == r.value && Mentions(m, KeywordTable[k].1)
      && forall j :: 0 <= j < k ==> !Mentions(m, KeywordTable[j].1);
    assert k == i;
  }

  /** A message mentions no bucket exactly when no token of any bucket occurs in it. */
  lemma MatchBucketNone(message: string)
    ensures MatchBucket(message).None? <==>
      forall i :: 0 <= i < |KeywordTable| ==> !Mentions(Text.Lower(message), KeywordTable[i].1)
  {
  }

  /** Matching ignores letter case. */
  lemma MatchBucketIgnoresCase(message: string)
    ensures MatchBucket(Text.Lower(message)) == MatchBucket(message)
    ensures MatchBucket(Text.Upper(message)) == MatchBucket(message)
  {
    Text.LowerIdempotent(message);
    LowerOfUpper(message);
  }

  lemma LowerOfUpper(s: string)
    ensures Text.Lower(Text.Upper(s)) == Text.Lower(s)
  {
    assert forall i :: 0 <= i < |s| ==> Text.Lower(Text.Upper(s))[i] == Text.Lower(s)[i];
  }

  const PressureHint := "Possible valve malfunction, blockage, regulator instability, or upstream supply variance"
  const TemperatureHint := "Cooling system performance degradation, increased load, or environmental factors"
  const SensorHint := "Sensor calibration drift, intermittent readings, or instrumentation issues"
  const PowerHint := "Power supply fluctuation, electrical subsystem fault, or upstream outage"
  const GenericHint := "Requires further investigation; correlate with maintenance and operational context"

  /** `_root_cause_hint`: one hint per bucket, a generic one otherwise. */
  function RootCauseHint(bucket: Option<string>): (r: string)
    ensures r == GenericHint <==> !(bucket.Some? && bucket.value in Buckets)
  {
    match bucket
    case Some(b) =>
      if b == "pressure" then PressureHint
      else if b == "temperature" then TemperatureHint
      else if b == "sensor" then SensorHint
      else if b == "power" then PowerHint
      else GenericHint
    case None => GenericHint
  }

  /** Different buckets get different hints, so the hint names the bucket. */
  lemma RootCauseHintInjective(a: string, b: string)
    requires a in Buckets && b in Buckets
    requires RootCauseHint(Some(a)) == RootCauseHint(Some(b))
    ensures a == b
  {
  }

  /** The severity labels `_severity_rank` knows, after upper-casing. */
  const Ranked: set<string> := {"CRITICAL", "ERROR", "WARNING", "INFO", "LOW", "MEDIUM", "HIGH"}

  /** `_severity_rank`: higher is more severe, 0 for an unknown label. */
  function SeverityRank(sev: string): (r: nat)
    ensures r <= 4
    ensures r == 0 <==> Text.Upper(sev) !in Ranked
    ensures r >= 3 <==> Text.Upper(sev) in {"CRITICAL", "ERROR", "HIGH"}
    ensures r == 4 <==> Text.Upper(sev) == "CRITICAL"
  {
    var s := Text.Upper(sev);
    if s == "CRITICAL" then 4
    else if s == "ERROR" || s == "HIGH" then 3
    else if s == "WARNING" || s == "MEDIUM" then 2
    else if s == "INFO" || s == "LOW" then 1
    else 0
  }

  /** The rank ignores letter case. */
  lemma SeverityRankIgnoresCase(sev: string)
    ensures SeverityRank(Text.Lower(sev)) == SeverityRank(sev)
    ensures SeverityRank(Text.Upper(sev)) == SeverityRank(sev)
  {
    Text.UpperOfLower(sev);
    Text.UpperIdempotent(sev);
  }

  // ---------------------------------------------------------------------
  // Grouping keys and incident clusters
  // ---------------------------------------------------------------------

  /** The bucket of a row's message, `""` when it has none. */
  function BucketName(r: LogRecord): string {
    MatchBucket(r.message).GetOr("")
  }

  predicate Bucketed(r: LogRecord) {
    MatchBucket(r.message).Some?
  }

  function BucketSourceKey(r: LogRecord): (string, string) {
    (BucketName(r), SourceKey(r))
  }

  /** `_Cluster`. */
  datatype Cluster = Cluster(title: string, severity: string, timestamp: int, related: nat, hint: string)

  /** The value left after `acc = x or acc` over the options, in order. */
  function LastSome<T>(s: seq<Option<T>>, acc: Option<T>): Option<T>
  {
    if s == [] then acc else LastSome(s[1..], if s[0].Some? then s[0] else acc)
  }

  /**
   * The fold keeps the last value present, and the starting value when
   * none is.
   */
  lemma {:induction false} LastSomeSpec<T>(s: seq<Option<T>>, acc: Option<T>)
    ensures (forall i :: 0 <= i < |s| ==> s[i].None?) ==> LastSome(s, acc) == acc
    ensures forall i :: 0 <= i < |s| && s[i].Some? && (forall j :: i < j < |s| ==> s[j].None?) ==>
      LastSome(s, acc) == s[i]
  {
    if s != [] {
      LastSomeSpec(s[1..], if s[0].Some? then s[0] else acc);
      assert forall i :: 1 <= i < |s| ==> s[1..][i - 1] == s[i];
    }
  }

  /**
   * The bucket left after `bucket = _match_keyword_bucket(m) or bucket` over
   * the rows, starting from `None`: the bucket of the last row that has one.
   */
  function LastBucket(rows: seq<LogRecord>): (r: Option<string>)
    ensures (forall i :: 0 <= i < |rows| ==> MatchBucket(rows[i].message).None?) ==> r.None?
    ensures forall i :: (0 <= i < |rows| && MatchBucket(rows[i].message).Some?
                         && forall j :: i < j < |rows| ==> MatchBucket(rows[j].message).None?)
                        ==> r == MatchBucket(rows[i].message)
  {
    var bs := Tally.Map(rows, (x: LogRecord) => MatchBucket(x.message));
    LastSomeSpec(bs, None);
    LastSome(bs, None)
  }

  /** Number of rows in the window carrying the key `k`. */
  function KeyCount(rows: seq<LogRecord>, key: LogRecord -> (string, string), k: (string, string)): nat {
    Tally.Count(Tally.Map(rows, key), k)
  }

  /**
   * The cluster of one `(source, severity)` key: kept when it has two rows
   * or more, or when its severity ranks ERROR or above.
   */
  function SourceSevCluster(window: seq<LogRecord>, k: (string, string)): (r: Option<Cluster>)
    ensures r.Some? <==> (KeyCount(window, SourceSevKey, k) >= 2
                          || (KeyCount(window, SourceSevKey, k) >= 1 && SeverityRank(k.1) >= 3))
    ensures r.Some? ==>
      && r.value.related == KeyCount(window, SourceSevKey, k)
      && r.value.severity == k.1
      && r.value.title == Text.Title(k.1) + " events on " + k.0
      && (forall i :: 0 <= i < |window| && SourceSevKey(window[i]) == k ==> r.value.timestamp <= window[i].timestamp)
      && (exists i :: 0 <= i < |window| && SourceSevKey(window[i]) == k && r.value.timestamp == window[i].timestamp)
    ensures r.Some? ==> r.value.hint == RootCauseHint(LastBucket(Sorting.Take(Tally.Group(window, SourceSevKey, k), 10)))
  {
    var items := Tally.Group(window, SourceSevKey, k);
    Tally.GroupSize(window, SourceSevKey, k);
    if |items| < 2 && SeverityRank(k.1) < 3 then None
    else if items == [] then None
    else
      var t := Oldest(items);
      OldestOfGroup(window, SourceSevKey, k);
      Some(Cluster(Text.Title(k.1) + " events on " + k.0, k.1, t, |items|,
        RootCauseHint(LastBucket(Sorting.Take(items, 10)))))
  }

  /** The oldest row of a group is the oldest row of the window with that key. */
  lemma OldestOfGroup(window: seq<LogRecord>, key: LogRecord -> (string, string), k: (string, string))
    requires Tally.Group(window, key, k) != []
    ensures forall i :: 0 <= i < |window| && key(window[i]) == k ==> Oldest(Tally.Group(window, key, k)) <= window[i].timestamp
    ensures exists i :: 0 <= i < |window| && key(window[i]) == k && Oldest(Tally.Group(window, key, k)) == window[i].timestamp
  {
    var items := Tally.Group(window, key, k);
    var t := Oldest(items);
    Tally.GroupMembers(window, key, k);
    forall i | 0 <= i < |window| && key(window[i]) == k
      ensures t <= window[i].timestamp
    {
      assert window[i] in items;
      var j :| 0 <= j < |items| && items[j] == window[i];
    }
    var j :| 0 <= j < |items| && items[j].timestamp == t;
    assert items[j] in window;
    var i :| 0 <= i < |window| && window[i] == items[j];
    assert key(window[i]) == k;
  }

  /** The first of the most severe labels: Python's `max(sevs, key=_severity_rank)`. */
  function MostSevere(sevs: seq<string>): (r: string)
    requires sevs != []
    ensures forall i :: 0 <= i < |sevs| ==> SeverityRank(sevs[i]) <= SeverityRank(r)
    ensures exists i :: 0 <= i < |sevs| && sevs[i] == r && forall j :: 0 <= j < i ==> SeverityRank(sevs[j]) < SeverityRank(r)
  {
    if |sevs| == 1 then sevs[0]
    else
      var front := sevs[..|sevs| - 1];
      var m := MostSevere(front);
      assert forall j :: 0 <= j < |front| ==> front[j] == sevs[j];
      if SeverityRank(sevs[|sevs| - 1]) > SeverityRank(m) then sevs[|sevs| - 1] else m
  }

  /** The cluster of one `(bucket, source)` key: kept when it has two rows or more. */
  function BucketCluster(bucketed: seq<LogRecord>, k: (string, string)): (r: Option<Cluster>)
    ensures r.Some? <==> KeyCount(bucketed, BucketSourceKey, k) >= 2
    ensures r.Some? ==>
      && r.value.related == KeyCount(bucketed, BucketSourceKey, k)
      && r.value.title == Text.Title(k.0) + " issues on " + k.1
      && r.value.hint == RootCauseHint(Some(k.0))
  {
    var items := Tally.Group(bucketed, BucketSourceKey, k);
    Tally.GroupSize(bucketed, BucketSourceKey, k);
    if |items| < 2 then None
    else Some(Cluster(Text.Title(k.0) + " issues on " + k.1, MostSevere(Tally.Map(items, SevKey)), Oldest(items), |items|, RootCauseHint(Some(k.0))))
  }

  /** The most severe label of some rows, with the rows it bounds. */
  lemma MostSevereRows(items: seq<LogRecord>)
    requires items != []
    ensures var sev := MostSevere(Tally.Map(items, SevKey));
      && (forall x :: x in items ==> SeverityRank(SevKey(x)) <= SeverityRank(sev))
      && (exists x :: x in items && SevKey(x) == sev)
  {
    var sevs := Tally.Map(items, SevKey);
    var sev := MostSevere(sevs);
    var m :| 0 <= m < |sevs| && sevs[m] == sev;
    assert items[m] in items && SevKey(items[m]) == sev;
    forall x | x in items
      ensures SeverityRank(SevKey(x)) <= SeverityRank(sev)
    {
      var j :| 0 <= j < |items| && items[j] == x;
      assert sevs[j] == SevKey(x);
    }
  }

  lemma OldestBelow(items: seq<LogRecord>)
    requires items != []
    ensures forall x :: x in items ==> Oldest(items) <= x.timestamp
  {
    forall x | x in items
      ensures Oldest(items) <= x.timestamp
    {
      var j :| 0 <= j < |items| && items[j] == x;
    }
  }

  /**
   * A kept bucket cluster carries the most severe label among its rows and
   * the oldest of their timestamps.
   */
  lemma BucketClusterRows(bucketed: seq<LogRecord>, k: (string, string))
    requires BucketCluster(bucketed, k).Some?
    ensures var c := BucketCluster(bucketed, k).value;
      && (forall x :: x in bucketed && BucketSourceKey(x) == k ==>
            SeverityRank(SevKey(x)) <= SeverityRank(c.severity) && c.timestamp <= x.timestamp)
      && (exists x :: x in bucketed && BucketSourceKey(x) == k && SevKey(x) == c.severity)
  {
    var items := Tally.Group(bucketed, BucketSourceKey, k);
    Tally.GroupSize(bucketed, BucketSourceKey, k);
    var c := BucketCluster(bucketed, k).value;
    assert c.severity == MostSevere(Tally.Map(items, SevKey)) && c.timestamp == Oldest(items);
    Tally.GroupMembers(bucketed, BucketSourceKey, k);
    MostSevereRows(items);
    OldestBelow(items);
  }

  /** The `(source, severity)` clusters kept, in first-occurrence order of their keys. */
  function SourceSevClusters(window: seq<LogRecord>): seq<Cluster> {
    Somes(Tally.Map(Tally.GroupKeys(window, SourceSevKey), (k: (string, string)) => SourceSevCluster(window, k)))
  }

  /** The `(bucket, source)` clusters kept, over the rows whose message falls in a bucket. */
  function BucketClusters(window: seq<LogRecord>): seq<Cluster> {
    var bucketed := Tally.Filter(window, Bucketed);
    Somes(Tally.Map(Tally.GroupKeys(bucketed, BucketSourceKey), (k: (string, string)) => BucketCluster(bucketed, k)))
  }

  function Clusters(window: seq<LogRecord>): seq<Cluster> {
    SourceSevClusters(window) + BucketClusters(window)
  }

  /**
   * Every row whose severity ranks ERROR or above is covered by the cluster
   * of its `(source, severity)` key, which counts all rows of that key.
   */
  lemma SevereRowsClustered(window: seq<LogRecord>, i: nat)
    requires i < |window| && SeverityRank(SevKey(window[i])) >= 3
    ensures exists c :: (c in SourceSevClusters(window)
                         && c.severity == SevKey(window[i])
                         && c.title == Text.Title(SevKey(window[i])) + " events on " + SourceKey(window[i])
                         && c.related == KeyCount(window, SourceSevKey, SourceSevKey(window[i])))
  {
    var k := SourceSevKey(window[i]);
    var keys := Tally.Map(window, SourceSevKey);
    assert keys[i] == k;
    var d := Tally.GroupKeys(window, SourceSevKey);
    var j :| 0 <= j < |d| && d[j] == k;
    var opts := Tally.Map(d, (k: (string, string)) => SourceSevCluster(window, k));
    assert opts[j] == SourceSevCluster(window, k);
    assert opts[j].Some?;
  }

  /** Every `(source, severity)` cluster comes from a key of the window that is kept. */
  lemma SourceSevClustersKept(window: seq<LogRecord>, c: Cluster)
    requires c in SourceSevClusters(window)
    ensures exists k :: k in Tally.Map(window, SourceSevKey) && SourceSevCluster(window, k) == Some(c)
  {
    var d := Tally.GroupKeys(window, SourceSevKey);
    SomesOfMap(d, (k: (string, string)) => SourceSevCluster(window, k), c);
    var k :| k in d && SourceSevCluster(window, k) == Some(c);
    assert k in Tally.Map(window, SourceSevKey);
  }

  /** A value collected from the options of a mapping came from one of the keys. */
  lemma SomesOfMap<K, V>(keys: seq<K>, f: K -> Option<V>, v: V)
    requires v in Somes(Tally.Map(keys, f))
    ensures exists k :: k in keys && f(k) == Some(v)
  {
    var opts := Tally.Map(keys, f);
    var j :| 0 <= j < |opts| && opts[j] == Some(v);
    assert keys[j] in keys;
  }

  // ---------------------------------------------------------------------
  // Top incidents
  // ---------------------------------------------------------------------

  /** The sort key `(_severity_rank(severity), related_entries, timestamp)`. */
  function IncidentKey(c: Cluster): (int, int, int) {
    (SeverityRank(c.severity), c.related, c.timestamp)
  }

  /** Python's tuple comparison `a > b` on three integers. */
  predicate KeyAbove(a: (int, int, int), b: (int, int, int)) {
    a.0 > b.0 || (a.0 == b.0 && (a.1 > b.1 || (a.1 == b.1 && a.2 > b.2)))
  }

  /** Descending order of the sort key, as `reverse=True` sorts. */
  function ByIncident(): (Cluster, Cluster) -> bool {
    (a: Cluster, b: Cluster) => KeyAbove(IncidentKey(a), IncidentKey(b))
  }

  lemma ByIncidentIsStrictWeakOrder()
    ensures Sorting.StrictWeakOrder(ByIncident())
  {
  }

  /** The three clusters with the greatest keys, ties in list order. */
  function Top(clusters: seq<Cluster>): (r: seq<Cluster>)
    ensures |r| <= 3
  {
    Sorting.Take(Sorting.SortStable(clusters, ByIncident()), 3)
  }

  /**
   * The top clusters are in descending key order, are taken from the
   * clusters, and no cluster left out has a greater key than one kept.
   */
  lemma TopSpec(clusters: seq<Cluster>)
    ensures Sorting.Sorted(Top(clusters), ByIncident())
    ensures |Top(clusters)| == if |clusters| < 3 then |clusters| else 3
    ensures forall i :: 0 <= i < |Top(clusters)| ==> Top(clusters)[i] in clusters
    ensures forall c :: c in clusters && c !in Top(clusters) ==>
      forall i :: 0 <= i < |Top(clusters)| ==> !KeyAbove(IncidentKey(c), IncidentKey(Top(clusters)[i]))
  {
    var sorted := Sorting.SortStable(clusters, ByIncident());
    var r := Top(clusters);
    ByIncidentIsStrictWeakOrder();
    Sorting.SortStableSorted(clusters, ByIncident());
    forall i | 0 <= i < |r|
      ensures r[i] in clusters
    {
      assert r[i] == sorted[i];
      assert sorted[i] in multiset(clusters);
    }
    forall c | c in clusters && c !in r
      ensures forall i :: 0 <= i < |r| ==> !KeyAbove(IncidentKey(c), IncidentKey(r[i]))
    {
      assert c in multiset(sorted);
      var m :| 0 <= m < |sorted| && sorted[m] == c;
      assert m >= |r|;
      forall i | 0 <= i < |r|
        ensures !KeyAbove(IncidentKey(c), IncidentKey(r[i]))
      {
        assert !ByIncident()(sorted[m], sorted[i]);
      }
    }
  }

  /** `TopIncident`: one incident card of the response. */
  datatype TopIncident = TopIncident(incident: string, timestamp: string, severity: string, relatedEntries: int, suspectedRootCause: string)

  function IncidentOf(c: Cluster): TopIncident {
    TopIncident(c.title, Clock.IsoZ(c.timestamp), c.severity, c.related, c.hint)
  }

  /** The incident cards of the draft. */
  function TopIncidents(window: seq<LogRecord>): (r: seq<TopIncident>)
    ensures |r| <= 3
    ensures forall i :: 0 <= i < |r| ==> r[i].relatedEntries >= 1
  {
    var top := Top(Clusters(window));
    TopSpec(Clusters(window));
    forall i | 0 <= i < |top|
      ensures top[i].related >= 1
    {
      ClusterRelated(window, top[i]);
    }
    Tally.Map(top, IncidentOf)
  }

  /** A cluster stands for at least one row. */
  lemma ClusterRelated(window: seq<LogRecord>, c: Cluster)
    requires c in Clusters(window)
    ensures c.related >= 1
  {
    if c in SourceSevClusters(window) {
      SourceSevClustersKept(window, c);
    } else {
      var bucketed := Tally.Filter(window, Bucketed);
      SomesOfMap(Tally.GroupKeys(bucketed, BucketSourceKey), (k: (string, string)) => BucketCluster(bucketed, k), c);
    }
  }

  // ---------------------------------------------------------------------
  // Patterns
  // ---------------------------------------------------------------------

  const ActivityPrefix := "Most activity concentrated in: "
  const EnDash: char := '\U{2013}'
  const NightShift := "Alerts elevated during night shift (10PM" + [EnDash] + "6AM)"
  const DominantPrefix := "Dominant issue types: "
  const NoisyMiddle := " shows repeated alert activity ("
  const NoisyEnd := " WARNING+ entries)"

  /** `f"{s} ({c})"`. */
  function FormatCount(p: (string, nat)): string {
    p.0 + " (" + Numerals.NatToDec(p.1) + ")"
  }

  /** The pairs formatted and joined by `", "`. */
  function CountList(pairs: seq<(string, nat)>): string {
    Text.Join(Tally.Map(pairs, FormatCount), ", ")
  }

  /** The three busiest sources. */
  function ActivityPattern(window: seq<LogRecord>): (r: seq<string>)
    ensures |r| <= 1 && (r == [] <==> window == [])
  {
    if window == [] then []
    else [ActivityPrefix + CountList(Tally.MostCommon(Tally.Map(window, SourceKey), 3))]
  }

  /** The hour falls in the night shift, 22:00 to 06:00. */
  predicate AtNight(t: int) {
    Clock.HourOf(t) >= 22 || Clock.HourOf(t) < 6
  }

  function NightCount(window: seq<LogRecord>): nat {
    |Tally.Filter(window, (x: LogRecord) => AtNight(x.timestamp))|
  }

  /**
   * `len(night) / total >= 0.35`, in exact arithmetic: at least 7 in 20
   * rows fall in the night shift.
   */
  predicate NightHeavy(window: seq<LogRecord>) {
    |window| > 0 && 20 * NightCount(window) >= 7 * |window|
  }

  function NightPattern(window: seq<LogRecord>): (r: seq<string>)
    ensures r == [] || r == [NightShift]
  {
    if NightHeavy(window) then [NightShift] else []
  }

  /** The bucket of every row that has one, in order: `bucket_counts` without `None`. */
  function BucketNames(window: seq<LogRecord>): seq<string> {
    Somes(Tally.Map(window, (x: LogRecord) => MatchBucket(x.message)))
  }

  /** A bucket is named exactly when some row's message falls in it. */
  lemma BucketNamesSpec(window: seq<LogRecord>)
    ensures forall b :: b in BucketNames(window) <==> exists i :: 0 <= i < |window| && MatchBucket(window[i].message) == Some(b)
  {
    var opts := Tally.Map(window, (x: LogRecord) => MatchBucket(x.message));
    var r := Somes(opts);
    forall b | b in r
      ensures exists i :: 0 <= i < |window| && MatchBucket(window[i].message) == Some(b)
    {
      var i :| 0 <= i < |opts| && opts[i] == Some(b);
    }
    forall i | 0 <= i < |window| && MatchBucket(window[i].message).Some?
      ensures MatchBucket(window[i].message).value in r
    {
      assert opts[i] == MatchBucket(window[i].message);
    }
  }

  /** The two most frequent buckets. */
  function DominantPattern(window: seq<LogRecord>): (r: seq<string>)
    ensures |r| <= 1
  {
    var names := BucketNames(window);
    if names == [] then [] else [DominantPrefix + CountList(Tally.MostCommon(names, 2))]
  }

  /** Rows of the source ranked WARNING or above. */
  function SevereCount(window: seq<LogRecord>, src: string): nat {
    |Tally.Filter(window, (x: LogRecord) => SourceKey(x) == src && SeverityRank(SevKey(x)) >= 2)|
  }

  /** The sources, in first-occurrence order, with three severe rows or more. */
  function NoisySources(window: seq<LogRecord>): seq<(string, nat)> {
    var sources := Tally.Distinct(Tally.Map(window, SourceKey));
    Tally.Filter(Tally.Map(sources, (x: string) => (x, SevereCount(window, x))), (p: (string, nat)) => p.1 >= 3)
  }

  function NoisyLine(p: (string, nat)): string {
    p.0 + NoisyMiddle + Numerals.NatToDec(p.1) + NoisyEnd
  }

  /** The noisiest source, after a stable sort by descending severe count. */
  function NoisyPattern(window: seq<LogRecord>): (r: seq<string>)
    ensures |r| <= 1
  {
    var noisy := Sorting.SortStable(NoisySources(window), Tally.ByCount());
    if noisy == [] then [] else [NoisyLine(noisy[0])]
  }

  /** `patterns[:5]`: at most one line of each kind, in this order. */
  function Patterns(window: seq<LogRecord>): (r: seq<string>)
    ensures |r| <= 4
    ensures r == ActivityPattern(window) + NightPattern(window) + DominantPattern(window) + NoisyPattern(window)
  {
    Sorting.Take(ActivityPattern(window) + NightPattern(window) + DominantPattern(window) + NoisyPattern(window), 5)
  }

  /** There is a pattern exactly when there is a row. */
  lemma PatternsEmptyIff(window: seq<LogRecord>)
    ensures Patterns(window) == [] <==> window == []
  {
  }

  lemma NoisyLineNotNight(p: (string, nat))
    ensures NoisyLine(p) != NightShift
  {
    var s := NoisyLine(p);
    assert s == (p.0 + NoisyMiddle + Numerals.NatToDec(p.1)) + NoisyEnd;
    assert s[|s| - 2] == 's';
    assert NightShift[|NightShift| - 2] == 'M';
  }

  lemma ActivityNotNight(window: seq<LogRecord>)
    ensures NightShift !in ActivityPattern(window)
  {
    if window != [] {
      assert ActivityPrefix[0] == 'M' && NightShift[0] == 'A';
      PrefixedNotNight(ActivityPrefix, CountList(Tally.MostCommon(Tally.Map(window, SourceKey), 3)));
    }
  }

  lemma PrefixedNotNight(prefix: string, x: string)
    requires prefix != [] && prefix[0] != NightShift[0]
    ensures prefix + x != NightShift
  {
    assert (prefix + x)[0] == prefix[0];
  }

  lemma NotInSingleton<T>(x: T, y: T)
    requires x != y
    ensures x !in [y]
  {
  }

  lemma DominantNotNight(window: seq<LogRecord>)
    ensures NightShift !in DominantPattern(window)
  {
    var names := BucketNames(window);
    var d := DominantPattern(window);
    if names == [] {
      assert d == [];
    } else {
      var line := DominantPrefix + CountList(Tally.MostCommon(names, 2));
      assert d == [line];
      assert DominantPrefix[0] == 'D' && NightShift[0] == 'A';
      PrefixedNotNight(DominantPrefix, CountList(Tally.MostCommon(names, 2)));
      NotInSingleton(NightShift, line);
    }
  }

  lemma NoisyNotNight(window: seq<LogRecord>)
    ensures NightShift !in NoisyPattern(window)
  {
    var noisy := Sorting.SortStable(NoisySources(window), Tally.ByCount());
    if noisy != [] {
      NoisyLineNotNight(noisy[0]);
    }
  }

  /**
   * The night-shift line is reported exactly when at least 35% of the
   * window's rows fall between 22:00 and 06:00.
   */
  lemma NightPatternIff(window: seq<LogRecord>)
    ensures NightShift in Patterns(window) <==> NightHeavy(window)
  {
    ActivityNotNight(window);
    DominantNotNight(window);
    NoisyNotNight(window);
    var a := ActivityPattern(window);
    var b := NightPattern(window);
    var d := DominantPattern(window);
    var n := NoisyPattern(window);
    assert Patterns(window) == a + b + d + n;
    NotInParts(NightShift, a, b, d, n);
  }

  lemma NotInParts(x: string, a: seq<string>, b: seq<string>, d: seq<string>, n: seq<string>)
    requires x !in a && x !in d && x !in n
    ensures x in a + b + d + n <==> x in b
  {
  }

  /** The pair of a source whose severe count reaches three is among the noisy sources. */
  lemma NoisySourcesHas(window: seq<LogRecord>, j: nat)
    requires j < |window| && SevereCount(window, SourceKey(window[j])) >= 3
    ensures (SourceKey(window[j]), SevereCount(window, SourceKey(window[j]))) in NoisySources(window)
  {
    var keys := Tally.Map(window, SourceKey);
    var sources := Tally.Distinct(keys);
    var pairs := Tally.Map(sources, (x: string) => (x, SevereCount(window, x)));
    assert keys[j] == SourceKey(window[j]);
    var m :| 0 <= m < |sources| && sources[m] == keys[j];
    assert pairs[m] == (SourceKey(window[j]), SevereCount(window, SourceKey(window[j])));
  }

  /** Every noisy source is a source of the window, with its severe count of three or more. */
  lemma NoisySourcesFrom(window: seq<LogRecord>, p: (string, nat))
    requires p in NoisySources(window)
    ensures p.1 >= 3
    ensures exists i :: 0 <= i < |window| && p == (SourceKey(window[i]), SevereCount(window, SourceKey(window[i])))
  {
    var keys := Tally.Map(window, SourceKey);
    var sources := Tally.Distinct(keys);
    var pairs := Tally.Map(sources, (x: string) => (x, SevereCount(window, x)));
    var m :| 0 <= m < |pairs| && pairs[m] == p;
    var i :| 0 <= i < |keys| && keys[i] == sources[m];
    assert p == (SourceKey(window[i]), SevereCount(window, SourceKey(window[i])));
  }

  /** The noisy-source line reports the first of the sorted noisy sources, which has the greatest count. */
  lemma NoisyFirstIsMax(window: seq<LogRecord>)
    requires NoisySources(window) != []
    ensures Sorting.SortStable(NoisySources(window), Tally.ByCount())[0] in NoisySources(window)
    ensures forall j :: 0 <= j < |window| ==>
      SevereCount(window, SourceKey(window[j])) <= Sorting.SortStable(NoisySources(window), Tally.ByCount())[0].1
  {
    var ns := NoisySources(window);
    var noisy := Sorting.SortStable(ns, Tally.ByCount());
    Tally.ByCountIsStrictWeakOrder<string>();
    Sorting.SortStableSorted(ns, Tally.ByCount());
    assert noisy[0] in multiset(ns);
    NoisySourcesFrom(window, noisy[0]);
    forall j | 0 <= j < |window|
      ensures SevereCount(window, SourceKey(window[j])) <= noisy[0].1
    {
      if SevereCount(window, SourceKey(window[j])) >= 3 {
        NoisySourcesHas(window, j);
        var p := (SourceKey(window[j]), SevereCount(window, SourceKey(window[j])));
        assert p in multiset(noisy);
        var q :| 0 <= q < |noisy| && noisy[q] == p;
        assert !Tally.ByCount<string>()(noisy[q], noisy[0]);
      }
    }
  }

  /**
   * The noisy-source line names a source with at least three rows ranked
   * WARNING or above, and no source of the window has more such rows; when
   * no source reaches three, there is no such line.
   */
  lemma NoisyPatternSpec(window: seq<LogRecord>)
    ensures NoisyPattern(window) == [] <==>
      forall i :: 0 <= i < |window| ==> SevereCount(window, SourceKey(window[i])) < 3
    ensures NoisyPattern(window) != [] ==> exists i :: (0 <= i < |window|
      && NoisyPattern(window) == [NoisyLine((SourceKey(window[i]), SevereCount(window, SourceKey(window[i]))))]
      && SevereCount(window, SourceKey(window[i])) >= 3
      && forall j :: 0 <= j < |window| ==> SevereCount(window, SourceKey(window[j])) <= SevereCount(window, SourceKey(window[i])))
  {
    var ns := NoisySources(window);
    if ns == [] {
      forall i | 0 <= i < |window|
        ensures SevereCount(window, SourceKey(window[i])) < 3
      {
        if SevereCount(window, SourceKey(window[i])) >= 3 {
          NoisySourcesHas(window, i);
        }
      }
    } else {
      var noisy := Sorting.SortStable(ns, Tally.ByCount());
      NoisyFirstIsMax(window);
      NoisySourcesFrom(window, noisy[0]);
      var i :| 0 <= i < |window| && noisy[0] == (SourceKey(window[i]), SevereCount(window, SourceKey(window[i])));
      assert NoisyPattern(window) == [NoisyLine(noisy[0])];
    }
  }

  // ---------------------------------------------------------------------
  // Recommended actions
  // ---------------------------------------------------------------------

  // The texts are split after a short head so that the verifier can read
  // their first characters.
  const CriticalAction := "Priority inspection" + " for sources associated with CRITICAL events"
  const ErrorAction := "Review ERROR" + " events for repeat causes and correlate with maintenance history"
  const PressureAction := "Inspect pressure" + " regulation components (valves/regulators) for affected units"
  const TemperatureAction := "Review cooling" + " system performance and maintenance schedule for affected units"
  const SensorAction := "Calibrate sensors" + " on units with frequent fluctuation or calibration messages"

  /** `[x]` when `b` holds, nothing otherwise. */
  function When<T>(b: bool, x: T): seq<T> {
    if b then [x] else []
  }

  /** One action per condition that holds, in the order the conditions are checked. */
  function ActionCandidates(window: seq<LogRecord>): seq<string> {
    var sevs := Tally.Map(window, SevKey);
    var names := BucketNames(window);
    When("CRITICAL" in sevs, CriticalAction)
    + When("ERROR" in sevs, ErrorAction)
    + When("pressure" in names, PressureAction)
    + When("temperature" in names, TemperatureAction)
    + When("sensor" in names, SensorAction)
  }

  lemma WhenAppend<T>(s: seq<T>, b: bool, x: T)
    requires Tally.NoDups(s) && x !in s
    ensures Tally.NoDups(s + When(b, x))
    ensures forall y :: y in s + When(b, x) <==> y in s || (b && y == x)
  {
  }

  /** Five distinct values guarded by five conditions: no repeats, and each present exactly when its condition holds. */
  lemma WhenFive<T>(b1: bool, x1: T, b2: bool, x2: T, b3: bool, x3: T, b4: bool, x4: T, b5: bool, x5: T)
    requires x1 != x2 && x1 != x3 && x1 != x4 && x1 != x5
    requires x2 != x3 && x2 != x4 && x2 != x5 && x3 != x4 && x3 != x5 && x4 != x5
    ensures var s := When(b1, x1) + When(b2, x2) + When(b3, x3) + When(b4, x4) + When(b5, x5);
      && Tally.NoDups(s) && |s| <= 5
      && (x1 in s <==> b1) && (x2 in s <==> b2) && (x3 in s <==> b3) && (x4 in s <==> b4) && (x5 in s <==> b5)
  {
    var s1 := When(b1, x1);
    WhenAppend(s1, b2, x2);
    var s2 := s1 + When(b2, x2);
    WhenAppend(s2, b3, x3);
    var s3 := s2 + When(b3, x3);
    WhenAppend(s3, b4, x4);
    var s4 := s3 + When(b4, x4);
    WhenAppend(s4, b5, x5);
  }

  /** `list(dict.fromkeys(actions))[:5]`. */
  function Actions(window: seq<LogRecord>): (r: seq<string>)
    ensures |r| <= 5 && Tally.NoDups(r)
  {
    Sorting.Take(Tally.Distinct(ActionCandidates(window)), 5)
  }

  /** The five actions are different texts. */
  lemma ActionTextsDistinct()
    ensures CriticalAction != ErrorAction && CriticalAction != PressureAction
    ensures CriticalAction != TemperatureAction && CriticalAction != SensorAction
    ensures ErrorAction != PressureAction && ErrorAction != TemperatureAction && ErrorAction != SensorAction
    ensures PressureAction != TemperatureAction && PressureAction != SensorAction
    ensures TemperatureAction != SensorAction
  {
    assert CriticalAction[0] == 'P' && ErrorAction[0] == 'R' && PressureAction[0] == 'I';
    assert TemperatureAction[0] == 'R' && SensorAction[0] == 'C';
    assert ErrorAction[7] == 'E' && TemperatureAction[7] == 'c';
  }

  /** Each action is a candidate exactly when its condition holds, and none twice. */
  lemma ActionCandidatesSpec(window: seq<LogRecord>)
    ensures Tally.NoDups(ActionCandidates(window)) && |ActionCandidates(window)| <= 5
    ensures CriticalAction in ActionCandidates(window) <==> "CRITICAL" in Tally.Map(window, SevKey)
    ensures ErrorAction in ActionCandidates(window) <==> "ERROR" in Tally.Map(window, SevKey)
    ensures PressureAction in ActionCandidates(window) <==> "pressure" in BucketNames(window)
    ensures TemperatureAction in ActionCandidates(window) <==> "temperature" in BucketNames(window)
    ensures SensorAction in ActionCandidates(window) <==> "sensor" in BucketNames(window)
  {
    ActionTextsDistinct();
    var sevs := Tally.Map(window, SevKey);
    var names := BucketNames(window);
    WhenFive("CRITICAL" in sevs, CriticalAction, "ERROR" in sevs, ErrorAction, "pressure" in names, PressureAction,
      "temperature" in names, TemperatureAction, "sensor" in names, SensorAction);
  }

  /** Deduplication and the cap of five leave the candidates as they are. */
  lemma ActionsAreCandidates(window: seq<LogRecord>)
    ensures Actions(window) == ActionCandidates(window)
  {
    ActionCandidatesSpec(window);
    Tally.DistinctOfNoDups(ActionCandidates(window));
  }

  /**
   * Each action is recommended exactly when its trigger occurs in the
   * window: a CRITICAL or ERROR row, or a message in the pressure,
   * temperature or sensor bucket. No action answers the power bucket.
   */
  lemma ActionsIff(window: seq<LogRecord>)
    ensures CriticalAction in Actions(window) <==> exists i :: 0 <= i < |window| && SevKey(window[i]) == "CRITICAL"
    ensures ErrorAction in Actions(window) <==> exists i :: 0 <= i < |window| && SevKey(window[i]) == "ERROR"
    ensures PressureAction in Actions(window) <==> exists i :: 0 <= i < |window| && MatchBucket(window[i].message) == Some("pressure")
    ensures TemperatureAction in Actions(window) <==> exists i :: 0 <= i < |window| && MatchBucket(window[i].message) == Some("temperature")
    ensures SensorAction in Actions(window) <==> exists i :: 0 <= i < |window| && MatchBucket(window[i].message) == Some("sensor")
  {
    ActionsAreCandidates(window);
    ActionCandidatesSpec(window);
    BucketNamesSpec(window);
    SeverityPresent(window, "CRITICAL");
    SeverityPresent(window, "ERROR");
  }

  /** A severity label is among the window's labels exactly when some row carries it. */
  lemma SeverityPresent(window: seq<LogRecord>, k: string)
    ensures k in Tally.Map(window, SevKey) <==> exists i :: 0 <= i < |window| && SevKey(window[i]) == k
  {
    var sevs := Tally.Map(window, SevKey);
    if k in sevs {
      var i :| 0 <= i < |sevs| && sevs[i] == k;
      assert SevKey(window[i]) == k;
    }
    if exists i :: 0 <= i < |window| && SevKey(window[i]) == k {
      var i :| 0 <= i < |window| && SevKey(window[i]) == k;
      assert sevs[i] == k;
    }
  }

  // ---------------------------------------------------------------------
  // The draft and its refinement
  // ---------------------------------------------------------------------

  datatype Draft = Draft(top: seq<TopIncident>, patterns: seq<string>, actions: seq<string>)

  /** `_build_deterministic_summary`. */
  function BuildDraft(window: seq<LogRecord>): (r: Draft)
    ensures |r.top| <= 3 && |r.patterns| <= 4 && |r.actions| <= 5
    ensures r.patterns == [] <==> window == []
  {
    PatternsEmptyIff(window);
    Draft(TopIncidents(window), Patterns(window), Actions(window))
  }

  /**
   * One element of the reply's incident list: missing one of the five keys
   * (skipped), holding all five but with a value the response schema
   * rejects (the refinement raises), or a well-typed card.
   */
  datatype RawIncident = MissingKey | Malformed | Fields(card: TopIncident)

  /**
   * The model's reply, once decoded: no text, text that is not a JSON
   * object, or the three lists it holds (a missing key reads as `[]`).
   * Turning each pattern and action into a string with `str(x)` happens
   * before this point.
   */
  datatype Reply = NoText | Unparsable | Parsed(incidents: seq<RawIncident>, patterns: seq<string>, actions: seq<string>)

  /** Building the card raises: a malformed value, or a negative entry count. */
  predicate Raises(x: RawIncident) {
    x.Malformed? || (x.Fields? && x.card.relatedEntries < 0)
  }

  function CardOf(x: RawIncident): Option<TopIncident> {
    if x.Fields? then Some(x.card) else None
  }

  predicate NonBlank(s: string) {
    !Text.AllSpace(s)
  }

  /** The first five strings of the reply that are not blank. */
  function Usable(xs: seq<string>): (r: seq<string>)
    ensures |r| <= 5
    ensures forall i :: 0 <= i < |r| ==> NonBlank(r[i]) && r[i] in xs
    ensures forall i :: 0 <= i < |xs| && i < 5 && NonBlank(xs[i]) ==> xs[i] in r
  {
    Tally.Filter(Sorting.Take(xs, 5), NonBlank)
  }

  /**
   * `_maybe_refine_with_gemini`: the draft, unless the model is enabled and
   * its reply decodes without raising; then each list of the reply that
   * yields something usable replaces the draft's list, independently.
   */
  function Refine(enabled: bool, reply: Reply, draft: Draft): (r: Draft)
    ensures !enabled || !reply.Parsed? ==> r == draft
    ensures r.top == draft.top || (1 <= |r.top| <= 3 && forall i :: 0 <= i < |r.top| ==> Fields(r.top[i]) in reply.incidents)
    ensures r.patterns == draft.patterns || (r.patterns != [] && forall i :: 0 <= i < |r.patterns| ==> NonBlank(r.patterns[i]) && r.patterns[i] in reply.patterns)
    ensures r.actions == draft.actions || (r.actions != [] && forall i :: 0 <= i < |r.actions| ==> NonBlank(r.actions[i]) && r.actions[i] in reply.actions)
    ensures |r.patterns| <= 5 || r.patterns == draft.patterns
    ensures |r.actions| <= 5 || r.actions == draft.actions
  {
    if !enabled || !reply.Parsed? then draft
    else
      var first := Sorting.Take(reply.incidents, 3);
      if exists i :: 0 <= i < |first| && Raises(first[i]) then draft
      else
        var cards := Somes(Tally.Map(first, CardOf));
        assert forall i :: 0 <= i < |cards| ==> Fields(cards[i]) in reply.incidents by {
          forall i | 0 <= i < |cards|
            ensures Fields(cards[i]) in reply.incidents
          {
            var opts := Tally.Map(first, CardOf);
            var j :| 0 <= j < |opts| && opts[j] == Some(cards[i]);
            assert first[j] == Fields(cards[i]);
          }
        }
        var pats := Usable(reply.patterns);
        var acts := Usable(reply.actions);
        Draft(if cards == [] then draft.top else cards,
              if pats == [] then draft.patterns else pats,
              if acts == [] then draft.actions else acts)
  }

  /** The refinement loop over the incidents: the card of each entry holding all five keys, in order. */
  function CardsIn(xs: seq<RawIncident>): (r: seq<TopIncident>)
    ensures |r| <= |xs|
  {
    if xs == [] then []
    else CardsIn(xs[..|xs| - 1]) + (if xs[|xs| - 1].Fields? then [xs[|xs| - 1].card] else [])
  }

  /** Collecting the present cards is the refinement loop. */
  lemma {:induction false} SomesCardsIn(xs: seq<RawIncident>)
    ensures Somes(Tally.Map(xs, CardOf)) == CardsIn(xs)
  {
    if xs != [] {
      var front := xs[..|xs| - 1];
      var opts := Tally.Map(xs, CardOf);
      assert opts[..|opts| - 1] == Tally.Map(front, CardOf);
      SomesCardsIn(front);
    }
  }

  /**
   * When the reply decodes and some card among its first three raises, the
   * whole draft is kept; otherwise the cards of the first three entries
   * holding all five keys, in order, replace the draft's top incidents
   * (unless there are none), and a usable pattern or action among the first
   * five replaces the draft's list, whatever the other lists say.
   */
  lemma RefineFallback(reply: Reply, draft: Draft)
    requires reply.Parsed?
    ensures (exists i :: 0 <= i < |reply.incidents| && i < 3 && Raises(reply.incidents[i])) ==> Refine(true, reply, draft) == draft
    ensures (forall i :: 0 <= i < |reply.incidents| && i < 3 ==> !Raises(reply.incidents[i])) ==>
      && Refine(true, reply, draft).top == (if CardsIn(Sorting.Take(reply.incidents, 3)) == [] then draft.top
                                           else CardsIn(Sorting.Take(reply.incidents, 3)))
      && Refine(true, reply, draft).patterns == (if Usable(reply.patterns) == [] then draft.patterns else Usable(reply.patterns))
      && Refine(true, reply, draft).actions == (if Usable(reply.actions) == [] then draft.actions else Usable(reply.actions))
  {
    var first := Sorting.Take(reply.incidents, 3);
    assert forall i :: 0 <= i < |first| ==> first[i] == reply.incidents[i];
    SomesCardsIn(first);
  }

  /** Three well-typed cards at the head of the reply become the top incidents, in the reply's order. */
  lemma RefineTopInOrder(reply: Reply, draft: Draft)
    requires reply.Parsed? && |reply.incidents| >= 3
    requires forall i :: 0 <= i < 3 ==> reply.incidents[i].Fields? && reply.incidents[i].card.relatedEntries >= 0
    ensures Refine(true, reply, draft).top == [reply.incidents[0].card, reply.incidents[1].card, reply.incidents[2].card]
  {
    var first := Sorting.Take(reply.incidents, 3);
    assert first == [reply.incidents[0], reply.incidents[1], reply.incidents[2]];
    RefineFallback(reply, draft);
    CardsInThree(reply.incidents[0], reply.incidents[1], reply.incidents[2]);
  }

  lemma CardsInThree(a: RawIncident, b: RawIncident, c: RawIncident)
    requires a.Fields? && b.Fields? && c.Fields?
    ensures CardsIn([a, b, c]) == [a.card, b.card, c.card]
  {
    assert [a][..0] == [];
    assert CardsIn([a]) == [a.card];
    assert [a, b][..1] == [a];
    assert CardsIn([a, b]) == [a.card, b.card];
    assert [a, b, c][..2] == [a, b];
  }

  /** Replies that decode to no card, pattern or action leave the draft as it is. */
  lemma RefineEmptyReply(draft: Draft)
    ensures Refine(true, Parsed([], [], []), draft) == draft
  {
  }

  // ---------------------------------------------------------------------
  // The endpoint
  // ---------------------------------------------------------------------

  const Period := "Last 7 days"
  const RowLimit := 10000
  const WindowSeconds := 7 * Clock.SecondsPerDay

  datatype SummaryResponse = SummaryResponse(generatedAt: string, period: string, totalEntries: nat, topIncidents: seq<TopIncident>, patterns: seq<string>, actions: seq<string>)

  /**
   * `get_summary`: `now` is the clock reading, `enabled` whether a model is
   * configured and `reply` what it answered.
   */
  function GetSummary(table: seq<LogRecord>, now: int, enabled: bool, reply: Reply): (r: SummaryResponse)
    ensures r.generatedAt == Clock.IsoZ(now) && r.period == Period
    ensures r.totalEntries <= RowLimit && r.totalEntries <= |table|
    ensures r.totalEntries == 0 <==> table == []
    ensures table == [] ==> r.topIncidents == [] && r.patterns == [] && r.actions == []
    ensures table != [] ==> r == WindowSummary(now, Window(Fetch(table, RowLimit), WindowSeconds), enabled, reply)
  {
    var rows := Fetch(table, RowLimit);
    if rows == [] then SummaryResponse(Clock.IsoZ(now), Period, 0, [], [], [])
    else WindowSummary(now, Window(rows, WindowSeconds), enabled, reply)
  }

  /**
   * The response over a window of rows: its size, and the draft built from
   * it as the model's reply refines it, or as it is without a model.
   */
  function WindowSummary(now: int, window: seq<LogRecord>, enabled: bool, reply: Reply): (r: SummaryResponse)
    ensures r.generatedAt == Clock.IsoZ(now) && r.period == Period && r.totalEntries == |window|
    ensures var refined := Refine(enabled, reply, BuildDraft(window));
      r.topIncidents == refined.top && r.patterns == refined.patterns && r.actions == refined.actions
    ensures !enabled ==>
      r.topIncidents == BuildDraft(window).top && r.patterns == BuildDraft(window).patterns
      && r.actions == BuildDraft(window).actions
  {
    var refined := Refine(enabled, reply, BuildDraft(window));
    SummaryResponse(Clock.IsoZ(now), Period, |window|, refined.top, refined.patterns, refined.actions)
  }

  /**
   * Below the row limit, the summarised rows are exactly the rows of the
   * table from the seven days up to its newest row; above it, they are
   * rows of the table from those seven days.
   */
  lemma SummaryWindow(table: seq<LogRecord>)
    requires table != []
    ensures forall x :: x in Window(Fetch(table, RowLimit), WindowSeconds) ==>
      x in table && Newest(table) - WindowSeconds <= x.timestamp <= Newest(table)
    ensures |table| <= RowLimit ==> forall x :: x in Window(Fetch(table, RowLimit), WindowSeconds) <==>
      x in table && x.timestamp >= Newest(table) - WindowSeconds
  {
    WindowBounds(table, RowLimit, WindowSeconds);
    if |table| <= RowLimit {
      WindowIsRecent(table, RowLimit, WindowSeconds);
    }
  }
}

=== FILE: tally.dfy ===
/**
 * Python's `collections.Counter`, `Counter.most_common`, `dict.fromkeys`
 * and the `defaultdict(list)` grouping idiom. Python dicts remember the
 * order in which keys were first inserted, so every keyed view here is a
 * sequence in first-occurrence order.
 */
module Tally {
  import Sorting

  function Map<T, U>(s: seq<T>, f: T -> U): (r: seq<U>)
    ensures |r| == |s|
    ensures forall i :: 0 <= i < |s| ==> r[i] == f(s[i])
  {
    seq(|s|, i requires 0 <= i < |s| => f(s[i]))
  }

  /** The elements of `s` that satisfy `p`, in order. */
  function Filter<T>(s: seq<T>, p: T -> bool): (r: seq<T>)
    ensures |r| <= |s|
    ensures forall i :: 0 <= i < |r| ==> r[i] in s && p(r[i])
    ensures forall i :: 0 <= i < |s| && p(s[i]) ==> s[i] in r
  {
    if s == [] then []
    else Filter(s[..|s| - 1], p) + (if p(s[|s| - 1]) then [s[|s| - 1]] else [])
  }

  /** `idx` picks `r` out of `s`: one position per element, strictly increasing. */
  predicate PicksAt<T(==)>(r: seq<T>, s: seq<T>, idx: seq<nat>) {
    && |idx| == |r|
    && (forall i :: 0 <= i < |idx| ==> idx[i] < |s| && r[i] == s[idx[i]])
    && (forall i, j :: 0 <= i < j < |idx| ==> idx[i] < idx[j])
  }

  /** `r` is the subsequence of `s` made of exactly the elements that satisfy `p`. */
  ghost predicate SubsequenceOf<T>(r: seq<T>, s: seq<T>, p: T -> bool) {
    exists idx :: PicksAt(r, s, idx) && forall j :: 0 <= j < |s| ==> (j in idx <==> p(s[j]))
  }

  /**
   * The positions of the elements of `s` that satisfy `p`, in order: they
   * pick out `Filter(s, p)`, so the filter is the subsequence of exactly
   * those elements.
   */
  function FilterIndices<T(==)>(s: seq<T>, p: T -> bool): (idx: seq<nat>)
    ensures PicksAt(Filter(s, p), s, idx)
    ensures forall j :: 0 <= j < |s| ==> (j in idx <==> p(s[j]))
  {
    if s == [] then []
    else
      var n := |s| - 1;
      var rest := FilterIndices(s[..n], p);
      var idx := rest + (if p(s[n]) then [n] else []);
      FilterIndicesStep(s, p, rest, idx);
      idx
  }

  /** Extending the positions of the filter of all but the last element by the last one's. */
  lemma FilterIndicesStep<T>(s: seq<T>, p: T -> bool, rest: seq<nat>, idx: seq<nat>)
    requires s != []
    requires PicksAt(Filter(s[..|s| - 1], p), s[..|s| - 1], rest)
    requires forall j :: 0 <= j < |s| - 1 ==> (j in rest <==> p(s[j]))
    requires idx == rest + (if p(s[|s| - 1]) then [|s| - 1] else [])
    ensures PicksAt(Filter(s, p), s, idx)
    ensures forall j :: 0 <= j < |s| ==> (j in idx <==> p(s[j]))
  {
    var n := |s| - 1;
    var f := Filter(s[..n], p);
    var r := Filter(s, p);
    assert r == f + (if p(s[n]) then [s[n]] else []);
    forall i | 0 <= i < |rest|
      ensures rest[i] < n && f[i] == s[rest[i]]
    {
      assert s[..n][rest[i]] == s[rest[i]];
    }
    PicksStep(s, p, f, r, rest, idx);
    MarksStep(s, p, rest, idx);
  }

  /** The picked elements, with the last one appended when it satisfies `p`. */
  lemma PicksStep<T>(s: seq<T>, p: T -> bool, f: seq<T>, r: seq<T>, rest: seq<nat>, idx: seq<nat>)
    requires s != [] && |rest| == |f|
    requires forall i :: 0 <= i < |rest| ==> rest[i] < |s| - 1 && f[i] == s[rest[i]]
    requires forall i, j :: 0 <= i < j < |rest| ==> rest[i] < rest[j]
    requires r == f + (if p(s[|s| - 1]) then [s[|s| - 1]] else [])
    requires idx == rest + (if p(s[|s| - 1]) then [|s| - 1] else [])
    ensures PicksAt(r, s, idx)
  {
    forall i | 0 <= i < |idx|
      ensures idx[i] < |s| && r[i] == s[idx[i]]
    {
      if i < |rest| {
        assert idx[i] == rest[i] && r[i] == f[i];
      }
    }
    forall i, j | 0 <= i < j < |idx|
      ensures idx[i] < idx[j]
    {
      if j < |rest| {
        assert idx[i] == rest[i] && idx[j] == rest[j];
      }
    }
  }

  /** The marked positions, with the last one added when its element satisfies `p`. */
  lemma MarksStep<T>(s: seq<T>, p: T -> bool, rest: seq<nat>, idx: seq<nat>)
    requires s != []
    requires forall i :: 0 <= i < |rest| ==> rest[i] < |s| - 1
    requires forall j :: 0 <= j < |s| - 1 ==> (j in rest <==> p(s[j]))
    requires idx == rest + (if p(s[|s| - 1]) then [|s| - 1] else [])
    ensures forall j :: 0 <= j < |s| ==> (j in idx <==> p(s[j]))
  {
    var n := |s| - 1;
    assert n !in rest;
    forall j | 0 <= j < |s|
      ensures j in idx <==> p(s[j])
    {
      var tail := if p(s[n]) then [n] else [];
      assert j in idx <==> j in rest || j in tail;
    }
  }

  /** The filter keeps its elements in their order in `s`, dropping exactly those failing `p`. */
  lemma FilterSubsequence<T>(s: seq<T>, p: T -> bool)
    ensures SubsequenceOf(Filter(s, p), s, p)
  {
    var idx := FilterIndices(s, p);
  }

  /** Filtering a sequence with a first element. */
  lemma {:induction false} FilterCons<T>(x: T, s: seq<T>, p: T -> bool)
    ensures Filter([x] + s, p) == (if p(x) then [x] else []) + Filter(s, p)
    decreases |s|
  {
    if s != [] {
      var t := [x] + s;
      assert t[..|t| - 1] == [x] + s[..|s| - 1];
      FilterCons(x, s[..|s| - 1], p);
    } else {
      assert [x] + s == [x];
    }
  }

  predicate NoDups<K(==)>(s: seq<K>) {
    forall i, j :: 0 <= i < j < |s| ==> s[i] != s[j]
  }

  /** `list(dict.fromkeys(s))`: each element once, where it first occurs. */
  function Distinct<K(==)>(s: seq<K>): (r: seq<K>)
    ensures NoDups(r)
    ensures forall i :: 0 <= i < |r| ==> r[i] in s
    ensures forall i :: 0 <= i < |s| ==> s[i] in r
    ensures |r| <= |s|
  {
    if s == [] then []
    else
      var p := Distinct(s[..|s| - 1]);
      if s[|s| - 1] in p then p else p + [s[|s| - 1]]
  }

  /** Filtering keeps a duplicate-free sequence duplicate-free. */
  lemma {:induction false} FilterNoDups<K>(s: seq<K>, p: K -> bool)
    requires NoDups(s)
    ensures NoDups(Filter(s, p))
  {
    if s != [] {
      var n := |s| - 1;
      FilterNoDups(s[..n], p);
      assert s[n] !in s[..n];
    }
  }

  /**
   * `list(dict.fromkeys(a + b))` for duplicate-free `a` and `b`: all of `a`,
   * then the elements of `b` that `a` lacks.
   */
  lemma {:induction false} DistinctAppend<K>(a: seq<K>, b: seq<K>)
    requires NoDups(a) && NoDups(b)
    ensures Distinct(a + b) == a + Filter(b, x => x !in a)
  {
    if b == [] {
      DistinctOfNoDups(a);
      var none := Filter(b, x => x !in a);
      assert none == [];
      calc {
        Distinct(a + b);
        { assert a + b == a; }
        Distinct(a);
        a;
        { assert a + none == a; }
        a + none;
      }
    } else {
      var n := |b| - 1;
      DistinctAppend(a, b[..n]);
      assert b[n] !in b[..n];
      DistinctAppendLast(a, b);
    }
  }

  /** The step of `DistinctAppend`: appending one more element of `b`. */
  lemma DistinctAppendLast<K>(a: seq<K>, b: seq<K>)
    requires b != [] && b[|b| - 1] !in b[..|b| - 1]
    requires Distinct(a + b[..|b| - 1]) == a + Filter(b[..|b| - 1], x => x !in a)
    ensures Distinct(a + b) == a + Filter(b, x => x !in a)
  {
    var n := |b| - 1;
    var y := b[n];
    var s := a + b;
    assert s[..|s| - 1] == a + b[..n];
    assert s[|s| - 1] == y;
    var front := Filter(b[..n], x => x !in a);
    assert y !in front;
    DistinctStep(s);
    FilterStep(b, x => x !in a);
    var p := Distinct(s[..|s| - 1]);
    assert p == a + front;
    if y in a {
      assert y in p;
      assert Distinct(s) == p;
      assert Filter(b, x => x !in a) == front + [];
      assert front + [] == front;
    } else {
      assert y !in p;
      assert Distinct(s) == p + [y];
      assert Filter(b, x => x !in a) == front + [y];
      AppendAssoc(p, a, front, y);
    }
  }

  lemma AppendAssoc<T>(p: seq<T>, a: seq<T>, f: seq<T>, y: T)
    requires p == a + f
    ensures p + [y] == a + (f + [y])
  {
  }

  /** One step of `Distinct`: the last element is kept unless already seen. */
  lemma DistinctStep<K>(s: seq<K>)
    requires s != []
    ensures var p := Distinct(s[..|s| - 1]);
      Distinct(s) == if s[|s| - 1] in p then p else p + [s[|s| - 1]]
  {
  }

  /** One step of `Filter`. */
  lemma FilterStep<T>(s: seq<T>, p: T -> bool)
    requires s != []
    ensures Filter(s, p) == Filter(s[..|s| - 1], p) + (if p(s[|s| - 1]) then [s[|s| - 1]] else [])
  {
  }

  /** Filtering keeps every occurrence of an element it accepts and none of one it rejects. */
  lemma {:induction false} FilterCount<T>(s: seq<T>, p: T -> bool, x: T)
    ensures Count(Filter(s, p), x) == if p(x) then Count(s, x) else 0
  {
    if s != [] {
      var n := |s| - 1;
      FilterCount(s[..n], p, x);
      FilterStep(s, p);
      CountAppend(Filter(s[..n], p), if p(s[n]) then [s[n]] else [], x);
    }
  }

  /** `Count` adds up over concatenation. */
  lemma {:induction false} CountAppend<K>(a: seq<K>, b: seq<K>, x: K)
    ensures Count(a + b, x) == Count(a, x) + Count(b, x)
    decreases |b|
  {
    if b == [] {
      assert a + b == a;
    } else {
      var n := |b| - 1;
      assert (a + b)[..|a + b| - 1] == a + b[..n];
      CountAppend(a, b[..n], x);
    }
  }

  /** In a duplicate-free sequence every element occurs once. */
  lemma {:induction false} NoDupsAtMostOnce<K>(s: seq<K>, x: K)
    requires NoDups(s)
    ensures multiset(s)[x] <= 1
  {
    if s != [] {
      var n := |s| - 1;
      NoDupsAtMostOnce(s[..n], x);
      assert s == s[..n] + [s[n]];
      assert s[n] !in s[..n];
    }
  }

  /** A rearrangement of a duplicate-free sequence is duplicate-free. */
  lemma PermNoDups<K>(a: seq<K>, b: seq<K>)
    requires multiset(a) == multiset(b) && NoDups(a)
    ensures NoDups(b)
  {
    forall i, j | 0 <= i < j < |b|
      ensures b[i] != b[j]
    {
      if b[i] == b[j] {
        assert b == b[..j] + b[j..];
        assert b[i] in b[..j] && b[j] in b[j..];
        assert multiset(b)[b[i]] == multiset(b[..j])[b[i]] + multiset(b[j..])[b[i]];
      }
      NoDupsAtMostOnce(a, b[i]);
    }
  }

  /** Filtering keeps a sorted sequence sorted. */
  lemma {:induction false} FilterSorted<T>(s: seq<T>, p: T -> bool, prec: (T, T) -> bool)
    requires Sorting.Sorted(s, prec)
    ensures Sorting.Sorted(Filter(s, p), prec)
  {
    if s != [] {
      var n := |s| - 1;
      FilterSorted(s[..n], p, prec);
      var front := Filter(s[..n], p);
      forall k | 0 <= k < |front|
        ensures !prec(s[n], front[k])
      {
        var m :| 0 <= m < n && s[..n][m] == front[k];
      }
    }
  }

  function FirstIndex<K(==)>(s: seq<K>, x: K): (i: nat)
    requires x in s
    ensures i < |s| && s[i] == x && x !in s[..i]
  {
    if s[0] == x then 0 else 1 + FirstIndex(s[1..], x)
  }

  lemma FirstIndexPrefix<K>(s: seq<K>, n: nat, x: K)
    requires n <= |s| && x in s[..n]
    ensures FirstIndex(s, x) == FirstIndex(s[..n], x)
  {
    var i := FirstIndex(s[..n], x);
    assert s[..n][..i] == s[..i];
    assert s[i] == x;
  }

  /** An element new to the prefix first occurs at the end. */
  lemma FirstIndexLast<K>(s: seq<K>)
    requires s != [] && s[|s| - 1] !in s[..|s| - 1]
    ensures FirstIndex(s, s[|s| - 1]) == |s| - 1
  {
    var i := FirstIndex(s, s[|s| - 1]);
  }

  /** Every kept key occurs in the prefix, at the same first position. */
  lemma DistinctPrefixIndices<K>(s: seq<K>)
    requires s != []
    ensures var init := s[..|s| - 1];
      forall k :: 0 <= k < |Distinct(init)| ==>
        FirstIndex(s, Distinct(init)[k]) == FirstIndex(init, Distinct(init)[k]) < |s| - 1
  {
    var init := s[..|s| - 1];
    var p := Distinct(init);
    forall k | 0 <= k < |p|
      ensures FirstIndex(s, p[k]) == FirstIndex(init, p[k]) < |s| - 1
    {
      FirstIndexPrefix(s, |s| - 1, p[k]);
    }
  }

  /** Duplicate-free keys come out in the order of their first occurrences. */
  lemma {:induction false} DistinctOrder<K>(s: seq<K>)
    ensures forall i, j :: 0 <= i < j < |Distinct(s)| ==>
      FirstIndex(s, Distinct(s)[i]) < FirstIndex(s, Distinct(s)[j])
  {
    if s != [] {
      var n := |s| - 1;
      var init := s[..n];
      var p := Distinct(init);
      var r := Distinct(s);
      DistinctOrder(init);
      DistinctPrefixIndices(s);
      assert r == p || (r == p + [s[n]] && s[n] !in init);
      if r != p {
        FirstIndexLast(s);
      }
      forall i, j | 0 <= i < j < |r|
        ensures FirstIndex(s, r[i]) < FirstIndex(s, r[j])
      {
        assert r[i] == p[i];
        if j < |p| {
          assert r[j] == p[j];
          assert FirstIndex(init, p[i]) < FirstIndex(init, p[j]);
        }
      }
    }
  }

  /** Deduplicating a duplicate-free list changes nothing. */
  lemma {:induction false} DistinctOfNoDups<K>(s: seq<K>)
    requires NoDups(s)
    ensures Distinct(s) == s
  {
    if s != [] {
      var n := |s| - 1;
      DistinctOfNoDups(s[..n]);
      assert s[n] !in s[..n];
      assert s[..n] + [s[n]] == s;
    }
  }

  /** `Counter(s)[x]`. */
  function Count<K(==)>(s: seq<K>, x: K): (c: nat)
    ensures c <= |s|
    ensures c > 0 <==> x in s
  {
    if s == [] then 0
    else Count(s[..|s| - 1], x) + (if s[|s| - 1] == x then 1 else 0)
  }

  /** `Counter(s).items()`, in first-occurrence order. */
  function Counts<K(==)>(s: seq<K>): (r: seq<(K, nat)>)
    ensures |r| == |Distinct(s)|
    ensures forall i :: 0 <= i < |r| ==> r[i] == (Distinct(s)[i], Count(s, Distinct(s)[i]))
  {
    var d := Distinct(s);
    seq(|d|, i requires 0 <= i < |d| => (d[i], Count(s, d[i])))
  }

  /** Orders (key, count) pairs by descending count. */
  function ByCount<K>(): ((K, nat), (K, nat)) -> bool {
    (a: (K, nat), b: (K, nat)) => a.1 > b.1
  }

  lemma ByCountIsStrictWeakOrder<K(!new)>()
    ensures Sorting.StrictWeakOrder(ByCount<K>())
  {
  }

  /** The sum of the counts of a list of `(key, count)` pairs. */
  function SumValues<K>(pairs: seq<(K, nat)>): nat {
    if pairs == [] then 0 else SumValues(pairs[..|pairs| - 1]) + pairs[|pairs| - 1].1
  }

  /** Pairing keys with their counts and summing is summing the counts. */
  lemma {:induction false} SumValuesOfCounts<K>(d: seq<K>, s: seq<K>)
    ensures SumValues(Map(d, (k: K) => (k, Count(s, k)))) == SumCounts(d, s)
  {
    if d != [] {
      var n := |d| - 1;
      SumValuesOfCounts(d[..n], s);
      assert Map(d, (k: K) => (k, Count(s, k)))[..n] == Map(d[..n], (k: K) => (k, Count(s, k)));
    }
  }

  /** The counts of a `Counter` add up to the number of counted elements. */
  lemma CountsSumValues<K>(s: seq<K>)
    ensures SumValues(Counts(s)) == |s|
  {
    var d := Distinct(s);
    assert Counts(s) == Map(d, (k: K) => (k, Count(s, k)));
    SumValuesOfCounts(d, s);
    CountsSum(s);
  }

  /** `Counter(s).most_common(n)`: descending count, ties in first-occurrence order. */
  function MostCommon<K(==)>(s: seq<K>, n: nat): (r: seq<(K, nat)>)
  {
    Sorting.Take(Sorting.SortStable(Counts(s), ByCount()), n)
  }

  /** Sum of `Count(s, k)` over the keys `d`. */
  function SumCounts<K(==)>(d: seq<K>, s: seq<K>): nat
  {
    if d == [] then 0 else SumCounts(d[..|d| - 1], s) + Count(s, d[|d| - 1])
  }

  /** Number of elements of `s` that occur in `d`. */
  function CountIn<K(==)>(s: seq<K>, d: seq<K>): nat
  {
    if s == [] then 0 else CountIn(s[..|s| - 1], d) + (if s[|s| - 1] in d then 1 else 0)
  }

  lemma {:induction false} CountInExtend<K>(s: seq<K>, d: seq<K>, y: K)
    requires y !in d
    ensures CountIn(s, d + [y]) == CountIn(s, d) + Count(s, y)
  {
    if s != [] {
      CountInExtend(s[..|s| - 1], d, y);
    }
  }

  /** Summing the counts of distinct keys counts the elements that carry one of them. */
  lemma {:induction false} SumCountsIsCountIn<K>(d: seq<K>, s: seq<K>)
    requires NoDups(d)
    ensures SumCounts(d, s) == CountIn(s, d)
  {
    if d == [] {
      CountInNone(s, d);
    } else {
      var n := |d| - 1;
      SumCountsIsCountIn(d[..n], s);
      assert d[n] !in d[..n];
      CountInExtend(s, d[..n], d[n]);
      assert d[..n] + [d[n]] == d;
    }
  }

  lemma {:induction false} CountInNone<K>(s: seq<K>, d: seq<K>)
    requires d == []
    ensures CountIn(s, d) == 0
  {
    if s != [] {
      CountInNone(s[..|s| - 1], d);
    }
  }

  lemma {:induction false} CountInAll<K>(s: seq<K>, d: seq<K>)
    requires forall x :: x in s ==> x in d
    ensures CountIn(s, d) == |s|
  {
    if s != [] {
      CountInAll(s[..|s| - 1], d);
    }
  }

  /** The counts of a `Counter` add up to the number of counted elements. */
  lemma CountsSum<K>(s: seq<K>)
    ensures SumCounts(Distinct(s), s) == |s|
  {
    SumCountsIsCountIn(Distinct(s), s);
    CountInAll(s, Distinct(s));
  }

  /** `most_common(n)` keeps at most `n` pairs, by non-increasing count, each with its true count. */
  lemma MostCommonSpec<K(!new)>(s: seq<K>, n: nat)
    ensures |MostCommon(s, n)| <= n && |MostCommon(s, n)| <= |s|
    ensures |MostCommon(s, n)| == if n < |Distinct(s)| then n else |Distinct(s)|
    ensures forall i, j :: 0 <= i < j < |MostCommon(s, n)| ==> MostCommon(s, n)[i].1 >= MostCommon(s, n)[j].1
    ensures forall i :: 0 <= i < |MostCommon(s, n)| ==>
      MostCommon(s, n)[i].0 in s && MostCommon(s, n)[i].1 == Count(s, MostCommon(s, n)[i].0)
  {
    var c := Counts(s);
    var sorted := Sorting.SortStable(c, ByCount());
    ByCountIsStrictWeakOrder<K>();
    Sorting.SortStableSorted(c, ByCount());
    var r := MostCommon(s, n);
    forall i | 0 <= i < |r|
      ensures r[i].0 in s && r[i].1 == Count(s, r[i].0)
    {
      assert r[i] == sorted[i];
      assert sorted[i] in multiset(c);
      var k :| 0 <= k < |c| && c[k] == sorted[i];
    }
  }

  /** The first occurrence of the first key comes before that of the second. */
  function FirstSeen<K(==)>(s: seq<K>): ((K, nat), (K, nat)) -> bool {
    (a: (K, nat), b: (K, nat)) => a.0 in s && b.0 in s && FirstIndex(s, a.0) < FirstIndex(s, b.0)
  }

  /** `Counter(s).items()` come in first-occurrence order. */
  lemma CountsFirstSeen<K>(s: seq<K>)
    ensures Sorting.Sorted(Counts(s), FirstSeen(s))
  {
    DistinctOrder(s);
  }

  /** Keys counted equally keep their first-occurrence order in `most_common(n)`. */
  lemma MostCommonTies<K(!new)>(s: seq<K>, n: nat)
    ensures forall i, j :: 0 <= i < j < |MostCommon(s, n)| && MostCommon(s, n)[i].1 == MostCommon(s, n)[j].1 ==>
      && MostCommon(s, n)[i].0 in s && MostCommon(s, n)[j].0 in s
      && FirstIndex(s, MostCommon(s, n)[i].0) < FirstIndex(s, MostCommon(s, n)[j].0)
  {
    var r := MostCommon(s, n);
    MostCommonSpec(s, n);
    forall i, j | 0 <= i < j < |r| && r[i].1 == r[j].1
      ensures FirstIndex(s, r[i].0) < FirstIndex(s, r[j].0)
    {
      SortedCountsTied(s, i, j);
    }
  }

  /** Two equally counted pairs of the sorted counts keep first-occurrence order. */
  lemma SortedCountsTied<K(!new)>(s: seq<K>, i: nat, j: nat)
    requires i < j < |Sorting.SortStable(Counts(s), ByCount())|
    requires Sorting.SortStable(Counts(s), ByCount())[i].1 == Sorting.SortStable(Counts(s), ByCount())[j].1
    ensures Sorting.SortStable(Counts(s), ByCount())[i].0 in s && Sorting.SortStable(Counts(s), ByCount())[j].0 in s
    ensures FirstIndex(s, Sorting.SortStable(Counts(s), ByCount())[i].0) < FirstIndex(s, Sorting.SortStable(Counts(s), ByCount())[j].0)
  {
    var c := Counts(s);
    var sorted := Sorting.SortStable(c, ByCount());
    var a, b := sorted[i], sorted[j];
    assert a.0 in s && b.0 in s && a.1 == Count(s, a.0) && b.1 == Count(s, b.0) by {
      assert a in multiset(c) && b in multiset(c);
      CountsPair(s, a);
      CountsPair(s, b);
    }
    assert !FirstSeen(s)(b, a) by {
      CountsFirstSeen(s);
      Sorting.SortStableTieOrdered(c, ByCount(), FirstSeen(s));
      assert !ByCount<K>()(a, b);
    }
    assert a != b by {
      CountsNoDups(s);
      PermNoDups(c, sorted);
    }
    FirstSeenStrict(s, a, b);
  }

  /** Two different pairs of keys with their counts, the second not seen first: the first is seen strictly first. */
  lemma FirstSeenStrict<K>(s: seq<K>, a: (K, nat), b: (K, nat))
    requires a.0 in s && b.0 in s && a.1 == Count(s, a.0) && b.1 == Count(s, b.0)
    requires a != b && !FirstSeen(s)(b, a)
    ensures FirstIndex(s, a.0) < FirstIndex(s, b.0)
  {
  }

  /** Every pair of the counts is a key with its count. */
  lemma CountsPair<K>(s: seq<K>, p: (K, nat))
    requires p in multiset(Counts(s))
    ensures p.0 in s && p.1 == Count(s, p.0)
  {
    var c := Counts(s);
    var k :| 0 <= k < |c| && c[k] == p;
  }

  /** No pair occurs twice among the counts. */
  lemma CountsNoDups<K>(s: seq<K>)
    ensures NoDups(Counts(s))
  {
    var c := Counts(s);
    forall i, j | 0 <= i < j < |c|
      ensures c[i] != c[j]
    {
      assert c[i].0 == Distinct(s)[i] && c[j].0 == Distinct(s)[j];
    }
  }

  /** A key left out of `most_common(n)` is counted no more often than any key it kept. */
  lemma MostCommonIsTop<K(!new)>(s: seq<K>, n: nat, x: K)
    requires x in s
    requires forall i :: 0 <= i < |MostCommon(s, n)| ==> MostCommon(s, n)[i].0 != x
    ensures forall i :: 0 <= i < |MostCommon(s, n)| ==> Count(s, x) <= MostCommon(s, n)[i].1
  {
    var c := Counts(s);
    var sorted := Sorting.SortStable(c, ByCount());
    var r := MostCommon(s, n);
    ByCountIsStrictWeakOrder<K>();
    Sorting.SortStableSorted(c, ByCount());
    var d := Distinct(s);
    var k :| 0 <= k < |d| && d[k] == x;
    assert c[k] == (x, Count(s, x));
    assert c[k] in multiset(sorted);
    var m :| 0 <= m < |sorted| && sorted[m] == c[k];
    assert forall i :: 0 <= i < |r| ==> r[i] == sorted[i];
    assert m >= |r|;
    forall i | 0 <= i < |r|
      ensures Count(s, x) <= r[i].1
    {
      assert r[i] == sorted[i];
      assert !ByCount<K>()(sorted[m], sorted[i]);
    }
  }

  /** The elements of `s` whose key is `k`, in order: one `defaultdict(list)` bucket. */
  function Group<T, K(==)>(s: seq<T>, key: T -> K, k: K): seq<T>
  {
    Filter(s, x => key(x) == k)
  }

  /** A bucket holds as many elements as the key is counted. */
  lemma {:induction false} GroupSize<T, K>(s: seq<T>, key: T -> K, k: K)
    ensures |Group(s, key, k)| == Count(Map(s, key), k)
  {
    if s != [] {
      var n := |s| - 1;
      GroupSize(s[..n], key, k);
      assert Map(s, key)[..n] == Map(s[..n], key);
    }
  }

  /** A bucket holds exactly the elements with its key. */
  lemma GroupMembers<T, K>(s: seq<T>, key: T -> K, k: K)
    ensures forall x :: x in Group(s, key, k) <==> x in s && key(x) == k
  {
    var g := Group(s, key, k);
    forall x | x in g
      ensures x in s && key(x) == k
    {
      var i :| 0 <= i < |g| && g[i] == x;
    }
    forall x | x in s && key(x) == k
      ensures x in g
    {
      var i :| 0 <= i < |s| && s[i] == x;
    }
  }

  /** The keys of the grouping, in first-occurrence order. */
  function GroupKeys<T, K(==)>(s: seq<T>, key: T -> K): seq<K>
  {
    Distinct(Map(s, key))
  }
}

=== FILE: text.dfy ===
/**
 * The pieces of Python's `str` behaviour the service relies on: `strip`,
 * `lower`/`upper`, `in`, `startswith`/`endswith`, the three flavours of
 * `split`, `splitlines`, and SQL `LIKE` pattern matching as SQLite applies it.
 */
module Text {

  /** Python's `str.isspace`, which is also the set `str.strip()` and `str.split()` use. */
  predicate IsSpace(c: char) {
    || c == ' ' || c == '\t' || c == '\n' || c == '\r' || c == '\U{000B}' || c == '\U{000C}'
    || ('\U{001C}' <= c <= '\U{001F}') || c == '\U{0085}' || c == '\U{00A0}' || c == '\U{1680}'
    || ('\U{2000}' <= c <= '\U{200A}') || c == '\U{2028}' || c == '\U{2029}' || c == '\U{202F}'
    || c == '\U{205F}' || c == '\U{3000}'
  }

  /** The characters at which `str.splitlines` breaks a line ("\r\n" counts once). */
  predicate IsLineBreak(c: char) {
    || c == '\n' || c == '\r' || c == '\U{000B}' || c == '\U{000C}'
    || c == '\U{001C}' || c == '\U{001D}' || c == '\U{001E}' || c == '\U{0085}'
    || c == '\U{2028}' || c == '\U{2029}'
  }

  lemma LineBreakIsSpace(c: char)
    ensures IsLineBreak(c) ==> IsSpace(c)
  {
  }

  predicate AllSpace(s: string) {
    forall i :: 0 <= i < |s| ==> IsSpace(s[i])
  }

  /** Neither end of `s` is whitespace: what `strip` leaves behind. */
  predicate IsStripped(s: string) {
    s == [] || (!IsSpace(s[0]) && !IsSpace(s[|s| - 1]))
  }

  function TrimStart(s: string): (r: string)
    ensures |r| <= |s|
    ensures r == [] || !IsSpace(r[0])
  {
    if s != [] && IsSpace(s[0]) then TrimStart(s[1..]) else s
  }

  function TrimEnd(s: string): (r: string)
    ensures |r| <= |s|
    ensures r == [] || !IsSpace(r[|r| - 1])
  {
    if s != [] && IsSpace(s[|s| - 1]) then TrimEnd(s[..|s| - 1]) else s
  }

  /** `TrimStart` keeps a suffix and what it drops is whitespace. */
  lemma {:induction false} TrimStartDropsSpace(s: string)
    ensures TrimStart(s) == s[|s| - |TrimStart(s)|..]
    ensures AllSpace(s[..|s| - |TrimStart(s)|])
  {
    if s != [] && IsSpace(s[0]) {
      TrimStartDropsSpace(s[1..]);
      var n := |s| - |TrimStart(s)|;
      assert forall k :: 1 <= k < n ==> s[..n][k] == s[1..][..n - 1][k - 1];
    }
  }

  /** `TrimEnd` keeps a prefix and what it drops is whitespace. */
  lemma {:induction false} TrimEndDropsSpace(s: string)
    ensures TrimEnd(s) == s[..|TrimEnd(s)|]
    ensures AllSpace(s[|TrimEnd(s)|..])
  {
    if s != [] && IsSpace(s[|s| - 1]) {
      var front := s[..|s| - 1];
      TrimEndDropsSpace(front);
      var n := |TrimEnd(s)|;
      assert forall j :: 0 <= j < |front| - n ==> s[n..][j] == front[n..][j];
    }
  }

  /** Python's `s.strip()`. */
  function Strip(s: string): (r: string)
  {
    TrimEnd(TrimStart(s))
  }

  /** `strip` removes exactly the whitespace on both ends and nothing else. */
  lemma StripSpec(s: string)
    ensures var r := Strip(s);
      && IsStripped(r)
      && exists i :: 0 <= i <= |s| - |r| && s[i..i + |r|] == r && AllSpace(s[..i]) && AllSpace(s[i + |r|..])
  {
    StripIsStripped(s);
    StripSurroundedBySpace(s);
  }

  lemma StripIsStripped(s: string)
    ensures IsStripped(Strip(s))
  {
    var t := TrimStart(s);
    var r := TrimEnd(t);
    TrimEndDropsSpace(t);
    if r != [] {
      assert r[0] == t[0];
    }
  }

  lemma StripSurroundedBySpace(s: string)
    ensures var r := Strip(s); var i := |s| - |TrimStart(s)|;
      0 <= i <= |s| - |r| && s[i..i + |r|] == r && AllSpace(s[..i]) && AllSpace(s[i + |r|..])
  {
    TrimStartDropsSpace(s);
    StripKeepsMiddle(s);
    StripDropsTrailingSpace(s);
  }

  lemma StripKeepsMiddle(s: string)
    ensures var i := |s| - |TrimStart(s)|; s[i..i + |Strip(s)|] == Strip(s)
  {
    var t := TrimStart(s);
    TrimStartDropsSpace(s);
    TrimEndDropsSpace(t);
    SliceOfSuffix(s, t, |s| - |t|, |TrimEnd(t)|);
  }

  lemma StripDropsTrailingSpace(s: string)
    ensures AllSpace(s[|s| - |TrimStart(s)| + |Strip(s)|..])
  {
    var t := TrimStart(s);
    TrimStartDropsSpace(s);
    TrimEndDropsSpace(t);
    SliceOfSuffix(s, t, |s| - |t|, |TrimEnd(t)|);
  }

  lemma SliceOfSuffix<T>(s: seq<T>, t: seq<T>, n: nat, m: nat)
    requires n <= |s| && t == s[n..] && m <= |t|
    ensures s[n + m..] == t[m..] && s[n..n + m] == t[..m]
  {
  }


  lemma TrimStartOfStripped(s: string)
    requires s == [] || !IsSpace(s[0])
    ensures TrimStart(s) == s
  {
  }

  lemma TrimEndOfStripped(s: string)
    requires s == [] || !IsSpace(s[|s| - 1])
    ensures TrimEnd(s) == s
  {
  }

  /** A string with no whitespace at either end is its own `strip`. */
  lemma StripOfStripped(s: string)
    requires IsStripped(s)
    ensures Strip(s) == s
  {
    TrimStartOfStripped(s);
    TrimEndOfStripped(s);
  }

  /** `strip` is idempotent. */
  lemma StripIdempotent(s: string)
    ensures Strip(Strip(s)) == Strip(s)
  {
    StripSpec(s);
    StripOfStripped(Strip(s));
  }

  /** `strip` yields the empty string exactly for blank input. */
  lemma StripEmptyIffBlank(s: string)
    ensures Strip(s) == [] <==> AllSpace(s)
  {
    var t := TrimStart(s);
    var r := TrimEnd(t);
    TrimStartDropsSpace(s);
    TrimEndDropsSpace(t);
    if r == [] {
      assert t[|r|..] == t;
      assert t == [];
      assert s[..|s|] == s;
    }
    if AllSpace(s) {
      AllSpaceSuffix(s, |s| - |t|);
      assert AllSpace(t);
    }
  }

  lemma AllSpaceSuffix(s: string, n: nat)
    requires AllSpace(s) && n <= |s|
    ensures AllSpace(s[n..])
  {
  }

  function LowerChar(c: char): char {
    if 'A' <= c <= 'Z' then (c as int + 32) as char else c
  }

  function UpperChar(c: char): char {
    if 'a' <= c <= 'z' then (c as int - 32) as char else c
  }

  /** Python's `s.lower()`, on the ASCII letters. */
  function Lower(s: string): (r: string)
    ensures |r| == |s|
    ensures forall i :: 0 <= i < |s| ==> r[i] == LowerChar(s[i])
  {
    seq(|s|, i requires 0 <= i < |s| => LowerChar(s[i]))
  }

  /** Python's `s.upper()`, on the ASCII letters. */
  function Upper(s: string): (r: string)
    ensures |r| == |s|
    ensures forall i :: 0 <= i < |s| ==> r[i] == UpperChar(s[i])
  {
    seq(|s|, i requires 0 <= i < |s| => UpperChar(s[i]))
  }

  lemma LowerIdempotent(s: string)
    ensures Lower(Lower(s)) == Lower(s)
  {
  }

  lemma UpperIdempotent(s: string)
    ensures Upper(Upper(s)) == Upper(s)
  {
  }

  lemma UpperOfLower(s: string)
    ensures Upper(Lower(s)) == Upper(s)
  {
  }

  lemma CaseKeepsSpace(c: char)
    ensures IsSpace(LowerChar(c)) <==> IsSpace(c)
    ensures IsSpace(UpperChar(c)) <==> IsSpace(c)
  {
  }

  /** `p` is a prefix of `s`: Python's `s.startswith(p)`. */
  predicate StartsWith(s: string, p: string) {
    |p| <= |s| && s[..|p|] == p
  }

  /** Python's `s.endswith(p)`. */
  predicate EndsWith(s: string, p: string) {
    |p| <= |s| && s[|s| - |p|..] == p
  }

  /** Python's `t in s` for strings: `t` occurs in `s` as a contiguous block. */
  predicate Contains(s: string, t: string)
    decreases |s|
  {
    StartsWith(s, t) || (s != [] && Contains(s[1..], t))
  }

  /** `t` occurs in `s` starting at index `i`. */
  predicate OccursAt(s: string, t: string, i: int) {
    0 <= i <= |s| - |t| && s[i..i + |t|] == t
  }

  /** `Contains` is the usual "some window of `s` equals `t`". */
  lemma {:induction false} ContainsAt(s: string, t: string)
    ensures Contains(s, t) <==> exists i :: OccursAt(s, t, i)
    decreases |s|
  {
    if StartsWith(s, t) {
      assert OccursAt(s, t, 0);
    } else if s == [] {
    } else {
      ContainsAt(s[1..], t);
      if exists i :: OccursAt(s, t, i) {
        var i :| OccursAt(s, t, i);
        assert i != 0;
        assert s[1..][i - 1..i - 1 + |t|] == s[i..i + |t|];
        assert OccursAt(s[1..], t, i - 1);
      }
      if Contains(s[1..], t) {
        var j :| OccursAt(s[1..], t, j);
        assert s[j + 1..j + 1 + |t|] == s[1..][j..j + |t|];
        assert OccursAt(s, t, j + 1);
      }
    }
  }

  lemma ContainsSelf(s: string)
    ensures Contains(s, s)
  {
  }

  /** Index of the first `c` in `s`, or `|s|` when there is none. */
  function IndexOf(s: string, c: char): (i: nat)
    ensures i <= |s|
    ensures i < |s| ==> s[i] == c
  {
    if s == [] then 0
    else if s[0] == c then 0
    else 1 + IndexOf(s[1..], c)
  }

  /** No `c` comes before `IndexOf(s, c)`. */
  lemma {:induction false} IndexOfFirst(s: string, c: char)
    ensures forall k :: 0 <= k < IndexOf(s, c) ==> s[k] != c
  {
    if s != [] && s[0] != c {
      IndexOfFirst(s[1..], c);
      assert forall k :: 1 <= k < IndexOf(s, c) ==> s[k] == s[1..][k - 1];
    }
  }

  /** The first `c` is at `n` when `n` holds `c` (or is the end) and nothing before it does. */
  lemma {:induction false} IndexOfIs(s: string, c: char, n: nat)
    requires n <= |s| && (n < |s| ==> s[n] == c)
    requires forall k :: 0 <= k < n ==> s[k] != c
    ensures IndexOf(s, c) == n
  {
    if n > 0 {
      assert s[1..][n - 1..] == s[n..];
      IndexOfIs(s[1..], c, n - 1);
    }
  }

  /** Number of occurrences of `c` in `s`: Python's `s.count(c)`. */
  function CountChar(s: string, c: char): nat
  {
    if s == [] then 0 else (if s[0] == c then 1 else 0) + CountChar(s[1..], c)
  }

  lemma CountCharSplitAt(s: string, c: char, i: nat)
    requires i <= |s|
    ensures CountChar(s, c) == CountChar(s[..i], c) + CountChar(s[i..], c)
  {
    if i > 0 {
      CountCharSplitAt(s[1..], c, i - 1);
      assert s[1..][..i - 1] == s[..i][1..];
      assert s[1..][i - 1..] == s[i..];
    }
  }

  lemma CountCharNone(s: string, c: char)
    requires forall k :: 0 <= k < |s| ==> s[k] != c
    ensures CountChar(s, c) == 0
  {
  }

  /** Python's `s.split(c)` for a one-character separator. */
  function Split(s: string, c: char): seq<string>
    decreases |s|
  {
    var i := IndexOf(s, c);
    if i == |s| then [s] else [s[..i]] + Split(s[i + 1..], c)
  }

  /** Python's `s.split(c, m)`: at most `m` splits, the last piece keeps the rest. */
  function SplitMax(s: string, c: char, m: nat): seq<string>
    decreases |s|
  {
    var i := IndexOf(s, c);
    if m == 0 || i == |s| then [s] else [s[..i]] + SplitMax(s[i + 1..], c, m - 1)
  }

  lemma {:induction false} IndexOfCount(s: string, c: char)
    ensures IndexOf(s, c) == |s| <==> CountChar(s, c) == 0
    ensures IndexOf(s, c) < |s| ==> CountChar(s, c) == 1 + CountChar(s[IndexOf(s, c) + 1..], c)
  {
    var i := IndexOf(s, c);
    IndexOfFirst(s, c);
    CountCharSplitAt(s, c, i);
    CountCharNone(s[..i], c);
    if i < |s| {
      assert s[i..][1..] == s[i + 1..];
    }
  }

  /** `split` yields one more piece than there are separators. */
  lemma {:induction false} SplitLength(s: string, c: char)
    ensures |Split(s, c)| == CountChar(s, c) + 1
    decreases |s|
  {
    IndexOfCount(s, c);
    var i := IndexOf(s, c);
    if i < |s| {
      SplitStep(s, c, i);
      SplitLength(s[i + 1..], c);
    } else {
      assert Split(s, c) == [s];
    }
  }

  /** One step of `split(c)`: the piece before the first separator, then the rest. */
  lemma SplitStep(s: string, c: char, i: nat)
    requires i < |s| && i == IndexOf(s, c)
    ensures Split(s, c) == [s[..i]] + Split(s[i + 1..], c)
  {
  }

  lemma SplitNotEmpty(s: string, c: char)
    ensures Split(s, c) != []
  {
  }

  lemma SplitMaxNotEmpty(s: string, c: char, m: nat)
    ensures SplitMax(s, c, m) != []
  {
  }

  /** `split(c, m)` yields `min(count + 1, m + 1)` pieces. */
  lemma {:induction false} SplitMaxLength(s: string, c: char, m: nat)
    ensures |SplitMax(s, c, m)| == if CountChar(s, c) < m then CountChar(s, c) + 1 else m + 1
    decreases |s|
  {
    IndexOfCount(s, c);
    var i := IndexOf(s, c);
    if m > 0 && i < |s| {
      SplitMaxStep(s, c, m, i);
      SplitMaxLength(s[i + 1..], c, m - 1);
    } else {
      assert SplitMax(s, c, m) == [s];
    }
  }

  /** The first `c` in `a + [c] + b` is the one after `a` when `a` has none. */
  lemma IndexOfAfter(a: string, c: char, b: string)
    requires forall k :: 0 <= k < |a| ==> a[k] != c
    ensures IndexOf(a + [c] + b, c) == |a|
  {
    var s := a + [c] + b;
    assert forall k :: 0 <= k < |a| ==> s[k] == a[k];
    IndexOfIs(s, c, |a|);
  }

  /** Splitting at a separator peels off the piece before the first one. */
  lemma SplitMaxCons(s: string, a: string, c: char, b: string, m: nat)
    requires s == a + [c] + b
    requires forall k :: 0 <= k < |a| ==> a[k] != c
    ensures SplitMax(s, c, m + 1) == [a] + SplitMax(b, c, m)
  {
    IndexOfAfter(a, c, b);
    assert s[..|a|] == a;
    assert s[|a| + 1..] == b;
  }

  lemma SplitMaxFour(s: string, a: string, b: string, d: string, e: string, c: char)
    requires s == a + [c] + b + [c] + d + [c] + e
    requires forall k :: 0 <= k < |a| ==> a[k] != c
    requires forall k :: 0 <= k < |b| ==> b[k] != c
    requires forall k :: 0 <= k < |d| ==> d[k] != c
    ensures SplitMax(s, c, 3) == [a, b, d, e]
  {
    var t2 := d + [c] + e;
    var t1 := b + [c] + t2;
    FourPieces(s, a, b, d, e, c);
    SplitMaxCons(t2, d, c, e, 0);
    SplitMaxCons(t1, b, c, t2, 1);
    SplitMaxCons(s, a, c, t1, 2);
  }

  lemma FourPieces<T>(s: seq<T>, a: seq<T>, b: seq<T>, d: seq<T>, e: seq<T>, c: T)
    requires s == a + [c] + b + [c] + d + [c] + e
    ensures s == a + [c] + (b + [c] + (d + [c] + e))
  {
  }


  /** Python's `sep.join(parts)`. */
  function Join(parts: seq<string>, sep: string): string
  {
    if parts == [] then []
    else if |parts| == 1 then parts[0]
    else parts[0] + sep + Join(parts[1..], sep)
  }

  /** Joining the pieces of `split(c)` with `c` gives the string back. */
  lemma {:induction false} SplitJoin(s: string, c: char)
    ensures Join(Split(s, c), [c]) == s
    decreases |s|
  {
    var i := IndexOf(s, c);
    if i < |s| {
      SplitStep(s, c, i);
      SplitJoin(s[i + 1..], c);
      var rest := Split(s[i + 1..], c);
      SplitNotEmpty(s[i + 1..], c);
      JoinCons(s[..i], rest, [c]);
      SplitAround(s, i);
      calc {
        Join(Split(s, c), [c]);
        Join([s[..i]] + rest, [c]);
        s[..i] + [c] + Join(rest, [c]);
        s[..i] + [c] + s[i + 1..];
      }
    } else {
      assert Split(s, c) == [s];
    }
  }

  /** One step of `split(c, m)`: the piece before the first separator, then the rest. */
  lemma SplitMaxStep(s: string, c: char, m: nat, i: nat)
    requires m > 0 && i < |s| && i == IndexOf(s, c)
    ensures SplitMax(s, c, m) == [s[..i]] + SplitMax(s[i + 1..], c, m - 1)
  {
  }

  lemma SplitAround<T>(s: seq<T>, i: nat)
    requires i < |s|
    ensures s == s[..i] + [s[i]] + s[i + 1..]
  {
  }

  lemma JoinCons(a: string, rest: seq<string>, sep: string)
    requires rest != []
    ensures Join([a] + rest, sep) == a + sep + Join(rest, sep)
  {
    assert ([a] + rest)[1..] == rest;
  }

  /** Joining the pieces of `split(c, m)` with `c` gives the string back. */
  lemma {:induction false} SplitMaxJoin(s: string, c: char, m: nat)
    ensures Join(SplitMax(s, c, m), [c]) == s
    decreases |s|
  {
    var i := IndexOf(s, c);
    if m > 0 && i < |s| {
      SplitMaxStep(s, c, m, i);
      SplitMaxJoin(s[i + 1..], c, m - 1);
      var rest := SplitMax(s[i + 1..], c, m - 1);
      SplitMaxNotEmpty(s[i + 1..], c, m - 1);
      JoinCons(s[..i], rest, [c]);
      SplitAround(s, i);
      calc {
        Join(SplitMax(s, c, m), [c]);
        Join([s[..i]] + rest, [c]);
        s[..i] + [c] + Join(rest, [c]);
        s[..i] + [c] + s[i + 1..];
      }
    }
  }

  /** Every piece of `split(c, m)` but the last is free of `c`. */
  lemma {:induction false} SplitMaxPieces(s: string, c: char, m: nat)
    ensures var r := SplitMax(s, c, m); forall k :: 0 <= k < |r| - 1 ==> c !in r[k]
    decreases |s|
  {
    var i := IndexOf(s, c);
    if m > 0 && i < |s| {
      SplitMaxStep(s, c, m, i);
      IndexOfFirst(s, c);
      SplitMaxPieces(s[i + 1..], c, m - 1);
      var rest := SplitMax(s[i + 1..], c, m - 1);
      var r := SplitMax(s, c, m);
      forall k | 0 <= k < |r| - 1
        ensures c !in r[k]
      {
        if k > 0 {
          assert r[k] == rest[k - 1];
        }
      }
    }
  }

  lemma WordBeforeSpace(t: string)
    requires t != [] && !IsSpace(t[0])
    ensures var i := IndexOfSpace(t); i > 0 && HasNoSpace(t[..i])
  {
    var i := IndexOfSpace(t);
    assert forall j :: 0 <= j < i ==> t[..i][j] == t[j];
  }

  /** Python's `s.replace(a, b)` for single characters. */
  function ReplaceChar(s: string, a: char, b: char): (r: string)
    ensures |r| == |s|
    ensures forall i :: 0 <= i < |s| ==> r[i] == (if s[i] == a then b else s[i])
  {
    seq(|s|, i requires 0 <= i < |s| => if s[i] == a then b else s[i])
  }

  /** Index of the first whitespace character of `s`, or `|s|`. */
  function IndexOfSpace(s: string): (i: nat)
    ensures i <= |s|
    ensures i < |s| ==> IsSpace(s[i])
    ensures forall k :: 0 <= k < i ==> !IsSpace(s[k])
  {
    if s == [] then 0
    else if IsSpace(s[0]) then 0
    else 1 + IndexOfSpace(s[1..])
  }

  predicate HasNoSpace(s: string) {
    forall k :: 0 <= k < |s| ==> !IsSpace(s[k])
  }

  /** Python's `s.split()`: maximal runs of non-whitespace characters. */
  function SplitWhitespace(s: string): seq<string>
    decreases |s|
  {
    var t := TrimStart(s);
    if t == [] then []
    else
      var i := IndexOfSpace(t);
      [t[..i]] + SplitWhitespace(t[i..])
  }

  lemma SplitWhitespaceStep(s: string)
    requires TrimStart(s) != []
    ensures var t := TrimStart(s); var i := IndexOfSpace(t);
      SplitWhitespace(s) == [t[..i]] + SplitWhitespace(t[i..])
  {
  }

  /** `SplitWhitespaceWords`, stated for membership. */
  lemma SplitWhitespaceMembers(s: string)
    ensures forall w | w in SplitWhitespace(s) :: w != [] && HasNoSpace(w)
  {
    var r := SplitWhitespace(s);
    SplitWhitespaceWords(s);
    forall w | w in r
      ensures w != [] && HasNoSpace(w)
    {
      var k :| 0 <= k < |r| && r[k] == w;
      assert r[k] != [] && HasNoSpace(r[k]);
    }
  }

  /** Every word of `split()` is non-empty and holds no whitespace. */
  lemma {:induction false} SplitWhitespaceWords(s: string)
    ensures forall k :: 0 <= k < |SplitWhitespace(s)| ==> SplitWhitespace(s)[k] != [] && HasNoSpace(SplitWhitespace(s)[k])
    decreases |s|
  {
    var t := TrimStart(s);
    if t != [] {
      var i := IndexOfSpace(t);
      SplitWhitespaceStep(s);
      WordBeforeSpace(t);
      SplitWhitespaceWords(t[i..]);
      var rest := SplitWhitespace(t[i..]);
      var r := SplitWhitespace(s);
      forall k | 0 <= k < |r|
        ensures r[k] != [] && HasNoSpace(r[k])
      {
        if k > 0 {
          assert r[k] == rest[k - 1];
        }
      }
    }
  }

  /** A blank string splits into no words. */
  lemma SplitWhitespaceBlank(s: string)
    ensures SplitWhitespace(s) == [] <==> AllSpace(s)
  {
    var t := TrimStart(s);
    TrimStartDropsSpace(s);
    if t != [] {
      assert !IsSpace(s[|s| - |t|]);
    } else {
      assert s[..|s|] == s;
    }
  }

  /** Index of the first line break of `s`, or `|s|`. */
  function IndexOfLineBreak(s: string): (i: nat)
    ensures i <= |s|
    ensures i < |s| ==> IsLineBreak(s[i])
    ensures forall k :: 0 <= k < i ==> !IsLineBreak(s[k])
  {
    if s == [] then 0
    else if IsLineBreak(s[0]) then 0
    else 1 + IndexOfLineBreak(s[1..])
  }

  /** How many characters the break at `i` spans: "\r\n" counts as one break of two. */
  function BreakWidth(s: string, i: nat): nat
    requires i < |s|
  {
    if s[i] == '\r' && i + 1 < |s| && s[i + 1] == '\n' then 2 else 1
  }

  /** Python's `s.splitlines()`: no trailing empty line, "\r\n" is one break. */
  function SplitLines(s: string): (r: seq<string>)
    ensures s == [] <==> r == []
    decreases |s|
  {
    if s == [] then []
    else
      var i := IndexOfLineBreak(s);
      if i == |s| then [s]
      else
        [s[..i]] + SplitLines(s[i + BreakWidth(s, i)..])
  }

  lemma SplitLinesNoBreak(y: string)
    requires y != [] && forall j :: 0 <= j < |y| ==> !IsLineBreak(y[j])
    ensures SplitLines(y) == [y]
  {
  }

  /** One step of `splitlines`: the line before the first break, then the rest. */
  lemma SplitLinesStep(s: string, i: nat, width: nat)
    requires i < |s| && i == IndexOfLineBreak(s)
    requires width == BreakWidth(s, i)
    ensures SplitLines(s) == [s[..i]] + SplitLines(s[i + width..])
  {
  }

  /** A "\n" at `n` followed by a final line without breaks makes that line the last. */
  lemma {:induction false} SplitLinesLastAt(s: string, n: nat)
    requires n + 1 < |s| && s[n] == '\n'
    requires forall j :: n + 1 <= j < |s| ==> !IsLineBreak(s[j])
    ensures var r := SplitLines(s); r != [] && r[|r| - 1] == s[n + 1..]
    decreases n
  {
    var i := IndexOfLineBreak(s);
    assert i <= n;
    var width := BreakWidth(s, i);
    SplitLinesStep(s, i, width);
    var rest := s[i + width..];
    if i + width > n {
      assert i + width == n + 1;
      assert rest == s[n + 1..];
      SplitLinesNoBreak(rest);
    } else {
      var n' := n - i - width;
      assert rest[n'] == s[n];
      assert rest[n' + 1..] == s[n + 1..];
      SplitLinesLastAt(rest, n');
    }
  }

  /** The last line of `x + "\n" + y` is `y` when `y` holds no line break. */
  lemma SplitLinesLast(x: string, y: string)
    requires y != [] && forall j :: 0 <= j < |y| ==> !IsLineBreak(y[j])
    ensures var r := SplitLines(x + "\n" + y); r != [] && r[|r| - 1] == y
  {
    var s := x + "\n" + y;
    assert s[|x| + 1..] == y;
    forall j | |x| + 1 <= j < |s|
      ensures !IsLineBreak(s[j])
    {
      assert s[j] == y[j - |x| - 1];
    }
    SplitLinesLastAt(s, |x|);
  }

  /** The lines of `x + "\n" + y` are `x` and `y` when neither holds a line break. */
  lemma SplitLinesTwo(x: string, y: string)
    requires forall j :: 0 <= j < |x| ==> !IsLineBreak(x[j])
    requires y != [] && forall j :: 0 <= j < |y| ==> !IsLineBreak(y[j])
    ensures SplitLines(x + "\n" + y) == [x, y]
  {
    var s := x + "\n" + y;
    assert s[|x|] == '\n';
    assert forall j :: 0 <= j < |x| ==> s[j] == x[j];
    assert IndexOfLineBreak(s) == |x|;
    assert s[..|x|] == x && s[|x| + 1..] == y;
    SplitLinesStep(s, |x|, 1);
    SplitLinesNoBreak(y);
  }

  /** A single space before a stripped, non-empty string is all `strip` removes. */
  lemma StripLeadingSpace(s: string)
    requires s != [] && IsStripped(s)
    ensures Strip(" " + s) == s
  {
    assert (" " + s)[1..] == s;
    TrimStartOfStripped(s);
    TrimEndOfStripped(s);
  }

  /**
   * SQL `s LIKE p` without an ESCAPE clause: `%` matches any run of
   * characters, `_` any single character, everything else itself.
   */
  predicate Like(s: string, p: string)
    decreases |s| + |p|
  {
    if p == [] then s == []
    else if p[0] == '%' then Like(s, p[1..]) || (s != [] && Like(s[1..], p))
    else s != [] && (p[0] == '_' || p[0] == s[0]) && Like(s[1..], p[1..])
  }

  predicate NoWildcards(t: string) {
    '%' !in t && '_' !in t
  }

  /** A pattern ending in `%` matches exactly the strings that start with its literal head. */
  lemma {:induction false} LikePrefix(s: string, t: string)
    requires NoWildcards(t)
    ensures Like(s, t + "%") <==> StartsWith(s, t)
    decreases |s| + |t|
  {
    if t == [] {
      assert [] + "%" == "%";
      LikeAnyRest(s);
    } else {
      assert (t + "%")[0] == t[0];
      assert (t + "%")[1..] == t[1..] + "%";
      if s != [] {
        LikePrefix(s[1..], t[1..]);
        if StartsWith(s, t) {
          assert s[1..][..|t| - 1] == t[1..];
        }
        if StartsWith(s[1..], t[1..]) && s[0] == t[0] {
          assert s[..|t|] == [s[0]] + s[1..][..|t| - 1];
        }
      }
    }
  }

  /** `%` alone matches every string. */
  lemma {:induction false} LikeAnyRest(s: string)
    ensures Like(s, "%")
    decreases |s|
  {
    assert "%"[1..] == [];
    if s != [] {
      LikeAnyRest(s[1..]);
    }
  }

  /** SQL `s LIKE '%t%'` is Python's `t in s` when `t` holds no wildcard. */
  lemma {:induction false} LikeContains(s: string, t: string)
    requires NoWildcards(t)
    ensures Like(s, "%" + t + "%") <==> Contains(s, t)
    decreases |s|
  {
    var p := "%" + t + "%";
    assert p[0] == '%';
    assert p[1..] == t + "%";
    LikePrefix(s, t);
    if s != [] {
      LikeContains(s[1..], t);
    }
  }

  /** Python's `a < b` on strings: lexicographic by code point, a proper prefix first. */
  predicate Less(a: string, b: string) {
    if a == [] then b != []
    else b != [] && (a[0] < b[0] || (a[0] == b[0] && Less(a[1..], b[1..])))
  }

  lemma {:induction false} LessIrreflexive(a: string)
    ensures !Less(a, a)
  {
    if a != [] {
      LessIrreflexive(a[1..]);
    }
  }

  lemma {:induction false} LessTransitive(a: string, b: string, c: string)
    requires Less(a, b) && Less(b, c)
    ensures Less(a, c)
  {
    if a != [] && a[0] == b[0] && b[0] == c[0] {
      LessTransitive(a[1..], b[1..], c[1..]);
    }
  }

  /** Any two distinct strings are ordered one way or the other. */
  lemma {:induction false} LessTotal(a: string, b: string)
    requires a != b
    ensures Less(a, b) || Less(b, a)
  {
    if a != [] && b != [] && a[0] == b[0] {
      assert a == [a[0]] + a[1..] && b == [b[0]] + b[1..];
      LessTotal(a[1..], b[1..]);
    }
  }

  /** The string order is a strict total order. */
  lemma LessIsStrictTotalOrder()
    ensures forall a :: !Less(a, a)
    ensures forall a, b, c :: Less(a, b) && Less(b, c) ==> Less(a, c)
    ensures forall a, b :: a != b ==> Less(a, b) || Less(b, a)
  {
    forall a {
      LessIrreflexive(a);
    }
    forall a, b, c | Less(a, b) && Less(b, c) {
      LessTransitive(a, b, c);
    }
    forall a, b | a != b {
      LessTotal(a, b);
    }
  }

  predicate IsAsciiLetter(c: char) {
    'a' <= c <= 'z' || 'A' <= c <= 'Z'
  }

  /**
   * Python's `str.title()` on ASCII: a letter is upper-cased when the
   * character before it is not a letter, and lower-cased otherwise.
   */
  function Title(s: string): (r: string)
    ensures |r| == |s|
    ensures forall i :: 0 <= i < |s| ==>
      r[i] == if i > 0 && IsAsciiLetter(s[i - 1]) then LowerChar(s[i]) else UpperChar(s[i])
  {
    seq(|s|, i requires 0 <= i < |s| =>
      if i > 0 && IsAsciiLetter(s[i - 1]) then LowerChar(s[i]) else UpperChar(s[i]))
  }
}

=== FILE: vector_index.dfy ===
/**
 * The in-memory vector index: an optional flat inner-product index (fixed
 * dimension, rows carrying caller-chosen integer ids), the row-id to log-id
 * dictionary and the next row id to hand out. Adding, searching, persisting
 * and reloading are functions from one state to the next.
 */
module VectorIndex {
  import opened Outcomes
  import Sorting
  import Numerals
  import Dicts

  type Vector = seq<real>

  /** The flat index wrapped in an id map: its dimension and its (row id, vector) rows in insertion order. */
  datatype FlatIndex = FlatIndex(dim: nat, rows: seq<(int, Vector)>)

  /** The three module-level singletons: the index, the id map and the next row id. */
  datatype State = State(index: Option<FlatIndex>, idmap: Dicts.Dict<int, string>, next: int)

  /**
   * The array handed in: no array at all, a two-dimensional array with
   * `|rows|` rows of declared `width`, or an array of another rank holding
   * `size` numbers.
   */
  datatype Array = NoArray | Matrix(rows: seq<Vector>, width: nat) | OtherRank(size: nat)
  {
    function Size(): nat {
      match this
      case NoArray => 0
      case Matrix(rows, width) => |rows| * width
      case OtherRank(size) => size
    }

    /** A NumPy array is rectangular: every row of a matrix has the declared width. */
    predicate Rectangular() {
      Matrix? ==> forall i :: 0 <= i < |rows| ==> |rows[i]| == width
    }
  }

  datatype IndexError =
    | NotTwoDimensional
    | LengthMismatch
    | DimensionMismatch(indexDim: nat, givenDim: nat)
    | QueryDimensionMismatch(indexDim: nat, givenDim: nat)
    | BadQueryShape
    | BadKey(key: string)
  {
    /**
     * The text of the `ValueError` raised: adding embeddings and searching
     * report a dimension clash in different words.
     */
    function Message(): string {
      match this
      case NotTwoDimensional => "Embeddings must be a 2D array of shape (n, d)."
      case LengthMismatch => "log_ids length must match embeddings rows."
      case DimensionMismatch(i, g) =>
        "FAISS dim mismatch: index d=" + Numerals.NatToDec(i) + ", embeddings d=" + Numerals.NatToDec(g)
      case QueryDimensionMismatch(i, g) =>
        "FAISS dim mismatch: index d=" + Numerals.NatToDec(i) + ", query d=" + Numerals.NatToDec(g)
      case BadQueryShape => "query_embedding must have shape (1, d)."
      case BadKey(k) => "invalid literal for int() with base 10: " + k
    }
  }

  /** The state before anything was loaded or added. */
  function Fresh(): (s: State)
    ensures Consistent(s)
  {
    State(None, Dicts.Empty(), 0)
  }

  /** The id the next row gets when the map holds `keys`: one past the largest, or 0. */
  function NextId(keys: seq<int>): (n: int)
    ensures forall i :: 0 <= i < |keys| ==> keys[i] < n
    ensures keys == [] ==> n == 0
    ensures keys != [] ==> n - 1 in keys
  {
    if keys == [] then 0
    else
      var rest := NextId(keys[..|keys| - 1]);
      var last := keys[|keys| - 1];
      if keys[..|keys| - 1] == [] || last + 1 > rest then last + 1 else rest
  }

  /**
   * The bookkeeping invariant: every mapped row id is below `next`, and `next`
   * is one past the largest of them (0 for an empty map), so fresh ids never
   * collide with mapped ones.
   */
  ghost predicate Valid(s: State) {
    && s.idmap.Valid()
    && (forall i :: 0 <= i < |s.idmap.keys| ==> s.idmap.keys[i] < s.next)
    && (s.idmap.keys == [] ==> s.next == 0)
    && (s.idmap.keys != [] ==> s.next - 1 in s.idmap.keys)
  }

  /** Under the invariant, `next` is exactly what a reload would compute. */
  lemma NextIdOfValid(s: State)
    requires Valid(s)
    ensures NextId(s.idmap.keys) == s.next
  {
  }

  /** `_ensure_index(d)`: the existing index, or a new empty one of dimension `d`. */
  function EnsureIndex(index: Option<FlatIndex>, d: nat): (r: FlatIndex)
    ensures index.Some? ==> r == index.value
    ensures index.None? ==> r == FlatIndex(d, [])
  {
    if index.Some? then index.value else FlatIndex(d, [])
  }

  /** Once an index exists, asking for one again, of any dimension, changes nothing. */
  lemma EnsureIndexIdempotent(index: Option<FlatIndex>, d: nat, e: nat)
    ensures EnsureIndex(Some(EnsureIndex(index, d)), e) == EnsureIndex(index, d)
    ensures EnsureIndex(index, d).dim == if index.Some? then index.value.dim else d
  {
  }

  /** The items of `xs` numbered from `start`: `(start + i, xs[i])`, in order. */
  function Numbered<T>(start: int, xs: seq<T>): (r: seq<(int, T)>)
    ensures |r| == |xs|
    ensures forall i :: 0 <= i < |r| ==> r[i] == (start + i, xs[i])
  {
    seq(|xs|, i requires 0 <= i < |xs| => (start + i, xs[i]))
  }

  /** Maps `start + i` to `logIds[i]` for each `i`, in order. */
  function Assign(m: Dicts.Dict<int, string>, start: int, logIds: seq<string>): (r: Dicts.Dict<int, string>)
    requires m.Valid()
    ensures r.Valid()
  {
    Dicts.PutAll(m, Numbered(start, logIds))
  }

  /** `add_embeddings(log_ids, embeddings)`. */
  function Add(s: State, logIds: seq<string>, e: Array): (r: Result<State, IndexError>)
    requires s.idmap.Valid()
    ensures e.Size() == 0 ==> r == Ok(s)
    ensures e.Size() > 0 && !e.Matrix? ==> r == Err(NotTwoDimensional)
    ensures e.Size() > 0 && e.Matrix? && |e.rows| != |logIds| ==> r == Err(LengthMismatch)
    ensures r.Err? ==> (e.Size() > 0 && (!e.Matrix? || |e.rows| != |logIds|
      || (s.index.Some? && s.index.value.dim != e.width)))
    ensures e.Size() > 0 && e.Matrix? && |e.rows| == |logIds| && s.index.Some? && s.index.value.dim != e.width ==>
      r == Err(DimensionMismatch(s.index.value.dim, e.width))
    ensures r.Ok? && s.index.Some? ==> r.value.index.Some? && r.value.index.value.dim == s.index.value.dim
    ensures r.Ok? && e.Size() > 0 ==>
      && r.value.index.Some?
      && r.value.index.value.dim == e.width
      && r.value.index.value.rows == EnsureIndex(s.index, e.width).rows + Numbered(s.next, e.rows)
      && r.value.next == s.next + |logIds|
  {
    if e.Size() == 0 then Ok(s)
    else if !e.Matrix? then Err(NotTwoDimensional)
    else if |e.rows| != |logIds| then Err(LengthMismatch)
    else
      var idx := EnsureIndex(s.index, e.width);
      if idx.dim != e.width then Err(DimensionMismatch(idx.dim, e.width))
      else
        var rows := idx.rows + Numbered(s.next, e.rows);
        Ok(State(Some(FlatIndex(idx.dim, rows)), Assign(s.idmap, s.next, logIds), s.next + |logIds|))
  }

  /** The ids `start, ..., start + n - 1`. */
  function Ids(start: int, n: nat): (r: seq<int>)
    ensures |r| == n
    ensures forall i :: 0 <= i < n ==> r[i] == start + i
  {
    seq(n, i requires 0 <= i < n => start + i)
  }

  /**
   * Assigning ids from `start` upward, all above the existing keys, appends
   * exactly the pairs `(start + i, logIds[i])` to the dictionary's items:
   * every existing entry is left alone and each new id maps to its log id,
   * duplicate log ids included.
   */
  lemma AssignSpec(m: Dicts.Dict<int, string>, start: int, logIds: seq<string>)
    requires m.Valid()
    requires forall i :: 0 <= i < |m.keys| ==> m.keys[i] < start
    ensures Dicts.Items(Assign(m, start, logIds)) == Dicts.Items(m) + Numbered(start, logIds)
    ensures Assign(m, start, logIds).keys == m.keys + Ids(start, |logIds|)
  {
    var pairs := Numbered(start, logIds);
    Dicts.PutAllItems(m, pairs);
    Dicts.PutAllFresh(m, pairs);
    assert Dicts.KeysOf(pairs) == Ids(start, |logIds|);
  }

  /**
   * A successful add keeps the invariant and appends the fresh ids, paired
   * in order with the batch's log ids, to the id map's items.
   */
  lemma AddSpec(s: State, logIds: seq<string>, e: Array)
    requires Valid(s)
    requires Add(s, logIds, e).Ok?
    ensures Valid(Add(s, logIds, e).value)
    ensures e.Size() > 0 ==>
      Dicts.Items(Add(s, logIds, e).value.idmap) == Dicts.Items(s.idmap) + Numbered(s.next, logIds)
  {
    if e.Size() > 0 {
      AssignSpec(s.idmap, s.next, logIds);
      var t := Add(s, logIds, e).value;
      assert |logIds| > 0 by {
        assert |e.rows| * e.width > 0;
      }
      assert t.idmap.keys == s.idmap.keys + Ids(s.next, |logIds|);
      assert t.idmap.keys[|t.idmap.keys| - 1] == s.next + |logIds| - 1;
    }
  }

  /** The row ids of the index, in insertion order. */
  function RowIds(rows: seq<(int, Vector)>): (r: seq<int>)
    ensures |r| == |rows|
    ensures forall i :: 0 <= i < |rows| ==> r[i] == rows[i].0
  {
    seq(|rows|, i requires 0 <= i < |rows| => rows[i].0)
  }

  /**
   * The index agrees with the id map: there is no index only while the map
   * is empty, the index's row ids are the map's keys in the same order, and
   * every stored vector has the index's dimension.
   */
  ghost predicate Consistent(s: State) {
    && Valid(s)
    && (s.index.None? ==> s.idmap.keys == [])
    && (s.index.Some? ==> RowIds(s.index.value.rows) == s.idmap.keys)
    && (s.index.Some? ==> forall i :: 0 <= i < |s.index.value.rows| ==> |s.index.value.rows[i].1| == s.index.value.dim)
  }

  /** The row ids of appended rows follow those of the first rows; numbered rows carry consecutive ids. */
  lemma RowIdsAppendNumbered(rows: seq<(int, Vector)>, start: int, xs: seq<Vector>)
    ensures RowIds(rows + Numbered(start, xs)) == RowIds(rows) + Ids(start, |xs|)
  {
  }

  /** Appending rows of the index's dimension keeps every vector at that dimension. */
  lemma AppendSameDim(rows: seq<(int, Vector)>, start: int, xs: seq<Vector>, d: nat)
    requires forall i :: 0 <= i < |rows| ==> |rows[i].1| == d
    requires forall i :: 0 <= i < |xs| ==> |xs[i]| == d
    ensures forall i :: 0 <= i < |rows + Numbered(start, xs)| ==> |(rows + Numbered(start, xs))[i].1| == d
  {
    var all := rows + Numbered(start, xs);
    forall i | 0 <= i < |all|
      ensures |all[i].1| == d
    {
      if i >= |rows| {
        assert all[i] == Numbered(start, xs)[i - |rows|];
      }
    }
  }

  /** Adding a rectangular batch keeps the index and the id map in agreement. */
  lemma AddConsistent(s: State, logIds: seq<string>, e: Array)
    requires Consistent(s) && e.Rectangular()
    requires Add(s, logIds, e).Ok?
    ensures Consistent(Add(s, logIds, e).value)
  {
    AddSpec(s, logIds, e);
    if e.Size() > 0 {
      var t := Add(s, logIds, e).value;
      var idx := EnsureIndex(s.index, e.width);
      AssignSpec(s.idmap, s.next, logIds);
      RowIdsAppendNumbered(idx.rows, s.next, e.rows);
      AppendSameDim(idx.rows, s.next, e.rows, e.width);
      assert t.index.value.rows == idx.rows + Numbered(s.next, e.rows);
    }
  }

  /** One ranked hit: a row id and its similarity to the query. */
  datatype Hit = Hit(id: int, score: real)

  /** The inner product of two vectors. */
  function Dot(a: Vector, b: Vector): real
  {
    if a == [] || b == [] then 0.0 else a[0] * b[0] + Dot(a[1..], b[1..])
  }

  /** Orders hits by descending score. */
  function ByScore(): (Hit, Hit) -> bool {
    (a: Hit, b: Hit) => a.score > b.score
  }

  lemma ByScoreIsStrictWeakOrder()
    ensures Sorting.StrictWeakOrder(ByScore())
  {
  }

  /** The score the flat index pads a short result with, beside the id -1. */
  const PadScore: real := -340282346638528859811704183484516925440.0

  /**
   * The exact top-`k` rows by inner product with `q`, best first, rows of
   * equal score in insertion order, padded with id -1 up to `k` entries.
   */
  function TopK(idx: FlatIndex, q: Vector, k: nat): (r: seq<Hit>)
    ensures |r| == k
  {
    var top := Sorting.Take(Sorting.SortStable(ScoredRows(idx, q), ByScore()), k);
    top + seq(k - |top|, _ => Hit(-1, PadScore))
  }

  /** Every row of the index as a hit: its row id and its inner product with `q`. */
  function ScoredRows(idx: FlatIndex, q: Vector): (r: seq<Hit>)
    ensures |r| == |idx.rows|
    ensures forall i :: 0 <= i < |r| ==> r[i] == Hit(idx.rows[i].0, Dot(idx.rows[i].1, q))
  {
    seq(|idx.rows|, i requires 0 <= i < |idx.rows| => Hit(idx.rows[i].0, Dot(idx.rows[i].1, q)))
  }

  /**
   * The top-`k` list is the best `min(k, n)` rows followed by padding: each
   * leading hit is a row of the index, no row left out scores above one
   * kept, and the rest of the list is the id -1 with the pad score.
   */
  lemma TopKBest(idx: FlatIndex, q: Vector, k: nat)
    ensures var m := if k < |idx.rows| then k else |idx.rows|;
      && (forall i :: 0 <= i < m ==> TopK(idx, q, k)[i] in ScoredRows(idx, q))
      && multiset(TopK(idx, q, k)[..m]) <= multiset(ScoredRows(idx, q))
      && (forall i :: m <= i < k ==> TopK(idx, q, k)[i] == Hit(-1, PadScore))
      && (forall h, i :: h in ScoredRows(idx, q) && h !in TopK(idx, q, k)[..m] && 0 <= i < m ==>
            h.score <= TopK(idx, q, k)[i].score)
  {
    var scored := ScoredRows(idx, q);
    var sorted := Sorting.SortStable(scored, ByScore());
    var top := Sorting.Take(sorted, k);
    var r := TopK(idx, q, k);
    assert r[..|top|] == top;
    ByScoreIsStrictWeakOrder();
    Sorting.SortTake(scored, k, ByScore());
    assert sorted == sorted[..|top|] + sorted[|top|..];
    assert multiset(top) <= multiset(sorted);
  }

  /** Whether `search` reports hit `h`: a real row id mapped to a non-empty log id. */
  predicate Reported(h: Hit, idmap: map<int, string>) {
    h.id != -1 && h.id in idmap && idmap[h.id] != ""
  }

  /** Turns hits into (log id, score) pairs, skipping -1, unmapped ids and empty log ids. */
  function Collect(hits: seq<Hit>, idmap: map<int, string>): (r: seq<(string, real)>)
    ensures |r| <= |hits|
    ensures forall i :: 0 <= i < |r| ==> r[i].0 != "" && r[i].0 in idmap.Values
  {
    if hits == [] then []
    else
      var h := hits[0];
      var rest := Collect(hits[1..], idmap);
      if Reported(h, idmap) then [(idmap[h.id], h.score)] + rest else rest
  }

  /** One hit yields its pair exactly when it is reported. */
  lemma CollectOne(h: Hit, idmap: map<int, string>)
    ensures Collect([h], idmap) == if Reported(h, idmap) then [(idmap[h.id], h.score)] else []
  {
    assert [h][1..] == [];
  }

  /** Collecting works hit by hit: the pairs of a concatenation are the concatenated pairs. */
  lemma {:induction false} CollectAppend(a: seq<Hit>, b: seq<Hit>, idmap: map<int, string>)
    ensures Collect(a + b, idmap) == Collect(a, idmap) + Collect(b, idmap)
  {
    if a == [] {
      assert a + b == b;
    } else {
      assert (a + b)[1..] == a[1..] + b;
      CollectAppend(a[1..], b, idmap);
    }
  }

  /** `search(query_embedding, k)`. */
  function Search(s: State, q: Array, k: nat): (r: Result<seq<(string, real)>, IndexError>)
    ensures r.Err? <==> (!(q.Matrix? && |q.rows| == 1)
      || (s.index.Some? && s.index.value.rows != [] && s.index.value.dim != q.width))
    ensures !(q.Matrix? && |q.rows| == 1) ==> r == Err(BadQueryShape)
    ensures q.Matrix? && |q.rows| == 1 && (s.index.None? || s.index.value.rows == []) ==> r == Ok([])
    ensures q.Matrix? && |q.rows| == 1 && s.index.Some? && s.index.value.rows != [] && s.index.value.dim != q.width ==>
      r == Err(QueryDimensionMismatch(s.index.value.dim, q.width))
    ensures r.Ok? && s.index.Some? && s.index.value.rows != [] ==>
      r.value == Collect(TopK(s.index.value, q.rows[0], k), s.idmap.values)
    ensures r.Ok? ==> |r.value| <= k
    ensures r.Ok? ==> forall i :: 0 <= i < |r.value| ==>
      r.value[i].0 != "" && r.value[i].0 in s.idmap.values.Values
  {
    if !(q.Matrix? && |q.rows| == 1) then Err(BadQueryShape)
    else if s.index.None? || s.index.value.rows == [] then Ok([])
    else if s.index.value.dim != q.width then Err(QueryDimensionMismatch(s.index.value.dim, q.width))
    else Ok(Collect(TopK(s.index.value, q.rows[0], k), s.idmap.values))
  }

  ghost predicate ScoresDescending(r: seq<(string, real)>) {
    forall i, j :: 0 <= i < j < |r| ==> r[i].1 >= r[j].1
  }

  lemma {:induction false} CollectDescending(hits: seq<Hit>, idmap: map<int, string>)
    requires forall i, j :: 0 <= i < j < |hits| ==> hits[i].score >= hits[j].score
    ensures ScoresDescending(Collect(hits, idmap))
    ensures forall i :: 0 <= i < |Collect(hits, idmap)| ==>
      exists j :: 0 <= j < |hits| && Collect(hits, idmap)[i].1 == hits[j].score
  {
    if hits != [] {
      CollectDescending(hits[1..], idmap);
      var rest := Collect(hits[1..], idmap);
      forall i | 0 <= i < |rest|
        ensures rest[i].1 <= hits[0].score
      {
        var j :| 0 <= j < |hits[1..]| && rest[i].1 == hits[1..][j].score;
        assert hits[1..][j] == hits[j + 1];
      }
      forall i | 0 <= i < |rest|
        ensures exists j :: 0 <= j < |hits| && rest[i].1 == hits[j].score
      {
        var j :| 0 <= j < |hits[1..]| && rest[i].1 == hits[1..][j].score;
        assert hits[1..][j] == hits[j + 1];
      }
    }
  }

  /** The top-`k` list is ranked: scores never increase along it, padding included. */
  lemma TopKDescending(idx: FlatIndex, q: Vector, k: nat)
    requires forall i :: 0 <= i < |idx.rows| ==> Dot(idx.rows[i].1, q) >= PadScore
    ensures forall i, j :: 0 <= i < j < k ==> TopK(idx, q, k)[i].score >= TopK(idx, q, k)[j].score
  {
    var scored := ScoredRows(idx, q);
    var sorted := Sorting.SortStable(scored, ByScore());
    ByScoreIsStrictWeakOrder();
    Sorting.SortStableSorted(scored, ByScore());
    var top := Sorting.Take(sorted, k);
    forall i | 0 <= i < |top|
      ensures top[i].score >= PadScore
    {
      assert top[i] in multiset(scored);
    }
  }

  /** Search results come best first. */
  lemma SearchDescending(s: State, q: Array, k: nat)
    requires Search(s, q, k).Ok?
    requires s.index.Some? && q.Matrix? && |q.rows| == 1
    requires forall i :: 0 <= i < |s.index.value.rows| ==> Dot(s.index.value.rows[i].1, q.rows[0]) >= PadScore
    ensures ScoresDescending(Search(s, q, k).value)
  {
    if s.index.value.rows != [] {
      TopKDescending(s.index.value, q.rows[0], k);
      CollectDescending(TopK(s.index.value, q.rows[0], k), s.idmap.values);
    }
  }

  /** What `persist` writes: the index and the id map as a JSON object with decimal-string keys. */
  datatype Snapshot = Snapshot(index: FlatIndex, document: seq<(string, string)>)

  /** `persist()`: with no index nothing is written and the files stay as they were. */
  function Persist(s: State, disk: Option<Snapshot>): (r: Option<Snapshot>)
    requires s.idmap.Valid()
    ensures s.index.None? ==> r == disk
    ensures s.index.Some? ==> (r.Some? && r.value.index == s.index.value
      && |r.value.document| == |s.idmap.keys|)
  {
    if s.index.None? then disk
    else Some(Snapshot(s.index.value, Dicts.ReKey(Dicts.Items(s.idmap), Numerals.IntToDec)))
  }

  /** `int(k)` applied to each key in order; the first key that is not an integer raises. */
  function ParseKeys(pairs: seq<(string, string)>): (r: Result<seq<(int, string)>, IndexError>)
    ensures r.Ok? ==> |r.value| == |pairs|
    ensures r.Ok? ==> forall i :: 0 <= i < |pairs| ==>
      Numerals.ParseInt(pairs[i].0) == Some(r.value[i].0) && r.value[i].1 == pairs[i].1
    ensures r.Err? <==> exists i :: 0 <= i < |pairs| && Numerals.ParseInt(pairs[i].0).None?
  {
    if pairs == [] then Ok([])
    else
      match Numerals.ParseInt(pairs[0].0)
      case None => Err(BadKey(pairs[0].0))
      case Some(k) =>
        match ParseKeys(pairs[1..])
        case Err(e) => Err(e)
        case Ok(rest) => Ok([(k, pairs[0].1)] + rest)
  }

  /** The state after a reload: the next row id is recomputed from the map's keys. */
  function Restored(index: FlatIndex, m: Dicts.Dict<int, string>): (s: State)
    requires m.Valid()
    ensures Valid(s)
    ensures s.index == Some(index) && s.idmap == m
  {
    State(Some(index), m, NextId(m.keys))
  }

  /**
   * `init_faiss()`: with both files present, the index is read back and the
   * JSON object's keys are turned into integers; otherwise the state starts
   * fresh.
   */
  function Load(disk: Option<Snapshot>): (r: Result<State, IndexError>)
    ensures disk.None? ==> r == Ok(Fresh())
    ensures r.Ok? ==> Valid(r.value)
    ensures r.Ok? && disk.Some? ==> r.value.index == Some(disk.value.index)
  {
    if disk.None? then Ok(Fresh())
    else
      var raw := Dicts.FromPairs(disk.value.document);
      match ParseKeys(Dicts.Items(raw))
      case Err(e) => Err(e)
      case Ok(pairs) =>
        Ok(Restored(disk.value.index, Dicts.FromPairs(pairs)))
  }

  lemma ParseKeysOfRendered(items: seq<(int, string)>)
    ensures ParseKeys(Dicts.ReKey(items, Numerals.IntToDec)) == Ok(items)
  {
    var doc := Dicts.ReKey(items, Numerals.IntToDec);
    forall i | 0 <= i < |items|
      ensures Numerals.ParseInt(doc[i].0) == Some(items[i].0)
    {
      Numerals.IntRoundTrip(items[i].0);
    }
    var r := ParseKeys(doc);
    assert r.Ok?;
    assert r.value == items;
  }

  /** Reloading what `persist` wrote gives back the same index, id map and next row id. */
  lemma PersistLoad(s: State, disk: Option<Snapshot>)
    requires Valid(s) && s.index.Some?
    ensures Load(Persist(s, disk)) == Ok(s)
  {
    var items := Dicts.Items(s.idmap);
    var doc := Dicts.ReKey(items, Numerals.IntToDec);
    assert Dicts.DistinctKeys(doc) by {
      forall i, j | 0 <= i < j < |doc|
        ensures doc[i].0 != doc[j].0
      {
        if doc[i].0 == doc[j].0 {
          Numerals.IntToDecInjective(items[i].0, items[j].0);
        }
      }
    }
    Dicts.FromPairsDistinct(doc);
    var raw := Dicts.FromPairs(doc);
    assert Dicts.Items(raw) == doc;
    ParseKeysOfRendered(items);
    Dicts.FromItems(s.idmap);
    NextIdOfValid(s);
  }
}
